=== FILE: README.md ===
# Green AI agent: a Dafny model of the static analyser and its bookkeeping

The Green AI agent scans Python and JavaScript code for energy-wasteful
patterns. It estimates each file's carbon emissions from its complexity and
spreads them over the findings. It then files the results in a per-project
registry and history, and builds CSV rows, chart data and grades from them.
This project models that pipeline as pure Dafny functions over immutable
datatypes and proves what the code promises about each step.

- **Detectors** (`pyast`, `pydetector`, `pylines`, `linescan`, `regex`,
  `jslines`, `jsscopes`, `jsdetector`, `detect`).
  - `PythonViolationDetector` is one pass over a Python syntax tree. The tree
    datatype covers the node kinds the visitor reacts to, and the pass threads
    the visitor's state: nesting depth, the loop flag, the findings so far, the
    assignment and import maps, and the used names.
  - `PatternBasedDetector` and `JavaScriptViolationDetector` are line scanners.
    They use a small regular-expression matcher, the `for`/dedent latch, and
    the brace stack of open scopes.
  - `detect_violations` dispatches by language.
- **Complexity and emissions** (`analyzer`).
  - The metrics visitor and the capped 0 to 100 score.
  - The memory estimate.
  - The calibrated emission estimate with its `1e-8` floor.
  - The codebase total.
  - The severity-weighted split of a total over the issues.
- **Scanning** (`scanner`, `issues`, `findings`).
  - File discovery with ignore patterns.
  - Rule resolution through the catalogue and the configuration filter.
  - The per-file fold over the thread pool's results.
  - The progress sequence.
- **Configuration and catalogues** (`config`, `rules`, `standards`).
  - The recursive merge, schema validation, dotted `get` and rule enablement.
  - The rule repository.
  - The standards registry.
- **Dashboard bookkeeping** (`domain`, `metrics`, `projects`, `history`,
  `export`, `tally`, `charts`).
  - Grades and severity buckets.
  - The project registry.
  - Scan history, trends and comparisons.
  - CSV rows and statistics.
  - Chart data.
- **Helpers** (`giturl`, `runtime`).
  - Git URL parsing.
  - The runtime monitor's thresholds and remediation hints.
- **Shared** (`common`, `sorting`).
  - Options and results, Python string operations, counting.
  - A stable sort that stands for Python's `sorted`.

`Scanner.Scan` takes a `Build` argument.
- `AsWritten` follows the source exactly. Here every JavaScript file yields a
  single `scan_error`, because `_scan_javascript` returns nothing (see
  "## Findings").
- `Intended` adds the missing `return issues`.

File contents, parse trees, YAML documents, clock readings, generated ids,
`fnmatch` and the directory walk are parameters of the functions that use
them.

## Model

| member | source | states |
|---|---|---|
| PyAst.WalkIsPreorderPermutation | src/core/detectors.py:140 | the breadth-first `ast.walk` visits exactly the nodes of the preorder listing, each as often |
| PyAst.WalkCount | src/core/detectors.py:364 | counting nodes over `ast.walk` gives the preorder count |
| Sorting.SortBySorted | src/core/project_manager.py:195-196 | `sorted` with a total preorder gives an ordered list |
| Sorting.SortByStable | src/core/project_manager.py:195-196 | elements with equal keys keep their relative order |
| Sorting.Take | src/ui/charts.py:127-131 | Python's `[:k]`: the first `k` elements, or for a negative `k` all but the last `-k` |
| PyDetector.Bind | src/core/detectors.py:384-389 | `assignments[name] = line`: the key maps to the new line, every other key is unchanged, an existing key keeps its place and a new one goes last, and keys stay distinct |
| PyDetector.LookupMember | src/core/detectors.py:384-389 | a key is bound exactly when some entry carries it, and the bound value is that entry's |
| PyDetector.LoopIo | src/core/detectors.py:136-150 | one `io_in_loop` finding per call of an I/O name (by bare name) anywhere in the loop's `ast.walk`, header included, and nothing else |
| PyDetector.LoopComputation | src/core/detectors.py:152-178 | one `unnecessary_computation` finding per call of `len`, `range`, `re.compile`, `datetime.now` or `time.time` in the loop's subtree, and nothing else |
| PyDetector.LookupOps | src/core/detectors.py:180-195 | one `inefficient_lookup` finding per `in` / `not in` operator of the comparison, all with the same line and name |
| PyDetector.LoopLookups | src/core/detectors.py:180-195 | the loop reports `inefficient_lookup` iff its subtree holds a membership test whose first comparator is a bare name, with no check of what that name is bound to |
| PyDetector.ForRuleCount | src/core/detectors.py:46-85 | the count of any rule among a `for` loop's own findings is the nesting finding (depth ≥ 2), the `range(len(x))` finding, the membership tests and the I/O and redundant calls |
| PyDetector.ForNestingReported | src/core/detectors.py:48-59 | a `for` at depth d ≥ 2 is reported first and exactly once as nested, critical from depth 3 and major at depth 2; below depth 2 it is not |
| PyDetector.ForFindingsCounts | src/core/detectors.py:61-81 | a `for` reports each I/O call and each redundant call of its subtree once, nested loops included, and a `range(len(x))` header exactly once |
| PyDetector.ForLookupReported | src/core/detectors.py:74-75 | a `for` reports an inefficient lookup iff some membership test against a bare name occurs in its subtree |
| PyDetector.WhileRuleCount | src/core/detectors.py:87-128 | the count of any rule among a `while` loop's own findings is the infinite-loop finding, the excessive-nesting finding at depth ≥ 3 and the I/O and redundant calls |
| PyDetector.WhileFindingsCounts | src/core/detectors.py:91-119 | a `while True` (constant, `NameConstant` or the name `True`) is reported exactly once and first; excessive nesting is reported iff the depth is ≥ 3 |
| PyDetector.WhileWalkCounts | src/core/detectors.py:121-124 | a `while` reports I/O and redundant calls as a `for` does and never an inefficient lookup |
| PyDetector.CyclomaticComplexity | src/core/detectors.py:422-428 | 1 plus the number of `If`, `For`, `While`, `ExceptHandler` and `With` nodes met by `ast.walk`, the function node included |
| PyDetector.IsRecursiveMeansSelfCall | src/core/detectors.py:362-368 | a function is recursive iff some call by bare name to its own name occurs anywhere in its subtree |
| PyDetector.FunctionRuleCount | src/core/detectors.py:332-360 | a function's own findings are high complexity (complexity > 10) and deep recursion (self call), each at most once, and nothing else |
| PyDetector.FunctionFindingsCounts | src/core/detectors.py:337-358 | high complexity is reported iff 1 plus the branch nodes exceeds 10, and deep recursion iff the function calls itself somewhere |
| PyDetector.CallRuleCount | src/core/detectors.py:205-307 | each rule a call triggers, each at most once: blocking I/O names, bare `open` (never recognised as inside `with`), `print`, `logger`/`logging` `.debug/.info/.log`, `deepcopy`, process spawning, `.readlines()`, `.iterrows()` |
| PyDetector.IoCallCount | src/core/detectors.py:208-234 | a call is reported as blocking I/O iff its bare name is a blocking name or ends in `.name`, and as an unclosed resource iff it is a bare `open` |
| PyDetector.LogCallCount | src/core/detectors.py:236-256 | a bare `print` and a `logger`/`logging` `.debug/.info/.log` call each report excessive logging once |
| PyDetector.CopyCallCount | src/core/detectors.py:258-286 | `deepcopy` reports a heavy copy, and a `subprocess`/`os.system`/`popen` call whose attribute or name is a spawn name reports process spawning |
| PyDetector.ReadCallCount | src/core/detectors.py:288-306 | `.readlines()` reports an inefficient read and `.iterrows()` a pandas inefficiency |
| PyDetector.MagicFinding | src/core/detectors.py:397-408 | a constant is reported as a magic number iff it is a non-bool int or float above 100 other than 1000, 1024, 60 and 3600, at the constant's line |
| PyDetector.Enter | src/core/detectors.py:46-413 | before the children are visited: the node's own findings are appended, loops and `if` raise the depth, loops set the in-loop flag, loaded names are recorded, bindings keep distinct keys |
| PyDetector.Leave | src/core/detectors.py:84-85 | after the children: loops restore the previous in-loop flag, and loops and `if` lower the depth again |
| PyDetector.Visit | src/core/detectors.py:46-134 | `visit(n)` returns the depth and in-loop flag as they were, and findings and used names only grow |
| PyDetector.VisitFindings | src/core/detectors.py:83 | a visit's findings are those its children's visits leave after the node's own |
| PyDetector.ForVisitReported | src/core/detectors.py:48-59 | a `for` met at depth d ≥ 1 leaves a nesting finding for depth d + 1 among its visit's findings |
| PyDetector.ForInsideIfReported | src/core/detectors.py:130-134 | since `if` raises the same counter, a `for` that is the first statement of an `if` body at depth 0 is reported as a major nested loop |
| PyDetector.UnusedVariableFindings | src/core/detectors.py:430-440 | one finding, at the recorded line, for each assigned name that is never read and does not start with `_`, and no other |
| PyDetector.UnusedImportFindings | src/core/detectors.py:442-452 | one finding, at the recorded line, for each import binding that is never read, and no other |
| PyDetector.DetectAll | src/core/detectors.py:31-44 | source that `ast.parse` rejects yields no findings; otherwise the findings of the pass come first and the unused-name findings follow |
| PyDetector.VisitUsed | src/core/detectors.py:391-395 | the used-name set after a visit is the old one plus every name loaded or called by bare name anywhere in the subtree |
| PyDetector.UsedAfterPass | src/core/detectors.py:391-395 | after the pass, a name is used iff some node of the tree loads it or calls it by bare name, whatever its scope |
| PyDetector.DetectLocalRules | src/core/detectors.py:31-44 | over a module, a rule no context check reports is reported as often as the nodes of the tree report it by themselves |
| PyDetector.DetectOpenCalls | src/core/detectors.py:226-234 | every bare `open(...)` call of the module is reported once, since `_is_in_context_manager` is constantly false |
| PyDetector.DetectMagicNumbers | src/core/detectors.py:397-408 | every magic number of the module is reported once, wherever it is |
| PyDetector.DetectGlobals | src/core/detectors.py:309-318 | every `global` statement of the module is reported once |
| PyDetector.VisitNoUnused | src/core/detectors.py:46-413 | the visiting pass itself never reports an unused name |
| PyDetector.DetectUnusedVariable | src/core/detectors.py:384-440 | a name is reported unused at a line iff that line is the last one, in visiting order, of an assignment whose targets include the bare name, no node of the tree loads it or calls it by bare name, and it does not start with `_` |
| PyDetector.DetectUnusedImport | src/core/detectors.py:370-452 | a name is reported as an unused import at a line iff that line is the last one, in visiting order, of an import binding it (its alias, else its name), and no node of the tree loads it or calls it by bare name |
| PyDetector.VisitAssignments | src/core/detectors.py:384-389 | after a visit a name's recorded assignment line is the last assignment of it in the subtree, or the earlier record when the subtree has none |
| PyDetector.VisitImports | src/core/detectors.py:370-382 | after a visit a name's recorded import line is the last import binding it in the subtree, or the earlier record when the subtree has none |
| PyDetector.LastLineIsLast | src/core/detectors.py:370-389 | the recorded line of a name is that of its last binding in the list: later writes to a dict key replace earlier ones |
| PyLines.DetectAll | src/core/detectors.py:464-471 | the pattern pass reports only its four rules: unnecessary computation, string concatenation in a loop, dead code and inefficient data structures |
| PyLines.DetectAllByRule | src/core/detectors.py:464-471 | the four passes report four different rules, so a finding's rule tells exactly which pass it came from |
| PyLines.RedundantPartRule | src/core/detectors.py:473-490 | every finding of the redundant-computation pass has the `unnecessary_computation` rule |
| PyLines.RedundantRule | src/core/detectors.py:481-490 | on one line, every redundant-computation finding has the `unnecessary_computation` rule |
| PyLines.RedundantCheckNeedsLoop | src/core/detectors.py:475-490 | a finding of one redundant-computation pattern names its own line and its call, and the line holds both `for` and the call |
| PyLines.DedentLine | src/core/detectors.py:498 | `^(?!\s)` matches exactly when the line is empty or does not start with white space, so a blank line also ends the loop |
| PyLines.ConcatReported | src/core/detectors.py:492-508 | a line is reported iff it has `+=` before a quote and some line up to it has the word `for`, with no unindented or blank line after that loop line that is not itself a loop line |
| PyLines.ConcatPartRule | src/core/detectors.py:503-505 | every concatenation finding has the `string_concatenation_in_loop` rule |
| PyLines.DeadCodeReported | src/core/detectors.py:510-526 | a line other than the first is reported as dead, under its own 1-based number, iff the line before it, stripped, starts with `return` or `raise` and the line itself, stripped, is non-blank and starts with none of `except`, `finally`, `elif`, `else`, `@`, `def` and `class` |
| PyLines.DeadPartRule | src/core/detectors.py:521-523 | every dead-code finding has the `dead_code_block` rule |
| PyLines.DataStructReported | src/core/detectors.py:528-544 | a line gives the `.index()` finding iff `.index(...)` is followed by `==` or `!=`, and the `.count()` finding iff a `.count(` is closed by a later `)` |
| PyLines.DataStructPartRule | src/core/detectors.py:538-541 | every data-structure finding has the `inefficient_data_structure` rule |
| JsDetector.JsDetectAll | src/core/detectors.py:561-576 | the JavaScript detector reports only the fourteen JavaScript rules |
| JsDetector.JsDetectAllOrigin | src/core/detectors.py:561-576 | every finding of `detect_all` comes from one of the twelve checks and has one of that check's rules |
| JsDetector.JsDetectAllKeeps | src/core/detectors.py:561-576 | every finding of every check is in the result |
| JsDetector.CheckRules | src/core/detectors.py:561-817 | each of the twelve checks reports only its own rules |
| JsDetector.PartRule | src/core/detectors.py:561-817 | a finding of check i has one of the rules of check i |
| JsDetector.CountOnePart | src/core/detectors.py:561-576 | a rule that only one check reports occurs in the detector's findings as often as in that check's |
| JsDetector.DeprecatedReported | src/core/detectors.py:614-631 | a line reports `eval_usage`, `document_write` and `momentjs_deprecated` exactly when it contains `eval(`, contains `document.write`, or imports Moment.js, each with its own severity |
| JsDetector.DeprecatedRules | src/core/detectors.py:614-631 | the deprecated-API check reports only its three rules |
| JsDetector.BrowserReported | src/core/detectors.py:633-649 | a line reports `setInterval_animation` iff it contains `setInterval`, and `alert_usage` iff it calls `window.alert`, `window.prompt` or `window.confirm` |
| JsDetector.BrowserRules | src/core/detectors.py:633-649 | the browser-API check reports only its two rules |
| JsDetector.NestedRules | src/core/detectors.py:652-684 | the nested-loop check reports only `no_n2_algorithms` |
| JsDetector.DomInLoopRules | src/core/detectors.py:686-717 | the DOM-in-loop check reports only `unnecessary_dom_manipulation` |
| JsDetector.InfiniteRules | src/core/detectors.py:719-730 | the infinite-loop check reports only `no_infinite_loops` |
| JsDetector.InfiniteCount | src/core/detectors.py:719-730 | the detector reports `no_infinite_loops` once for each line that matches `while\s*\(\s*true\s*\)` ignoring case |
| JsDetector.InfinitePartCount | src/core/detectors.py:719-730 | the infinite-loop check reports once per matching line |
| JsDetector.CStyleRules | src/core/detectors.py:732-744 | the C-style loop check reports only `inefficient_loop` |
| JsDetector.CStyleCount | src/core/detectors.py:732-744 | the detector reports `inefficient_loop` once for each line that matches the C-style `for (let i =` / `for (var i =` pattern |
| JsDetector.CStylePartCount | src/core/detectors.py:732-744 | the C-style loop check reports once per matching line |
| JsDetector.SyncIoRules | src/core/detectors.py:746-757 | the synchronous I/O check reports only `synchronous_io` |
| JsDetector.SyncIoCount | src/core/detectors.py:746-757 | the detector reports `synchronous_io` once for each line that contains `readFileSync` or `XMLHttpRequest` |
| JsDetector.SyncIoPartCount | src/core/detectors.py:746-757 | the synchronous I/O check reports once per matching line |
| JsDetector.LoggingRules | src/core/detectors.py:759-770 | the logging check reports only `excessive_console_logging` |
| JsDetector.LoggingCount | src/core/detectors.py:759-770 | the detector reports `excessive_console_logging` once for each line that contains `console.log` or `console.debug` |
| JsDetector.LoggingPartCount | src/core/detectors.py:759-770 | the logging check reports once per matching line |
| JsDetector.JsConcatReported | src/core/detectors.py:772-788 | a line is reported iff it has `+=` before a quote and some line up to it has the word `for` or `while`, with no later line starting with `}` that is not itself a loop line |
| JsDetector.CloseLine | src/core/detectors.py:778 | `^\s*}` matches exactly the lines whose first character that is not white space is `}` |
| JsDetector.ConcatJsRules | src/core/detectors.py:772-788 | the concatenation check reports only `string_concatenation` |
| JsDetector.FirstMagic | src/core/detectors.py:794 | `re.search` finds the leftmost index from which the magic-number pattern matches, and none before it |
| JsDetector.MagicShape | src/core/detectors.py:792 | a match is a non-word character, a space, at least three digits, a space and a non-word character |
| JsDetector.MagicReported | src/core/detectors.py:790-804 | a line is reported iff the leftmost match holds a number other than 1000, 1024 and 3600; the message's number reads back as that number |
| JsDetector.MagicRules | src/core/detectors.py:790-804 | the magic-number check reports only `magic_numbers` |
| JsDetector.DomQueryRules | src/core/detectors.py:806-817 | the DOM query check reports only `unnecessary_dom_manipulation` |
| JsLines.Words | src/core/detectors.py:586 | `re.findall(r'\b\w+\b')`: every word is a non-empty run of word characters |
| JsLines.DeclAtComplete | src/core/detectors.py:591-595 | wherever `let`, `const` or `var` is followed by white space, a name and optional white space then `=`, a declaration of that name is found at that place |
| JsLines.DeclAtName | src/core/detectors.py:591-595 | a declaration found names a non-empty run of word characters |
| JsLines.UnusedReported | src/core/detectors.py:578-612 | a finding is reported iff some line declares, at some place, a name longer than one character that occurs exactly once among the file's words; the finding names that line and that name |
| JsLines.UnusedScanReported | src/core/detectors.py:592-612 | the per-line scan reports exactly the declarations whose name is used once |
| JsLines.UnusedLinesMember | src/core/detectors.py:592-612 | a finding of the scan over lines is a declaration of one line, with that line's 1-based number |
| JsScopes.Push | src/core/detectors.py:664-665 | pushing n scopes adds n entries of the given kind on top and keeps those below |
| JsScopes.PopN | src/core/detectors.py:682-684 | popping n scopes removes n entries from the top, or empties the stack when it holds fewer, and never pops an empty stack |
| JsScopes.ScopeStep | src/core/detectors.py:657-684 | after a line the stack has grown by its `{` count and shrunk by its `}` count, floored at empty, and is a prefix of the stack after the pushes |
| JsScopes.LoopCountPush | src/core/detectors.py:668 | pushing n loop scopes adds n to the loop depth; pushing blocks adds nothing |
| JsScopes.NestedReported | src/core/detectors.py:652-684 | a line is reported iff it is a loop line and its loop depth after its pushes is at least 2; the finding carries that depth |
| JsScopes.NestedOnOneLine | src/core/detectors.py:663-677 | a loop line with two or more `{` is reported as nested whatever came before |
| JsScopes.NestedFindingText | src/core/detectors.py:669-676 | the finding's depth text reads back as the depth, and the severity is critical exactly from depth 3 |
| JsScopes.FirstContained | src/core/detectors.py:704-713 | the first method name the line contains, if any; none exactly when the line contains none of them |
| JsScopes.FirstContainedIsFirst | src/core/detectors.py:704-713 | the reported method is the first in the list that the line contains |
| JsScopes.DomReported | src/core/detectors.py:686-717 | a line is reported iff some loop scope is open after its pushes and it contains one of the DOM methods; the finding names the first such method, once per line |
| JsScopes.DomNeedsLoop | src/core/detectors.py:695-703 | a reported DOM line is preceded, or is itself, by a loop line that opened a brace |
| JsScopes.LoopScopeFromLoopLine | src/core/detectors.py:695-700 | a loop scope on the stack was pushed by an earlier loop line with a `{` |
| Detect.DetectViolations | src/core/detectors.py:820-841 | languages other than Python and JavaScript give no findings; Python text that does not parse gives only the pattern findings |
| Detect.DetectViolationsOrigin | src/core/detectors.py:820-841 | a Python finding comes from the AST detector or the pattern detector, a JavaScript finding from the JavaScript detector |
| Detect.DetectViolationsKeeps | src/core/detectors.py:820-841 | every finding of the detectors run for the language is kept |
| LineScan.Lines | src/core/detectors.py:461 | `content.split('\n')`: one more line than newlines, and no line holds a newline |
| LineScan.EachLineMember | src/core/detectors.py:481-483 | the findings of `enumerate(lines, 1)` are exactly those of each line's check, under that line's number |
| LineScan.EachMatchCount | src/core/detectors.py:722-730 | a one-pattern check reports a rule once per matching line |
| LineScan.EachMatchMember | src/core/detectors.py:722-730 | a one-pattern check reports a line exactly when the line matches |
| LineScan.EachPairMember | src/core/detectors.py:512-526 | a line paired with the one before it is reported exactly when the pair passes the test |
| LineScan.LatchIsUpAfter | src/core/detectors.py:494-499 | the in-loop flag is up after a line iff some line up to it raised the flag and no later line up to it lowered it without raising it, or it was up from the start and nothing lowered it |
| LineScan.LatchFindingsUpAfter | src/core/detectors.py:494-508 | a line is reported exactly when it matches and the flag is up after it, in the reading above |
| Analyzer.AnalyzeFile | src/core/analyzer.py:206-244 | lines of code are the newline count plus one; text that does not parse gives the default metrics (cyclomatic 1, memory 0.0, every other count zero, empty or false) |
| Analyzer.AnalyzeFileFails | src/core/analyzer.py:129-134 | the analysis fails exactly when some `for` header adds a `range` constant that is not a number |
| Analyzer.AnalyzeFileCounts | src/core/analyzer.py:68-244 | cyclomatic complexity is 1 plus the number of `If`, `For`, `While` and `ExceptHandler` nodes (not `With`); functions and classes are counted; iterations are 1000 per `while` plus each `for` header's range estimate; I/O and expensive flags hold iff some bare-name call has such a name; memory is the text estimate |
| Analyzer.AnalyzeFileScopes | src/core/analyzer.py:85-162 | the maximum nesting depth is the deepest `If`/`For`/`While` nesting, and a function is recursive iff its own body, without nested definitions, calls it by bare name |
| Analyzer.VisitCounts | src/core/analyzer.py:85-172 | the visitor fails iff some node of the subtree is a broken range, and otherwise adds the counters of every node of the subtree to its state |
| Analyzer.VisitDepth | src/core/analyzer.py:114-148 | after a subtree the maximum depth is the larger of the old maximum and the current depth plus the subtree's nesting |
| Analyzer.VisitScopes | src/core/analyzer.py:85-162 | a subtree adds to the recursive set exactly the functions in it that call themselves, and adds the current function's self-calls outside nested definitions |
| Analyzer.InitialVisit | src/core/analyzer.py:71-103 | from the initial state the maximum depth is the tree's nesting and the recursive set is the tree's self-calling functions |
| Analyzer.LocalFields | src/core/analyzer.py:85-172 | what a node adds itself: one branch for `If`/`For`/`While`/`ExceptHandler`, one function, one class, 1000 iterations for a `while`, the range estimate for a `for`, and the I/O and expensive flags of a bare-name call |
| Analyzer.SumCountsFields | src/core/analyzer.py:85-172 | the counters of a list of nodes are the per-kind counts, the iteration sum and the existence of an I/O or expensive call |
| Analyzer.MemoryEstimate | src/core/analyzer.py:246-263 | the memory estimate lies between 10 and 860 |
| Analyzer.MemoryTerms | src/core/analyzer.py:246-263 | the estimate is exactly 10, plus 100 for a `[...]` followed on its line by `*`, blanks and four or more digits, plus 50 for `dict(` or a `{`, `:`, `}` on one line, plus 200 for `.read()` or `.readlines()`, plus 500 for `DataFrame`, `numpy` or `np.array` |
| Analyzer.LargeListFound | src/core/analyzer.py:251 | the parts of `\[.*\].*\*\s*[0-9]{4,}` run one after the other somewhere exactly when the text has a `[`, a later `]` and `*` on the same line, then only blanks and four digits |
| Analyzer.BraceFound | src/core/analyzer.py:254 | the parts of `{.*:.*}` run one after the other somewhere exactly when the text has a `{`, a later `:` and a later `}` on one line |
| Analyzer.MemoryDataScience | src/core/analyzer.py:260-261 | the estimate reaches 510 iff the text mentions `DataFrame`, `numpy` or `np.array` |
| Analyzer.MemoryFileRead | src/core/analyzer.py:257-258 | a text that calls `.read()` or `.readlines()` is estimated at 210 or more |
| Analyzer.ComplexityScore | src/core/analyzer.py:29-65 | the score is at most 100, and at least 0 when the iteration estimate is not negative |
| Analyzer.ScoreParts | src/core/analyzer.py:31-63 | the five capped parts and the bonuses add up to at most 110, and to at least 0 when the iteration estimate is not negative |
| Analyzer.RecursionPart | src/core/analyzer.py:61-63 | the recursion part lies between 0 and 10 |
| Analyzer.Part | src/core/analyzer.py:34-50 | a capped part never exceeds its cap and is not negative for a non-negative input |
| Analyzer.PartMonotone | src/core/analyzer.py:34-50 | a capped part does not decrease when its input grows |
| Analyzer.ScoreMonotone | src/core/analyzer.py:29-65 | the score does not decrease when lines, cyclomatic complexity, nesting depth, iterations or memory grow with the rest fixed |
| Analyzer.Emissions | src/core/analyzer.py:265-310 | the estimate is never below the 1e-8 floor |
| Analyzer.Calibrated | src/core/analyzer.py:307-310 | the calibrated estimate is the raw value times the coefficient, or the floor when that is lower |
| Analyzer.CalibratedMonotone | src/core/analyzer.py:307-310 | with a non-negative coefficient, calibration keeps the order of raw values |
| Analyzer.RawMonotone | src/core/analyzer.py:276-305 | the raw estimate does not decrease when lines, cyclomatic complexity, nesting, iterations or memory grow with the rest fixed |
| Analyzer.EmissionsMonotone | src/core/analyzer.py:265-310 | with a non-negative coefficient, the estimate does not decrease when lines, cyclomatic complexity, nesting, iterations or memory grow |
| Analyzer.RawNonNegative | src/core/analyzer.py:276-305 | the raw estimate is not negative when iterations and memory are not |
| Analyzer.EmissionsNoCoefficient | src/core/analyzer.py:307-310 | a coefficient of zero or less brings every estimate down to the floor |
| Analyzer.CalibratedNoCoefficient | src/core/analyzer.py:307-310 | a non-negative raw value calibrated by a coefficient of zero or less is the floor |
| Analyzer.FileEmissions | src/core/analyzer.py:330-331 | a file's estimate is at least the floor, and fails exactly when its analysis fails |
| Analyzer.PythonPaths | src/core/analyzer.py:328-329 | the paths ending in `.py` among the files |
| Analyzer.AnalyzeCodebase | src/core/analyzer.py:312-335 | the per-file map has exactly the `.py` paths as keys |
| Analyzer.CodebaseFails | src/core/analyzer.py:312-335 | the codebase analysis fails exactly when the analysis of some `.py` file fails |
| Analyzer.CodebaseFloor | src/core/analyzer.py:312-335 | the total is at least the floor times the number of `.py` files, and each stored value is at least the floor |
| Analyzer.CodebaseTotals | src/core/analyzer.py:322-335 | the total is the sum of the estimates of the `.py` entries in list order, a repeated path counted each time; each path's stored value is the estimate of the last `.py` entry with that path |
| Analyzer.CollectSum | src/core/analyzer.py:328-333 | the loop's running total is the sum of the estimates of the Python entries in order |
| Analyzer.CollectLast | src/core/analyzer.py:328-332 | a path's entry holds the estimate of the last Python entry with that path, no later one having it |
| Analyzer.CollectFails | src/core/analyzer.py:328-333 | the fold over files fails exactly when some file's estimate fails |
| Analyzer.PerLineEmissions | src/core/analyzer.py:349-377 | the list keeps its length, and each issue keeps every field and gains an emissions share |
| Analyzer.PerLineZero | src/core/analyzer.py:360-363 | with a total of 0 every share is 0 |
| Analyzer.PerLineProportional | src/core/analyzer.py:365-375 | each share times the total weight equals the issue's weight times the total: shares are proportional to weights (high 3, medium 2, anything else 1) |
| Analyzer.PerLineEmissionsSum | src/core/analyzer.py:349-377 | for a non-empty list the shares add up to the total |
| Analyzer.TotalWeightPositive | src/core/analyzer.py:367 | the total weight is at least the number of issues, so it is positive for a non-empty list |
| Analyzer.SpreadSum | src/core/analyzer.py:369-375 | the shares of a list add up to the share of its total weight |
| Analyzer.ShareWhole | src/core/analyzer.py:374 | the share of the whole weight is the whole total |
| Scanner.Scan | src/core/scanner.py:56-147 | the scan reports as many files as were discovered, and with none it returns no issues, zero emissions, an empty per-file map and no progress |
| Scanner.ScanPerFile | src/core/scanner.py:97-113 | each discovered file that completes is a key of the per-file map, holding that file's own estimate, which is at least the floor |
| Scanner.Assemble | src/core/scanner.py:73-147 | the result counts every discovered file, and no files give the empty result |
| Scanner.AssembleTotals | src/core/scanner.py:86-145 | codebase emissions are the sum of the completed files' estimates; the per-file keys are exactly the completed files; the issues' shares add up to the codebase emissions; progress is 10, one value per completed file, 95 and 100, never decreasing and within 10..100 |
| Scanner.DroppedFile | src/core/scanner.py:100-113 | a file that is unsupported or whose worker raises leaves the fold exactly as if it were absent |
| Scanner.GatherAppend | src/core/scanner.py:100-113 | folding two lists of files is folding the first, then the second from where the first left off |
| Scanner.GatherTotal | src/core/scanner.py:104-106 | the running total grows by exactly the sum of the completed files' estimates |
| Scanner.GatherKeys | src/core/scanner.py:104-105 | a path is a per-file key after the fold iff it was before or it is a completed file |
| Scanner.GatherStored | src/core/scanner.py:104-105 | with distinct paths, a completed file's key holds its own estimate |
| Scanner.GatherUntouched | src/core/scanner.py:104-105 | a key no file of the fold carries keeps its value |
| Scanner.CompletedEmissions | src/core/scanner.py:98-106 | one estimate per supported file whose worker completes |
| Scanner.TicksBounds | src/core/scanner.py:108-111 | the progress value after k completed files is 10 + floor(80 k / N), between 10 and 90 |
| Scanner.ProgressMonotone | src/core/scanner.py:93-145 | the progress sequence starts at 10, ends at 100, has one value per completed file plus three, and never decreases |
| Scanner.ScanAndAnalyze | src/core/scanner.py:149-172 | a file fails exactly when it cannot be read or its analysis fails; otherwise its estimate is at least the floor and every issue names the file |
| Scanner.ScanFile | src/core/scanner.py:281-308 | every issue of a file scan names the file and passes the configuration filter |
| Scanner.ScanFileAsWritten | src/core/scanner.py:281-308 | as written, every issue names the file and passes the filter, and a language other than Python and JavaScript gives none |
| Scanner.JavaScriptScanAlwaysFails | src/core/scanner.py:291 | as written, a JavaScript file scan gives exactly one `scan_error`, because `_scan_javascript` returns `None` and `extend(None)` raises |
| Scanner.JavaScriptScanOnlyErrors | src/core/scanner.py:56-147 | as written, a JavaScript scan reports one `scan_error` per completed file and nothing else |
| Scanner.ScanIntended | src/core/scanner.py:396-437 | with the missing `return issues` added, every issue names the file and passes the filter, and other languages give none |
| Scanner.ScanFileJavaScript | src/core/scanner.py:396-437 | with the return added, every enabled JavaScript violation that resolves in the catalogue becomes an issue of the scan |
| Scanner.AssembleScanErrors | src/core/scanner.py:97-119 | when every completed file yields one `scan_error`, the scan's issues are exactly one `scan_error` per completed file |
| Scanner.FilterByConfig | src/core/scanner.py:310-333 | an issue is kept iff it is not a `green_violation` or its rule is enabled; order is kept and nothing is added |
| Scanner.FilterByConfigAppend | src/core/scanner.py:320-331 | the filter works issue by issue, so it distributes over concatenation and keeps order |
| Scanner.FilterByConfigKinds | src/core/scanner.py:324-331 | an `error` issue is always kept, and a violation whose rule is disabled is always dropped |
| Scanner.ScanError | src/core/scanner.py:293-304 | a scan failure becomes a low-severity `scan_error` issue of type `error` |
| Scanner.ParseError | src/core/scanner.py:381-392 | an exception during a Python or JavaScript scan becomes a `parse_error` issue of type `error` for that file |
| Scanner.LookupIssue | src/core/scanner.py:347-367 | a violation raises iff the rule lookup raises, becomes an issue iff the rule is found, and the issue carries the rule's id, type `green_violation`, the path, the line and the rule's severity or `medium` |
| Scanner.ResolveMembers | src/core/scanner.py:347-367 | if no lookup raises, the issues are exactly the resolved violations; every issue comes from some violation |
| Scanner.ResolveAppend | src/core/scanner.py:347-367 | resolving a concatenation that does not raise in its first part concatenates the results |
| Scanner.ResolveStops | src/core/scanner.py:339-392 | once a lookup raises, later violations are not looked at |
| Scanner.ScanLanguageIssues | src/core/scanner.py:335-394 | when no lookup raises, the scan's issues are exactly the resolved violations |
| Scanner.ScanLanguageRaises | src/core/scanner.py:381-392 | when some lookup raises, the scan ends with a `parse_error` issue |
| Scanner.ScanLanguagePath | src/core/scanner.py:335-394 | every issue of a language scan names the file |
| Scanner.RunCommand | src/core/scanner.py:266-272 | a command exists exactly for Python and JavaScript, and it is the interpreter and the path |
| Scanner.SupportedRunnable | src/core/scanner.py:266-279 | a supported file always has a run command, and other languages support no file |
| Scanner.GetFiles | src/core/scanner.py:245-264 | discovery keeps at most the files walked |
| Scanner.GetFilesMembers | src/core/scanner.py:245-264 | a walked file is kept iff it is not ignored |
| Scanner.IgnoredIff | src/core/scanner.py:253-258 | a file is ignored iff some pattern matches its relative path or one of its path components |
| Scanner.GetFilesAppend | src/core/scanner.py:245-264 | discovery works file by file, keeping walk order |
| Scanner.Discover | src/core/scanner.py:73 | a single file path is scanned alone |
| Config.Merge | src/core/config.py:175-185 | the merged mapping's keys are the default's keys together with the user's keys |
| Config.MergeLookup | src/core/config.py:175-185 | a key the user does not give keeps the default value; a key the user gives takes the user's value, except that two mappings merge recursively |
| Config.MergeEmpty | src/core/config.py:175-185 | merging an empty user mapping returns the default unchanged |
| Config.Put | src/core/config.py:183 | `result[key] = value` binds the key to the value, leaves every other key alone and adds the key to the key set |
| Config.LookupKeys | src/core/config.py:180 | `key in result` holds exactly when a lookup finds the key |
| Config.Validate | src/core/config.py:187-225 | see the lemmas below: validation succeeds iff the configuration is well typed, and the result is completed with defaults |
| Config.ValidateAccepts | src/core/config.py:187-225 | `ConfigError` is raised iff some present schema key has the wrong type, `rules` is missing, or a `rules` mapping holds a non-list `enabled` or `disabled` |
| Config.RejectsMissingRules | src/core/config.py:196-199 | a configuration without `rules` fails, because the filled-in default nests `enabled` and `disabled` in a way the nested check rejects |
| Config.NestedSchemaFails | src/core/config.py:96-100 | the schema's default for `rules` is a mapping whose `enabled` is not a list, so it fails the nested check |
| Config.RejectsNonMapRules | src/core/config.py:204-208 | a `rules` value that is not a mapping fails the type check |
| Config.ChecksMapRules | src/core/config.py:210-225 | with a `rules` mapping, validation succeeds iff every present schema key is well typed and `enabled` and `disabled` are lists or absent |
| Config.ValidateFills | src/core/config.py:196-215 | after a successful validation `rules` holds list `enabled` and `disabled` entries, and every other schema key holds its value, or its default when it was missing |
| Config.SchemaFields | src/core/config.py:196-208 | the first validation loop fills missing keys with their defaults and reports an error iff some present key has the wrong type |
| Config.CheckFields | src/core/config.py:196-208 | at most one error per schema key |
| Config.CheckFieldsSpec | src/core/config.py:196-208 | each schema key ends up with its value or its default, other keys are untouched, and there are no errors iff every present key has its type |
| Config.CheckRulesSpec | src/core/config.py:210-220 | the nested check touches only `rules`; for a `rules` mapping it gives no errors iff `enabled` and `disabled` are lists or absent, and then fills both |
| Config.Load | src/core/config.py:134-173 | with no configuration file the defaults are returned; invalid YAML or an unreadable file raises `ConfigError` |
| Config.LoadRulesLists | src/core/config.py:167-173 | a loaded configuration always has list `enabled` and `disabled` rule entries, and a user mapping merged with the defaults keeps `rules` |
| Config.Get | src/core/config.py:227-252 | an undotted key returns its value, even a null one, or the default when the key is absent |
| Config.GetDotted | src/core/config.py:242-250 | `a.b` returns the value of `b` inside the mapping under `a`, or the default when `a` is not a mapping, `b` is absent or the value is null |
| Config.GetAt | src/core/config.py:242-250 | a dotted key walks nested mappings part by part and returns the default when an intermediate value is not a mapping or the final value is null |
| Config.SplitTwo | src/core/config.py:243 | `"a.b".split('.')` is `[a, b]` for parts without dots |
| Config.IsRuleEnabled | src/core/config.py:254-279 | a rule is enabled iff it is not in `rules.disabled` |
| Config.EnabledListIrrelevant | src/core/config.py:274-279 | replacing `rules.enabled` with any list never changes whether a rule is enabled |
| Rules.GetRules | src/core/rules.py:64-66 | an unknown language has no rules; a known one has its catalogue list |
| Rules.GetRule | src/core/rules.py:68-74 | a rule found is in the language's list and carries the id asked for; an unknown language finds nothing |
| Rules.FindRule | src/core/rules.py:70-74 | a rule found is in the list with the id asked for; the only failure is a `KeyError` on `id` |
| Rules.FindRuleFirst | src/core/rules.py:71-73 | the first rule with the id is returned when every rule before it has an id that differs |
| Rules.FindRuleAbsent | src/core/rules.py:74 | when every rule has an id and none matches, the result is `None` |
| Rules.FindRuleMissingId | src/core/rules.py:72 | a rule without an id that is reached before any match raises `KeyError` |
| Rules.FindRuleAppend | src/core/rules.py:71-74 | appending a rule changes the answer only when the search ran off the end of the list before |
| Rules.GetRulesBySeverity | src/core/rules.py:76-79 | it raises iff some rule of the language has no severity; otherwise it keeps exactly the rules of that severity, as many as there are |
| Rules.SeveritySelectionKeepsOrder | src/core/rules.py:79 | the selection by severity keeps catalogue order |
| Rules.GetRulesByTag | src/core/rules.py:81-84 | it keeps exactly the rules whose tags contain the tag, as many as there are |
| Rules.TagSelectionKeepsOrder | src/core/rules.py:84 | the selection by tag keeps catalogue order |
| Rules.AddRule | src/core/rules.py:86-90 | the rule is appended to its language's list, created if absent, and every other language is unchanged |
| Rules.AddRuleFound | src/core/rules.py:68-90 | a rule added under an id that was not found before is then found |
| Standards.Defaults | src/standards/registry.py:42-145 | the defaults are the five standards gsf, ecocode, suscom, nvidia and microsoft, all enabled, with no disabled or custom rules |
| Standards.DefaultsAllEnabled | src/standards/registry.py:145 | after loading the defaults every listed standard is enabled, and there are five |
| Standards.DefaultRulesOffered | src/standards/registry.py:145-184 | with the defaults, every rule of a built-in standard is offered for each of its languages |
| Standards.GetAllRules | src/standards/registry.py:186-192 | the rules are exactly those of the enabled standards that exist, in any iteration order of the enabled set |
| Standards.GetEnabledRules | src/standards/registry.py:173-184 | a rule is returned iff it belongs to an enabled standard, lists the language ignoring case, and its id is not disabled |
| Standards.EnabledFiltersAll | src/standards/registry.py:173-192 | the enabled rules of a language are the rules of `get_all_rules` that pass the language and disabled-id test, in the same order |
| Standards.EnableStandard | src/standards/registry.py:194-198 | a known standard becomes enabled; an unknown name changes nothing |
| Standards.DisableStandard | src/standards/registry.py:200-203 | the name is no longer enabled and every other name keeps its state |
| Standards.DisableRule | src/standards/registry.py:205-208 | the id is disabled and the standards are untouched |
| Standards.EnableRule | src/standards/registry.py:210-213 | the id is no longer disabled and every other id keeps its state |
| Standards.DisabledRuleGone | src/standards/registry.py:173-208 | after `disable_rule(r)` no rule returned for any language has id r |
| Standards.DisableEnableRule | src/standards/registry.py:205-213 | disabling then enabling a rule that was not disabled restores the registry |
| Standards.DisableEnableStandard | src/standards/registry.py:194-203 | disabling then enabling an enabled known standard restores the registry |
| Standards.EnabledStandardOffered | src/standards/registry.py:173-198 | after enabling a standard, each of its rules that is not disabled is offered for its languages |
| Standards.ListStandards | src/standards/registry.py:215-226 | one entry per known standard, enabled iff in the enabled set, with its rule count and the union of its rules' languages |
| Standards.ApplySection | src/standards/registry.py:156-168 | the enabled set is the configured list, or the current one when absent, minus the configured disabled names; disabled and custom rules are the configured lists |
| Standards.SaveSection | src/standards/registry.py:228-238 | the saved section lists the enabled standards and the disabled and custom rules, and has no disabled-standards entry |
| Standards.SaveLoadRoundTrip | src/standards/registry.py:147-238 | loading a saved section into a registry with the same standards gives back the saved registry |
| Domain.ParseSeverity | src/core/domain.py:12-20 | a text parses to the severity whose value it is, and fails iff it is no severity's value |
| Domain.SeverityNameInjective | src/core/domain.py:12-20 | distinct severities have distinct values |
| Domain.Accept | src/core/domain.py:123-145 | a violation record is accepted iff it is a mapping with an id, a line and a message; it keeps those, and its severity is the one given or `low` when that is missing or unknown |
| Domain.AcceptAllCount | src/core/domain.py:120-147 | the accepted list has one entry per acceptable record |
| Domain.GetGrade | src/core/domain.py:65-81 | A for 0 violations, B for 1 to 5 (or a negative count), C for 6 to 10, D for 11 to 20, F above 20 |
| Domain.GradeMonotone | src/core/domain.py:65-81 | more violations never give a better grade |
| Domain.ZeroDetails | src/core/domain.py:118 | every severity's bucket is 0, and only severity values are keys |
| Domain.Tally | src/core/domain.py:121-143 | every severity has a bucket and only severity values are keys |
| Domain.TallyCounts | src/core/domain.py:121-143 | each severity's bucket is the number of accepted violations of that severity |
| Domain.TallyTotal | src/core/domain.py:121-148 | the buckets add up to the number of accepted violations |
| Domain.UpdateScanResults | src/core/domain.py:104-151 | each update counts one more scan, stamps the time and stores the emissions; a count clears the list and zeroes every bucket; a list stores the accepted violations and their number; identity fields never change |
| Domain.BucketsPartition | src/core/domain.py:83-149 | after a list update, high (critical, high, major), medium and low (minor, low, info) violations add up to the latest count |
| Domain.BucketCounts | src/core/domain.py:119-149 | after a list update each bucket holds the number of stored violations of its severity |
| GradeMetrics.GradeValue | src/utils/metrics.py:16 | only the letters A to F have a value, from 5 down to 1 |
| GradeMetrics.Points | src/utils/metrics.py:17 | one value between 1 and 5 per recognised grade; unknown grades are dropped |
| GradeMetrics.AverageGrade | src/utils/metrics.py:3-33 | `N/A` exactly when no grade is recognised; otherwise the letter whose value is nearest the mean of the recognised values |
| GradeMetrics.LetterOf | src/utils/metrics.py:22-33 | the letter of a list of grade values is nearest their mean, with halves rounding up; `N/A` only for no values |
| GradeMetrics.AverageIgnoresUnknown | src/utils/metrics.py:17 | dropping the unknown grades first does not change the average |
| GradeMetrics.PointsFilter | src/utils/metrics.py:17 | the values of the recognised grades are the values of all grades |
| GradeMetrics.RepeatedGrade | src/utils/metrics.py:3-33 | the average of one grade repeated is that grade |
| GradeMetrics.ProjectsGrade | src/utils/metrics.py:35-49 | `N/A` exactly for no projects; otherwise the average grade of the projects' own grades, one per project, which is a letter nearest the mean of their values |
| GradeMetrics.ProjectGrades | src/utils/metrics.py:48 | one grade per project, in order, each that project's own grade |
| GradeMetrics.ProjectsSameGrade | src/utils/metrics.py:35-49 | projects that all have the same grade average to that grade |
| GradeMetrics.AllRecognised | src/utils/metrics.py:16-17 | when every grade is a letter A to F, every grade is counted |
| Projects.Put | src/core/project_manager.py:126 | a project with a new id is appended to the registry |
| Projects.PutReplaces | src/core/project_manager.py:126 | a project with an id already present replaces that entry where it stands |
| Projects.PutValid | src/core/project_manager.py:126 | storing a project keeps the ids distinct |
| Projects.AddProject | src/core/project_manager.py:91-130 | fails with already-exists exactly when the name is in use; otherwise stores a new project with the given fields, no scans, and `main` for an empty or missing branch |
| Projects.AddProjectFresh | src/core/project_manager.py:115-127 | a free name and a fresh id add exactly one entry, at the end, and the ids stay distinct |
| Projects.EnsureDefaultProject | src/core/project_manager.py:64-89 | returns the project known by the default name; in an empty registry adds it as a system Python project on `main`; otherwise nothing changes and no project is returned |
| Projects.EnsureDefaultIdempotent | src/core/project_manager.py:64-89 | a second call returns the same project and leaves the registry as the first left it |
| Projects.FindByName | src/core/project_manager.py:146-151 | a project with that name, from the registry, and none exactly when no project has it |
| Projects.FindById | src/core/project_manager.py:143-144 | the project with that id, and none exactly when no project has it |
| Projects.GetProject | src/core/project_manager.py:132-151 | a project whose id or name is the key, the id winning, and none exactly when no project has either |
| Projects.Delete | src/core/project_manager.py:170 | the registry keeps exactly the other ids' entries and stays valid |
| Projects.DeleteOne | src/core/project_manager.py:170 | deleting a present id removes one entry |
| Projects.DeleteNone | src/core/project_manager.py:170 | deleting an absent id changes nothing |
| Projects.RemoveProject | src/core/project_manager.py:153-173 | fails exactly when the key finds no project or a system project; otherwise the registry loses exactly that project |
| Projects.RemoveProjectOne | src/core/project_manager.py:153-171 | a successful removal takes away one entry and keeps the ids distinct |
| Projects.BeforePreorder | src/core/project_manager.py:187-193 | every sort key orders projects by a total preorder |
| Projects.ListProjects | src/core/project_manager.py:175-198 | the listed projects are the registry's, each as often; an unknown sort field keeps registry order |
| Projects.ListProjectsSorted | src/core/project_manager.py:185-196 | with a known field the list is sorted by its key, and projects with equal keys keep their registry order |
| Projects.UpdateProjectScan | src/core/project_manager.py:200-222 | fails with not-found exactly when the key finds no project; otherwise that project's entry is replaced by its updated self |
| Projects.GradePoints | src/core/project_manager.py:265-267 | one grade value between 1 and 5 per project |
| Projects.GetSummaryMetrics | src/core/project_manager.py:240-279 | zeros and `N/A` for no projects; otherwise the project count, the sums of violations, scans and emissions, the mean violations and mean emissions per project, and a letter grade |
| Projects.SummaryGradeNearest | src/core/project_manager.py:264-269 | the summary grade's value is within a half of the mean grade value, and when the mean lies exactly half-way between two values it is the even one, as Python's `round` |
| Projects.SumIntsBounds | src/core/project_manager.py:265-267 | the sum of values between 1 and 5 lies between the count and five times it |
| Projects.SummaryAndProjectsGradeDiffer | src/core/project_manager.py:264-269 | an A project and a B project average to B here, while the metrics helper gives A: the two round halves differently |
| History.SeverityWeight | src/core/history.py:295-303 | every severity's weight lies between 0 and 5 |
| History.GradeOfMean | src/core/history.py:309-318 | A below 0.5, B below 1.5, C below 3, D below 4, F from 4 on, each iff |
| History.CalculateGrade | src/core/history.py:289-318 | A for no issues; otherwise the grade of the mean severity weight |
| History.GradeOfMeanMonotone | src/core/history.py:309-318 | a higher mean weight never gives a better grade |
| History.UniformGrade | src/core/history.py:289-318 | issues all of one severity get the grade of that severity's weight |
| History.InfoNeverWorsens | src/core/history.py:303-307 | adding an issue of weight 0 never worsens the grade |
| History.BreakdownCounts | src/core/history.py:40-47 | each known severity's count is the number of issues of that severity, case ignored, a missing one read as info |
| History.BreakdownTotal | src/core/history.py:40-47 | the counts add up to the issues with a known severity, at most all of them |
| History.Sanitise | src/core/history.py:84-88 | the safe name has the same length and only letters, digits, `_` and `-` |
| History.SanitiseIdempotent | src/core/history.py:87 | sanitising twice is sanitising once, and a name is left alone exactly when it is already safe |
| History.SanitiseCollides | src/core/history.py:87 | `my app` and `my_app` share one history file |
| History.ToDict | src/core/history.py:26-38 | the stored record counts the issues and carries their severity breakdown |
| History.StoreRoundTrip | src/core/history.py:26-60 | reading back a stored record gives the same scan |
| History.NewRecord | src/core/history.py:101-111 | the new scan counts the result's issues (none when missing) and is graded from them |
| History.AddScan | src/core/history.py:90-132 | the file gains one record, the new scan's, after every earlier record re-read and re-stored |
| History.AddScanKeepsHistory | src/core/history.py:113-126 | records written by the store are kept unchanged in front of the new one |
| History.GetProjectHistory | src/core/history.py:134-165 | one scan per stored record; none for a missing file |
| History.ProjectHistorySorted | src/core/history.py:156-165 | the scans read back, ordered by timestamp, scans with equal timestamps keeping file order |
| History.TrendOf | src/core/history.py:167-229 | too little data below two scans; otherwise the delta from first to last, improving, worsening or stable by its sign, a zero percentage when the first count is not positive |
| History.TrendReversed | src/core/history.py:192-204 | reversing the endpoints swaps improving and worsening and negates the delta |
| History.PyIndex | src/core/history.py:249-253 | a Python index is valid iff it lies in `-n` to `n - 1`, and negative ones count from the end |
| History.CompareScans | src/core/history.py:231-286 | too few scans below two; invalid indices when either is out of range; a failure exactly when the new or the fixed keys hold two keys whose first differing field is `None` against a value, which `sorted` cannot order; otherwise new keys are the second scan's not in the first, fixed keys the reverse, and it is an improvement iff more are fixed than new |
| History.MixedKeysUnsortable | src/core/history.py:283-284 | two new keys with the same file, one with no line and one with a line, make the comparison fail |
| History.CompareSelf | src/core/history.py:259-280 | a scan compared with itself has no new or fixed issues and no improvement |
| History.CompareSwap | src/core/history.py:259-280 | swapping the scans swaps new and fixed issues and negates the net change |
| History.CompareSplitsKeys | src/core/history.py:259-263 | the second scan's keys are the new ones plus those it shares with the first |
| Tally.Bump | src/core/export.py:233-236 | counting one more item raises its key's count by one, adds the key if new, and leaves the other counts alone |
| Tally.TallyCounts | src/core/export.py:230-236 | each key's count is the number of items with that key, each key appears once, and the counts add up to the items |
| Tally.TallyKeys | src/core/export.py:230-236 | the keys counted are exactly the keys of the items |
| Export.SeverityScore | src/core/export.py:37-47 | critical to low score 4 down to 1 ignoring case, and anything else exactly 0 |
| Export.SeverityRank | src/core/export.py:102-106 | the sort rank of a severity is at most 5 |
| Export.ScoreAgreesWithRank | src/core/export.py:37-106 | among known severities, a higher score is exactly an earlier place in the CSV order |
| Export.NestingFactor | src/core/export.py:61-62 | the nesting energy factor is 4, 8 or 16 for every line, negative ones included |
| Export.NestingText | src/core/export.py:62 | the nesting label is `4x`, `8x` or `16x` |
| Export.EnergyFactor | src/core/export.py:49-70 | the issue's own factor when given; otherwise `1000x` for I/O in a loop, `100x` for blocking I/O, and in every case one of the fixed labels |
| Export.EnergyFactorBySeverity | src/core/export.py:56-70 | other rules are labelled by severity: critical `100x`, high `10x`, medium `1x`, anything else `0.1x` |
| Export.Effort | src/core/export.py:72-86 | the issue's own effort when given; otherwise the severity, missing read as low and compared ignoring case, maps critical to high, high to medium, medium to easy, low and info to trivial, and anything else to medium |
| Export.KeyLePreorder | src/core/export.py:105-109 | the CSV sort key orders by a total preorder |
| Export.SortIssues | src/core/export.py:103-110 | the rows hold the issues, each as often |
| Export.SortIssuesOrdered | src/core/export.py:101-110 | rows go by severity rank, file, then line, and issues with equal keys keep their scan order |
| Export.EffortScore | src/core/export.py:120-123 | every effort scores at most 3 |
| Export.EffortTotalByLevel | src/core/export.py:120-123 | the effort total counts high as 3, medium as 2, easy and unknown efforts as 1 |
| Export.AverageEffort | src/core/export.py:119-128 | medium for no issues; otherwise high from a mean of 2.5, medium from 1.5, easy from 0.5, and medium below that |
| Export.AverageEffortOrderFree | src/core/export.py:119-128 | the average effort does not depend on the order of the issues |
| Export.RowOf | src/core/export.py:138-147 | each issue row carries the issue's energy factor and effort |
| Export.CsvRows | src/core/export.py:88-162 | one row per issue in sorted order, then one summary row counting all the issues |
| Export.OneSummaryRow | src/core/export.py:137-162 | only the last row is a summary row |
| Export.SummaryCounts | src/core/export.py:112-128 | the summary row counts each severity, ignoring case, and gives the average effort |
| Export.GetStatistics | src/core/export.py:208-246 | the total is the number of issues; the affected files are the distinct files, no more than the issues; the severity counts add up to no more than the total |
| Export.FilesBound | src/core/export.py:228 | there are no more distinct files than issues |
| Export.StatisticsByRule | src/core/export.py:230-236 | the per-rule counts count each rule's issues, once per rule, and add up to the total |
| Charts.ViolationsBySeverity | src/ui/charts.py:14-59 | the labels, counts, colours and percentages of the severity chart line up one for one |
| Charts.SeverityChartFacts | src/ui/charts.py:26-59 | the total counts every issue; no bars for no issues; otherwise the four bars critical to low in order with their fixed colours, each counting its severity ignoring case (missing read as low), together no more than the total |
| Charts.NoBars | src/ui/charts.py:44-51 | with nothing counted no bar is drawn |
| Charts.AllBars | src/ui/charts.py:44-51 | with something counted every remaining severity gets its bar, label and colour |
| Charts.BarData | src/ui/charts.py:44-48 | each bar holds its severity's count, zero when absent |
| Charts.FourSeverities | src/ui/charts.py:33-48 | the four severities' counts add up to no more than the issues |
| Charts.Category | src/ui/charts.py:76-92 | an id mentioning memory is a memory violation, and every id falls in one of the six categories |
| Charts.ViolationsByType | src/ui/charts.py:62-103 | the type chart's total is every issue, with one count and one percentage per label |
| Charts.TypeChartSorted | src/ui/charts.py:94 | the category labels are in string order |
| Charts.TypeChartLabels | src/ui/charts.py:76-94 | a label appears exactly when some green violation falls in that category |
| Charts.TypeChartCounts | src/ui/charts.py:76-95 | each label's count is the number of green violations in its category |
| Charts.FileEntries | src/ui/charts.py:118-124 | one entry per distinct file |
| Charts.ViolationsByFile | src/ui/charts.py:106-150 | the total is every issue, at most ten files are shown, each with its name and count |
| Charts.FileChartCounts | src/ui/charts.py:118-135 | each shown file's count is its number of issues, and counts never rise down the list |
| Charts.FileChartTop | src/ui/charts.py:126-131 | a file left out means ten files are shown, each with at least as many issues |
| Charts.EntriesCount | src/ui/charts.py:118-124 | every file entry counts that file's issues |
| Charts.TopViolations | src/ui/charts.py:153-188 | one row per selected issue, no more than a non-negative limit or the issues, each row carrying its issue's fields and defaults |
| Charts.TopViolationsFacts | src/ui/charts.py:170-175 | the selected issues go by emissions, highest first, and each has at least the emissions of any issue left out |
| Charts.EmissionsTrend | src/ui/charts.py:191-229 | empty and zero for no files; otherwise at most ten bars, the total of all files and their mean |
| Charts.EmissionsTrendSorted | src/ui/charts.py:211-219 | the bars never rise |
| Charts.MaxIndex | src/ui/charts.py:270-278 | the first position holding the largest value, as Python's `max` picks it |
| Charts.AverageIssueEmissions | src/ui/charts.py:260-266 | zero for no issues, otherwise the mean of the issues' emissions |
| Charts.HighestImpactRule | src/ui/charts.py:272-279 | `N/A` for no issues, otherwise the id of the first issue with the largest emissions |
| Charts.MostAffectedFile | src/ui/charts.py:268-270 | `N/A` for no files, otherwise the first file with the largest emissions |
| Charts.Summary | src/ui/charts.py:232-293 | counts every issue, counts critical and high exactly as spelled, adds the two emissions, counts the files, and takes the mean, the highest-impact rule and the most affected file |
| Charts.CriticalIsCaseSensitive | src/ui/charts.py:251-254 | an issue of severity `HIGH` is a high bar in the severity chart but not a critical issue in the summary |
| Charts.GenerateAllCharts | src/ui/charts.py:296-310 | the top list, the file chart and the trend chart hold at most ten entries each |
| Charts.ChartsAgree | src/ui/charts.py:296-310 | the severity, type and file charts and the summary agree on the number of issues |
| GitUrl.SplitLast | src/core/git_operations.py:56-58 | the text is the part before the last `@`, an `@`, and a part free of `@` |
| GitUrl.ParseGitUrl | src/core/git_operations.py:30-72 | the empty text is refused; a text of a known scheme without a branch suffix is accepted whole with no branch; a text with a suffix is split at its last `@` and accepted exactly when the part before has a known scheme; a text without a known scheme is refused |
| GitUrl.SchemeOfPrefix | src/core/git_operations.py:66 | a text starting with a URL of a known scheme has that scheme |
| GitUrl.BranchRoundTrip | src/core/git_operations.py:52-72 | a URL of a known scheme with `@` and a branch free of `@` appended parses back to the two |
| GitUrl.SuffixAfterScheme | src/core/git_operations.py:54-59 | such a text is read as having a branch suffix, whether HTTPS or SSH |
| GitUrl.SplitLastUnique | src/core/git_operations.py:56 | the split at the last `@` is the only one whose tail has no `@` |
| GitUrl.UserInfoReadAsBranch | src/core/git_operations.py:54-58 | `https://me@h/r` is read as the URL `https://me` and the branch `h/r` |
| GitUrl.LastSegment | src/core/git_operations.py:271 | the last segment is a suffix free of `/` that is the whole text or follows a `/` |
| GitUrl.LastSegmentUnique | src/core/git_operations.py:271 | only one suffix has those properties |
| GitUrl.GetRepoName | src/core/git_operations.py:260-274 | fails exactly as parsing fails; otherwise the name of the parsed URL |
| GitUrl.RepoNameOf | src/core/git_operations.py:271-274 | the name has no `/`, and is the last segment with one trailing `.git` removed, or the segment itself when it has none |
| GitUrl.DropGit | src/core/git_operations.py:272-273 | the text is the result plus `.git`, or the result itself when it does not end in `.git` |
| GitUrl.IsGitUrl | src/core/git_operations.py:277-293 | true exactly when the text parses, and then it has a known scheme; a text of a known scheme without a branch suffix is a git URL |
| GitUrl.RepoNameIgnoresBranch | src/core/git_operations.py:260-274 | a branch suffix does not change the repository name |
| Runtime.ReportPatterns | src/agents/runtime_monitor/pattern_analyzer.py:7-35 | a report gives the CPU pattern exactly when CPU use is above 80, memory above 90, emissions above 0.1 (a missing metric read as 0), at most these three and in that order |
| Runtime.Analyze | src/agents/runtime_monitor/pattern_analyzer.py:14-36 | a pattern is found exactly when some report gives it, at most three per report |
| Runtime.AnalyzeAppend | src/agents/runtime_monitor/pattern_analyzer.py:16-36 | the patterns of joined report lists are the first list's followed by the second's |
| Runtime.AnalyzeCount | src/agents/runtime_monitor/pattern_analyzer.py:17-35 | each kind of pattern appears once per report crossing its threshold |
| Runtime.QuietReports | src/agents/runtime_monitor/pattern_analyzer.py:17-35 | a report without metrics, or exactly at the thresholds, gives no pattern |
| Runtime.Hints | src/agents/runtime_monitor/remediation_suggester.py:7-24 | each of the three known pattern types has three hints |
| Runtime.Dedupe | src/agents/runtime_monitor/remediation_suggester.py:33 | the result holds each value of the input once and nothing else |
| Runtime.Suggest | src/agents/runtime_monitor/remediation_suggester.py:26-33 | each hint appears once, and a hint appears exactly when some pattern's known type lists it |
| Runtime.SuggestIgnoresUnknown | src/agents/runtime_monitor/remediation_suggester.py:29-32 | a pattern of an unknown type changes nothing wherever it stands |
| Runtime.HintsOfPresent | src/agents/runtime_monitor/remediation_suggester.py:26-33 | among the analyser's patterns, all of a pattern's hints are offered exactly when the pattern is present |
| Runtime.HintsDisjoint | src/agents/runtime_monitor/remediation_suggester.py:7-24 | no hint is listed under two pattern types |
| Runtime.PipelineHints | src/agents/runtime_monitor/pattern_analyzer.py:14-36 | the CPU, memory and emissions hints are offered exactly when some report crosses that threshold |

## Left out

- Common.IsWordChar, Common.IsAlnum and Common.Lower: characters are treated as ASCII. Python's `\w`, `str.isalnum` and `str.lower` also accept or fold non-ASCII letters. So on text with such letters (`const café = 1`) the following differ from the source: JsLines.Words, JsLines.DeclAt, every regular-expression check of PyLines, JsLines and JsScopes, History.Sanitise, and the case-insensitive severity comparisons.
- Common.IsSpace: Python's `\s` and `str.isspace` also accept Unicode spaces beyond ASCII, such as U+00A0 and U+2028. The model accepts only the ASCII ones, 0x1C to 0x1F included.
- JsDetector.InfiniteCount: `LitNoCase` folds only ASCII letters. Python's `re.IGNORECASE` also lets the dotless `ı` match `i`, and its `\s` accepts Unicode spaces. So `whıle (true)` is reported by the source and not by the model.
- JsDetector.JsConcatReported: `\b` and `\s` are read over ASCII word characters and spaces. In Python `é` is a word character, so on `éfor (x)` the source finds no word `for` while the model does. A non-ASCII space before a quote after `+=` is accepted by the source only.
- JsDetector.MagicReported: `[0-9]` and `[^a-zA-Z0-9_]` are ASCII classes in Python as in the model, but `\s` around the number is not. A number between two U+00A0 spaces is reported by the source and not by the model.
- PyDetector.CopyCallCount: the process-spawning test looks for `subprocess`, `os.system` and `popen` in the texts the model keeps per node: names, attributes, string constants, and function, global and import names. Python searches the whole `ast.dump(node.func)`, which also shows keyword-argument names, lambda parameter names and bytes constants. So `make(popen=1).run()` is reported by the source and not by the model.
- PyDetector.CallRuleCount: process spawning is counted as in PyDetector.CopyCallCount. A call whose only mention of `popen` or `subprocess` is a keyword name, a lambda parameter or a bytes constant is not counted.
- Analyzer.Emissions, Analyzer.PerLineEmissions and Analyzer.PerLineEmissionsSum: floats are read as exact reals. Analyzer.PerLineEmissionsSum's claim that the shares add up to the total holds in the model, but in IEEE doubles only up to rounding.
- Analyzer.AnalyzeFile: a `range` constant that is not a number fails at once with `RangeTypeError`. For a complex constant (`range(1j)`), Python adds it to the iteration estimate without error and fails later, in the score's `min(20, ...)`. Either way the file is dropped from the scan, because its emissions are estimated right after the analysis.
- Scanner.Scan: the worker results are folded in file-list order. The thread pool's `as_completed` order is not modelled, so the issue list is one of the orders the pool can produce. The emission totals and the per-file map do not depend on the order.
- Scanner.LookupIssue: the issue's `ai_suggestion` field (scanner.py lines 360 and 417) is not kept. It only copies rule text and takes part in no decision.
- Rules.GetRulesBySeverity: a missing `severity` and one present with the YAML value null are both `None`. Python's `r['severity']` raises only for a missing key and compares a null as unequal, whereas the model reports `KeyError` for both.
- Rules.GetRulesByTag: a `tags` value of null makes Python's `tag in None` raise `TypeError`. The model cannot tell null from missing, so it skips such a rule as having no tags.
- Scanner.Discover and Scanner.GetFiles: `Path.rglob`'s order and `fnmatch` are inputs. The entries come as a list and the matcher as a function.
- Config.Load: `yaml.safe_load` is an input, a parsed `Value` or a parse failure. `_find_config_file` (the search of the working directory and home), `export_example_yaml`, and the lazy `if not self.config: self.load()` in `get` and `is_rule_enabled` are not modelled. The configuration is always passed in.
- Detect.DetectViolations and Analyzer.AnalyzeFile: `ast.parse` is an input, a tree or `None` for a syntax error.
- Domain.UpdateScanResults: `round(emissions, 9)` is not modelled; the emissions are stored as given. Pydantic's coercion of field types is not modelled either: a field is present with its type or missing.
- Projects.GetSummaryMetrics: `round(..., 9)` and `round(..., 1)` of the totals and means are not modelled. The half-to-even `round` of the mean grade is modelled.
- Projects.UpdateProjectScan: the violations argument is a count or a list of violation records, the two cases `Project.update_scan_results` handles. A `ScanResult` object, which the signature also admits, is not modelled: `update_scan_results` has no branch for it, and `src/core/project_manager.py` line 14 imports `ScanResult` from `src/core/domain.py`, which defines no such class, so as written that import fails before any update can run.
- Projects.AddProject: the `uuid4` id is a parameter. Saving, loading and `export_projects` write or read JSON files and are not modelled.
- History.GetProjectHistory: the `days` filter compares timestamps with the clock and is not modelled. The function returns every stored scan in timestamp order. Reading and writing the history file are not modelled; its parsed contents are a parameter.
- History.TrendOf: the rounding of the percentages and emissions is not modelled; the values are exact.
- History.CompareScans: the sorted `details` lists are not built. The sets of new and fixed keys are returned instead. The model fails whenever a key set holds a pair that cannot be ordered. Python's `sorted` raises `TypeError` only if it actually compares such a pair, and which pairs it compares depends on the set's iteration order, which depends on string hashes that change from run to run. It always compares them when the set has just two keys, or when one key can be ordered against no other key.
- Export.CsvRows: the summary row's message and the `{total:.9f}kg` text are not built. Its counts and average effort are kept. Writing the file, `HTMLReporter` and `JSONExporter.export` only format or write text and are not modelled.
- Charts.ViolationsBySeverity, Charts.ViolationsByType, Charts.ViolationsByFile and Charts.EmissionsTrend: percentages and emissions are exact quotients; display rounding is not modelled.
- Standards.GetAllRules and Standards.GetEnabledRules: Python iterates the enabled standards, a set, in an order of its own. The contracts state membership, not order. Loading and saving the YAML file are not modelled; the parsed section is a parameter.
- Runtime.ReportPatterns: a metric present with the value `None` raises `TypeError` in Python's comparison. The model has a single `None` that stands for a missing metric, read as 0.
- Runtime.Suggest: `list(set(...))` has no fixed order. The model keeps first occurrences, and the contract states membership and the absence of duplicates. A pattern without a `type` key, which raises `KeyError` in Python, cannot be written in the model.
- GitUrl.ParseGitUrl: a non-string argument, refused by the `isinstance` test, cannot be written in the model. Cloning, checkout, clean-up and `detect_and_prepare_repository` run `git` and are not modelled.
- The following are not modelled because they run subprocesses, measure time or energy, or serve the user interface:
  - `Scanner._run_with_monitoring`;
  - the CodeCarbon and Scaphandre collectors;
  - the tracking and calibration benchmarks (the calibration coefficient is a parameter);
  - the Flask dashboard and the command-line interface.
- The convenience wrappers `add_to_analysis`, `analyze_code_complexity` and `estimate_codebase_emissions` (analyzer.py lines 337-391) are not modelled. They call the modelled functions with fixed arguments and print.
- `StandardsRegistry.sync_standards` and the export helpers of the registry are not modelled. They write files and add nothing to the enable and disable logic.

## Findings

| source | as written | input that shows it | evidently intended | confidence | as-written member | corrected member |
|---|---|---|---|---|---|---|
| src/core/scanner.py:396-437 | `_scan_javascript` builds its issue list but has no `return`, so it returns `None`. `_scan_file` then calls `issues.extend(None)`, which raises `TypeError`, and the `except` turns every JavaScript file into a single `scan_error` issue. | any `.js` file, for instance one containing `eval(x)` | end `_scan_javascript` with `return issues`, as `_scan_python` does | not executed | Scanner.JavaScriptScanOnlyErrors | Scanner.ScanFileJavaScript |

=== FILE: analyzer.dfy ===
/** The complexity visitor and the emission estimate (`CodeComplexityAnalyzer`,
    `ComplexityMetrics`, `EmissionAnalyzer`). Float arithmetic is read as
    exact `real` arithmetic; the parse of the file is an input (`None` when
    `ast.parse` raises `SyntaxError`). */
module Analyzer {
  import opened Common
  import opened PyAst
  import opened Issues
  import Regex

  /** `ComplexityMetrics`. */
  datatype Metrics = Metrics(
    loc: nat,
    cyclomatic: nat,
    maxDepth: nat,
    functions: nat,
    classes: nat,
    recursive: set<string>,
    memory: real,
    iterations: real,
    io: bool,
    expensive: bool)

  // ---------------------------------------------------------------------
  // What each node adds by itself

  /** The counters of the visitor that do not depend on where a node sits. */
  datatype Counts = Counts(branches: nat, functions: nat, classes: nat, iterations: real, io: bool, expensive: bool)

  const NoCounts := Counts(0, 0, 0, 0.0, false, false)

  function Plus(a: Counts, b: Counts): Counts {
    Counts(a.branches + b.branches, a.functions + b.functions, a.classes + b.classes,
      a.iterations + b.iterations, a.io || b.io, a.expensive || b.expensive)
  }

  /** `loop_iterations_estimate += arg.value` raises `TypeError` for a
      constant that is not a number, and the exception leaves
      `analyze_file`. */
  datatype AnalysisError = RangeTypeError(line: nat)

  /** The callee of a call written as a bare name. */
  predicate BareCall(n: Node) { n.Call? && n.func.Name? }

  predicate IsIoName(f: string) {
    f == "open" || f == "read" || f == "write" || f == "requests" || f == "urlopen" || f == "socket"
  }

  predicate IsExpensiveName(f: string) {
    f == "sort" || f == "sorted" || f == "search" || f == "re.compile" || f == "json.dumps" || f == "pickle.dumps"
  }

  /** The number a constant adds to an accumulator that holds a number. */
  function ConstNumber(c: ConstVal): Option<real> {
    match c
    case IntC(i) => Some(i as real)
    case FloatC(x, _) => Some(x)
    case BoolC(b) => Some(if b then 1.0 else 0.0)
    case _ => None
  }

  /** What a `for` header adds to the loop-iteration estimate: the constant
      first argument of `range(...)`, 1000 for `range(a + b)`, else 0. */
  function RangeEstimate(loop: Node): Result<real, AnalysisError>
    requires loop.For?
  {
    var it := loop.iter;
    if it.Call? && it.func.Name? && it.func.id == "range" && it.args != [] then
      var a := it.args[0];
      if a.Constant? then
        var v := ConstNumber(a.cval);
        if v.Some? then Ok(v.value) else Err(RangeTypeError(loop.line))
      else if a.BinOp? && a.op == Add then Ok(1000.0)
      else Ok(0.0)
    else Ok(0.0)
  }

  /** The counters a node adds itself, before its children are visited. */
  function Local(n: Node): Result<Counts, AnalysisError> {
    match n
    case If(_, _, _, _) => Ok(NoCounts.(branches := 1))
    case For(_, _, _, _, _) =>
      var e := RangeEstimate(n);
      if e.Err? then Err(e.error) else Ok(NoCounts.(branches := 1, iterations := e.value))
    case While(_, _, _, _) => Ok(NoCounts.(branches := 1, iterations := 1000.0))
    case ExceptHandler(_, _, _) => Ok(NoCounts.(branches := 1))
    case FunctionDef(_, _, _, _, _, _) => Ok(NoCounts.(functions := 1))
    case ClassDef(_, _, _, _, _) => Ok(NoCounts.(classes := 1))
    case Call(_, func, _, _) =>
      if func.Name? then Ok(NoCounts.(io := IsIoName(func.id), expensive := IsExpensiveName(func.id)))
      else Ok(NoCounts)
    case _ => Ok(NoCounts)
  }

  predicate Broken(n: Node) { Local(n).Err? }

  function LocalCounts(n: Node): Counts {
    var l := Local(n);
    if l.Ok? then l.value else NoCounts
  }

  /** The counters of a list of nodes, added up. */
  function SumCounts(ns: seq<Node>): Counts {
    if ns == [] then NoCounts else Plus(LocalCounts(ns[0]), SumCounts(ns[1..]))
  }

  // ---------------------------------------------------------------------
  // The visitor

  /** The visitor's state: the counters, the nesting depth and its maximum,
      the recursive functions found, and the current function with the calls
      to itself seen in it. */
  datatype Tally = Tally(
    counts: Counts,
    depth: nat,
    maxDepth: nat,
    recursive: set<string>,
    calls: set<string>,
    current: Option<string>)

  const Initial := Tally(NoCounts, 0, 0, {}, {}, None)

  predicate Nesting(n: Node) { n.If? || n.For? || n.While? }

  /** The state a node's children are visited in. */
  function Enter(n: Node, st: Tally, c: Counts): (r: Tally)
    ensures r.depth == if Nesting(n) then st.depth + 1 else st.depth
    ensures r.recursive == st.recursive && r.counts == Plus(st.counts, c)
  {
    var st1 := st.(counts := Plus(st.counts, c));
    if Nesting(n) then
      st1.(depth := st.depth + 1, maxDepth := if st.depth + 1 > st.maxDepth then st.depth + 1 else st.maxDepth)
    else if n.FunctionDef? then st1.(current := Some(n.name), calls := {})
    else if BareCall(n) && st.current == Some(n.func.id) then st1.(calls := st.calls + {n.func.id})
    else st1
  }

  /** The state after a node's children: the depth comes back down, and a
      function records itself as recursive if it called itself, then gives
      the enclosing function its name and calls back. */
  function Leave(n: Node, before: Tally, after: Tally): (r: Tally)
    requires Nesting(n) ==> after.depth >= 1
    ensures r.counts == after.counts && r.maxDepth == after.maxDepth
    ensures r.depth == if Nesting(n) then after.depth - 1 else after.depth
  {
    if Nesting(n) then after.(depth := after.depth - 1)
    else if n.FunctionDef? then
      after.(recursive := after.recursive + (if n.name in after.calls then {n.name} else {}),
             current := before.current, calls := before.calls)
    else after
  }

  /** `visitor.visit(n)`. The depth and the current function come back as
      they were. */
  function Visit(n: Node, st: Tally): (r: Result<Tally, AnalysisError>)
    ensures r.Ok? ==> r.value.depth == st.depth && r.value.current == st.current
    decreases Size(n), 1
  {
    var l := Local(n);
    if l.Err? then Err(l.error)
    else
      SizeChildren(n);
      var inner := VisitAll(Children(n), Enter(n, st, l.value));
      if inner.Err? then inner
      else Ok(Leave(n, st, inner.value))
  }

  /** `generic_visit`: the children in field order; the first error stops
      the visit. */
  function VisitAll(ns: seq<Node>, st: Tally): (r: Result<Tally, AnalysisError>)
    ensures r.Ok? ==> r.value.depth == st.depth && r.value.current == st.current
    decreases SizeAll(ns), 2
  {
    if ns == [] then Ok(st)
    else
      SizeAllTail(ns);
      var first := Visit(ns[0], st);
      if first.Err? then first else VisitAll(ns[1..], first.value)
  }

  // ---------------------------------------------------------------------
  // What the visitor computes

  lemma {:induction false} SumCountsAppend(a: seq<Node>, b: seq<Node>)
    ensures SumCounts(a + b) == Plus(SumCounts(a), SumCounts(b))
  {
    if a == [] {
      assert a + b == b;
    } else {
      assert (a + b)[0] == a[0] && (a + b)[1..] == a[1..] + b;
      SumCountsAppend(a[1..], b);
      PlusAssoc(LocalCounts(a[0]), SumCounts(a[1..]), SumCounts(b));
    }
  }

  lemma PlusNone(c: Counts)
    ensures Plus(NoCounts, c) == c
  {
  }

  lemma PlusAssoc(a: Counts, b: Counts, c: Counts)
    ensures Plus(Plus(a, b), c) == Plus(a, Plus(b, c))
  {
  }

  /** A node followed by the preorder listing of its children. */
  lemma PreSplit(n: Node)
    ensures Pre(n) == [n] + PreAll(Children(n))
    ensures CountIf(Pre(n), Broken) == (if Broken(n) then 1 else 0) + CountIf(PreAll(Children(n)), Broken)
    ensures SumCounts(Pre(n)) == Plus(LocalCounts(n), SumCounts(PreAll(Children(n))))
  {
    var rest := PreAll(Children(n));
    var s := Pre(n);
    assert s == [n] + rest;
    assert s[0] == n && s[1..] == rest;
  }

  /** The visit adds the counters of every node of the tree, and fails
      exactly when some node's own step fails. */
  lemma {:induction false} VisitCounts(n: Node, st: Tally)
    ensures Visit(n, st).Err? <==> CountIf(Pre(n), Broken) > 0
    ensures Visit(n, st).Ok? ==> Visit(n, st).value.counts == Plus(st.counts, SumCounts(Pre(n)))
    decreases Size(n), 1
  {
    SizeChildren(n);
    PreSplit(n);
    var l := Local(n);
    if l.Err? {
      assert Visit(n, st) == Err(l.error);
    } else {
      var e := Enter(n, st, l.value);
      var inner := VisitAll(Children(n), e);
      assert Visit(n, st) == if inner.Err? then inner else Ok(Leave(n, st, inner.value));
      VisitAllCounts(Children(n), e);
      PlusAssoc(st.counts, l.value, SumCounts(PreAll(Children(n))));
    }
  }

  lemma {:induction false} VisitAllCounts(ns: seq<Node>, st: Tally)
    ensures VisitAll(ns, st).Err? <==> CountIf(PreAll(ns), Broken) > 0
    ensures VisitAll(ns, st).Ok? ==> VisitAll(ns, st).value.counts == Plus(st.counts, SumCounts(PreAll(ns)))
    decreases SizeAll(ns), 2
  {
    if ns != [] {
      SizeAllTail(ns);
      var first := Visit(ns[0], st);
      assert VisitAll(ns, st) == if first.Err? then first else VisitAll(ns[1..], first.value);
      VisitCounts(ns[0], st);
      if first.Ok? {
        VisitAllCounts(ns[1..], first.value);
        PlusAssoc(st.counts, SumCounts(Pre(ns[0])), SumCounts(PreAll(ns[1..])));
      }
      assert PreAll(ns) == Pre(ns[0]) + PreAll(ns[1..]);
      CountIfAppend(Pre(ns[0]), PreAll(ns[1..]), Broken);
      SumCountsAppend(Pre(ns[0]), PreAll(ns[1..]));
    }
  }

  /** Counting the kinds of node of a listing. */
  predicate IsBranch(n: Node) { n.If? || n.For? || n.While? || n.ExceptHandler? }
  predicate IsFunction(n: Node) { n.FunctionDef? }
  predicate IsClass(n: Node) { n.ClassDef? }
  predicate IsWhile(n: Node) { n.While? }
  predicate IsIoCall(n: Node) { BareCall(n) && IsIoName(n.func.id) }
  predicate IsExpensiveCall(n: Node) { BareCall(n) && IsExpensiveName(n.func.id) }

  /** The range estimates of the `for` headers of a listing, added up. */
  function RangeTotal(ns: seq<Node>): real {
    if ns == [] then 0.0
    else
      var e := if ns[0].For? && RangeEstimate(ns[0]).Ok? then RangeEstimate(ns[0]).value else 0.0;
      e + RangeTotal(ns[1..])
  }

  /** What one node that is not broken adds, field by field. */
  lemma LocalFields(n: Node)
    requires !Broken(n)
    ensures var l := LocalCounts(n);
      && l.branches == (if IsBranch(n) then 1 else 0)
      && l.functions == (if IsFunction(n) then 1 else 0)
      && l.classes == (if IsClass(n) then 1 else 0)
      && l.iterations == (if IsWhile(n) then 1000.0 else if n.For? then RangeEstimate(n).value else 0.0)
      && l.io == IsIoCall(n)
      && l.expensive == IsExpensiveCall(n)
  {
  }

  /** The added-up counters of a listing without broken nodes, field by
      field. */
  lemma {:induction false} SumCountsFields(ns: seq<Node>)
    requires CountIf(ns, Broken) == 0
    ensures var c := SumCounts(ns);
      && c.branches == CountIf(ns, IsBranch)
      && c.functions == CountIf(ns, IsFunction)
      && c.classes == CountIf(ns, IsClass)
      && c.iterations == 1000.0 * CountIf(ns, IsWhile) as real + RangeTotal(ns)
      && (c.io <==> CountIf(ns, IsIoCall) > 0)
      && (c.expensive <==> CountIf(ns, IsExpensiveCall) > 0)
  {
    if ns != [] {
      var n, rest := ns[0], ns[1..];
      assert CountIf(rest, Broken) == 0;
      SumCountsFields(rest);
      LocalFields(n);
      assert SumCounts(ns) == Plus(LocalCounts(n), SumCounts(rest));
      assert CountIf(ns, IsBranch) == (if IsBranch(n) then 1 else 0) + CountIf(rest, IsBranch);
      assert CountIf(ns, IsFunction) == (if IsFunction(n) then 1 else 0) + CountIf(rest, IsFunction);
      assert CountIf(ns, IsClass) == (if IsClass(n) then 1 else 0) + CountIf(rest, IsClass);
      assert CountIf(ns, IsWhile) == (if IsWhile(n) then 1 else 0) + CountIf(rest, IsWhile);
      assert CountIf(ns, IsIoCall) == (if IsIoCall(n) then 1 else 0) + CountIf(rest, IsIoCall);
      assert CountIf(ns, IsExpensiveCall) == (if IsExpensiveCall(n) then 1 else 0) + CountIf(rest, IsExpensiveCall);
    }
  }

  function Max(a: nat, b: nat): nat { if a < b then b else a }

  /** The deepest nesting of `if`, `for` and `while` inside a node, the node
      included. */
  function Nest(n: Node): nat
    decreases Size(n), 0
  {
    SizeChildren(n);
    (if Nesting(n) then 1 else 0) + NestAll(Children(n))
  }

  function NestAll(ns: seq<Node>): nat
    decreases SizeAll(ns), 1
  {
    if ns == [] then 0
    else
      SizeAllTail(ns);
      Max(Nest(ns[0]), NestAll(ns[1..]))
  }

  /** The visit raises the maximum depth to the deepest nesting it meets,
      counted from the depth it starts at. */
  lemma {:induction false} VisitDepth(n: Node, st: Tally)
    requires Visit(n, st).Ok? && st.depth <= st.maxDepth
    ensures Visit(n, st).value.maxDepth == Max(st.maxDepth, st.depth + Nest(n))
    decreases Size(n), 1
  {
    SizeChildren(n);
    var l := Local(n);
    var e := Enter(n, st, l.value);
    var inner := VisitAll(Children(n), e);
    assert Visit(n, st) == Ok(Leave(n, st, inner.value));
    VisitAllDepth(Children(n), e);
    assert Nest(n) == (if Nesting(n) then 1 else 0) + NestAll(Children(n));
  }

  lemma {:induction false} VisitAllDepth(ns: seq<Node>, st: Tally)
    requires VisitAll(ns, st).Ok? && st.depth <= st.maxDepth
    ensures VisitAll(ns, st).value.maxDepth == Max(st.maxDepth, st.depth + NestAll(ns))
    decreases SizeAll(ns), 2
  {
    if ns != [] {
      SizeAllTail(ns);
      var first := Visit(ns[0], st);
      assert VisitAll(ns, st) == VisitAll(ns[1..], first.value);
      VisitDepth(ns[0], st);
      assert first.value.depth == st.depth;
      VisitAllDepth(ns[1..], first.value);
      assert NestAll(ns) == Max(Nest(ns[0]), NestAll(ns[1..]));
    }
  }

  /** A bare-name call to `f` inside a node, not counting the bodies of
      nested function definitions, which are scopes of their own. */
  predicate CallsIn(n: Node, f: string)
    decreases Size(n), 0
  {
    SizeChildren(n);
    !n.FunctionDef? && ((BareCall(n) && n.func.id == f) || CallsInAll(Children(n), f))
  }

  predicate CallsInAll(ns: seq<Node>, f: string)
    decreases SizeAll(ns), 1
  {
    ns != [] && (SizeAllTail(ns); CallsIn(ns[0], f) || CallsInAll(ns[1..], f))
  }

  /** The names of the functions defined in a node, the node included, whose
      own body calls them by name. */
  function RecursiveIn(n: Node): set<string>
    decreases Size(n), 0
  {
    SizeChildren(n);
    (if n.FunctionDef? && CallsInAll(Children(n), n.name) then {n.name} else {}) + RecursiveInAll(Children(n))
  }

  function RecursiveInAll(ns: seq<Node>): set<string>
    decreases SizeAll(ns), 1
  {
    if ns == [] then {}
    else
      SizeAllTail(ns);
      RecursiveIn(ns[0]) + RecursiveInAll(ns[1..])
  }

  /** The calls to the current function a visit records. */
  function SelfCalls(n: Node, st: Tally): set<string> {
    if st.current.Some? && CallsIn(n, st.current.value) then {st.current.value} else {}
  }

  function SelfCallsAll(ns: seq<Node>, st: Tally): set<string> {
    if st.current.Some? && CallsInAll(ns, st.current.value) then {st.current.value} else {}
  }

  /** The visit records exactly the recursive functions of the node, and the
      calls the current function makes to itself inside it. */
  lemma {:induction false} VisitScopes(n: Node, st: Tally)
    requires Visit(n, st).Ok?
    ensures Visit(n, st).value.recursive == st.recursive + RecursiveIn(n)
    ensures Visit(n, st).value.calls == st.calls + SelfCalls(n, st)
    decreases Size(n), 1, 1
  {
    if n.FunctionDef? {
      FunctionScopes(n, st);
    } else {
      OtherScopes(n, st);
    }
  }

  /** A function definition is a scope of its own: it is recursive when its
      body calls it, and the enclosing function's calls stay as they were. */
  lemma {:induction false} FunctionScopes(n: Node, st: Tally)
    requires n.FunctionDef? && Visit(n, st).Ok?
    ensures Visit(n, st).value.recursive == st.recursive + RecursiveIn(n)
    ensures Visit(n, st).value.calls == st.calls + SelfCalls(n, st)
    decreases Size(n), 1, 0
  {
    SizeChildren(n);
    var l := Local(n);
    var e := Enter(n, st, l.value);
    assert e.current == Some(n.name) && e.calls == {};
    var inner := VisitAll(Children(n), e);
    assert Visit(n, st) == Ok(Leave(n, st, inner.value));
    VisitAllScopes(Children(n), e);
    assert RecursiveIn(n) == (if CallsInAll(Children(n), n.name) then {n.name} else {}) + RecursiveInAll(Children(n));
    assert !CallsIn(n, n.name) && (st.current.Some? ==> !CallsIn(n, st.current.value));
  }

  lemma {:induction false} OtherScopes(n: Node, st: Tally)
    requires !n.FunctionDef? && Visit(n, st).Ok?
    ensures Visit(n, st).value.recursive == st.recursive + RecursiveIn(n)
    ensures Visit(n, st).value.calls == st.calls + SelfCalls(n, st)
    decreases Size(n), 1, 0
  {
    SizeChildren(n);
    var l := Local(n);
    var e := Enter(n, st, l.value);
    assert e.current == st.current;
    assert e.calls == st.calls + (if BareCall(n) && st.current == Some(n.func.id) then {n.func.id} else {});
    var inner := VisitAll(Children(n), e);
    assert Visit(n, st) == Ok(Leave(n, st, inner.value));
    VisitAllScopes(Children(n), e);
    assert RecursiveIn(n) == RecursiveInAll(Children(n));
    if st.current.Some? {
      var f := st.current.value;
      assert CallsIn(n, f) == ((BareCall(n) && n.func.id == f) || CallsInAll(Children(n), f));
    }
  }

  lemma {:induction false} VisitAllScopes(ns: seq<Node>, st: Tally)
    requires VisitAll(ns, st).Ok?
    ensures VisitAll(ns, st).value.recursive == st.recursive + RecursiveInAll(ns)
    ensures VisitAll(ns, st).value.calls == st.calls + SelfCallsAll(ns, st)
    decreases SizeAll(ns), 2, 0
  {
    if ns != [] {
      SizeAllTail(ns);
      var first := Visit(ns[0], st);
      assert VisitAll(ns, st) == VisitAll(ns[1..], first.value);
      VisitScopes(ns[0], st);
      assert first.value.current == st.current;
      VisitAllScopes(ns[1..], first.value);
      assert RecursiveInAll(ns) == RecursiveIn(ns[0]) + RecursiveInAll(ns[1..]);
      if st.current.Some? {
        var f := st.current.value;
        assert CallsInAll(ns, f) == (CallsIn(ns[0], f) || CallsInAll(ns[1..], f));
      }
    }
  }

  // ---------------------------------------------------------------------
  // `analyze_file`

  /** `r'\[.*\].*\*\s*[0-9]{4,}'`: a list literal multiplied by a number of
      four or more digits. */
  function LargeListPattern(): Regex.Re {
    Regex.Parts(LargeListParts())
  }

  function LargeListParts(): seq<Regex.Part> {
    [Regex.One(Regex.Ch('[')), Regex.Run(Regex.Dot), Regex.One(Regex.Ch(']')), Regex.Run(Regex.Dot),
      Regex.One(Regex.Ch('*')), Regex.Run(Regex.Space), Regex.Runs(Regex.Digit, 4)]
  }

  /** `r'dict\(|{.*:.*}'`. */
  function DictPattern(): Regex.Re {
    Regex.Alt(Regex.Lit("dict("), BracePattern())
  }

  /** `{.*:.*}` */
  function BracePattern(): Regex.Re {
    Regex.Parts(BraceParts())
  }

  function BraceParts(): seq<Regex.Part> {
    [Regex.One(Regex.Ch('{')), Regex.Run(Regex.Dot), Regex.One(Regex.Ch(':')), Regex.Run(Regex.Dot),
      Regex.One(Regex.Ch('}'))]
  }

  /** `r'\.read\(\)|\.readlines\(\)'`. */
  function ReadPattern(): Regex.Re {
    Regex.Alt(Regex.Lit(".read()"), Regex.Lit(".readlines()"))
  }

  /** `r'DataFrame|numpy|np\.array'`. */
  function DataPattern(): Regex.Re {
    Regex.Alt(Regex.Lit("DataFrame"), Regex.Alt(Regex.Lit("numpy"), Regex.Lit("np.array")))
  }

  /** `_estimate_memory_usage`: 10 MB plus 100, 50, 200 and 500 MB for each
      kind of pattern found. */
  function MemoryEstimate(content: string): (r: real)
    ensures 10.0 <= r <= 860.0
  {
    10.0
    + (if Regex.Search(LargeListPattern(), content) then 100.0 else 0.0)
    + (if Regex.Search(DictPattern(), content) then 50.0 else 0.0)
    + (if Regex.Search(ReadPattern(), content) then 200.0 else 0.0)
    + (if Regex.Search(DataPattern(), content) then 500.0 else 0.0)
  }

  lemma SearchAlt(a: Regex.Re, b: Regex.Re, s: string)
    ensures Regex.Search(Regex.Alt(a, b), s) <==> Regex.Search(a, s) || Regex.Search(b, s)
  {
    if Regex.Search(Regex.Alt(a, b), s) {
      var i: nat :| i <= |s| && Regex.Ends(Regex.Alt(a, b), s, i) != {};
      assert Regex.Ends(a, s, i) != {} || Regex.Ends(b, s, i) != {};
    }
    if Regex.Search(a, s) {
      var i: nat :| i <= |s| && Regex.Ends(a, s, i) != {};
      assert Regex.Ends(Regex.Alt(a, b), s, i) != {};
    }
    if Regex.Search(b, s) {
      var i: nat :| i <= |s| && Regex.Ends(b, s, i) != {};
      assert Regex.Ends(Regex.Alt(a, b), s, i) != {};
    }
  }

  // The four memory patterns in plain-text terms. `.` stops at a line
  // break; `\s` does not.

  /** `[` at `i`, `]` at `j`, `*` at `k`, only blanks up to `l`, and four
      digits from `l`; no line break between the `[` and the `*`. */
  ghost predicate LargeListAt(s: string, i: nat, j: nat, k: nat, l: nat) {
    && i < j < k < l && l + 4 <= |s|
    && s[i] == '[' && s[j] == ']' && s[k] == '*'
    && (forall m :: i < m < k ==> s[m] != '\n')
    && (forall m :: k < m < l ==> IsSpace(s[m]))
    && (forall m :: l <= m < l + 4 ==> IsDigit(s[m]))
  }

  ghost predicate LargeListIn(s: string) {
    exists i: nat, j: nat, k: nat, l: nat :: LargeListAt(s, i, j, k, l)
  }

  /** `{` at `i`, `:` at `j` and `}` at `k`, on one line. */
  ghost predicate BracePairAt(s: string, i: nat, j: nat, k: nat) {
    && i < j < k < |s|
    && s[i] == '{' && s[j] == ':' && s[k] == '}'
    && (forall m :: i < m < k ==> s[m] != '\n')
  }

  ghost predicate DictIn(s: string) {
    Contains(s, "dict(") || exists i: nat, j: nat, k: nat :: BracePairAt(s, i, j, k)
  }

  predicate ReadIn(s: string) {
    Contains(s, ".read()") || Contains(s, ".readlines()")
  }

  predicate DataIn(s: string) {
    Contains(s, "DataFrame") || Contains(s, "numpy") || Contains(s, "np.array")
  }

  /** The estimate is 10 MB plus 100 for a large list literal, 50 for a
      dictionary, 200 for a file read and 500 for a data-science library,
      each term counted once however often its pattern occurs. */
  lemma MemoryTerms(content: string)
    ensures MemoryEstimate(content) == 10.0
      + (if LargeListIn(content) then 100.0 else 0.0)
      + (if DictIn(content) then 50.0 else 0.0)
      + (if ReadIn(content) then 200.0 else 0.0)
      + (if DataIn(content) then 500.0 else 0.0)
  {
    Regex.SearchParts(LargeListParts(), content);
    LargeListFound(content);
    SearchAlt(Regex.Lit("dict("), BracePattern(), content);
    Regex.SearchLitIsContains("dict(", content);
    Regex.SearchParts(BraceParts(), content);
    BraceFound(content);
    SearchAlt(Regex.Lit(".read()"), Regex.Lit(".readlines()"), content);
    Regex.SearchLitIsContains(".read()", content);
    Regex.SearchLitIsContains(".readlines()", content);
    SearchAlt(Regex.Lit("DataFrame"), Regex.Alt(Regex.Lit("numpy"), Regex.Lit("np.array")), content);
    SearchAlt(Regex.Lit("numpy"), Regex.Lit("np.array"), content);
    Regex.SearchLitIsContains("DataFrame", content);
    Regex.SearchLitIsContains("numpy", content);
    Regex.SearchLitIsContains("np.array", content);
  }

  lemma LargeListFound(s: string)
    ensures (exists ps: seq<nat> :: Regex.PartsAt(LargeListParts(), s, ps)) <==> LargeListIn(s)
  {
    var parts := LargeListParts();
    if exists ps: seq<nat> :: Regex.PartsAt(parts, s, ps) {
      var ps: seq<nat> :| Regex.PartsAt(parts, s, ps);
      LargeListOnly(s, ps);
    }
    if LargeListIn(s) {
      var i: nat, j: nat, k: nat, l: nat :| LargeListAt(s, i, j, k, l);
      assert Regex.PartsAt(parts, s, [i, i + 1, j, j + 1, k, k + 1, l, l + 4]);
    }
  }

  lemma LargeListOnly(s: string, ps: seq<nat>)
    requires Regex.PartsAt(LargeListParts(), s, ps)
    ensures LargeListAt(s, ps[0], ps[2], ps[4], ps[6])
  {
    var parts := LargeListParts();
    assert Regex.PartAt(parts[0], s, ps[0], ps[1]);
    assert Regex.PartAt(parts[1], s, ps[1], ps[2]);
    assert Regex.PartAt(parts[2], s, ps[2], ps[3]);
    assert Regex.PartAt(parts[3], s, ps[3], ps[4]);
    assert Regex.PartAt(parts[4], s, ps[4], ps[5]);
    assert Regex.PartAt(parts[5], s, ps[5], ps[6]);
    assert Regex.PartAt(parts[6], s, ps[6], ps[7]);
  }

  lemma BraceFound(s: string)
    ensures (exists ps: seq<nat> :: Regex.PartsAt(BraceParts(), s, ps)) <==>
      exists i: nat, j: nat, k: nat :: BracePairAt(s, i, j, k)
  {
    var parts := BraceParts();
    if exists ps: seq<nat> :: Regex.PartsAt(parts, s, ps) {
      var ps: seq<nat> :| Regex.PartsAt(parts, s, ps);
      assert Regex.PartAt(parts[0], s, ps[0], ps[1]);
      assert Regex.PartAt(parts[1], s, ps[1], ps[2]);
      assert Regex.PartAt(parts[2], s, ps[2], ps[3]);
      assert Regex.PartAt(parts[3], s, ps[3], ps[4]);
      assert Regex.PartAt(parts[4], s, ps[4], ps[5]);
      assert BracePairAt(s, ps[0], ps[2], ps[4]);
    }
    if exists i: nat, j: nat, k: nat :: BracePairAt(s, i, j, k) {
      var i: nat, j: nat, k: nat :| BracePairAt(s, i, j, k);
      assert Regex.PartsAt(parts, s, [i, i + 1, j, j + 1, k, k + 1]);
    }
  }

  /** The data-science libraries dominate the estimate: it reaches 510 MB
      exactly when one of their names occurs. */
  lemma MemoryDataScience(content: string)
    ensures MemoryEstimate(content) >= 510.0 <==>
      Contains(content, "DataFrame") || Contains(content, "numpy") || Contains(content, "np.array")
  {
    SearchAlt(Regex.Lit("DataFrame"), Regex.Alt(Regex.Lit("numpy"), Regex.Lit("np.array")), content);
    SearchAlt(Regex.Lit("numpy"), Regex.Lit("np.array"), content);
    Regex.SearchLitIsContains("DataFrame", content);
    Regex.SearchLitIsContains("numpy", content);
    Regex.SearchLitIsContains("np.array", content);
  }

  /** A file that calls `.read()` or `.readlines()` is estimated at 210 MB
      or more. */
  lemma MemoryFileRead(content: string)
    requires Contains(content, ".read()") || Contains(content, ".readlines()")
    ensures MemoryEstimate(content) >= 210.0
  {
    SearchAlt(Regex.Lit(".read()"), Regex.Lit(".readlines()"), content);
    Regex.SearchLitIsContains(".read()", content);
    Regex.SearchLitIsContains(".readlines()", content);
  }

  /** `analyze_file`. Without a tree the defaults come back; a visit error
      leaves the call. */
  function AnalyzeFile(content: string, tree: Option<Node>): (r: Result<Metrics, AnalysisError>)
    ensures r.Ok? ==> r.value.loc == Occurrences(content, '\n') + 1
    ensures tree.None? ==>
      (r.Ok? && r.value.cyclomatic == 1 && r.value.memory == 0.0 &&
       r.value.maxDepth == 0 && r.value.functions == 0 && r.value.classes == 0 && r.value.recursive == {} &&
       r.value.iterations == 0.0 && !r.value.io && !r.value.expensive)
  {
    var loc := Occurrences(content, '\n') + 1;
    if tree.None? then Ok(Metrics(loc, 1, 0, 0, 0, {}, 0.0, 0.0, false, false))
    else
      var v := Visit(tree.value, Initial);
      if v.Err? then Err(v.error)
      else Ok(FromTally(loc, v.value, MemoryEstimate(content)))
  }

  /** The metrics record `analyze_file` builds from the visitor's totals. */
  function FromTally(loc: nat, t: Tally, memory: real): (m: Metrics)
    ensures m.loc == loc && m.memory == memory && m.cyclomatic == 1 + t.counts.branches
    ensures m.maxDepth == t.maxDepth && m.recursive == t.recursive
    ensures m.functions == t.counts.functions && m.classes == t.counts.classes
    ensures m.iterations == t.counts.iterations && m.io == t.counts.io && m.expensive == t.counts.expensive
  {
    Metrics(loc, 1 + t.counts.branches, t.maxDepth, t.counts.functions, t.counts.classes, t.recursive,
      memory, t.counts.iterations, t.counts.io, t.counts.expensive)
  }

  /** A parsed file fails exactly when one of its `range` constants is not
      a number. */
  lemma AnalyzeFileFails(content: string, t: Node)
    ensures AnalyzeFile(content, Some(t)).Err? <==> CountIf(Pre(t), Broken) > 0
  {
    VisitCounts(t, Initial);
  }

  /** On a parsed file the counted metrics are those of the tree: one plus
      the branches, the definitions, the loop estimate and the call flags. */
  lemma AnalyzeFileCounts(content: string, t: Node)
    requires AnalyzeFile(content, Some(t)).Ok?
    ensures var m := AnalyzeFile(content, Some(t)).value; var ns := Pre(t);
      && m.cyclomatic == 1 + CountIf(ns, IsBranch)
      && m.functions == CountIf(ns, IsFunction)
      && m.classes == CountIf(ns, IsClass)
      && m.iterations == 1000.0 * CountIf(ns, IsWhile) as real + RangeTotal(ns)
      && (m.io <==> CountIf(ns, IsIoCall) > 0)
      && (m.expensive <==> CountIf(ns, IsExpensiveCall) > 0)
      && m.memory == MemoryEstimate(content)
  {
    var v := Visit(t, Initial);
    assert v.Ok?;
    var m := FromTally(Occurrences(content, '\n') + 1, v.value, MemoryEstimate(content));
    assert AnalyzeFile(content, Some(t)).value == m;
    var c := SumCounts(Pre(t));
    VisitCounts(t, Initial);
    PlusNone(c);
    assert v.value.counts == c;
    SumCountsFields(Pre(t));
  }

  /** A visit from the initial state reaches the tree's deepest nesting and
      records its recursive functions. */
  lemma InitialVisit(t: Node, st: Tally)
    requires st.depth == 0 && st.maxDepth == 0 && st.recursive == {}
    requires Visit(t, st).Ok?
    ensures Visit(t, st).value.maxDepth == Nest(t)
    ensures Visit(t, st).value.recursive == RecursiveIn(t)
  {
    VisitDepth(t, st);
    VisitScopes(t, st);
  }

  /** On a parsed file the nesting depth is the deepest chain of `if`,
      `for` and `while` statements and the recursive functions are those of
      the tree. */
  lemma AnalyzeFileScopes(content: string, t: Node)
    requires AnalyzeFile(content, Some(t)).Ok?
    ensures AnalyzeFile(content, Some(t)).value.maxDepth == Nest(t)
    ensures AnalyzeFile(content, Some(t)).value.recursive == RecursiveIn(t)
  {
    var v := Visit(t, Initial);
    assert v.Ok?;
    InitialVisit(t, Initial);
    var m := FromTally(Occurrences(content, '\n') + 1, v.value, MemoryEstimate(content));
    assert AnalyzeFile(content, Some(t)).value == m;
  }

  // ---------------------------------------------------------------------
  // Score and emissions

  /** Each part of the score: `min(cap, x / scale * cap)`. */
  function Part(cap: real, x: real, scale: real): (r: real)
    requires scale > 0.0 && cap >= 0.0
    ensures r <= cap && (x >= 0.0 ==> r >= 0.0)
  {
    MinR(cap, (x / scale) * cap)
  }

  lemma PartMonotone(cap: real, x: real, y: real, scale: real)
    requires scale > 0.0 && cap >= 0.0 && x <= y
    ensures Part(cap, x, scale) <= Part(cap, y, scale)
  {
    assert (x / scale) * cap <= (y / scale) * cap;
  }

  /** The recursion part: two points per recursive function, at most ten. */
  function RecursionPart(m: Metrics): (r: real)
    ensures 0.0 <= r <= 10.0
  {
    if |m.recursive| > 0 then MinR(10.0, (|m.recursive| * 2) as real) else 0.0
  }

  /** The sum of the parts before the overall cap. */
  function ScoreParts(m: Metrics): (r: real)
    ensures r <= 110.0
    ensures m.iterations >= 0.0 ==> r >= 0.0
  {
    Part(20.0, m.loc as real, 1000.0)
    + Part(25.0, m.cyclomatic as real, 50.0)
    + Part(15.0, m.maxDepth as real, 10.0)
    + Part(20.0, m.iterations, 100000.0)
    + Part(10.0, (m.functions + m.classes) as real, 100.0)
    + (if m.io then 5.0 else 0.0)
    + (if m.expensive then 5.0 else 0.0)
    + RecursionPart(m)
  }

  /** `calculate_complexity_score`. */
  function ComplexityScore(m: Metrics): (r: real)
    ensures r <= 100.0
    ensures m.iterations >= 0.0 ==> 0.0 <= r
  {
    MinR(100.0, ScoreParts(m))
  }

  /** `m1` is `m2` with no more lines, branches, nesting, loop iterations or
      memory, and otherwise the same. */
  predicate Dominated(m1: Metrics, m2: Metrics) {
    && m1.loc <= m2.loc && m1.cyclomatic <= m2.cyclomatic && m1.maxDepth <= m2.maxDepth
    && m1.iterations <= m2.iterations && m1.memory <= m2.memory
    && m1.functions == m2.functions && m1.classes == m2.classes && m1.recursive == m2.recursive
    && m1.io == m2.io && m1.expensive == m2.expensive
  }

  lemma ScoreMonotone(m1: Metrics, m2: Metrics)
    requires Dominated(m1, m2)
    ensures ComplexityScore(m1) <= ComplexityScore(m2)
  {
    PartMonotone(20.0, m1.loc as real, m2.loc as real, 1000.0);
    PartMonotone(25.0, m1.cyclomatic as real, m2.cyclomatic as real, 50.0);
    PartMonotone(15.0, m1.maxDepth as real, m2.maxDepth as real, 10.0);
    PartMonotone(20.0, m1.iterations, m2.iterations, 100000.0);
    assert RecursionPart(m1) == RecursionPart(m2);
    assert ScoreParts(m1) <= ScoreParts(m2);
  }

  /** The estimate before calibration. */
  function RawEmissions(m: Metrics): real {
    (m.loc as real / 1000.0) * 0.0000001
    + (ComplexityScore(m) / 100.0) * 0.00000001
    + (m.iterations / 100000.0) * 0.00000001
    + (if m.io then 0.0000001 else 0.0)
    + (m.memory / 100.0) * 0.00000001
    + (if |m.recursive| > 0 then |m.recursive| as real * 0.00000001 else 0.0)
    + (if m.expensive then 0.00000001 else 0.0)
  }

  const EmissionFloor: real := 0.00000001

  /** `estimate_emissions` with the calibration coefficient: never below
      1e-8 kg. */
  function Emissions(m: Metrics, coefficient: real): (r: real)
    ensures r >= EmissionFloor
  {
    Calibrated(RawEmissions(m), coefficient)
  }

  /** `max(raw * calibration_coefficient, 1e-8)`. */
  function Calibrated(raw: real, coefficient: real): (r: real)
    ensures r >= EmissionFloor
    ensures r == EmissionFloor || r == raw * coefficient
  {
    MaxR(raw * coefficient, EmissionFloor)
  }

  lemma MulMonotone(a: real, b: real, c: real)
    requires a <= b && 0.0 <= c
    ensures a * c <= b * c
  {
  }

  lemma CalibratedMonotone(a: real, b: real, c: real)
    requires a <= b && 0.0 <= c
    ensures Calibrated(a, c) <= Calibrated(b, c)
  {
    MulMonotone(a, b, c);
  }

  lemma RawMonotone(m1: Metrics, m2: Metrics)
    requires Dominated(m1, m2)
    ensures RawEmissions(m1) <= RawEmissions(m2)
  {
    ScoreMonotone(m1, m2);
  }

  /** More lines, branches, nesting, loop iterations or memory never lower
      the estimate, for a non-negative coefficient. */
  lemma EmissionsMonotone(m1: Metrics, m2: Metrics, coefficient: real)
    requires Dominated(m1, m2) && coefficient >= 0.0
    ensures Emissions(m1, coefficient) <= Emissions(m2, coefficient)
  {
    RawMonotone(m1, m2);
    CalibratedMonotone(RawEmissions(m1), RawEmissions(m2), coefficient);
  }

  lemma RawNonNegative(m: Metrics)
    requires m.iterations >= 0.0 && m.memory >= 0.0
    ensures RawEmissions(m) >= 0.0
  {
  }

  lemma CalibratedNoCoefficient(raw: real, coefficient: real)
    requires raw >= 0.0 && coefficient <= 0.0
    ensures Calibrated(raw, coefficient) == EmissionFloor
  {
    MulMonotone(coefficient, 0.0, raw);
  }

  /** A coefficient of zero or below leaves only the floor, for any metrics
      a file can have. */
  lemma EmissionsNoCoefficient(m: Metrics, coefficient: real)
    requires m.iterations >= 0.0 && m.memory >= 0.0 && coefficient <= 0.0
    ensures Emissions(m, coefficient) == EmissionFloor
  {
    RawNonNegative(m);
    CalibratedNoCoefficient(RawEmissions(m), coefficient);
  }

  // ---------------------------------------------------------------------
  // `analyze_codebase`

  datatype SourceFile = SourceFile(path: string, content: string, tree: Option<Node>)

  predicate IsPython(f: SourceFile) { EndsWith(f.path, ".py") }

  /** The estimate of one file, or the error its analysis raises. */
  function FileEmissions(f: SourceFile, coefficient: real): (r: Result<real, AnalysisError>)
    ensures r.Ok? ==> r.value >= EmissionFloor
    ensures r.Err? <==> AnalyzeFile(f.content, f.tree).Err?
  {
    var m := AnalyzeFile(f.content, f.tree);
    if m.Err? then Err(m.error) else Ok(Emissions(m.value, coefficient))
  }

  /** The paths of the Python files among `files`. */
  function PythonPaths(files: seq<SourceFile>): (r: set<string>)
    ensures forall p :: p in r <==> exists k :: 0 <= k < |files| && IsPython(files[k]) && files[k].path == p
    decreases |files|
  {
    if files == [] then {}
    else
      var n := |files| - 1;
      var rest := PythonPaths(files[..n]);
      assert forall k :: 0 <= k < n ==> files[..n][k] == files[k];
      if IsPython(files[n]) then rest + {files[n].path} else rest
  }

  /** The loop of `analyze_codebase` for a given per-file estimate: the
      Python files in order, the running total and the estimate per path;
      the first failing file ends the loop. */
  function Collect(files: seq<SourceFile>, estimate: SourceFile -> Result<real, AnalysisError>): (r: Result<(real, map<string, real>), AnalysisError>)
    ensures r.Ok? ==> r.value.1.Keys == PythonPaths(files)
    decreases |files|
  {
    if files == [] then Ok((0.0, map[]))
    else
      var n := |files| - 1;
      var before := Collect(files[..n], estimate);
      if before.Err? then before
      else if !IsPython(files[n]) then before
      else
        var e := estimate(files[n]);
        if e.Err? then Err(e.error)
        else Ok((before.value.0 + e.value, before.value.1[files[n].path := e.value]))
  }

  /** `analyze_codebase`. */
  function AnalyzeCodebase(files: seq<SourceFile>, coefficient: real): (r: Result<(real, map<string, real>), AnalysisError>)
    ensures r.Ok? ==> r.value.1.Keys == PythonPaths(files)
  {
    Collect(files, f => FileEmissions(f, coefficient))
  }

  /** A Python file whose estimate fails. */
  predicate Fails(f: SourceFile, estimate: SourceFile -> Result<real, AnalysisError>) {
    IsPython(f) && estimate(f).Err?
  }

  lemma {:induction false} CollectFails(files: seq<SourceFile>, estimate: SourceFile -> Result<real, AnalysisError>)
    ensures Collect(files, estimate).Err? <==> exists k :: 0 <= k < |files| && Fails(files[k], estimate)
    decreases |files|
  {
    if files != [] {
      var n := |files| - 1;
      var init := files[..n];
      CollectFails(init, estimate);
      if Collect(files, estimate).Err? {
        if Collect(init, estimate).Err? {
          var k :| 0 <= k < |init| && Fails(init[k], estimate);
          assert files[k] == init[k];
        } else {
          assert Fails(files[n], estimate);
        }
      } else {
        assert Collect(init, estimate).Ok? && !Fails(files[n], estimate);
        forall k | 0 <= k < |files|
          ensures !Fails(files[k], estimate)
        {
          if k < n {
            assert files[k] == init[k];
          }
        }
      }
    }
  }

  /** The call fails exactly when the analysis of some Python file does. */
  lemma CodebaseFails(files: seq<SourceFile>, coefficient: real)
    ensures AnalyzeCodebase(files, coefficient).Err? <==>
      exists k :: 0 <= k < |files| && IsPython(files[k]) && AnalyzeFile(files[k].content, files[k].tree).Err?
  {
    var estimate := f => FileEmissions(f, coefficient);
    CollectFails(files, estimate);
    assert forall k :: 0 <= k < |files| ==>
      (Fails(files[k], estimate) <==> IsPython(files[k]) && AnalyzeFile(files[k].content, files[k].tree).Err?);
  }

  lemma {:induction false} CollectTotal(files: seq<SourceFile>, estimate: SourceFile -> Result<real, AnalysisError>)
    requires forall f :: estimate(f).Ok? ==> estimate(f).value >= EmissionFloor
    requires Collect(files, estimate).Ok?
    ensures Collect(files, estimate).value.0 >= EmissionFloor * CountIf(files, IsPython) as real
    decreases |files|
  {
    if files != [] {
      var n := |files| - 1;
      var init := files[..n];
      assert files == init + [files[n]];
      CountIfAppend(init, [files[n]], IsPython);
      CollectTotal(init, estimate);
    }
  }

  lemma {:induction false} CollectStored(files: seq<SourceFile>, estimate: SourceFile -> Result<real, AnalysisError>, path: string)
    requires forall f :: estimate(f).Ok? ==> estimate(f).value >= EmissionFloor
    requires Collect(files, estimate).Ok? && path in Collect(files, estimate).value.1
    ensures Collect(files, estimate).value.1[path] >= EmissionFloor
    decreases |files|
  {
    var n := |files| - 1;
    if !(IsPython(files[n]) && path == files[n].path) {
      CollectStored(files[..n], estimate, path);
    }
  }

  /** The total is at least the floor for every Python file, and so is
      every estimate stored per file. */
  lemma CodebaseFloor(files: seq<SourceFile>, coefficient: real, path: string)
    requires AnalyzeCodebase(files, coefficient).Ok?
    ensures AnalyzeCodebase(files, coefficient).value.0 >= EmissionFloor * CountIf(files, IsPython) as real
    ensures path in AnalyzeCodebase(files, coefficient).value.1 ==>
      AnalyzeCodebase(files, coefficient).value.1[path] >= EmissionFloor
  {
    CollectTotal(files, f => FileEmissions(f, coefficient));
    if path in AnalyzeCodebase(files, coefficient).value.1 {
      CollectStored(files, f => FileEmissions(f, coefficient), path);
    }
  }

  /** The estimates of the given files, in order; a failed one reads as 0. */
  function EstimateValues(fs: seq<SourceFile>, estimate: SourceFile -> Result<real, AnalysisError>): (r: seq<real>)
    ensures |r| == |fs|
  {
    seq(|fs|, k requires 0 <= k < |fs| => var e := estimate(fs[k]); if e.Ok? then e.value else 0.0)
  }

  lemma EstimateValuesAppend(a: seq<SourceFile>, b: seq<SourceFile>, estimate: SourceFile -> Result<real, AnalysisError>)
    ensures EstimateValues(a + b, estimate) == EstimateValues(a, estimate) + EstimateValues(b, estimate)
  {
  }

  /** The total is the sum of the estimates of the Python files, in list
      order, a path listed twice counted twice. */
  lemma {:induction false} CollectSum(files: seq<SourceFile>, estimate: SourceFile -> Result<real, AnalysisError>)
    requires Collect(files, estimate).Ok?
    ensures Collect(files, estimate).value.0 == SumReals(EstimateValues(Filter(files, IsPython), estimate))
    decreases |files|
  {
    if files != [] {
      var n := |files| - 1;
      var init := files[..n];
      var last := [files[n]];
      assert files == init + last;
      CollectSum(init, estimate);
      FilterAppend(init, last, IsPython);
      assert last[1..] == [];
      var pi, pl := Filter(init, IsPython), Filter(last, IsPython);
      EstimateValuesAppend(pi, pl, estimate);
      SumRealsAppend(EstimateValues(pi, estimate), EstimateValues(pl, estimate));
    }
  }

  /** One step of the loop: the last file, when it is a Python file, sets
      its path's entry. */
  lemma CollectStep(files: seq<SourceFile>, estimate: SourceFile -> Result<real, AnalysisError>)
    requires files != [] && Collect(files, estimate).Ok?
    ensures Collect(files[..|files| - 1], estimate).Ok?
    ensures var last := files[|files| - 1];
      var before := Collect(files[..|files| - 1], estimate).value.1;
      && (IsPython(last) ==> estimate(last).Ok?)
      && Collect(files, estimate).value.1 ==
         if IsPython(last) then before[last.path := estimate(last).value] else before
  {
  }

  /** The estimate stored for a path is that of the last Python file with
      that path: a later entry overwrites an earlier one. */
  lemma {:induction false} CollectLast(files: seq<SourceFile>, estimate: SourceFile -> Result<real, AnalysisError>, path: string)
    returns (k: nat)
    requires Collect(files, estimate).Ok? && path in Collect(files, estimate).value.1
    ensures k < |files| && IsPython(files[k]) && files[k].path == path
    ensures estimate(files[k]) == Ok(Collect(files, estimate).value.1[path])
    ensures forall m :: k < m < |files| && IsPython(files[m]) ==> files[m].path != path
    decreases |files|
  {
    var n := |files| - 1;
    var init := files[..n];
    CollectStep(files, estimate);
    if IsPython(files[n]) && files[n].path == path {
      k := n;
    } else {
      k := CollectLast(init, estimate, path);
      assert files[k] == init[k];
      forall m | k < m < |files| && IsPython(files[m])
        ensures files[m].path != path
      {
        if m < n {
          assert files[m] == init[m];
        }
      }
    }
  }

  /** `analyze_codebase` returns the sum of the estimates of the Python
      files in list order, and for each path the estimate of the last Python
      file listed with that path. */
  lemma CodebaseTotals(files: seq<SourceFile>, coefficient: real, path: string)
    requires AnalyzeCodebase(files, coefficient).Ok?
    ensures AnalyzeCodebase(files, coefficient).value.0 ==
      SumReals(EstimateValues(Filter(files, IsPython), f => FileEmissions(f, coefficient)))
    ensures path in AnalyzeCodebase(files, coefficient).value.1 ==>
      exists k :: 0 <= k < |files| && IsPython(files[k]) && files[k].path == path
        && FileEmissions(files[k], coefficient) == Ok(AnalyzeCodebase(files, coefficient).value.1[path])
        && forall m :: k < m < |files| && IsPython(files[m]) ==> files[m].path != path
  {
    var estimate := f => FileEmissions(f, coefficient);
    CollectSum(files, estimate);
    if path in AnalyzeCodebase(files, coefficient).value.1 {
      var k := CollectLast(files, estimate, path);
      assert estimate(files[k]) == FileEmissions(files[k], coefficient);
    }
  }

  // ---------------------------------------------------------------------
  // `get_per_line_emissions`

  /** `severity_weights.get(issue.get('severity', 'low'), 1)`. */
  function SeverityWeight(i: Issue): nat {
    var s := Or(i.severity, "low");
    if s == "high" then 3 else if s == "medium" then 2 else 1
  }

  function TotalWeight(issues: seq<Issue>): nat {
    if issues == [] then 0 else SeverityWeight(issues[0]) + TotalWeight(issues[1..])
  }

  lemma Distrib(a: real, b: real, c: real)
    ensures (a + b) * c == a * c + b * c
  {
  }

  /** `weight / total_weight * codebase_emissions`. */
  function Share(weight: nat, w: real, total: real): (r: real)
    requires w > 0.0
    ensures r * w == weight as real * total
  {
    var q := weight as real / w;
    assert q * w == weight as real;
    assert (q * total) * w == (q * w) * total;
    q * total
  }

  /** `a * b` as one term: statements about products of computed values
      are written with it. */
  function Product(a: real, b: real): real { a * b }

  lemma ShareProduct(x: real, weight: nat, w: real, total: real)
    requires w > 0.0 && x == Share(weight, w, total)
    ensures Product(x, w) == Product(weight as real, total)
  {
  }

  /** Each issue with its share of `total` out of the weight `w`. */
  function Spread(issues: seq<Issue>, w: real, total: real): (r: seq<Issue>)
    requires w > 0.0
    ensures |r| == |issues|
    ensures forall k :: 0 <= k < |r| ==>
      r[k] == issues[k].(emissions := Some(Share(SeverityWeight(issues[k]), w, total)))
  {
    if issues == [] then []
    else
      var rest := Spread(issues[1..], w, total);
      assert forall k :: 1 <= k <= |rest| ==> issues[k] == issues[1..][k - 1];
      [issues[0].(emissions := Some(Share(SeverityWeight(issues[0]), w, total)))] + rest
  }

  lemma {:induction false} TotalWeightPositive(issues: seq<Issue>)
    ensures TotalWeight(issues) >= |issues|
  {
    if issues != [] {
      TotalWeightPositive(issues[1..]);
    }
  }

  /** `get_per_line_emissions`: every issue gets `codebase_emissions`, zero
      when there is nothing to spread, else its severity-weighted share. */
  function PerLineEmissions(issues: seq<Issue>, total: real): (r: seq<Issue>)
    ensures |r| == |issues|
    ensures forall k :: 0 <= k < |r| ==> r[k].emissions.Some? && r[k] == issues[k].(emissions := r[k].emissions)
  {
    if issues == [] || total == 0.0 then Spread(issues, 1.0, 0.0)
    else
      TotalWeightPositive(issues);
      Spread(issues, TotalWeight(issues) as real, total)
  }

  lemma MulZero(a: real, b: real)
    requires a == 0.0
    ensures a * b == 0.0 && b * a == 0.0
  {
  }

  /** Nothing to spread gives every issue zero. */
  lemma PerLineZero(issues: seq<Issue>, k: nat)
    requires k < |issues|
    ensures PerLineEmissions(issues, 0.0)[k].emissions == Some(0.0)
  {
    var s := Share(SeverityWeight(issues[k]), 1.0, 0.0);
    assert s * 1.0 == s;
  }

  lemma PerLineZeroProduct(issues: seq<Issue>, k: nat)
    requires k < |issues|
    ensures Product(PerLineEmissions(issues, 0.0)[k].emissions.value, TotalWeight(issues) as real) ==
      Product(SeverityWeight(issues[k]) as real, 0.0)
  {
    PerLineZero(issues, k);
    MulZero(PerLineEmissions(issues, 0.0)[k].emissions.value, TotalWeight(issues) as real);
  }

  lemma PerLineShareProduct(issues: seq<Issue>, total: real, k: nat)
    requires k < |issues| && total != 0.0
    ensures Product(PerLineEmissions(issues, total)[k].emissions.value, TotalWeight(issues) as real) ==
      Product(SeverityWeight(issues[k]) as real, total)
  {
    TotalWeightPositive(issues);
    assert PerLineEmissions(issues, total) == Spread(issues, TotalWeight(issues) as real, total);
    ShareProduct(PerLineEmissions(issues, total)[k].emissions.value, SeverityWeight(issues[k]),
      TotalWeight(issues) as real, total);
  }

  /** Each issue's share is proportional to its severity weight:
      `share * total_weight == weight * total`. */
  lemma PerLineProportional(issues: seq<Issue>, total: real, k: nat)
    requires k < |issues|
    ensures Product(PerLineEmissions(issues, total)[k].emissions.value, TotalWeight(issues) as real) ==
      Product(SeverityWeight(issues[k]) as real, total)
  {
    if total == 0.0 {
      PerLineZeroProduct(issues, k);
    } else {
      PerLineShareProduct(issues, total, k);
    }
  }

  function EmissionsOf(issues: seq<Issue>): seq<real> {
    if issues == [] then [] else [Or(issues[0].emissions, 0.0)] + EmissionsOf(issues[1..])
  }

  lemma Cancel(x: real, y: real, w: real)
    requires w > 0.0 && x * w == y * w
    ensures x == y
  {
    assert (x - y) * w == 0.0;
  }

  /** Shares of the same total add up like their weights. */
  lemma ShareAdd(a: nat, b: nat, w: real, total: real)
    requires w > 0.0
    ensures Share(a, w, total) + Share(b, w, total) == Share(a + b, w, total)
  {
    var x, y, z := Share(a, w, total), Share(b, w, total), Share(a + b, w, total);
    Distrib(x, y, w);
    Distrib(a as real, b as real, total);
    Cancel(x + y, z, w);
  }

  lemma {:induction false} SpreadSum(issues: seq<Issue>, w: real, total: real)
    requires w > 0.0
    ensures SumReals(EmissionsOf(Spread(issues, w, total))) == Share(TotalWeight(issues), w, total)
  {
    var r := Spread(issues, w, total);
    if issues == [] {
      MulZero(0.0, total);
      Cancel(Share(0, w, total), 0.0, w);
    } else {
      assert r[1..] == Spread(issues[1..], w, total);
      SpreadSum(issues[1..], w, total);
      var a := SeverityWeight(issues[0]);
      var b := TotalWeight(issues[1..]);
      assert SumReals(EmissionsOf(r)) == Share(a, w, total) + SumReals(EmissionsOf(r[1..]));
      ShareAdd(a, b, w, total);
    }
  }

  /** The whole weight's share is the whole total. */
  lemma ShareWhole(w: nat, total: real)
    requires w > 0
    ensures Share(w, w as real, total) == total
  {
    Cancel(Share(w, w as real, total), total, w as real);
  }

  /** The shares add up to the whole total. */
  lemma PerLineEmissionsSum(issues: seq<Issue>, total: real)
    requires issues != []
    ensures SumReals(EmissionsOf(PerLineEmissions(issues, total))) == total
  {
    TotalWeightPositive(issues);
    if total == 0.0 {
      SpreadSum(issues, 1.0, 0.0);
      MulZero(0.0, TotalWeight(issues) as real);
      Cancel(Share(TotalWeight(issues), 1.0, 0.0), 0.0, 1.0);
    } else {
      SpreadSum(issues, TotalWeight(issues) as real, total);
      ShareWhole(TotalWeight(issues), total);
    }
  }
}

=== FILE: charts.dfy ===
/** `ChartDataGenerator`: the dashboard's chart data computed from a scan's
    issues and per-file emissions. Percentages are kept as exact quotients;
    Python's rounding of them for display is not modelled. */
module Charts {
  import opened Common
  import opened Issues
  import Sorting
  import Tally

  /** `issue.get('codebase_emissions', 0.0)`. */
  function EmissionsOf(i: Issue): real {
    Or(i.emissions, 0.0)
  }

  function Percent(count: nat, total: nat): real {
    if total > 0 then (count as real) / (total as real) * 100.0 else 0.0
  }

  // ------------------------------------------------------------ severity

  const SeverityNames: seq<string> := ["critical", "high", "medium", "low"]
  const SeverityLabels: seq<string> := ["Critical", "High", "Medium", "Low"]
  const SeverityColours: seq<string> := ["#dc2626", "#dc2626", "#f59e0b", "#3b82f6"]

  /** `issue.get('severity', 'low').lower()`. */
  function ChartSeverity(i: Issue): string {
    Lower(Or(i.severity, "low"))
  }

  datatype SeverityChart = SeverityChart(labels: seq<string>, data: seq<nat>, colours: seq<string>, percentages: seq<real>, total: nat)

  /** One pass of the loop over the four severities: a bar when the severity
      was seen or there is any issue at all. */
  function SeverityBars(counts: Tally.Counts<string>, total: nat, k: nat): (c: SeverityChart)
    requires k <= 4
    ensures |c.labels| == |c.data| == |c.colours| == |c.percentages|
    decreases 4 - k
  {
    if k == 4 then SeverityChart([], [], [], [], total)
    else
      var rest := SeverityBars(counts, total, k + 1);
      var s := SeverityNames[k];
      if s in Tally.Keys(counts) || total > 0 then
        var n := Tally.CountOf(counts, s);
        SeverityChart([SeverityLabels[k]] + rest.labels, [n] + rest.data, [SeverityColours[k]] + rest.colours,
          [Percent(n, total)] + rest.percentages, total)
      else rest
  }

  /** `violations_by_severity`. */
  function ViolationsBySeverity(issues: seq<Issue>): (c: SeverityChart)
    ensures |c.labels| == |c.data| == |c.colours| == |c.percentages|
  {
    var counts := Tally.TallyBy(issues, ChartSeverity);
    SeverityBars(counts, Tally.SumCounts(counts), 0)
  }

  /** The total counts every issue; the four bars appear together exactly
      when there is an issue, each bar counting the issues of its severity,
      and the bars add up to no more than the total, because other
      severities count only there. */
  lemma SeverityChartFacts(issues: seq<Issue>)
    ensures var c := ViolationsBySeverity(issues);
      && c.total == |issues|
      && (issues == [] ==> c.labels == [])
      && (issues != [] ==>
            && c.labels == SeverityLabels && c.colours == SeverityColours && |c.data| == 4
            && (forall k :: 0 <= k < 4 ==> c.data[k] == CountIf(issues, Tally.KeyIs(ChartSeverity, SeverityNames[k])))
            && c.data[0] + c.data[1] + c.data[2] + c.data[3] <= c.total)
  {
    var counts := Tally.TallyBy(issues, ChartSeverity);
    Tally.TallyCounts(issues, ChartSeverity);
    Tally.TallyKeys(issues, ChartSeverity);
    if issues == [] {
      assert Tally.Keys(counts) == {};
      NoBars(counts, 0);
    } else {
      var c := ViolationsBySeverity(issues);
      AllBars(counts, |issues|, 0);
      FourSeverities(issues);
    }
  }

  lemma {:induction false} NoBars(counts: Tally.Counts<string>, k: nat)
    requires k <= 4 && Tally.Keys(counts) == {}
    ensures SeverityBars(counts, 0, k).labels == []
    decreases 4 - k
  {
    if k < 4 {
      NoBars(counts, k + 1);
    }
  }

  /** With any issue at all, every severity gets a bar, in order. */
  lemma {:induction false} AllBars(counts: Tally.Counts<string>, total: nat, k: nat)
    requires k <= 4 && total > 0
    ensures SeverityBars(counts, total, k).labels == SeverityLabels[k..]
    ensures SeverityBars(counts, total, k).colours == SeverityColours[k..]
    ensures SeverityBars(counts, total, k).data == BarData(counts, k)
    decreases 4 - k
  {
    if k < 4 {
      AllBars(counts, total, k + 1);
      assert SeverityLabels[k..] == [SeverityLabels[k]] + SeverityLabels[k + 1..];
      assert SeverityColours[k..] == [SeverityColours[k]] + SeverityColours[k + 1..];
    }
  }

  /** The counts of the severities from the `k`-th on. */
  function BarData(counts: Tally.Counts<string>, k: nat): (r: seq<nat>)
    requires k <= 4
    ensures |r| == 4 - k
    ensures forall j :: k <= j < 4 ==> r[j - k] == Tally.CountOf(counts, SeverityNames[j])
    decreases 4 - k
  {
    if k == 4 then [] else [Tally.CountOf(counts, SeverityNames[k])] + BarData(counts, k + 1)
  }

  /** The four named severities are disjoint, so their counts add up to no
      more than the number of issues. */
  lemma {:induction false} FourSeverities(issues: seq<Issue>)
    ensures CountIf(issues, Tally.KeyIs(ChartSeverity, "critical")) + CountIf(issues, Tally.KeyIs(ChartSeverity, "high"))
      + CountIf(issues, Tally.KeyIs(ChartSeverity, "medium")) + CountIf(issues, Tally.KeyIs(ChartSeverity, "low")) <= |issues|
  {
    if issues != [] {
      FourSeverities(issues[1..]);
    }
  }

  // ---------------------------------------------------------------- type

  /** The category of a lowercased rule id: the first of memory; cpu or
      loop; io or disk; network; energy or battery that it contains, else
      Other. */
  function Category(id: string): (c: string)
    ensures Contains(id, "memory") ==> c == "Memory"
    ensures c in {"CPU", "Energy", "I/O", "Memory", "Network", "Other"}
  {
    if Contains(id, "memory") then "Memory"
    else if Contains(id, "cpu") || Contains(id, "loop") then "CPU"
    else if Contains(id, "io") || Contains(id, "disk") then "I/O"
    else if Contains(id, "network") then "Network"
    else if Contains(id, "energy") || Contains(id, "battery") then "Energy"
    else "Other"
  }

  function CategoryOf(i: Issue): string {
    Category(Lower(Or(i.id, "unknown")))
  }

  predicate IsGreen(i: Issue) {
    Or(i.issueType, "unknown") == "green_violation"
  }

  datatype TypeChart = TypeChart(labels: seq<string>, data: seq<nat>, percentages: seq<real>, total: nat)

  function KeysInOrder(e: Tally.Counts<string>): (r: seq<string>)
    ensures |r| == |e| && forall k :: 0 <= k < |e| ==> r[k] == e[k].0
  {
    seq(|e|, k requires 0 <= k < |e| => e[k].0)
  }

  /** `violations_by_type`: every issue counts in the total, but only green
      violations are put in a category; the labels are the categories seen,
      sorted. */
  function ViolationsByType(issues: seq<Issue>): (c: TypeChart)
    ensures c.total == |issues| && |c.labels| == |c.data| == |c.percentages|
  {
    var green := Filter(issues, IsGreen);
    var counts := Tally.TallyBy(green, CategoryOf);
    var labels := Sorting.SortBy(KeysInOrder(counts), Sorting.StrLe);
    var data := seq(|labels|, k requires 0 <= k < |labels| => Tally.CountOf(counts, labels[k]));
    TypeChart(labels, data, seq(|data|, k requires 0 <= k < |data| => Percent(data[k], |issues|)), |issues|)
  }

  /** The labels are in string order. */
  lemma TypeChartSorted(issues: seq<Issue>)
    ensures Sorting.SortedBy(ViolationsByType(issues).labels, Sorting.StrLe)
  {
    var counts := Tally.TallyBy(Filter(issues, IsGreen), CategoryOf);
    Sorting.StrLePreorder();
    Sorting.SortBySorted(KeysInOrder(counts), Sorting.StrLe);
  }

  /** The labels are the categories of the green violations. */
  lemma TypeChartLabels(issues: seq<Issue>)
    ensures var green := Filter(issues, IsGreen);
      forall l :: l in ViolationsByType(issues).labels <==> exists i :: i in green && CategoryOf(i) == l
  {
    var green := Filter(issues, IsGreen);
    var counts := Tally.TallyBy(green, CategoryOf);
    Tally.TallyKeys(green, CategoryOf);
    var labels := Sorting.SortBy(KeysInOrder(counts), Sorting.StrLe);
    forall l ensures l in labels <==> l in Tally.Keys(counts) {
      assert l in labels <==> l in multiset(labels);
      assert l in KeysInOrder(counts) <==> l in Tally.Keys(counts);
    }
  }

  /** Each bar counts the green violations of its category. */
  lemma TypeChartCounts(issues: seq<Issue>)
    ensures var c, green := ViolationsByType(issues), Filter(issues, IsGreen);
      forall k :: 0 <= k < |c.labels| ==> c.data[k] == CountIf(green, Tally.KeyIs(CategoryOf, c.labels[k]))
  {
    var green := Filter(issues, IsGreen);
    var counts := Tally.TallyBy(green, CategoryOf);
    Tally.TallyCounts(green, CategoryOf);
  }

  // ---------------------------------------------------------------- file

  function FileOf(i: Issue): string {
    Or(i.file, "unknown")
  }

  datatype FileEntry = FileEntry(file: string, count: nat, emissions: real)

  /** The emissions of the issues in one file. */
  function FileEmissions(issues: seq<Issue>, file: string): real {
    if issues == [] then 0.0
    else (if FileOf(issues[0]) == file then EmissionsOf(issues[0]) else 0.0) + FileEmissions(issues[1..], file)
  }

  /** `file_violations`, in first-appearance order. */
  function FileEntries(issues: seq<Issue>): (r: seq<FileEntry>)
    ensures |r| == |Tally.TallyBy(issues, FileOf)|
  {
    var counts := Tally.TallyBy(issues, FileOf);
    seq(|counts|, k requires 0 <= k < |counts| => FileEntry(counts[k].0, counts[k].1, FileEmissions(issues, counts[k].0)))
  }

  /** `reverse=True` by count: more violations first, a stable sort. */
  function ByCountDescending(): (FileEntry, FileEntry) -> bool {
    (a: FileEntry, b: FileEntry) => a.count >= b.count
  }

  datatype FileChart = FileChart(labels: seq<string>, data: seq<nat>, emissions: seq<real>, percentages: seq<real>,
                                 total: nat, totalEmissions: real)

  function TopFiles(issues: seq<Issue>): seq<FileEntry> {
    Sorting.Take(Sorting.SortBy(FileEntries(issues), ByCountDescending()), 10)
  }

  /** `violations_by_file`: the ten files with the most violations. */
  function ViolationsByFile(issues: seq<Issue>): (c: FileChart)
    ensures c.total == |issues| && |c.labels| <= 10
    ensures |c.labels| == |c.data| == |c.emissions| == |c.percentages| == |TopFiles(issues)|
    ensures forall k :: 0 <= k < |c.labels| ==> c.labels[k] == TopFiles(issues)[k].file && c.data[k] == TopFiles(issues)[k].count
  {
    var top := TopFiles(issues);
    var emissions := seq(|top|, k requires 0 <= k < |top| => top[k].emissions);
    FileChart(seq(|top|, k requires 0 <= k < |top| => top[k].file), seq(|top|, k requires 0 <= k < |top| => top[k].count),
      emissions, seq(|top|, k requires 0 <= k < |top| => Percent(top[k].count, |issues|)), |issues|, SumReals(emissions))
  }

  /** Each listed file's count is its number of issues, and the list is in
      descending count order. */
  lemma FileChartCounts(issues: seq<Issue>)
    ensures var top := TopFiles(issues);
      && (forall k :: 0 <= k < |top| ==> top[k].count == CountIf(issues, Tally.KeyIs(FileOf, top[k].file)))
      && (forall j, k :: 0 <= j < k < |top| ==> top[j].count >= top[k].count)
  {
    var entries := FileEntries(issues);
    var sorted := Sorting.SortBy(entries, ByCountDescending());
    EntriesCount(issues);
    assert Sorting.TotalPreorder(ByCountDescending());
    Sorting.SortBySorted(entries, ByCountDescending());
    forall k | 0 <= k < |TopFiles(issues)| ensures TopFiles(issues)[k] in entries {
      assert TopFiles(issues)[k] == sorted[k] && sorted[k] in multiset(entries);
    }
  }

  /** A file left out has no more issues than any file listed, and then ten
      are listed. */
  lemma FileChartTop(issues: seq<Issue>, other: FileEntry)
    requires other in FileEntries(issues) && other !in TopFiles(issues)
    ensures var top := TopFiles(issues);
      |top| == 10 && forall k :: 0 <= k < |top| ==> top[k].count >= other.count
  {
    var entries := FileEntries(issues);
    var sorted := Sorting.SortBy(entries, ByCountDescending());
    assert Sorting.TotalPreorder(ByCountDescending());
    Sorting.SortBySorted(entries, ByCountDescending());
    assert other in multiset(sorted);
    var j :| 0 <= j < |sorted| && sorted[j] == other;
    var top := TopFiles(issues);
    assert forall k :: 0 <= k < |top| ==> top[k] == sorted[k] && top[k] in top;
    assert j >= |top|;
  }

  lemma EntriesCount(issues: seq<Issue>)
    ensures forall e :: e in FileEntries(issues) ==> e.count == CountIf(issues, Tally.KeyIs(FileOf, e.file))
  {
    var counts := Tally.TallyBy(issues, FileOf);
    Tally.TallyCounts(issues, FileOf);
    forall e | e in FileEntries(issues) ensures e.count == CountIf(issues, Tally.KeyIs(FileOf, e.file)) {
      var k :| 0 <= k < |counts| && FileEntries(issues)[k] == e;
      Tally.CountOfEntry(counts, k);
    }
  }

  // ------------------------------------------------------------------ top

  function ByEmissionsDescending(): (Issue, Issue) -> bool {
    (a: Issue, b: Issue) => EmissionsOf(a) >= EmissionsOf(b)
  }

  datatype TopRow = TopRow(id: string, severity: string, emissions: real, file: string, line: int, message: string, effort: string)

  function TopRowOf(i: Issue): TopRow {
    TopRow(Or(i.id, "unknown"), Or(i.severity, "low"), EmissionsOf(i), FileOf(i), Or(i.line, 0),
      Or(i.message, "N/A"), Or(i.effort, "Unknown"))
  }

  function TopIssues(issues: seq<Issue>, limit: int): seq<Issue> {
    Sorting.Take(Sorting.SortBy(issues, ByEmissionsDescending()), limit)
  }

  /** `top_violations`: the issues by emissions, highest first, cut with
      Python's `[:limit]` (a negative limit drops from the end). */
  function TopViolations(issues: seq<Issue>, limit: int): (r: seq<TopRow>)
    ensures |r| == |TopIssues(issues, limit)|
    ensures 0 <= limit ==> |r| <= limit && |r| <= |issues|
    ensures forall k :: 0 <= k < |r| ==> r[k] == TopRowOf(TopIssues(issues, limit)[k])
  {
    var top := TopIssues(issues, limit);
    seq(|top|, k requires 0 <= k < |top| => TopRowOf(top[k]))
  }

  /** The rows are in descending emissions order, every row is an issue's,
      and an issue left out emits no more than any issue listed. */
  lemma TopViolationsFacts(issues: seq<Issue>, limit: int, other: Issue)
    requires other in issues && other !in TopIssues(issues, limit)
    ensures var top := TopIssues(issues, limit);
      && (forall j, k :: 0 <= j < k < |top| ==> EmissionsOf(top[j]) >= EmissionsOf(top[k]))
      && (forall k :: 0 <= k < |top| ==> top[k] in issues && EmissionsOf(top[k]) >= EmissionsOf(other))
  {
    var sorted := Sorting.SortBy(issues, ByEmissionsDescending());
    assert Sorting.TotalPreorder(ByEmissionsDescending());
    Sorting.SortBySorted(issues, ByEmissionsDescending());
    assert forall x :: x in sorted <==> x in issues by {
      assert forall x :: x in sorted <==> x in multiset(sorted);
      assert forall x :: x in issues <==> x in multiset(issues);
    }
    var j :| 0 <= j < |sorted| && sorted[j] == other;
    var top := TopIssues(issues, limit);
    assert forall k :: 0 <= k < |top| ==> top[k] == sorted[k] && top[k] in top;
    assert j >= |top|;
    forall k | 0 <= k < |top| ensures top[k] in issues && EmissionsOf(top[k]) >= EmissionsOf(other) {
      assert top[k] == sorted[k];
    }
  }

  // ------------------------------------------------------------- emissions

  /** The per-file emissions dictionary, in insertion order; its keys are
      distinct. */
  type PerFile = seq<(string, real)>

  function Values(p: PerFile): (r: seq<real>)
    ensures |r| == |p|
  {
    seq(|p|, k requires 0 <= k < |p| => p[k].1)
  }

  function ByValueDescending(): ((string, real), (string, real)) -> bool {
    (a: (string, real), b: (string, real)) => a.1 >= b.1
  }

  datatype TrendChart = TrendChart(labels: seq<string>, data: seq<real>, total: real, average: real)

  /** `emissions_trend`: the ten files with the highest emissions, and the
      total and mean over all files. */
  function EmissionsTrend(perFile: PerFile): (c: TrendChart)
    ensures perFile == [] ==> c == TrendChart([], [], 0.0, 0.0)
    ensures perFile != [] ==>
      && |c.labels| == |c.data| == (if |perFile| < 10 then |perFile| else 10)
      && c.total == SumReals(Values(perFile))
      && c.average * (|perFile| as real) == c.total
  {
    if perFile == [] then TrendChart([], [], 0.0, 0.0)
    else
      var top := Sorting.Take(Sorting.SortBy(perFile, ByValueDescending()), 10);
      var total := SumReals(Values(perFile));
      TrendChart(seq(|top|, k requires 0 <= k < |top| => top[k].0), seq(|top|, k requires 0 <= k < |top| => top[k].1),
        total, total / (|perFile| as real))
  }

  /** The bars are in descending order. */
  lemma EmissionsTrendSorted(perFile: PerFile)
    ensures var c := EmissionsTrend(perFile);
      forall j, k :: 0 <= j < k < |c.data| ==> c.data[j] >= c.data[k]
  {
    if perFile != [] {
      assert Sorting.TotalPreorder(ByValueDescending());
      Sorting.SortBySorted(perFile, ByValueDescending());
    }
  }

  // -------------------------------------------------------------- summary

  /** The index `max(s)` picks: the first of the largest values. */
  function MaxIndex(s: seq<real>): (i: nat)
    requires s != []
    ensures i < |s|
    ensures forall j :: 0 <= j < |s| ==> s[j] <= s[i]
    ensures forall j :: 0 <= j < i ==> s[j] < s[i]
    decreases |s|
  {
    if |s| == 1 then 0
    else
      var j := MaxIndex(s[..|s| - 1]);
      if s[|s| - 1] > s[j] then |s| - 1 else j
  }

  /** What the dashboard passes in; any key may be missing. */
  datatype ChartResults = ChartResults(issues: Option<seq<Issue>>, codebaseEmissions: Option<real>,
                                       scanningEmissions: Option<real>, perFile: Option<PerFile>)

  datatype SummaryMetrics = SummaryMetrics(
    totalIssues: nat, criticalIssues: nat, mediumIssues: nat, lowIssues: nat,
    totalEmissions: real, scanningEmissions: real, codebaseEmissions: real, averageIssueEmissions: real,
    mostAffectedFile: string, highestImpactRule: string, totalFiles: nat)

  /** `issue.get('severity') in [...]`: compared as written, case and
      all. */
  function SeverityExactly(names: set<string>): Issue -> bool {
    (i: Issue) => i.severity.Some? && i.severity.value in names
  }

  function IssueEmissions(issues: seq<Issue>): (r: seq<real>)
    ensures |r| == |issues|
  {
    seq(|issues|, k requires 0 <= k < |issues| => EmissionsOf(issues[k]))
  }

  /** The mean of the issues' emissions, 0 without issues. */
  function AverageIssueEmissions(issues: seq<Issue>): (r: real)
    ensures issues == [] ==> r == 0.0
    ensures issues != [] ==> r * (|issues| as real) == SumReals(IssueEmissions(issues))
  {
    if issues != [] then SumReals(IssueEmissions(issues)) / (|issues| as real) else 0.0
  }

  /** The rule of the first issue emitting the most, N/A without issues. */
  function HighestImpactRule(issues: seq<Issue>): (r: string)
    ensures issues == [] ==> r == "N/A"
    ensures issues != [] ==>
      exists k :: 0 <= k < |issues| && Or(issues[k].id, "N/A") == r
        && (forall j :: 0 <= j < |issues| ==> EmissionsOf(issues[j]) <= EmissionsOf(issues[k]))
        && (forall j :: 0 <= j < k ==> EmissionsOf(issues[j]) < EmissionsOf(issues[k]))
  {
    if issues == [] then "N/A"
    else
      var k := MaxIndex(IssueEmissions(issues));
      assert forall j :: 0 <= j < |issues| ==> IssueEmissions(issues)[j] == EmissionsOf(issues[j]);
      Or(issues[k].id, "N/A")
  }

  /** The first file with the highest emissions, N/A without data. */
  function MostAffectedFile(perFile: PerFile): (r: string)
    ensures perFile == [] ==> r == "N/A"
    ensures perFile != [] ==>
      exists k :: 0 <= k < |perFile| && perFile[k].0 == r
        && (forall j :: 0 <= j < |perFile| ==> perFile[j].1 <= perFile[k].1)
        && (forall j :: 0 <= j < k ==> perFile[j].1 < perFile[k].1)
  {
    if perFile == [] then "N/A"
    else
      var k := MaxIndex(Values(perFile));
      assert forall j :: 0 <= j < |perFile| ==> Values(perFile)[j] == perFile[j].1;
      perFile[k].0
  }

  /** `summary_metrics`. */
  function Summary(results: ChartResults): (m: SummaryMetrics)
    ensures m.totalIssues == |Or(results.issues, [])|
    ensures m.criticalIssues == CountIf(Or(results.issues, []), SeverityExactly({"critical", "high"}))
    ensures m.totalEmissions == Or(results.scanningEmissions, 0.0) + Or(results.codebaseEmissions, 0.0)
    ensures m.totalFiles == |Or(results.perFile, [])|
    ensures m.averageIssueEmissions == AverageIssueEmissions(Or(results.issues, []))
    ensures m.highestImpactRule == HighestImpactRule(Or(results.issues, []))
    ensures m.mostAffectedFile == MostAffectedFile(Or(results.perFile, []))
  {
    var issues := Or(results.issues, []);
    var perFile := Or(results.perFile, []);
    var scanning, codebase := Or(results.scanningEmissions, 0.0), Or(results.codebaseEmissions, 0.0);
    SummaryMetrics(|issues|, CountIf(issues, SeverityExactly({"critical", "high"})),
      CountIf(issues, SeverityExactly({"medium"})), CountIf(issues, SeverityExactly({"low"})),
      scanning + codebase, scanning, codebase, AverageIssueEmissions(issues), MostAffectedFile(perFile),
      HighestImpactRule(issues), |perFile|)
  }

  /** Critical counts only exact lowercase names: an issue of severity
      "HIGH" counts in the severity chart's High bar but not as critical
      here. */
  lemma CriticalIsCaseSensitive(i: Issue)
    requires i.severity == Some("HIGH")
    ensures !SeverityExactly({"critical", "high"})(i)
    ensures ChartSeverity(i) == "high"
  {
  }

  // --------------------------------------------------------------- all

  datatype AllCharts = AllCharts(severity: SeverityChart, types: TypeChart, files: FileChart,
                                 top: seq<TopRow>, trend: TrendChart, summary: SummaryMetrics)

  /** `generate_all_charts`. */
  function GenerateAllCharts(results: ChartResults): (c: AllCharts)
    ensures |c.top| <= 10 && |c.files.labels| <= 10 && |c.trend.labels| <= 10
  {
    var issues := Or(results.issues, []);
    AllCharts(ViolationsBySeverity(issues), ViolationsByType(issues), ViolationsByFile(issues),
      TopViolations(issues, 10), EmissionsTrend(Or(results.perFile, [])), Summary(results))
  }

  /** The charts agree on the number of issues. */
  lemma ChartsAgree(results: ChartResults)
    ensures var c := GenerateAllCharts(results);
      c.severity.total == c.types.total == c.files.total == c.summary.totalIssues
  {
    SeverityChartFacts(Or(results.issues, []));
  }
}

=== FILE: common.dfy ===
/** Shared vocabulary of the model: optional values and error results, the
    handful of Python string operations the analyser relies on, and counting
    over sequences.

    Characters are treated as in ASCII: `\w`, `\s`, `str.isalnum` and
    `str.lower` agree with Python on every ASCII character. */
module Common {

  datatype Option<+T> = None | Some(value: T)

  datatype Result<+T, +E> = Ok(value: T) | Err(error: E)

  // ---------------------------------------------------------------------
  // Characters

  /** Python's `\s` (and `str.isspace`) on ASCII: space, tab, line feed,
      carriage return, vertical tab, form feed, and the four separators
      0x1C .. 0x1F. */
  predicate IsSpace(c: char) {
    c == ' ' || c == '\t' || c == '\n' || c == '\r' || c as int == 12 || c as int == 11 || 28 <= c as int <= 31
  }

  predicate IsDigit(c: char) {
    '0' <= c <= '9'
  }

  predicate IsAlpha(c: char) {
    ('a' <= c <= 'z') || ('A' <= c <= 'Z')
  }

  /** Python's `str.isalnum` on one ASCII character. */
  predicate IsAlnum(c: char) {
    IsAlpha(c) || IsDigit(c)
  }

  /** Python's `\w`: letters, digits and the underscore. */
  predicate IsWordChar(c: char) {
    IsAlnum(c) || c == '_'
  }

  function LowerChar(c: char): (r: char)
    ensures 'A' <= c <= 'Z' ==> 'a' <= r <= 'z'
    ensures !('A' <= c <= 'Z') ==> r == c
  {
    if 'A' <= c <= 'Z' then (c as int - 'A' as int + 'a' as int) as char else c
  }

  /** Python's `str.lower` on ASCII text. */
  function Lower(s: string): (r: string)
    ensures |r| == |s|
    ensures forall i :: 0 <= i < |s| ==> r[i] == LowerChar(s[i])
  {
    if s == [] then [] else [LowerChar(s[0])] + Lower(s[1..])
  }

  // ---------------------------------------------------------------------
  // Substrings

  predicate StartsWith(s: string, prefix: string) {
    |prefix| <= |s| && s[..|prefix|] == prefix
  }

  predicate EndsWith(s: string, suffix: string) {
    |suffix| <= |s| && s[|s| - |suffix|..] == suffix
  }

  /** `sub in s` for strings. */
  predicate Contains(s: string, sub: string) {
    exists i :: 0 <= i <= |s| - |sub| && StartsWith(s[i..], sub)
  }

  /** Python's `str.strip()` with no argument. */
  function Strip(s: string): (r: string)
    ensures |r| <= |s|
    ensures r != [] ==> !IsSpace(r[0]) && !IsSpace(r[|r| - 1])
  {
    StripRight(StripLeft(s))
  }

  function StripLeft(s: string): (r: string)
    ensures |r| <= |s|
    ensures r != [] ==> !IsSpace(r[0])
    ensures r == s[|s| - |r|..]
  {
    if s != [] && IsSpace(s[0]) then StripLeft(s[1..]) else s
  }

  function StripRight(s: string): (r: string)
    ensures |r| <= |s|
    ensures r != [] ==> !IsSpace(r[|r| - 1])
    ensures r == s[..|r|]
  {
    if s != [] && IsSpace(s[|s| - 1]) then StripRight(s[..|s| - 1]) else s
  }

  /** Index of the last occurrence of `c` in `s`, if any. */
  function LastIndexOf(s: string, c: char): (r: Option<nat>)
    ensures r.None? <==> c !in s
    ensures r.Some? ==> r.value < |s| && s[r.value] == c && c !in s[r.value + 1..]
  {
    if s == [] then None
    else if s[|s| - 1] == c then Some(|s| - 1)
    else
      var r := LastIndexOf(s[..|s| - 1], c);
      assert s[..|s| - 1] + [s[|s| - 1]] == s;
      if r.Some? then
        assert s[r.value + 1..] == s[..|s| - 1][r.value + 1..] + [s[|s| - 1]];
        r
      else r
  }

  /** Python's `s.split(sep)` for a one-character separator: the pieces
      between separators, empty pieces included, so there is always one more
      piece than separators. */
  function Split(s: string, sep: char): (parts: seq<string>)
    ensures |parts| == Occurrences(s, sep) + 1
    ensures forall k :: 0 <= k < |parts| ==> sep !in parts[k]
    decreases |s|
  {
    if sep !in s then [s]
    else
      var i := FirstIndexOf(s, sep);
      CountCharSplit(s, sep, i);
      [s[..i]] + Split(s[i + 1..], sep)
  }

  function FirstIndexOf(s: string, c: char): (i: nat)
    requires c in s
    ensures i < |s| && s[i] == c && c !in s[..i]
  {
    if s[0] == c then 0
    else
      var j := FirstIndexOf(s[1..], c);
      assert s[..j + 1] == [s[0]] + s[1..][..j];
      1 + j
  }

  lemma {:induction false} CountCharSplit(s: string, c: char, i: nat)
    requires i < |s| && s[i] == c && c !in s[..i]
    ensures Occurrences(s, c) == 1 + Occurrences(s[i + 1..], c)
  {
    if i > 0 {
      assert s[1..][..i - 1] == s[1..i];
      assert c !in s[1..][..i - 1];
      CountCharSplit(s[1..], c, i - 1);
      assert s[1..][i..] == s[i + 1..];
    }
  }

  /** Joins the pieces with `sep` between consecutive ones. */
  function Join(parts: seq<string>, sep: char): string
  {
    if parts == [] then []
    else if |parts| == 1 then parts[0]
    else parts[0] + [sep] + Join(parts[1..], sep)
  }

  lemma {:induction false} SplitJoin(s: string, sep: char)
    ensures Join(Split(s, sep), sep) == s
    decreases |s|
  {
    if sep in s {
      var i := FirstIndexOf(s, sep);
      SplitJoin(s[i + 1..], sep);
      assert s == s[..i] + [sep] + s[i + 1..];
    }
  }

  // ---------------------------------------------------------------------
  // Numbers as text

  function DigitChar(d: nat): char
    requires d < 10
  {
    ('0' as int + d) as char
  }

  /** Decimal text of a natural number, as Python's `str(n)`. */
  function NatToString(n: nat): (s: string)
    ensures s != []
    ensures forall i :: 0 <= i < |s| ==> IsDigit(s[i])
    decreases n
  {
    if n < 10 then [DigitChar(n)] else NatToString(n / 10) + [DigitChar(n % 10)]
  }

  function IntToString(n: int): string
  {
    if n < 0 then "-" + NatToString(-n) else NatToString(n)
  }

  /** Value of a decimal digit string, as Python's `int(s)`. */
  function DigitsValue(s: string): nat
    requires forall i :: 0 <= i < |s| ==> IsDigit(s[i])
  {
    if s == [] then 0
    else
      assert IsDigit(s[|s| - 1]);
      DigitsValue(s[..|s| - 1]) * 10 + (s[|s| - 1] as int - '0' as int)
  }

  lemma {:induction false} NatToStringRoundTrip(n: nat)
    ensures DigitsValue(NatToString(n)) == n
    decreases n
  {
    if n >= 10 {
      NatToStringRoundTrip(n / 10);
      var s := NatToString(n / 10) + [DigitChar(n % 10)];
      assert s[..|s| - 1] == NatToString(n / 10);
    }
  }

  // ---------------------------------------------------------------------
  // Counting and summing

  /** Number of elements of `s` equal to `x`. */
  function Occurrences<T(==)>(s: seq<T>, x: T): (n: nat)
    ensures n <= |s|
    ensures n == 0 <==> x !in s
  {
    if s == [] then 0 else (if s[0] == x then 1 else 0) + Occurrences(s[1..], x)
  }

  lemma {:induction false} OccurrencesAppend<T>(a: seq<T>, b: seq<T>, x: T)
    ensures Occurrences(a + b, x) == Occurrences(a, x) + Occurrences(b, x)
  {
    if a != [] {
      assert (a + b)[0] == a[0] && (a + b)[1..] == a[1..] + b;
      OccurrencesAppend(a[1..], b, x);
    } else {
      assert a + b == b;
    }
  }

  lemma {:induction false} OccurrencesMultiset<T>(s: seq<T>, x: T)
    ensures Occurrences(s, x) == multiset(s)[x]
  {
    if s != [] {
      assert s == [s[0]] + s[1..];
      OccurrencesMultiset(s[1..], x);
    }
  }

  /** Number of elements of `s` that satisfy `p`. */
  function CountIf<T>(s: seq<T>, p: T -> bool): (n: nat)
    ensures n <= |s|
    ensures n == 0 <==> forall i :: 0 <= i < |s| ==> !p(s[i])
  {
    if s == [] then 0 else (if p(s[0]) then 1 else 0) + CountIf(s[1..], p)
  }

  lemma {:induction false} CountIfAppend<T>(a: seq<T>, b: seq<T>, p: T -> bool)
    ensures CountIf(a + b, p) == CountIf(a, p) + CountIf(b, p)
  {
    if a != [] {
      assert (a + b)[0] == a[0] && (a + b)[1..] == a[1..] + b;
      CountIfAppend(a[1..], b, p);
    } else {
      assert a + b == b;
    }
  }

  /** A count by predicate depends only on the elements, not on their order. */
  lemma {:induction false} CountIfMultiset<T>(a: seq<T>, b: seq<T>, p: T -> bool)
    requires multiset(a) == multiset(b)
    ensures CountIf(a, p) == CountIf(b, p)
    decreases |a|
  {
    if a == [] {
      assert |b| == |multiset(b)| == 0;
    } else {
      var x := a[0];
      assert x in multiset(b);
      var k :| 0 <= k < |b| && b[k] == x;
      var b' := b[..k] + b[k + 1..];
      assert b == b[..k] + [x] + b[k + 1..];
      assert a == [x] + a[1..];
      assert multiset(b) == multiset(b[..k]) + multiset{x} + multiset(b[k + 1..]);
      assert multiset(a) == multiset{x} + multiset(a[1..]);
      assert multiset(b') == multiset(b[..k]) + multiset(b[k + 1..]);
      assert multiset(b') == multiset(b) - multiset{x};
      assert multiset(a[1..]) == multiset(a) - multiset{x};
      CountIfMultiset(a[1..], b', p);
      CountIfAppend(b[..k], [x], p);
      CountIfAppend(b[..k] + [x], b[k + 1..], p);
      CountIfAppend(b[..k], b[k + 1..], p);
    }
  }

  /** `[x for x in s if p(x)]`. */
  function Filter<T(!new)>(s: seq<T>, p: T -> bool): (r: seq<T>)
    ensures |r| == CountIf(s, p)
    ensures forall x :: x in r <==> x in s && p(x)
  {
    if s == [] then []
    else
      var rest := Filter(s[1..], p);
      assert forall x :: x in s <==> x == s[0] || x in s[1..];
      if p(s[0]) then [s[0]] + rest else rest
  }

  /** Filtering keeps the relative order: it distributes over concatenation. */
  lemma {:induction false} FilterAppend<T(!new)>(a: seq<T>, b: seq<T>, p: T -> bool)
    ensures Filter(a + b, p) == Filter(a, p) + Filter(b, p)
  {
    if a == [] {
      assert a + b == b;
    } else {
      assert (a + b)[0] == a[0] && (a + b)[1..] == a[1..] + b;
      FilterAppend(a[1..], b, p);
    }
  }

  /** `[y for x in s for y in f(x)]`. */
  function FlatMap<T, U>(s: seq<T>, f: T -> seq<U>): seq<U>
  {
    if s == [] then [] else f(s[0]) + FlatMap(s[1..], f)
  }

  lemma {:induction false} FlatMapAppend<T, U>(a: seq<T>, b: seq<T>, f: T -> seq<U>)
    ensures FlatMap(a + b, f) == FlatMap(a, f) + FlatMap(b, f)
  {
    if a != [] {
      assert (a + b)[0] == a[0] && (a + b)[1..] == a[1..] + b;
      FlatMapAppend(a[1..], b, f);
    } else {
      assert a + b == b;
    }
  }

  /** When `f` yields one item for the elements satisfying `p` and nothing
      for the others, the flattened list has one item per such element. */
  lemma {:induction false} FlatMapCount<T, U>(s: seq<T>, f: T -> seq<U>, p: T -> bool)
    requires forall x :: x in s ==> |f(x)| == if p(x) then 1 else 0
    ensures |FlatMap(s, f)| == CountIf(s, p)
  {
    if s != [] {
      FlatMapCount(s[1..], f, p);
    }
  }

  lemma {:induction false} FlatMapMember<T, U>(s: seq<T>, f: T -> seq<U>, y: U)
    ensures y in FlatMap(s, f) <==> exists x :: x in s && y in f(x)
  {
    if s != [] {
      FlatMapMember(s[1..], f, y);
      assert forall x :: x in s <==> x == s[0] || x in s[1..];
    }
  }

  lemma {:induction false} FlatMapForall<T, U>(s: seq<T>, f: T -> seq<U>, P: U -> bool)
    requires forall x, y :: x in s && y in f(x) ==> P(y)
    ensures forall y :: y in FlatMap(s, f) ==> P(y)
  {
    if s != [] {
      FlatMapForall(s[1..], f, P);
    }
  }

  function SumReals(s: seq<real>): real
  {
    if s == [] then 0.0 else s[0] + SumReals(s[1..])
  }

  lemma {:induction false} SumRealsAppend(a: seq<real>, b: seq<real>)
    ensures SumReals(a + b) == SumReals(a) + SumReals(b)
  {
    if a != [] {
      assert (a + b)[0] == a[0] && (a + b)[1..] == a[1..] + b;
      SumRealsAppend(a[1..], b);
    } else {
      assert a + b == b;
    }
  }

  function SumInts(s: seq<int>): int
  {
    if s == [] then 0 else s[0] + SumInts(s[1..])
  }

  lemma {:induction false} SumIntsAppend(a: seq<int>, b: seq<int>)
    ensures SumInts(a + b) == SumInts(a) + SumInts(b)
  {
    if a != [] {
      assert (a + b)[0] == a[0] && (a + b)[1..] == a[1..] + b;
      SumIntsAppend(a[1..], b);
    } else {
      assert a + b == b;
    }
  }

  /** Python's `min(a, b)` and `max(a, b)` on reals. */
  function MinR(a: real, b: real): real { if b < a then b else a }
  function MaxR(a: real, b: real): real { if a < b then b else a }

  /** Python's built-in `round(x)` on a real: nearest integer, ties to the
      even neighbour. */
  function RoundHalfEven(x: real): (n: int)
    ensures (n as real) - 0.5 <= x <= (n as real) + 0.5
    ensures x == (n as real) - 0.5 || x == (n as real) + 0.5 ==> n % 2 == 0
  {
    var f := x.Floor;
    var frac := x - f as real;
    if frac < 0.5 then f
    else if frac > 0.5 then f + 1
    else if f % 2 == 0 then f else f + 1
  }
}

=== FILE: config.dfy ===
/** `ConfigLoader`: the `.green-ai.yaml` configuration. A parsed YAML
    document is a `Value`; a mapping keeps its keys in insertion order, as a
    Python `dict` does. Finding the file, reading it and parsing YAML are
    inputs, not modelled. */
module Config {
  import opened Common

  datatype Value =
    | VNone
    | VBool(b: bool)
    | VInt(i: int)
    | VReal(x: real)
    | VStr(s: string)
    | VList(items: seq<Value>)
    | VMap(entries: seq<Entry>)
    | VOther(typeName: string)   // any other Python object, by its type name

  datatype Entry = Entry(key: string, value: Value)

  /** `type(v).__name__`. */
  function TypeName(v: Value): string {
    match v
    case VNone => "NoneType"
    case VBool(_) => "bool"
    case VInt(_) => "int"
    case VReal(_) => "float"
    case VStr(_) => "str"
    case VList(_) => "list"
    case VMap(_) => "dict"
    case VOther(n) => n
  }

  /** Python truthiness, as used by `yaml.safe_load(f) or {}`. */
  predicate Falsy(v: Value) {
    v == VNone || v == VBool(false) || v == VInt(0) || v == VReal(0.0) || v == VStr("")
    || v == VList([]) || v == VMap([])
  }

  // ---------------------------------------------------------------------
  // Mappings

  function Keys(es: seq<Entry>): set<string>
  {
    if es == [] then {} else {es[0].key} + Keys(es[1..])
  }

  predicate UniqueKeys(es: seq<Entry>) {
    forall i, j :: 0 <= i < j < |es| ==> es[i].key != es[j].key
  }

  /** `d.get(k)`, with `None` for a missing key. */
  function Lookup(es: seq<Entry>, k: string): Option<Value>
  {
    if es == [] then None
    else if es[0].key == k then Some(es[0].value)
    else Lookup(es[1..], k)
  }

  /** `k in d` is the same question as `d.get(k) is None`, for a mapping
      whose values are never absent. */
  lemma {:induction false} LookupKeys(es: seq<Entry>, k: string)
    ensures Lookup(es, k).None? <==> k !in Keys(es)
  {
    if es != [] {
      LookupKeys(es[1..], k);
    }
  }

  /** `d[k] = v`: an existing key keeps its place, a new key goes last. */
  function Put(es: seq<Entry>, k: string, v: Value): (r: seq<Entry>)
    ensures Lookup(r, k) == Some(v)
    ensures forall k' :: k' != k ==> Lookup(r, k') == Lookup(es, k')
    ensures Keys(r) == Keys(es) + {k}
  {
    if es == [] then [Entry(k, v)]
    else if es[0].key == k then [Entry(k, v)] + es[1..]
    else [es[0]] + Put(es[1..], k, v)
  }

  // ---------------------------------------------------------------------
  // Defaults and schema

  /** `DEFAULT_CONFIG`. */
  function DefaultConfig(): seq<Entry> {
    [ Entry("languages", VList([VStr("python"), VStr("javascript")])),
      Entry("rules", VMap([Entry("enabled", VList(DefaultEnabled)), Entry("disabled", VList([]))])),
      Entry("standards", VList([])),
      Entry("ignore_files", VList([VStr("*.pyc"), VStr("__pycache__"), VStr(".git"), VStr(".venv"), VStr("node_modules")])) ]
  }

  const DefaultEnabled: seq<Value> := [
    VStr("excessive_nesting_depth"), VStr("unnecessary_computation"), VStr("inefficient_memory_operation"),
    VStr("io_in_loop"), VStr("unused_variables"), VStr("unused_imports"), VStr("proper_resource_cleanup"),
    VStr("quadratic_algorithm"), VStr("dead_code_block"), VStr("blocking_io"), VStr("high_cyclomatic_complexity"),
    VStr("string_concatenation_in_loop"), VStr("exceptions_in_loop"), VStr("inefficient_data_structure"),
    VStr("large_constant_allocation"), VStr("no_infinite_loops"), VStr("inefficient_loop"), VStr("excessive_logging"),
    VStr("magic_numbers"), VStr("no_n2_algorithms"), VStr("synchronous_io"), VStr("excessive_console_logging"),
    VStr("heavy_object_copy"), VStr("process_spawning"), VStr("inefficient_file_read"), VStr("global_variable_mutation"),
    VStr("pandas_iterrows"), VStr("string_concatenation"), VStr("unnecessary_dom_manipulation"), VStr("eval_usage"),
    VStr("setInterval_animation"), VStr("momentjs_deprecated"), VStr("document_write"), VStr("alert_usage")]

  datatype Kind = KList | KDict | KBool | KStr

  function KindName(k: Kind): string {
    match k
    case KList => "list"
    case KDict => "dict"
    case KBool => "bool"
    case KStr => "str"
  }

  /** `isinstance(v, kind)`. */
  predicate IsInstance(v: Value, k: Kind) {
    match k
    case KList => v.VList?
    case KDict => v.VMap?
    case KBool => v.VBool?
    case KStr => v.VStr?
  }

  datatype Field = Field(key: string, kind: Kind, default: Value)

  /** `SCHEMA`: key, expected type and default of each top-level entry. */
  const Schema: seq<Field> := [
    Field("languages", KList, VList([VStr("python"), VStr("javascript")])),
    RulesField,
    Field("standards", KList, VList([])),
    Field("ignore_files", KList, VList([])),
    Field("auto_fix", KBool, VBool(false)),
    Field("llm_provider", KStr, VNone)]

  /** The `rules` entry of `SCHEMA`. Its default is the nested schema itself,
      a map to `(type, default)` tuples, not a map to lists. */
  const RulesField := Field("rules", KDict, VMap([Entry("enabled", VOther("tuple")), Entry("disabled", VOther("tuple"))]))

  // ---------------------------------------------------------------------
  // Merge

  /** The value `_merge_config` stores for a user entry: two mappings merge,
      anything else replaces. */
  function Combine(current: Option<Value>, user: Value): Value
    decreases user, 1
  {
    if current.Some? && current.value.VMap? && user.VMap? then VMap(Merge(current.value.entries, user.entries))
    else user
  }

  /** `_merge_config(default, user)`. */
  function Merge(d: seq<Entry>, u: seq<Entry>): (r: seq<Entry>)
    ensures Keys(r) == Keys(d) + Keys(u)
    decreases u, 0
  {
    if u == [] then d
    else
      var rest := Merge(Put(d, u[0].key, Combine(Lookup(d, u[0].key), u[0].value)), u[1..]);
      assert Keys(u) == {u[0].key} + Keys(u[1..]);
      rest
  }

  lemma {:induction false} LookupIndex(es: seq<Entry>, k: string) returns (i: nat)
    requires Lookup(es, k).Some?
    ensures i < |es| && es[i].key == k
  {
    if es[0].key == k {
      i := 0;
    } else {
      i := LookupIndex(es[1..], k);
      i := i + 1;
    }
  }

  /** In a mapping with distinct keys the first key does not occur again. */
  lemma UniqueRest(u: seq<Entry>)
    requires u != [] && UniqueKeys(u)
    ensures UniqueKeys(u[1..]) && Lookup(u[1..], u[0].key).None?
  {
    if Lookup(u[1..], u[0].key).Some? {
      var i := LookupIndex(u[1..], u[0].key);
      assert false;
    }
    forall i, j | 0 <= i < j < |u[1..]| ensures u[1..][i].key != u[1..][j].key {
      assert u[1..][i] == u[i + 1] && u[1..][j] == u[j + 1];
    }
  }

  /** What the merged mapping holds under each key: the default's value for a
      key the user left alone, otherwise the user's value combined with the
      default's. */
  lemma {:induction false} MergeLookup(d: seq<Entry>, u: seq<Entry>, k: string)
    requires UniqueKeys(u)
    ensures Lookup(u, k).None? ==> Lookup(Merge(d, u), k) == Lookup(d, k)
    ensures Lookup(u, k).Some? ==> Lookup(Merge(d, u), k) == Some(Combine(Lookup(d, k), Lookup(u, k).value))
    decreases u
  {
    if u != [] {
      var k0 := u[0].key;
      var d' := Put(d, k0, Combine(Lookup(d, k0), u[0].value));
      UniqueRest(u);
      MergeLookup(d', u[1..], k);
    }
  }

  /** Merging an empty user mapping returns the default unchanged. */
  lemma MergeEmpty(d: seq<Entry>)
    ensures Merge(d, []) == d
  {
  }

  // ---------------------------------------------------------------------
  // Validation

  datatype ConfigError = ConfigError(message: string)

  /** First loop of `_validate_config`: each schema key that is missing gets
      its default, each present one is type-checked. */
  function CheckFields(cfg: seq<Entry>, fields: seq<Field>): (r: (seq<Entry>, seq<string>))
    ensures |r.1| <= |fields|
    decreases fields
  {
    if fields == [] then (cfg, [])
    else
      var f := fields[0];
      var here := Lookup(cfg, f.key);
      var cfg' := if here.None? then Put(cfg, f.key, f.default) else cfg;
      var err := if here.Some? && !IsInstance(here.value, f.kind)
        then [f.key + ": expected " + KindName(f.kind) + ", got " + TypeName(here.value)]
        else [];
      var rest := CheckFields(cfg', fields[1..]);
      (rest.0, err + rest.1)
  }

  predicate ListAt(es: seq<Entry>, k: string) {
    var v := Lookup(es, k);
    v.Some? && v.value.VList?
  }

  predicate ListOrAbsent(es: seq<Entry>, k: string) {
    var v := Lookup(es, k);
    v.None? || v.value.VList?
  }

  /** `rules` is a mapping holding `enabled` and `disabled` lists. */
  predicate RulesLists(cfg: seq<Entry>) {
    var r := Lookup(cfg, "rules");
    r.Some? && r.value.VMap? && ListAt(r.value.entries, "enabled") && ListAt(r.value.entries, "disabled")
  }

  /** Second part of `_validate_config`: a `rules` mapping gets missing
      `enabled`/`disabled` lists, and both must be lists. */
  function CheckRules(cfg: seq<Entry>): (r: (seq<Entry>, seq<string>))
  {
    var rules := Lookup(cfg, "rules");
    if rules.Some? && rules.value.VMap? then
      var rs := rules.value.entries;
      var rs1 := if Lookup(rs, "enabled").None? then Put(rs, "enabled", VList([])) else rs;
      var rs2 := if Lookup(rs1, "disabled").None? then Put(rs1, "disabled", VList([])) else rs1;
      var e1 := if ListAt(rs2, "enabled") then [] else ["rules.enabled must be a list"];
      var e2 := if ListAt(rs2, "disabled") then [] else ["rules.disabled must be a list"];
      (Put(cfg, "rules", VMap(rs2)), e1 + e2)
    else (cfg, [])
  }

  /** The nested check passes exactly when the present sub-entries are lists,
      and then `rules` holds both lists; nothing else changes. */
  lemma CheckRulesSpec(cfg: seq<Entry>)
    ensures var (c, errs) := CheckRules(cfg);
      var rules := Lookup(cfg, "rules");
      && (forall k :: k != "rules" ==> Lookup(c, k) == Lookup(cfg, k))
      && (rules.Some? && rules.value.VMap? ==>
            && (errs == [] <==> ListOrAbsent(rules.value.entries, "enabled") && ListOrAbsent(rules.value.entries, "disabled"))
            && (errs == [] ==> RulesLists(c)))
      && (!(rules.Some? && rules.value.VMap?) ==> c == cfg && errs == [])
  {
    var rules := Lookup(cfg, "rules");
    if rules.Some? && rules.value.VMap? {
      var rs := rules.value.entries;
      var rs1 := if Lookup(rs, "enabled").None? then Put(rs, "enabled", VList([])) else rs;
      var rs2 := if Lookup(rs1, "disabled").None? then Put(rs1, "disabled", VList([])) else rs1;
      assert Lookup(rs1, "disabled") == Lookup(rs, "disabled");
      assert Lookup(rs2, "enabled") == if Lookup(rs, "enabled").None? then Some(VList([])) else Lookup(rs, "enabled");
      assert Lookup(rs2, "disabled") == if Lookup(rs, "disabled").None? then Some(VList([])) else Lookup(rs, "disabled");
      var c := Put(cfg, "rules", VMap(rs2));
      assert Lookup(c, "rules") == Some(VMap(rs2));
    }
  }

  function Bullets(errors: seq<string>): seq<string> {
    if errors == [] then [] else ["  - " + errors[0]] + Bullets(errors[1..])
  }

  predicate FieldsTyped(cfg: seq<Entry>) {
    forall i :: 0 <= i < |Schema| ==> Typed(cfg, Schema[i])
  }

  predicate Typed(cfg: seq<Entry>, f: Field) {
    var v := Lookup(cfg, f.key);
    v.None? || IsInstance(v.value, f.kind)
  }

  /** The checks `_validate_config` makes: present schema keys have their
      type, and a `rules` mapping has list sub-entries where present. `rules`
      must be present, since its filled-in default fails the nested check. */
  predicate WellTyped(cfg: seq<Entry>) {
    && FieldsTyped(cfg)
    && var rules := Lookup(cfg, "rules");
       && rules.Some?
       && (rules.value.VMap? ==> ListOrAbsent(rules.value.entries, "enabled") && ListOrAbsent(rules.value.entries, "disabled"))
  }

  /** `_validate_config`, returning the completed configuration or raising
      `ConfigError` with every problem listed. */
  function Validate(cfg: seq<Entry>): (r: Result<seq<Entry>, ConfigError>)
  {
    var (cfg1, errs1) := CheckFields(cfg, Schema);
    var (cfg2, errs2) := CheckRules(cfg1);
    var errors := errs1 + errs2;
    if errors != [] then Err(Failure(errors)) else Ok(cfg2)
  }

  /** The `ConfigError` listing every problem. */
  function Failure(errors: seq<string>): ConfigError {
    ConfigError("Configuration validation failed:\n" + Join(Bullets(errors), '\n'))
  }

  /** What a schema key holds after the first loop: its value, or its
      default when missing. */
  function Filled(cfg: seq<Entry>, f: Field): Option<Value> {
    var v := Lookup(cfg, f.key);
    if v.None? then Some(f.default) else v
  }

  predicate NotAKey(fields: seq<Field>, k: string) {
    forall i :: 0 <= i < |fields| ==> fields[i].key != k
  }

  /** The first loop fills exactly the missing keys, keeps the present ones
      and every other key, and reports exactly the present keys of the wrong
      type. */
  lemma {:induction false} CheckFieldsSpec(cfg: seq<Entry>, fields: seq<Field>)
    requires forall i, j :: 0 <= i < j < |fields| ==> fields[i].key != fields[j].key
    ensures var (c, errs) := CheckFields(cfg, fields);
      && (forall i :: 0 <= i < |fields| ==> Lookup(c, fields[i].key) == Filled(cfg, fields[i]))
      && (forall k :: NotAKey(fields, k) ==> Lookup(c, k) == Lookup(cfg, k))
      && (errs == [] <==> forall i :: 0 <= i < |fields| ==> Typed(cfg, fields[i]))
    decreases fields
  {
    if fields != [] {
      var f := fields[0];
      var here := Lookup(cfg, f.key);
      var cfg' := if here.None? then Put(cfg, f.key, f.default) else cfg;
      var tail := fields[1..];
      forall i, j | 0 <= i < j < |tail| ensures tail[i].key != tail[j].key {
        assert tail[i] == fields[i + 1] && tail[j] == fields[j + 1];
      }
      CheckFieldsSpec(cfg', tail);
      var (c, errs) := CheckFields(cfg, fields);
      var rest := CheckFields(cfg', tail);
      assert c == rest.0;
      assert NotAKey(tail, f.key) by {
        forall i | 0 <= i < |tail| ensures tail[i].key != f.key {
          assert tail[i] == fields[i + 1];
        }
      }
      assert Lookup(c, f.key) == Lookup(cfg', f.key);
      forall i | 0 <= i < |fields|
        ensures Lookup(c, fields[i].key) == Filled(cfg, fields[i])
        ensures Typed(cfg, fields[i]) == if i == 0 then Typed(cfg, f) else Typed(cfg', tail[i - 1])
      {
        if i > 0 {
          assert fields[i] == tail[i - 1];
          assert fields[i].key != f.key;
          assert Lookup(cfg', fields[i].key) == Lookup(cfg, fields[i].key);
        }
      }
      forall k | NotAKey(fields, k) ensures Lookup(c, k) == Lookup(cfg, k) {
        assert fields[0].key != k;
        assert NotAKey(tail, k) by {
          forall i | 0 <= i < |tail| ensures tail[i].key != k {
            assert tail[i] == fields[i + 1];
          }
        }
      }
      assert errs == [] <==> Typed(cfg, f) && rest.1 == [];
    }
  }

  lemma SchemaKeysDistinct()
    ensures forall i, j :: 0 <= i < j < |Schema| ==> Schema[i].key != Schema[j].key
  {
  }

  /** Validation succeeds exactly on well-typed configurations. */
  lemma ValidateAccepts(cfg: seq<Entry>)
    ensures Validate(cfg).Ok? <==> WellTyped(cfg)
  {
    var rules := Lookup(cfg, "rules");
    if rules.None? {
      RejectsMissingRules(cfg);
    } else if !rules.value.VMap? {
      RejectsNonMapRules(cfg);
    } else {
      ChecksMapRules(cfg);
    }
  }

  /** Without `rules` the filled-in nested schema fails the list checks. */
  lemma RejectsMissingRules(cfg: seq<Entry>)
    requires Lookup(cfg, "rules").None?
    ensures Validate(cfg).Err?
  {
    var (cfg1, errs1) := CheckFields(cfg, Schema);
    SchemaFields(cfg);
    CheckRulesSpec(cfg1);
    NestedSchemaFails();
  }

  lemma RejectsNonMapRules(cfg: seq<Entry>)
    requires Lookup(cfg, "rules").Some? && !Lookup(cfg, "rules").value.VMap?
    ensures !FieldsTyped(cfg) && Validate(cfg).Err?
  {
    SchemaFields(cfg);
    assert !Typed(cfg, RulesField);
  }

  lemma ChecksMapRules(cfg: seq<Entry>)
    requires Lookup(cfg, "rules").Some? && Lookup(cfg, "rules").value.VMap?
    ensures var rs := Lookup(cfg, "rules").value.entries;
      Validate(cfg).Ok? <==> FieldsTyped(cfg) && ListOrAbsent(rs, "enabled") && ListOrAbsent(rs, "disabled")
  {
    var (cfg1, errs1) := CheckFields(cfg, Schema);
    SchemaFields(cfg);
    CheckRulesSpec(cfg1);
  }

  /** An accepted configuration has `rules` holding two lists, and every
      other schema key keeps its value or, when missing, holds its default. */
  lemma ValidateFills(cfg: seq<Entry>)
    requires Validate(cfg).Ok?
    ensures RulesLists(Validate(cfg).value)
    ensures forall i :: 0 <= i < |Schema| && Schema[i].key != "rules" ==>
      Lookup(Validate(cfg).value, Schema[i].key) == Filled(cfg, Schema[i])
  {
    var (cfg1, errs1) := CheckFields(cfg, Schema);
    SchemaFields(cfg);
    CheckRulesSpec(cfg1);
    var (cfg2, errs2) := CheckRules(cfg1);
    assert errs1 == [] && errs2 == [];
    assert Validate(cfg).value == cfg2;
    assert Typed(cfg, RulesField);
    if Lookup(cfg, "rules").None? {
      NestedSchemaFails();
      assert false;
    }
  }

  /** The first loop over the actual schema. */
  lemma SchemaFields(cfg: seq<Entry>)
    ensures var (cfg1, errs1) := CheckFields(cfg, Schema);
      && Lookup(cfg1, "rules") == Filled(cfg, RulesField)
      && (errs1 == [] <==> FieldsTyped(cfg))
      && (FieldsTyped(cfg) ==> Typed(cfg, RulesField))
      && (forall i :: 0 <= i < |Schema| ==> Lookup(cfg1, Schema[i].key) == Filled(cfg, Schema[i]))
  {
    SchemaKeysDistinct();
    CheckFieldsSpec(cfg, Schema);
    assert Schema[1] == RulesField;
  }

  /** The default filled in for a missing `rules` fails the nested check. */
  lemma NestedSchemaFails()
    ensures var d := RulesField.default;
      d.VMap? && !ListOrAbsent(d.entries, "enabled") && CheckRules([Entry("rules", d)]).1 != []
  {
  }

  // ---------------------------------------------------------------------
  // Loading

  /** What the configuration file turned out to be. */
  datatype Source =
    | NoFile                     // no path given, or the file does not exist
    | Parsed(document: Value)    // `yaml.safe_load` succeeded
    | BadYaml(detail: string)    // `yaml.YAMLError`
    | Unreadable(detail: string) // `IOError`

  datatype LoadError =
    | Rejected(error: ConfigError)
    | NotAMapping(typeName: string)   // `AttributeError` from `.items()` on a non-dict document

  /** `load()`. Without a file the defaults come back unvalidated. */
  function Load(path: string, source: Source): (r: Result<seq<Entry>, LoadError>)
    ensures source.NoFile? ==> r == Ok(DefaultConfig())
    ensures source.BadYaml? || source.Unreadable? ==> r.Err? && r.error.Rejected?
  {
    match source
    case NoFile => Ok(DefaultConfig())
    case BadYaml(e) => Err(Rejected(ConfigError("Invalid YAML in " + path + ": " + e)))
    case Unreadable(e) => Err(Rejected(ConfigError("Cannot read " + path + ": " + e)))
    case Parsed(v) =>
      var doc := if Falsy(v) then VMap([]) else v;
      if !doc.VMap? then Err(NotAMapping(TypeName(doc)))
      else match Validate(Merge(DefaultConfig(), doc.entries))
        case Ok(c) => Ok(c)
        case Err(e) => Err(Rejected(e))
  }

  /** Every configuration `load` returns has `rules` holding two lists, and
      a merged file always has a `rules` entry, so the nested-schema default
      is never filled in on that path. */
  lemma LoadRulesLists(path: string, source: Source)
    ensures Load(path, source).Ok? ==> RulesLists(Load(path, source).value)
    ensures source.Parsed? && !Falsy(source.document) && source.document.VMap? ==>
      "rules" in Keys(Merge(DefaultConfig(), source.document.entries))
  {
    var d := DefaultConfig();
    assert Lookup(d, "rules") == Some(d[1].value);
    assert Lookup(d[1].value.entries, "disabled") == Some(VList([]));
    if source.Parsed? {
      var doc := if Falsy(source.document) then VMap([]) else source.document;
      if doc.VMap? {
        var merged := Merge(d, doc.entries);
        if Validate(merged).Ok? {
          ValidateFills(merged);
        }
        LookupKeys(d, "rules");
      }
    }
  }

  // ---------------------------------------------------------------------
  // Lookup

  /** The loop of the dotted `get`: walk nested mappings; a non-mapping on
      the way gives the default, so does a final `None`. */
  function Walk(v: Value, parts: seq<string>, default: Value): Value
    decreases parts
  {
    if parts == [] then (if v == VNone then default else v)
    else if v.VMap? then
      var next := Lookup(v.entries, parts[0]);
      Walk(if next.Some? then next.value else VNone, parts[1..], default)
    else default
  }

  /** `get(key, default)`. A key without a dot is a plain `dict.get`, so a
      present `None` is returned as it is. */
  function Get(cfg: seq<Entry>, key: string, default: Value): (r: Value)
    ensures '.' !in key ==> (r == default <== Lookup(cfg, key).None?)
    ensures '.' !in key && Lookup(cfg, key).Some? ==> r == Lookup(cfg, key).value
  {
    if '.' in key then Walk(VMap(cfg), Split(key, '.'), default)
    else
      var v := Lookup(cfg, key);
      if v.Some? then v.value else default
  }

  lemma SplitTwo(a: string, b: string)
    requires '.' !in a && '.' !in b
    ensures Split(a + "." + b, '.') == [a, b]
  {
    var s := a + "." + b;
    assert s[|a|] == '.';
    assert s[..|a|] == a;
    assert '.' !in s[..|a|];
    var i := FirstIndexOf(s, '.');
    assert s[i + 1..] == b;
  }

  /** A two-part key `a.b`: the value under `b` in the mapping under `a`,
      and the default whenever `a` is missing or not a mapping, `b` is
      missing, or the value found is `None`. */
  lemma GetDotted(cfg: seq<Entry>, a: string, b: string, default: Value)
    requires '.' !in a && '.' !in b
    ensures var outer := Lookup(cfg, a);
      var inner := if outer.Some? && outer.value.VMap? then Lookup(outer.value.entries, b) else None;
      Get(cfg, a + "." + b, default) == if inner.Some? && inner.value != VNone then inner.value else default
  {
    var key := a + "." + b;
    SplitTwo(a, b);
    assert key[|a|] == '.';
    var outer := Lookup(cfg, a);
    var v1 := if outer.Some? then outer.value else VNone;
    assert [a, b][1..] == [b];
    assert Walk(VMap(cfg), [a, b], default) == Walk(v1, [b], default);
    if v1.VMap? {
      var inner := Lookup(v1.entries, b);
      var v2 := if inner.Some? then inner.value else VNone;
      assert Walk(v1, [b], default) == Walk(v2, [], default);
    }
  }

  /** The value at a dotted path: each part names a key of the mapping
      reached so far. None when some step meets a value that is not a
      mapping or a missing key. */
  function At(v: Value, parts: seq<string>): Option<Value>
    decreases parts
  {
    if parts == [] then Some(v)
    else if !v.VMap? then None
    else
      var next := Lookup(v.entries, parts[0]);
      if next.None? then None else At(next.value, parts[1..])
  }

  /** The walk of `get` returns the value at the path, or the default when
      there is none or it is `None`, whatever the number of parts. */
  lemma {:induction false} WalkAt(v: Value, parts: seq<string>, default: Value)
    ensures Walk(v, parts, default) ==
      if At(v, parts).Some? && At(v, parts).value != VNone then At(v, parts).value else default
    decreases parts
  {
    if parts != [] && v.VMap? {
      var next := Lookup(v.entries, parts[0]);
      WalkAt(if next.Some? then next.value else VNone, parts[1..], default);
    }
  }

  /** A dotted key of any depth: the value at the path its parts spell out,
      and the default whenever the path breaks off or ends at `None`. */
  lemma GetAt(cfg: seq<Entry>, key: string, default: Value)
    requires '.' in key
    ensures var at := At(VMap(cfg), Split(key, '.'));
      Get(cfg, key, default) == if at.Some? && at.value != VNone then at.value else default
  {
    WalkAt(VMap(cfg), Split(key, '.'), default);
  }

  /** The `rules.disabled` list of a loaded configuration. */
  function Disabled(cfg: seq<Entry>): seq<Value>
    requires RulesLists(cfg)
  {
    Lookup(Lookup(cfg, "rules").value.entries, "disabled").value.items
  }

  /** `is_rule_enabled`, on a configuration `load` returned (the keys are
      written as their two parts, `rules` and `enabled` or `disabled`). A
      disabled rule is off; every other rule is on, whether or not
      `rules.enabled` lists it. */
  function IsRuleEnabled(cfg: seq<Entry>, id: string): (r: bool)
    requires RulesLists(cfg)
    ensures r <==> VStr(id) !in Disabled(cfg)
  {
    GetDotted(cfg, "rules", "disabled", VList([]));
    GetDotted(cfg, "rules", "enabled", VList([]));
    var enabled := Get(cfg, "rules" + "." + "enabled", VList([]));
    var disabled := Get(cfg, "rules" + "." + "disabled", VList([]));
    if VStr(id) in disabled.items then false
    else if VStr(id) in enabled.items then true
    else true
  }

  /** Replacing the `enabled` list leaves every answer unchanged. */
  lemma EnabledListIrrelevant(cfg: seq<Entry>, enabled: seq<Value>, id: string)
    requires RulesLists(cfg)
    ensures var rs := Lookup(cfg, "rules").value.entries;
      var cfg' := Put(cfg, "rules", VMap(Put(rs, "enabled", VList(enabled))));
      RulesLists(cfg') && IsRuleEnabled(cfg', id) == IsRuleEnabled(cfg, id)
  {
    var rs := Lookup(cfg, "rules").value.entries;
    var cfg' := Put(cfg, "rules", VMap(Put(rs, "enabled", VList(enabled))));
    assert Lookup(cfg', "rules") == Some(VMap(Put(rs, "enabled", VList(enabled))));
    assert Disabled(cfg') == Disabled(cfg);
  }
}

=== FILE: detect.dfy ===
/** `detect_violations`: the choice of detectors by language. The parse of
    a Python file is an input (`None` when `ast.parse` rejects the text). */
module Detect {
  import opened Common
  import opened Findings
  import opened PyAst
  import PyDetector
  import PyLines
  import JsDetector

  /** Python runs the tree visitor and then the line patterns; JavaScript
      runs its line checks; any other language finds nothing. */
  function DetectViolations(tree: Option<Node>, content: string, language: string): (r: seq<Finding>)
    ensures language != "python" && language != "javascript" ==> r == []
    ensures language == "python" && tree.None? ==> r == PyLines.DetectAll(content)
  {
    if language == "python" then PyDetector.DetectAll(tree) + PyLines.DetectAll(content)
    else if language == "javascript" then JsDetector.JsDetectAll(content)
    else []
  }

  /** Every finding comes from the detectors of the file's language. */
  lemma DetectViolationsOrigin(tree: Option<Node>, content: string, language: string, f: Finding)
    requires f in DetectViolations(tree, content, language)
    ensures language == "python" ==> f in PyDetector.DetectAll(tree) || f in PyLines.DetectAll(content)
    ensures language == "javascript" ==> f in JsDetector.JsDetectAll(content)
    ensures language == "python" || language == "javascript"
  {
  }

  /** and every finding of those detectors is kept. */
  lemma DetectViolationsKeeps(tree: Option<Node>, content: string, language: string, f: Finding)
    requires
      || (language == "python" && (f in PyDetector.DetectAll(tree) || f in PyLines.DetectAll(content)))
      || (language == "javascript" && f in JsDetector.JsDetectAll(content))
    ensures f in DetectViolations(tree, content, language)
  {
  }
}

=== FILE: domain.dfy ===
/** The `Project` and `Violation` records of the dashboard: the health
    grade, the three severity buckets and `update_scan_results`. The clock
    reading and the generated id are parameters; pydantic's type coercion is
    not modelled: a field is either present with the right type or missing. */
module Domain {
  import opened Common

  datatype Severity = Critical | High | Major | Medium | Minor | Low | Info

  function SeverityName(s: Severity): string {
    match s
    case Critical => "critical"
    case High => "high"
    case Major => "major"
    case Medium => "medium"
    case Minor => "minor"
    case Low => "low"
    case Info => "info"
  }

  /** Validating a string as a `ViolationSeverity`: only the exact values. */
  function ParseSeverity(s: string): (r: Option<Severity>)
    ensures r.Some? ==> SeverityName(r.value) == s
    ensures r.None? ==> forall v: Severity :: SeverityName(v) != s
  {
    if s == "critical" then Some(Critical)
    else if s == "high" then Some(High)
    else if s == "major" then Some(Major)
    else if s == "medium" then Some(Medium)
    else if s == "minor" then Some(Minor)
    else if s == "low" then Some(Low)
    else if s == "info" then Some(Info)
    else None
  }

  lemma SeverityNameInjective(a: Severity, b: Severity)
    ensures SeverityName(a) == SeverityName(b) <==> a == b
  {
    if a != b {
      assert ParseSeverity(SeverityName(a)) == Some(a);
    }
  }

  datatype Violation = Violation(id: string, line: int, severity: Severity, message: string, patternMatch: Option<string>)

  /** One element of the list `update_scan_results` is given: a record whose
      fields may be missing, or something that is not a mapping at all. */
  datatype RawViolation =
    | Record(id: Option<string>, line: Option<int>, severity: Option<string>, message: Option<string>, patternMatch: Option<string>)
    | NotARecord

  /** `Violation(**v_data)`: fails on a missing field or an unknown severity. */
  function Validate(v: RawViolation): Option<Violation> {
    if v.NotARecord? || v.id.None? || v.line.None? || v.message.None? || v.severity.None? then None
    else
      var s := ParseSeverity(v.severity.value);
      if s.None? then None else Some(Violation(v.id.value, v.line.value, s.value, v.message.value, v.patternMatch))
  }

  /** One iteration of the loop: the record as it stands, or, when that
      fails and it is a mapping, the same record with severity `low`. */
  function Accept(v: RawViolation): (r: Option<Violation>)
    ensures r.Some? <==> v.Record? && v.id.Some? && v.line.Some? && v.message.Some?
    ensures r.Some? ==> r.value.id == v.id.value && r.value.line == v.line.value && r.value.message == v.message.value
    ensures r.Some? ==>
      r.value.severity == (if v.severity.Some? && ParseSeverity(v.severity.value).Some? then ParseSeverity(v.severity.value).value else Low)
  {
    var first := Validate(v);
    if first.Some? then first
    else if v.NotARecord? then None
    else Validate(v.(severity := Some("low")))
  }

  /** The accepted violations, in input order. */
  function AcceptAll(vs: seq<RawViolation>): (r: seq<Violation>)
    ensures |r| <= |vs|
  {
    if vs == [] then []
    else
      var head := Accept(vs[0]);
      (if head.Some? then [head.value] else []) + AcceptAll(vs[1..])
  }

  lemma {:induction false} AcceptAllCount(vs: seq<RawViolation>)
    ensures |AcceptAll(vs)| == CountIf(vs, (v: RawViolation) => Accept(v).Some?)
  {
    if vs != [] {
      AcceptAllCount(vs[1..]);
    }
  }

  // -------------------------------------------------------------- project

  datatype Project = Project(
    id: string,
    name: string,
    repoUrl: string,
    branch: string,
    language: Option<string>,
    lastScan: Option<string>,
    scanCount: int,
    latestViolations: int,
    totalEmissions: real,
    isSystem: bool,
    details: map<string, int>,
    violations: seq<Violation>)

  /** A new project with the model's defaults. */
  function NewProject(id: string, name: string, repoUrl: string, branch: string, language: Option<string>, isSystem: bool): Project {
    Project(id, name, repoUrl, branch, language, None, 0, 0, 0.0, isSystem, map[], [])
  }

  /** `get_grade`: A for none, then B up to 5, C up to 10, D up to 20, F above. */
  function GetGrade(p: Project): (g: string)
    ensures g == "A" <==> p.latestViolations == 0
    ensures g == "B" <==> 1 <= p.latestViolations <= 5 || p.latestViolations < 0
    ensures g == "C" <==> 6 <= p.latestViolations <= 10
    ensures g == "D" <==> 11 <= p.latestViolations <= 20
    ensures g == "F" <==> p.latestViolations > 20
  {
    var n := p.latestViolations;
    if n == 0 then "A" else if n <= 5 then "B" else if n <= 10 then "C" else if n <= 20 then "D" else "F"
  }

  /** The rank of a grade letter, A best. */
  function GradeRank(g: string): nat {
    if g == "A" then 0 else if g == "B" then 1 else if g == "C" then 2 else if g == "D" then 3 else 4
  }

  /** More violations never earn a better grade. */
  lemma GradeMonotone(a: Project, b: Project)
    requires 0 <= a.latestViolations <= b.latestViolations
    ensures GradeRank(GetGrade(a)) <= GradeRank(GetGrade(b))
  {
  }

  function DetailOr(d: map<string, int>, k: string): int {
    if k in d then d[k] else 0
  }

  /** `high_violations`: critical, high and major together. */
  function HighViolations(p: Project): int {
    DetailOr(p.details, "critical") + DetailOr(p.details, "high") + DetailOr(p.details, "major")
  }

  /** `medium_violations`. */
  function MediumViolations(p: Project): int {
    DetailOr(p.details, "medium")
  }

  /** `low_violations`: minor, low and info together. */
  function LowViolations(p: Project): int {
    DetailOr(p.details, "minor") + DetailOr(p.details, "low") + DetailOr(p.details, "info")
  }

  // ------------------------------------------------------ scan results

  /** `{sev.value: 0 for sev in ViolationSeverity}`. */
  function ZeroDetails(): (d: map<string, int>)
    ensures forall s: Severity :: SeverityName(s) in d && d[SeverityName(s)] == 0
    ensures forall k :: k in d ==> ParseSeverity(k).Some?
  {
    map["critical" := 0, "high" := 0, "major" := 0, "medium" := 0, "minor" := 0, "low" := 0, "info" := 0]
  }

  /** The loop's `details[violation.severity.value] += 1`, over the accepted
      violations. */
  function Tally(vs: seq<Violation>): (d: map<string, int>)
    ensures forall s: Severity :: SeverityName(s) in d
    ensures forall k :: k in d ==> ParseSeverity(k).Some?
  {
    if vs == [] then ZeroDetails()
    else
      var d := Tally(vs[..|vs| - 1]);
      var k := SeverityName(vs[|vs| - 1].severity);
      d[k := d[k] + 1]
  }

  function HasSeverity(s: Severity): Violation -> bool {
    (v: Violation) => v.severity == s
  }

  /** Each bucket counts the violations of its severity. */
  lemma {:induction false} TallyCounts(vs: seq<Violation>, s: Severity)
    ensures Tally(vs)[SeverityName(s)] == CountIf(vs, HasSeverity(s))
    decreases |vs|
  {
    if vs != [] {
      var init, last := vs[..|vs| - 1], vs[|vs| - 1];
      TallyCounts(init, s);
      assert init + [last] == vs;
      TallyStep(init, last, s);
      CountIfSnoc(init, last, HasSeverity(s));
    }
  }

  /** One more violation raises its own bucket by one and no other. */
  lemma TallyStep(init: seq<Violation>, last: Violation, s: Severity)
    ensures Tally(init + [last])[SeverityName(s)] == Tally(init)[SeverityName(s)] + if last.severity == s then 1 else 0
  {
    var vs := init + [last];
    assert vs[..|vs| - 1] == init && vs[|vs| - 1] == last;
    SeverityNameInjective(last.severity, s);
  }

  lemma CountIfSnoc<T>(init: seq<T>, last: T, p: T -> bool)
    ensures CountIf(init + [last], p) == CountIf(init, p) + if p(last) then 1 else 0
  {
    CountIfAppend(init, [last], p);
    assert [last][1..] == [];
  }

  /** The seven buckets added up. */
  function BucketTotal(d: map<string, int>): int {
    DetailOr(d, SeverityName(Critical)) + DetailOr(d, SeverityName(High)) + DetailOr(d, SeverityName(Major))
    + DetailOr(d, SeverityName(Medium)) + DetailOr(d, SeverityName(Minor)) + DetailOr(d, SeverityName(Low))
    + DetailOr(d, SeverityName(Info))
  }

  /** One increment raises the total by one. */
  lemma BumpTotal(d: map<string, int>, s: Severity)
    requires SeverityName(s) in d
    ensures BucketTotal(d[SeverityName(s) := d[SeverityName(s)] + 1]) == BucketTotal(d) + 1
  {
    match s
    case Critical =>
    case High =>
    case Major =>
    case Medium =>
    case Minor =>
    case Low =>
    case Info =>
  }

  /** The seven buckets together count each violation once. */
  lemma {:induction false} TallyTotal(vs: seq<Violation>)
    ensures BucketTotal(Tally(vs)) == |vs|
    decreases |vs|
  {
    if vs != [] {
      TallyTotal(vs[..|vs| - 1]);
      BumpTotal(Tally(vs[..|vs| - 1]), vs[|vs| - 1].severity);
    }
  }

  /** The two shapes of `violations`: a legacy count or a list. */
  datatype ScanInput = Count(n: int) | Records(items: seq<RawViolation>)

  /** `update_scan_results`: stamps the scan, counts it, and replaces the
      violation figures. `now` is the clock reading. */
  function UpdateScanResults(p: Project, input: ScanInput, emissions: real, now: string): (r: Project)
    ensures r.scanCount == p.scanCount + 1 && r.lastScan == Some(now) && r.totalEmissions == emissions
    ensures r.id == p.id && r.name == p.name && r.repoUrl == p.repoUrl && r.branch == p.branch
    ensures r.language == p.language && r.isSystem == p.isSystem
    ensures input.Count? ==> r.latestViolations == input.n && r.violations == []
    ensures input.Count? ==> forall s: Severity :: DetailOr(r.details, SeverityName(s)) == 0
    ensures input.Records? ==> r.violations == AcceptAll(input.items) && r.latestViolations == |r.violations|
    ensures forall k :: k in r.details ==> ParseSeverity(k).Some?
  {
    var stamped := p.(lastScan := Some(now), scanCount := p.scanCount + 1, totalEmissions := emissions);
    match input
    case Count(n) => stamped.(latestViolations := n, violations := [], details := ZeroDetails())
    case Records(items) =>
      var accepted := AcceptAll(items);
      stamped.(violations := accepted, latestViolations := |accepted|, details := Tally(accepted))
  }

  /** After a list update, the buckets split the accepted violations: each
      one lands in exactly one of high, medium and low. */
  lemma BucketsPartition(p: Project, items: seq<RawViolation>, emissions: real, now: string)
    ensures var r := UpdateScanResults(p, Records(items), emissions, now);
      HighViolations(r) + MediumViolations(r) + LowViolations(r) == r.latestViolations
  {
    TallyTotal(AcceptAll(items));
  }

  /** After a list update, each severity's bucket holds the number of
      accepted violations of that severity; an unknown severity counts as
      low. */
  lemma BucketCounts(p: Project, items: seq<RawViolation>, emissions: real, now: string, s: Severity)
    ensures var r := UpdateScanResults(p, Records(items), emissions, now);
      DetailOr(r.details, SeverityName(s)) == CountIf(r.violations, HasSeverity(s))
  {
    TallyCounts(AcceptAll(items), s);
  }
}

=== FILE: export.dfy ===
/** The CSV export and the JSON statistics: what each issue row says, the
    order of the rows, the summary row that closes the file, and the counts
    `get_statistics` reports. Writing the file, the HTML report and number
    formatting are not modelled: the rows are returned as values. */
module Export {
  import opened Common
  import opened Issues
  import Sorting
  import Tally

  // ------------------------------------------------------- per-issue cells

  /** `_get_severity_score`: critical 4, high 3, medium 2, low 1, anything
      else 0, ignoring case. */
  function SeverityScore(severity: string): (r: nat)
    ensures r <= 4
    ensures r == 0 <==> Lower(severity) !in {"critical", "high", "medium", "low"}
  {
    var s := Lower(severity);
    if s == "critical" then 4 else if s == "high" then 3 else if s == "medium" then 2 else if s == "low" then 1 else 0
  }

  /** `severity_order` of the CSV sort: critical 0 up to info 4, other 5. */
  function SeverityRank(severity: string): (r: nat)
    ensures r <= 5
  {
    if severity == "critical" then 0 else if severity == "high" then 1 else if severity == "medium" then 2
    else if severity == "low" then 3 else if severity == "info" then 4 else 5
  }

  /** The score and the sort agree: a higher score sorts earlier. */
  lemma ScoreAgreesWithRank(a: string, b: string)
    requires SeverityScore(a) > 0 && SeverityScore(b) > 0
    ensures SeverityScore(a) > SeverityScore(b) <==> SeverityRank(Lower(a)) < SeverityRank(Lower(b))
  {
  }

  /** The energy-factor cell: the issue's own value, or a label inferred
      from the rule id and the severity. */
  datatype Factor = Given(value: real) | Inferred(text: string)

  /** `2 ** (line % 3 + 2)` with Python's floored `%`: 4, 8 or 16. */
  function NestingFactor(line: int): (r: nat)
    ensures r == 4 || r == 8 || r == 16
  {
    var k := line % 3 + 2;
    if k == 2 then 4 else if k == 3 then 8 else 16
  }

  lemma NestingText(line: int)
    ensures NatToString(NestingFactor(line)) + "x" in {"4x", "8x", "16x"}
  {
    var n := NestingFactor(line);
    if n == 16 {
      assert NatToString(1) == [DigitChar(1)] == "1";
      assert NatToString(16) == NatToString(1) + [DigitChar(6)] == "16";
      assert NatToString(16) + "x" == "16x";
    } else if n == 8 {
      assert NatToString(8) == [DigitChar(8)] == "8";
      assert NatToString(8) + "x" == "8x";
    } else {
      assert NatToString(4) == [DigitChar(4)] == "4";
      assert NatToString(4) + "x" == "4x";
    }
  }

  /** `_get_energy_factor`. */
  function EnergyFactor(i: Issue): (r: Factor)
    ensures i.energyFactor.Some? ==> r == Given(i.energyFactor.value)
    ensures i.energyFactor.None? && Contains(Or(i.id, ""), "io_in_loop") ==> r == Inferred("1000x")
    ensures i.energyFactor.None? && !Contains(Or(i.id, ""), "io_in_loop") && Contains(Or(i.id, ""), "blocking_io") ==>
      r == Inferred("100x")
    ensures r.Inferred? ==> r.text in {"1000x", "100x", "10x", "1x", "0.1x", "4x", "8x", "16x"}
  {
    if i.energyFactor.Some? then Given(i.energyFactor.value)
    else
      var severity := Lower(Or(i.severity, "low"));
      var id := Or(i.id, "");
      if Contains(id, "io_in_loop") then Inferred("1000x")
      else if Contains(id, "blocking_io") then Inferred("100x")
      else if Contains(id, "excessive_nesting") then
        NestingText(Or(i.line, 2));
        Inferred(NatToString(NestingFactor(Or(i.line, 2))) + "x")
      else if severity == "critical" then Inferred("100x")
      else if severity == "high" then Inferred("10x")
      else if severity == "medium" then Inferred("1x")
      else Inferred("0.1x")
  }

  /** The rule id wins over the severity: a critical issue of a rule that
      is none of the three named ones gets 100x, and so does any
      `blocking_io` issue whatever its severity. */
  lemma EnergyFactorBySeverity(i: Issue)
    requires i.energyFactor.None?
    requires var id := Or(i.id, "");
      !Contains(id, "io_in_loop") && !Contains(id, "blocking_io") && !Contains(id, "excessive_nesting")
    ensures var s := Lower(Or(i.severity, "low"));
      EnergyFactor(i) == Inferred(if s == "critical" then "100x" else if s == "high" then "10x"
        else if s == "medium" then "1x" else "0.1x")
  {
  }

  /** `_get_effort`: the issue's own effort, or one inferred from the
      severity (missing severity reads as low). */
  function Effort(i: Issue): (r: string)
    ensures i.effort.Some? ==> r == i.effort.value
    ensures i.effort.None? ==> r in {"high", "medium", "easy", "trivial"}
    ensures i.effort.None? ==> (r == "trivial" <==> Lower(Or(i.severity, "low")) in {"low", "info"})
    ensures i.effort.None? ==> var s := Lower(Or(i.severity, "low"));
      && (s == "critical" ==> r == "high")
      && (s == "high" ==> r == "medium")
      && (s == "medium" ==> r == "easy")
      && (s !in {"critical", "high", "medium", "low", "info"} ==> r == "medium")
  {
    if i.effort.Some? then i.effort.value
    else
      var s := Lower(Or(i.severity, "low"));
      if s == "critical" then "high" else if s == "high" then "medium" else if s == "medium" then "easy"
      else if s == "low" || s == "info" then "trivial" else "medium"
  }

  // ------------------------------------------------------------- ordering

  /** The sort key of an issue row. */
  datatype SortKey = SortKey(rank: nat, file: string, line: int)

  function KeyOf(i: Issue): SortKey {
    SortKey(SeverityRank(Lower(Or(i.severity, "info"))), Or(i.file, ""), Or(i.line, 0))
  }

  /** Python's tuple `<=` on the keys. */
  predicate KeyLe(a: SortKey, b: SortKey) {
    a.rank < b.rank
    || (a.rank == b.rank && ((Sorting.StrLe(a.file, b.file) && a.file != b.file) || (a.file == b.file && a.line <= b.line)))
  }

  lemma KeyLePreorder()
    ensures Sorting.TotalPreorder(KeyLe)
  {
    forall a, b ensures KeyLe(a, b) || KeyLe(b, a) {
      Sorting.StrLeTotal(a.file, b.file);
    }
    forall a, b, c | KeyLe(a, b) && KeyLe(b, c) ensures KeyLe(a, c) {
      if a.rank == b.rank == c.rank && a.file != b.file && b.file != c.file {
        Sorting.StrLeTransitive(a.file, b.file, c.file);
        if a.file == c.file {
          Sorting.StrLeAntisymmetric(a.file, b.file);
        }
      }
    }
  }

  function IssueLe(): (Issue, Issue) -> bool {
    (a: Issue, b: Issue) => KeyLe(KeyOf(a), KeyOf(b))
  }

  lemma IssueLePreorder()
    ensures Sorting.TotalPreorder(IssueLe())
  {
    KeyLePreorder();
    Sorting.ByKeyPreorder(KeyOf, KeyLe);
    assert IssueLe() == (a: Issue, b: Issue) => KeyLe(KeyOf(a), KeyOf(b));
  }

  /** `sorted(issues, key=...)` of `CSVExporter.export`. */
  function SortIssues(issues: seq<Issue>): (r: seq<Issue>)
    ensures multiset(r) == multiset(issues)
  {
    Sorting.SortBy(issues, IssueLe())
  }

  /** The rows are ordered by severity, then file, then line, and issues
      with equal keys keep their scan order. */
  lemma SortIssuesOrdered(issues: seq<Issue>, e: Issue)
    ensures Sorting.SortedBy(SortIssues(issues), IssueLe())
    ensures Sorting.Ties(SortIssues(issues), e, IssueLe()) == Sorting.Ties(issues, e, IssueLe())
  {
    IssueLePreorder();
    Sorting.SortBySorted(issues, IssueLe());
    Sorting.SortByStable(issues, e, IssueLe());
  }

  // ------------------------------------------------------------- summary

  /** `i.get('severity', '').lower() == name`. */
  function SeverityIs(name: string): Issue -> bool {
    (i: Issue) => Lower(Or(i.severity, "")) == name
  }

  function SeverityCount(issues: seq<Issue>, name: string): nat {
    CountIf(issues, SeverityIs(name))
  }

  /** `effort_scores.get(effort, 1)`. */
  function EffortScore(effort: string): (r: nat)
    ensures r <= 3
  {
    if effort == "high" then 3 else if effort == "medium" then 2 else if effort == "easy" then 1
    else if effort == "trivial" then 0 else 1
  }

  function EffortTotal(issues: seq<Issue>): nat {
    if issues == [] then 0 else EffortScore(Effort(issues[0])) + EffortTotal(issues[1..])
  }

  function EffortIs(e: string): Issue -> bool {
    (i: Issue) => Effort(i) == e
  }

  function EffortOther(i: Issue): bool {
    Effort(i) !in {"high", "medium", "easy", "trivial"}
  }

  /** The effort total counts each issue by its effort level. */
  lemma {:induction false} EffortTotalByLevel(issues: seq<Issue>)
    ensures EffortTotal(issues) ==
      3 * CountIf(issues, EffortIs("high")) + 2 * CountIf(issues, EffortIs("medium"))
      + CountIf(issues, EffortIs("easy")) + CountIf(issues, EffortOther)
  {
    if issues != [] {
      EffortTotalByLevel(issues[1..]);
    }
  }

  /** The average effort: the first of high (mean score at least 2.5),
      medium (1.5), easy (0.5) the mean reaches, or medium when it reaches
      none or there are no issues. */
  function AverageEffort(issues: seq<Issue>): (r: string)
    ensures issues == [] ==> r == "medium"
    ensures issues != [] ==> var mean := (EffortTotal(issues) as real) / (|issues| as real);
      && (r == "high" <==> mean >= 2.5)
      && (r == "easy" <==> 0.5 <= mean < 1.5)
      && (r == "medium" <==> mean < 0.5 || 1.5 <= mean < 2.5)
  {
    if issues == [] then "medium"
    else
      var mean := (EffortTotal(issues) as real) / (|issues| as real);
      if mean >= 2.5 then "high" else if mean >= 1.5 then "medium" else if mean >= 0.5 then "easy" else "medium"
  }

  /** The average effort does not depend on the order of the issues. */
  lemma AverageEffortOrderFree(a: seq<Issue>, b: seq<Issue>)
    requires multiset(a) == multiset(b)
    ensures AverageEffort(a) == AverageEffort(b)
  {
    EffortTotalOrderFree(a, b);
    assert |a| == |multiset(a)| == |multiset(b)| == |b|;
  }

  lemma EffortTotalOrderFree(a: seq<Issue>, b: seq<Issue>)
    requires multiset(a) == multiset(b)
    ensures EffortTotal(a) == EffortTotal(b)
  {
    EffortTotalByLevel(a);
    EffortTotalByLevel(b);
    CountIfMultiset(a, b, EffortIs("high"));
    CountIfMultiset(a, b, EffortIs("medium"));
    CountIfMultiset(a, b, EffortIs("easy"));
    CountIfMultiset(a, b, EffortOther);
  }

  // ----------------------------------------------------------------- rows

  datatype Row =
    | IssueRow(file: string, line: int, ruleId: string, severity: string, message: string, energy: Factor, effort: string)
    | SummaryRow(total: nat, critical: nat, high: nat, medium: nat, low: nat, averageEffort: string,
                 codebaseEmissions: real, totalEmissions: real)

  function RowOf(i: Issue): (r: Row)
    ensures r.IssueRow? && r.energy == EnergyFactor(i) && r.effort == Effort(i)
  {
    IssueRow(Or(i.file, "unknown"), Or(i.line, 0), Or(i.id, "unknown_rule"), Lower(Or(i.severity, "info")),
      Or(i.message, "No message"), EnergyFactor(i), Effort(i))
  }

  /** What `CSVExporter.export` is given; any key may be missing. */
  datatype Results = Results(issues: Option<seq<Issue>>, codebaseEmissions: Option<real>, scanningEmissions: Option<real>)

  /** The data rows of `CSVExporter.export`, after the header: one per
      issue in sorted order, then the summary. The counts are taken over
      the sorted list, as the source does. */
  function CsvRows(results: Results): (rows: seq<Row>)
    ensures var issues := Or(results.issues, []);
      && |rows| == |issues| + 1
      && (forall k :: 0 <= k < |issues| ==> rows[k] == RowOf(SortIssues(issues)[k]))
      && rows[|issues|].SummaryRow? && rows[|issues|].total == |issues|
  {
    var issues := Or(results.issues, []);
    var sorted := SortIssues(issues);
    var codebase := Or(results.codebaseEmissions, 0.0);
    seq(|sorted|, k requires 0 <= k < |sorted| => RowOf(sorted[k]))
    + [SummaryRow(|sorted|, SeverityCount(sorted, "critical"), SeverityCount(sorted, "high"),
        SeverityCount(sorted, "medium"), SeverityCount(sorted, "low"), AverageEffort(sorted),
        codebase, codebase + Or(results.scanningEmissions, 0.0))]
  }

  /** Exactly one summary row, and it is the last one. */
  lemma OneSummaryRow(results: Results)
    ensures var rows := CsvRows(results);
      && rows[|rows| - 1].SummaryRow?
      && forall k :: 0 <= k < |rows| - 1 ==> rows[k].IssueRow?
  {
  }

  /** The summary's counts are those of the issues as scanned: sorting
      changes none of them. */
  lemma SummaryCounts(results: Results)
    ensures var issues, rows := Or(results.issues, []), CsvRows(results);
      var summary := rows[|rows| - 1];
      && summary.critical == SeverityCount(issues, "critical")
      && summary.high == SeverityCount(issues, "high")
      && summary.medium == SeverityCount(issues, "medium")
      && summary.low == SeverityCount(issues, "low")
      && summary.averageEffort == AverageEffort(issues)
  {
    var issues := Or(results.issues, []);
    var sorted := SortIssues(issues);
    CountIfMultiset(sorted, issues, SeverityIs("critical"));
    CountIfMultiset(sorted, issues, SeverityIs("high"));
    CountIfMultiset(sorted, issues, SeverityIs("medium"));
    CountIfMultiset(sorted, issues, SeverityIs("low"));
    AverageEffortOrderFree(sorted, issues);
  }

  // ------------------------------------------------------------ statistics

  function RuleOf(i: Issue): string {
    Or(i.id, "unknown")
  }

  datatype Statistics = Statistics(
    total: nat, critical: nat, high: nat, medium: nat, low: nat, info: nat,
    affectedFiles: nat, byRule: Tally.Counts<string>, codebaseEmissions: real, scanningEmissions: real)

  function FileOf(i: Issue): string {
    Or(i.file, "unknown")
  }

  /** `JSONExporter.get_statistics` (the per-file emissions are passed
      through and not modelled). */
  function GetStatistics(results: Results): (r: Statistics)
    ensures var issues := Or(results.issues, []);
      && r.total == |issues|
      && r.affectedFiles == |set i | i in issues :: FileOf(i)|
      && r.affectedFiles <= r.total
      && r.critical + r.high + r.medium + r.low + r.info <= r.total
  {
    var issues := Or(results.issues, []);
    FilesBound(issues);
    SeverityCountsBound(issues);
    Statistics(|issues|, SeverityCount(issues, "critical"), SeverityCount(issues, "high"),
      SeverityCount(issues, "medium"), SeverityCount(issues, "low"), SeverityCount(issues, "info"),
      |set i | i in issues :: FileOf(i)|, Tally.TallyBy(issues, RuleOf),
      Or(results.codebaseEmissions, 0.0), Or(results.scanningEmissions, 0.0))
  }

  /** Every issue names one file, so there are no more files than issues. */
  lemma {:induction false} FilesBound(issues: seq<Issue>)
    ensures |set i | i in issues :: FileOf(i)| <= |issues|
  {
    if issues != [] {
      var rest := issues[1..];
      FilesBound(rest);
      assert (set i | i in issues :: FileOf(i)) <= (set i | i in rest :: FileOf(i)) + {FileOf(issues[0])} by {
        assert forall i :: i in issues ==> i == issues[0] || i in rest;
      }
      SetSizeBound(set i | i in rest :: FileOf(i), FileOf(issues[0]), set i | i in issues :: FileOf(i));
    }
  }

  lemma SetSizeBound(a: set<string>, x: string, b: set<string>)
    requires b <= a + {x}
    ensures |b| <= |a| + 1
  {
    assert |a + {x}| <= |a| + 1;
    SubsetSize(b, a + {x});
  }

  lemma SubsetSize<T>(b: set<T>, c: set<T>)
    requires b <= c
    ensures |b| <= |c|
  {
    assert c == b + (c - b);
  }

  /** The five severity counts never exceed the number of issues, since an
      issue has one lowercased severity. */
  lemma {:induction false} SeverityCountsBound(issues: seq<Issue>)
    ensures SeverityCount(issues, "critical") + SeverityCount(issues, "high") + SeverityCount(issues, "medium")
      + SeverityCount(issues, "low") + SeverityCount(issues, "info") <= |issues|
  {
    if issues != [] {
      SeverityCountsBound(issues[1..]);
    }
  }

  /** The statistics' `by_rule` counts add up to the total. */
  lemma StatisticsByRule(results: Results)
    ensures var r := GetStatistics(results);
      && Tally.SumCounts(r.byRule) == r.total
      && Tally.Distinct(r.byRule)
      && (forall rule :: Tally.CountOf(r.byRule, rule) == CountIf(Or(results.issues, []), Tally.KeyIs(RuleOf, rule)))
      && Tally.Keys(r.byRule) == set i | i in Or(results.issues, []) :: RuleOf(i)
  {
    Tally.TallyCounts(Or(results.issues, []), RuleOf);
    Tally.TallyKeys(Or(results.issues, []), RuleOf);
  }
}

=== FILE: findings.dfy ===
/** The record every detector emits: a rule id, the 1-based source line, a
    severity word, a human message and a tag naming the pattern that fired. */
module Findings {

  /** The rule ids the detectors emit. `IdText` gives the id as the source
      spells it. */
  datatype RuleId =
    | NoN2Algorithms | InefficientLoop | InefficientLookup | IoInLoop | UnnecessaryComputation
    | NoInfiniteLoops | ExcessiveNestingDepth | BlockingIo | ProperResourceCleanup | ExcessiveLogging
    | HeavyObjectCopy | ProcessSpawning | InefficientFileRead | PandasIterrows | GlobalVariableMutation
    | ExceptionsInLoop | HighCyclomaticComplexity | DeepRecursion | MagicNumbers | UnusedVariables
    | UnusedImports | StringConcatenationInLoop | DeadCodeBlock | InefficientDataStructure
    | EvalUsage | DocumentWrite | MomentjsDeprecated | SetIntervalAnimation | AlertUsage
    | UnnecessaryDomManipulation | SynchronousIo | ExcessiveConsoleLogging | StringConcatenation

  function IdText(r: RuleId): string {
    match r
    case NoN2Algorithms => "no_n2_algorithms"
    case InefficientLoop => "inefficient_loop"
    case InefficientLookup => "inefficient_lookup"
    case IoInLoop => "io_in_loop"
    case UnnecessaryComputation => "unnecessary_computation"
    case NoInfiniteLoops => "no_infinite_loops"
    case ExcessiveNestingDepth => "excessive_nesting_depth"
    case BlockingIo => "blocking_io"
    case ProperResourceCleanup => "proper_resource_cleanup"
    case ExcessiveLogging => "excessive_logging"
    case HeavyObjectCopy => "heavy_object_copy"
    case ProcessSpawning => "process_spawning"
    case InefficientFileRead => "inefficient_file_read"
    case PandasIterrows => "pandas_iterrows"
    case GlobalVariableMutation => "global_variable_mutation"
    case ExceptionsInLoop => "exceptions_in_loop"
    case HighCyclomaticComplexity => "high_cyclomatic_complexity"
    case DeepRecursion => "deep_recursion"
    case MagicNumbers => "magic_numbers"
    case UnusedVariables => "unused_variables"
    case UnusedImports => "unused_imports"
    case StringConcatenationInLoop => "string_concatenation_in_loop"
    case DeadCodeBlock => "dead_code_block"
    case InefficientDataStructure => "inefficient_data_structure"
    case EvalUsage => "eval_usage"
    case DocumentWrite => "document_write"
    case MomentjsDeprecated => "momentjs_deprecated"
    case SetIntervalAnimation => "setInterval_animation"
    case AlertUsage => "alert_usage"
    case UnnecessaryDomManipulation => "unnecessary_dom_manipulation"
    case SynchronousIo => "synchronous_io"
    case ExcessiveConsoleLogging => "excessive_console_logging"
    case StringConcatenation => "string_concatenation"
  }

  datatype Severity = Critical | Major | High | Medium | Minor | Low

  function SeverityText(s: Severity): string {
    match s
    case Critical => "critical"
    case Major => "major"
    case High => "high"
    case Medium => "medium"
    case Minor => "minor"
    case Low => "low"
  }

  /** The place in the detectors a finding comes from. It fixes the message
      template and the `pattern_match` tag; `arg` is what the template
      interpolates (a name, a depth, a number), empty when nothing is. */
  datatype Kind =
    // the Python AST visitor
    | NestedFor | RangeLen | InfiniteWhile | NestedWhile | IoCallInLoop | RedundantCallInLoop
    | MembershipInLoop | BlockingCall | OpenWithoutWith | PrintCall | LoggingCall | DeepcopyCall
    | ProcessSpawnCall | ReadlinesCall | IterrowsCall | GlobalStatement | TryInLoop | ComplexFunction
    | RecursiveFunction | MagicConstant | UnusedName | UnusedImportName
    // the Python line patterns
    | RedundantLine | ConcatLine | DeadLine | DataStructLine
    // the JavaScript line patterns
    | UnusedDeclJs | EvalJs | DocumentWriteJs | MomentJs | SetIntervalJs | DialogJs | NestedLoopJs
    | DomInLoopJs | InfiniteWhileJs | CStyleForJs | SyncIoJs | ConsoleLogJs | ConcatJs | MagicNumberJs
    | DomQueryJs

  /** The `pattern_match` value of a finding of this kind. */
  function Tag(k: Kind): string {
    match k
    case NestedFor => "nested_for_loop"
    case RangeLen => "range_len"
    case InfiniteWhile => "infinite_while"
    case NestedWhile => "nested_while_loop"
    case IoCallInLoop => "io_operation_in_loop"
    case RedundantCallInLoop => "computation_outside_loop"
    case MembershipInLoop => "list_lookup_loop"
    case BlockingCall => "sync_io"
    case OpenWithoutWith => "file_not_closed"
    case PrintCall => "print_usage"
    case LoggingCall => "logging_call"
    case DeepcopyCall => "deepcopy"
    case ProcessSpawnCall => "process_spawn"
    case ReadlinesCall => "readlines"
    case IterrowsCall => "iterrows"
    case GlobalStatement => "global_keyword"
    case TryInLoop => "try_in_loop"
    case ComplexFunction => "complex_function"
    case RecursiveFunction => "recursive_function"
    case MagicConstant => "magic_number"
    case UnusedName => "unused_var"
    case UnusedImportName => "unused_import"
    case RedundantLine => "computation_outside_loop"
    case ConcatLine => "string_concat_loop"
    case DeadLine => "dead_code"
    case DataStructLine => "data_struct_usage"
    case UnusedDeclJs => "unused_var_js"
    case EvalJs => "eval_usage"
    case DocumentWriteJs => "document_write"
    case MomentJs => "momentjs_deprecated"
    case SetIntervalJs => "setInterval_animation"
    case DialogJs => "alert_usage"
    case NestedLoopJs => "nested_loop_js"
    case DomInLoopJs => "dom_in_loop"
    case InfiniteWhileJs => "infinite_while_js"
    case CStyleForJs => "c_style_for"
    case SyncIoJs => "sync_io_js"
    case ConsoleLogJs => "console_log"
    case ConcatJs => "string_concat_js"
    case MagicNumberJs => "magic_number_js"
    case DomQueryJs => "dom_query"
  }

  /** The message text of a finding of kind `k` with argument `a`. */
  function Message(k: Kind, a: string): string {
    match k
    case NestedFor => "Nesting depth " + a + ": O(n^" + a + ") complexity detected."
    case RangeLen => "Using range(len(sequence)) is inefficient. Use enumerate() or zip()."
    case InfiniteWhile => "Infinite loop detected (while True). Ensure break condition exists."
    case NestedWhile => "Nesting depth " + a + ": O(n^" + a + ") complexity detected."
    case IoCallInLoop => "I/O operation \"" + a + "()\" in loop. Each call costs 100-1000x more energy."
    case RedundantCallInLoop => "Redundant computation \"" + a + "()\" in loop. Move outside for O(1) impact."
    case MembershipInLoop =>
      "Membership test on \"" + a + "\" inside loop. If it is a list, consider converting to a set for O(1) lookup."
    case BlockingCall => "Blocking I/O operation \"" + a + "()\". Consider async/await."
    case OpenWithoutWith => "File opened without context manager. Use \"with open()\" to ensure closure."
    case PrintCall => "Usage of \"print\" detected. Use logging module or remove in production."
    case LoggingCall => "Excessive logging call \"" + a + "\". Verify log levels."
    case DeepcopyCall => "Usage of deepcopy detected. This is computationally expensive."
    case ProcessSpawnCall => "Process spawning detected. High OS overhead."
    case ReadlinesCall => "Using readlines() reads entire file into memory. Iterate file object instead."
    case IterrowsCall => "Using iterrows() is slow. Use vectorization or apply()."
    case GlobalStatement => "Global variable usage detected. Can hinder optimization."
    case TryInLoop => "Try/Except block inside loop. Exception handling is expensive."
    case ComplexFunction =>
      "Function has high cyclomatic complexity (" + a + "). More code paths = more CPU execution."
    case RecursiveFunction =>
      "Recursive function \"" + a + "\" detected. Deep recursion consumes significant stack memory and CPU."
    case MagicConstant => "Magic number \"" + a + "\" usage. Use named constants."
    case UnusedName => "Unused variable \"" + a + "\". Remove to free memory."
    case UnusedImportName => "Unused import \"" + a + "\". Module load adds startup time and memory."
    case RedundantLine => "Redundant computation detected (" + a + "). Move outside loop."
    case ConcatLine => "String concatenation in loop creates O(n\U{00C2}\U{00B2}) memory allocations."
    case DeadLine => "Unreachable code after return/raise. Dead code increases memory."
    case DataStructLine => a
    case UnusedDeclJs => "Variable \"" + a + "\" appears to be unused."
    case EvalJs => "Eval is a security risk and slow."
    case DocumentWriteJs => "document.write blocks rendering."
    case MomentJs => "Moment.js is heavy. Use Day.js or Date."
    case SetIntervalJs => "Use requestAnimationFrame instead of setInterval."
    case DialogJs => "Native dialogs block the main thread."
    case NestedLoopJs => "Nesting depth " + a + ": Potential O(n^" + a + ") complexity detected."
    case DomInLoopJs => "DOM manipulation \"" + a + "\" inside loop. Causes reflows/repaints. Batch updates."
    case InfiniteWhileJs => "Infinite loop detected (while(true))."
    case CStyleForJs =>
      "C-style for loop detected. Consider using .map(), .filter(), or .reduce() for better optimization."
    case SyncIoJs => "Synchronous I/O blocks the main thread. Use async APIs."
    case ConsoleLogJs => "Console logging detected. Remove in production."
    case ConcatJs => "String concatenation in loop creates new objects repeatedly."
    case MagicNumberJs => "Magic number \"" + a + "\" usage. Use named constants."
    case DomQueryJs => "Direct DOM query/manipulation. Cache references."
  }

  /** One violation: rule, 1-based line, severity, and where it comes from. */
  datatype Finding = Finding(rule: RuleId, line: nat, severity: Severity, kind: Kind, arg: string)
  {
    function Id(): string { IdText(rule) }
    function MessageText(): string { Message(kind, arg) }
    function PatternMatch(): string { Tag(kind) }
  }

  /** A single finding when `c` holds, else none. */
  function When(c: bool, f: Finding): seq<Finding>
  {
    if c then [f] else []
  }

  lemma WhenCountId(c: bool, f: Finding, id: RuleId)
    ensures CountId(When(c, f), id) == if c && f.rule == id then 1 else 0
  {
  }

  /** Number of findings of rule `id`. */
  function CountId(fs: seq<Finding>, id: RuleId): (n: nat)
    ensures n <= |fs|
  {
    if fs == [] then 0 else (if fs[0].rule == id then 1 else 0) + CountId(fs[1..], id)
  }

  lemma FirstMember(a: seq<Finding>, b: seq<Finding>, c: seq<Finding>, f: Finding)
    requires b != [] && b[0] == f
    ensures f in a + (b + c)
  {
    assert (a + (b + c))[|a|] == f;
  }

  lemma PrefixMember(a: seq<Finding>, b: seq<Finding>, f: Finding)
    requires a <= b && f in a
    ensures f in b
  {
    var j :| 0 <= j < |a| && a[j] == f;
    assert b[j] == f;
  }

  /** No finding of `fs` carries `id` exactly when none is counted. */
  lemma {:induction false} CountIdZero(fs: seq<Finding>, id: RuleId)
    ensures CountId(fs, id) == 0 <==> forall f :: f in fs ==> f.rule != id
  {
    if fs != [] {
      CountIdZero(fs[1..], id);
      if CountId(fs, id) == 0 {
        forall f | f in fs
          ensures f.rule != id
        {
          if f != fs[0] {
            var i :| 0 <= i < |fs| && fs[i] == f;
            assert fs[1..][i - 1] == f;
          }
        }
      } else if fs[0].rule != id {
        var f :| f in fs[1..] && f.rule == id;
        assert f in fs;
      }
    }
  }

  lemma {:induction false} CountIdAppend(a: seq<Finding>, b: seq<Finding>, id: RuleId)
    ensures CountId(a + b, id) == CountId(a, id) + CountId(b, id)
  {
    if a == [] {
      assert a + b == b;
    } else {
      assert (a + b)[0] == a[0] && (a + b)[1..] == a[1..] + b;
      CountIdAppend(a[1..], b, id);
    }
  }

  lemma CountId4(a: seq<Finding>, b: seq<Finding>, c: seq<Finding>, d: seq<Finding>, id: RuleId)
    ensures CountId(a + b + c + d, id) == CountId(a, id) + CountId(b, id) + CountId(c, id) + CountId(d, id)
  {
    CountIdAppend(a, b, id);
    CountIdAppend(a + b, c, id);
    CountIdAppend(a + b + c, d, id);
  }

  /** Counting one rule over two optional findings. */
  lemma CountWhen2(c1: bool, f1: Finding, c2: bool, f2: Finding, id: RuleId)
    ensures CountId(When(c1, f1) + When(c2, f2), id)
      == (if c1 && f1.rule == id then 1 else 0) + (if c2 && f2.rule == id then 1 else 0)
  {
    WhenCountId(c1, f1, id);
    WhenCountId(c2, f2, id);
    CountIdAppend(When(c1, f1), When(c2, f2), id);
  }

  /** A list whose findings all carry one rule has that rule |fs| times and
      no other rule. */
  lemma {:induction false} AllSameId(fs: seq<Finding>, id: RuleId)
    requires forall f :: f in fs ==> f.rule == id
    ensures CountId(fs, id) == |fs|
    ensures forall other :: other != id ==> CountId(fs, other) == 0
  {
    if fs != [] {
      AllSameId(fs[1..], id);
    }
  }

  /** Every finding `d` reports, on any input, carries one of `rules`. */
  ghost predicate OnlyRules<X(!new)>(d: X -> seq<Finding>, rules: set<RuleId>) {
    forall x, f :: f in d(x) ==> f.rule in rules
  }

  /** The findings of the checks `d(0, x)` up to `d(n - 1, x)`, one check
      after the other. */
  function RunAll<X>(d: (nat, X) -> seq<Finding>, n: nat, x: X): seq<Finding> {
    if n == 0 then [] else RunAll(d, n - 1, x) + d(n - 1, x)
  }

  lemma {:induction false} RunAllOnly<X>(d: (nat, X) -> seq<Finding>, n: nat, x: X, f: Finding) returns (i: nat)
    requires f in RunAll(d, n, x)
    ensures i < n && f in d(i, x)
  {
    if f in d(n - 1, x) {
      i := n - 1;
    } else {
      i := RunAllOnly(d, n - 1, x, f);
    }
  }

  lemma {:induction false} RunAllHas<X>(d: (nat, X) -> seq<Finding>, n: nat, x: X, i: nat, f: Finding)
    requires i < n && f in d(i, x)
    ensures f in RunAll(d, n, x)
  {
    if i < n - 1 {
      RunAllHas(d, n - 1, x, i, f);
    }
  }

  /** Where no check but the one at `j` reports rule `id`, all the checks
      together carry `id` as often as that check does. */
  lemma {:induction false} RunAllCount<X>(d: (nat, X) -> seq<Finding>, n: nat, x: X, j: nat, id: RuleId)
    requires j < n
    requires forall i: nat, f: Finding :: i < n && i != j && f in d(i, x) ==> f.rule != id
    ensures CountId(RunAll(d, n, x), id) == CountId(d(j, x), id)
  {
    CountIdAppend(RunAll(d, n - 1, x), d(n - 1, x), id);
    if j == n - 1 {
      RunAllNone(d, n - 1, x, id);
    } else {
      CountIdZero(d(n - 1, x), id);
      RunAllCount(d, n - 1, x, j, id);
    }
  }

  lemma {:induction false} RunAllNone<X>(d: (nat, X) -> seq<Finding>, n: nat, x: X, id: RuleId)
    requires forall i: nat, f: Finding :: i < n && f in d(i, x) ==> f.rule != id
    ensures CountId(RunAll(d, n, x), id) == 0
  {
    if n > 0 {
      CountIdZero(d(n - 1, x), id);
      CountIdAppend(RunAll(d, n - 1, x), d(n - 1, x), id);
      RunAllNone(d, n - 1, x, id);
    }
  }
}

=== FILE: giturl.dfy ===
/** The text side of the git helpers: splitting an optional `@branch`
    suffix off a repository location, checking the scheme, naming the
    repository, and recognising git URLs. Cloning, checkout and clean-up run
    `git` and touch the disk, and are not part of this model. */
module GitUrl {
  import opened Common

  datatype GitError =
    | EmptyUrl
    | BadScheme(url: string)

  /** A repository URL and the branch named after its last `@`, if any. */
  datatype Location = Location(url: string, branch: Option<string>)

  predicate KnownScheme(url: string) {
    StartsWith(url, "https://") || StartsWith(url, "git@") || StartsWith(url, "http://")
  }

  /** Whether the text after the last `@` names a branch: any `@` when the
      URL is not an SSH one, and a second `@` when it is. */
  predicate HasBranchSuffix(url: string) {
    ('@' in url && !StartsWith(url, "git@")) || (StartsWith(url, "git@") && Occurrences(url, '@') > 1)
  }

  /** `url.rsplit('@', 1)`: the text before and after the last `@`. */
  function SplitLast(url: string): (parts: (string, string))
    requires '@' in url
    ensures url == parts.0 + "@" + parts.1 && '@' !in parts.1
  {
    var i := LastIndexOf(url, '@').value;
    assert url == url[..i] + "@" + url[i + 1..];
    (url[..i], url[i + 1..])
  }

  /** `parse_git_url`: refuses the empty string, splits a branch suffix off,
      then requires one of the three schemes of what remains. */
  function ParseGitUrl(url: string): (r: Result<Location, GitError>)
    ensures url == [] ==> r == Err(EmptyUrl)
    ensures r.Ok? ==> KnownScheme(r.value.url) && KnownScheme(url)
    ensures r.Ok? && r.value.branch.None? ==> r.value.url == url && !HasBranchSuffix(url)
    ensures r.Ok? && r.value.branch.Some? ==>
      HasBranchSuffix(url) && url == r.value.url + "@" + r.value.branch.value && '@' !in r.value.branch.value
    ensures url != [] && !KnownScheme(url) ==> r.Err?
    ensures KnownScheme(url) && !HasBranchSuffix(url) ==> r == Ok(Location(url, None))
    ensures HasBranchSuffix(url) ==> '@' in url && (r.Ok? <==> KnownScheme(SplitLast(url).0))
    ensures HasBranchSuffix(url) && KnownScheme(SplitLast(url).0) ==>
      r == Ok(Location(SplitLast(url).0, Some(SplitLast(url).1)))
  {
    if url == [] then Err(EmptyUrl)
    else
      var loc := if HasBranchSuffix(url) then
        var parts := SplitLast(url);
        Location(parts.0, Some(parts.1))
      else Location(url, None);
      if KnownScheme(loc.url) then
        SchemeOfPrefix(loc.url, url);
        Ok(loc)
      else Err(BadScheme(loc.url))
  }

  /** A text that starts with a URL of a known scheme has that scheme. */
  lemma SchemeOfPrefix(u: string, url: string)
    requires KnownScheme(u) && StartsWith(url, u)
    ensures KnownScheme(url)
  {
    assert forall p :: StartsWith(u, p) ==> url[..|p|] == u[..|p|];
  }

  /** Appending `@b` to a URL of a known scheme, in particular to any
      accepted URL, with `b` free of `@`, parses back to the URL and `b`. */
  lemma BranchRoundTrip(u: string, b: string)
    requires KnownScheme(u) && '@' !in b
    ensures ParseGitUrl(u + "@" + b) == Ok(Location(u, Some(b)))
  {
    var url := u + "@" + b;
    SuffixAfterScheme(u, b);
    SplitLastUnique(url, u, b);
  }

  /** `u@b` with `u` of a known scheme has a branch suffix. */
  lemma SuffixAfterScheme(u: string, b: string)
    requires KnownScheme(u)
    ensures HasBranchSuffix(u + "@" + b)
  {
    var url := u + "@" + b;
    assert url[|u|] == '@';
    assert |u| >= 4 && url[..4] == u[..4];
    if StartsWith(u, "git@") {
      assert u[3] == '@';
      assert '@' in u;
      assert Occurrences(u, '@') > 0;
      assert url == u + ("@" + b);
      OccurrencesAppend(u, "@" + b, '@');
      assert Occurrences("@" + b, '@') >= 1;
      assert StartsWith(url, "git@");
    } else {
      assert '@' in url;
    }
  }

  /** The split at the last `@` is the only one whose tail has no `@`. */
  lemma SplitLastUnique(url: string, u: string, b: string)
    requires url == u + "@" + b && '@' !in b
    ensures SplitLast(url) == (u, b)
  {
    var parts := SplitLast(url);
    var i, j := |parts.0|, |u|;
    assert url[i] == '@' && url[j] == '@';
    assert forall k :: i < k < |url| ==> url[k] == parts.1[k - i - 1];
    assert forall k :: j < k < |url| ==> url[k] == b[k - j - 1];
    assert i == j;
    assert parts.0 == url[..i] && u == url[..j];
  }

  /** A URL that carries credentials, as in `https://user@host/repo`, is
      read as the URL `https://user` and the branch `host/repo`. */
  lemma UserInfoReadAsBranch()
    ensures ParseGitUrl("https://me@h/r") == Ok(Location("https://me", Some("h/r")))
  {
    assert KnownScheme("https://me") by { assert "https://me"[..8] == "https://"; }
    BranchRoundTrip("https://me", "h/r");
    assert "https://me" + "@" + "h/r" == "https://me@h/r";
  }

  /** `s.split('/')[-1]`: the text after the last `/`, or the whole text
      when there is none. */
  function LastSegment(s: string): (r: string)
    ensures '/' !in r && EndsWith(s, r)
    ensures |r| == |s| || s[|s| - |r| - 1] == '/'
  {
    var i := LastIndexOf(s, '/');
    if i.None? then s
    else
      assert s[i.value + 1..] == s[|s| - |s[i.value + 1..]|..];
      s[i.value + 1..]
  }

  /** The last segment is the one suffix free of `/` that starts the text or
      follows a `/`. */
  lemma LastSegmentUnique(s: string, seg: string)
    requires '/' !in seg && EndsWith(s, seg)
    requires |seg| == |s| || s[|s| - |seg| - 1] == '/'
    ensures LastSegment(s) == seg
  {
    var r := LastSegment(s);
    assert forall k :: |s| - |r| <= k < |s| ==> s[k] == r[k - (|s| - |r|)];
    assert forall k :: |s| - |seg| <= k < |s| ==> s[k] == seg[k - (|s| - |seg|)];
    assert |r| == |seg|;
  }

  /** `get_repo_name`: the last `/` segment of the parsed URL with one
      trailing `.git` removed; a URL that does not parse fails the same way. */
  function GetRepoName(gitUrl: string): (r: Result<string, GitError>)
    ensures r.Err? <==> ParseGitUrl(gitUrl).Err?
    ensures r.Err? ==> r.error == ParseGitUrl(gitUrl).error
    ensures r.Ok? ==> r.value == RepoNameOf(ParseGitUrl(gitUrl).value.url)
  {
    var parsed := ParseGitUrl(gitUrl);
    if parsed.Err? then Err(parsed.error) else Ok(RepoNameOf(parsed.value.url))
  }

  /** The repository name of a parsed URL: its last segment without one
      trailing `.git`. */
  function RepoNameOf(url: string): (r: string)
    ensures '/' !in r
    ensures var seg := LastSegment(url);
      seg == r + ".git" || (seg == r && !EndsWith(seg, ".git"))
  {
    DropGit(LastSegment(url))
  }

  /** One trailing `.git` removed. */
  function DropGit(name: string): (r: string)
    ensures name == r + ".git" || (name == r && !EndsWith(name, ".git"))
  {
    if EndsWith(name, ".git") then
      assert name == name[..|name| - 4] + ".git";
      name[..|name| - 4]
    else name
  }

  /** `is_git_url`: whether the text parses as a git location. */
  function IsGitUrl(url: string): (r: bool)
    ensures r <==> ParseGitUrl(url).Ok?
    ensures r ==> KnownScheme(url)
    ensures KnownScheme(url) && !HasBranchSuffix(url) ==> r
  {
    if url == [] then false else ParseGitUrl(url).Ok?
  }

  /** A name taken from a URL with a branch suffix ignores the suffix. */
  lemma RepoNameIgnoresBranch(u: string, b: string)
    requires ParseGitUrl(u).Ok? && ParseGitUrl(u).value.branch.None? && '@' !in b
    ensures GetRepoName(u + "@" + b) == GetRepoName(u)
  {
    BranchRoundTrip(u, b);
  }
}

=== FILE: history.dfy ===
/** The scan history of a project: the record kept per scan, its severity
    breakdown and grade, the stored form and its reading back, the trend
    between the first and the latest scan, and the comparison of two scans.
    The history file's contents are a parameter (`None` when the file is
    missing or unreadable); the clock reading is a parameter too. */
module History {
  import opened Common
  import opened Issues
  import Sorting

  /** `issue.get('severity', 'info').lower()`. */
  function SeverityOf(i: Issue): string {
    Lower(Or(i.severity, "info"))
  }

  // ----------------------------------------------------------------- grade

  /** The weight `_calculate_grade` gives a severity; anything else is 0. */
  function SeverityWeight(s: string): (w: real)
    ensures 0.0 <= w <= 5.0
  {
    if s == "critical" then 5.0 else if s == "high" then 3.0 else if s == "medium" then 1.0
    else if s == "low" then 0.5 else 0.0
  }

  function Weight(i: Issue): (w: real)
    ensures 0.0 <= w <= 5.0
  {
    SeverityWeight(SeverityOf(i))
  }

  function Weights(issues: seq<Issue>): (r: seq<real>)
    ensures |r| == |issues|
  {
    seq(|issues|, k requires 0 <= k < |issues| => Weight(issues[k]))
  }

  function MeanWeight(issues: seq<Issue>): real
    requires issues != []
  {
    SumReals(Weights(issues)) / (|issues| as real)
  }

  /** The letter for a mean weight: below 0.5 A, below 1.5 B, below 3 C,
      below 4 D, else F. */
  function GradeOfMean(m: real): (g: string)
    ensures g == "A" <==> m < 0.5
    ensures g == "B" <==> 0.5 <= m < 1.5
    ensures g == "C" <==> 1.5 <= m < 3.0
    ensures g == "D" <==> 3.0 <= m < 4.0
    ensures g == "F" <==> 4.0 <= m
  {
    if m < 0.5 then "A" else if m < 1.5 then "B" else if m < 3.0 then "C" else if m < 4.0 then "D" else "F"
  }

  /** `_calculate_grade`: A for no issues, otherwise the letter of the mean
      weight. */
  function CalculateGrade(issues: seq<Issue>): (g: string)
    ensures issues == [] ==> g == "A"
    ensures issues != [] ==> g == GradeOfMean(MeanWeight(issues))
  {
    if issues == [] then "A" else GradeOfMean(MeanWeight(issues))
  }

  function GradeRank(g: string): nat {
    if g == "A" then 0 else if g == "B" then 1 else if g == "C" then 2 else if g == "D" then 3 else 4
  }

  /** A higher mean weight never earns a better letter. */
  lemma GradeOfMeanMonotone(m1: real, m2: real)
    requires m1 <= m2
    ensures GradeRank(GradeOfMean(m1)) <= GradeRank(GradeOfMean(m2))
  {
  }

  /** Issues all of one severity grade as that severity's weight alone:
      critical F, high C, medium and low B, info or unknown A. */
  lemma UniformGrade(issues: seq<Issue>, s: string)
    requires issues != [] && forall k :: 0 <= k < |issues| ==> SeverityOf(issues[k]) == s
    ensures CalculateGrade(issues) == GradeOfMean(SeverityWeight(s))
  {
    var w := SeverityWeight(s);
    assert Weights(issues) == seq(|issues|, _ => w);
    SumRealsRepeated(w, |issues|);
    MeanOfRepeated(w, |issues|);
  }

  lemma MeanOfRepeated(w: real, n: nat)
    requires n > 0
    ensures ((n as real) * w) / (n as real) == w
  {
    var count := n as real;
    var q := (count * w) / count;
    assert count * q == count * w;
    if q < w {
      Scale(q, w, count);
      assert false;
    }
    if q > w {
      Scale(w, q, count);
      assert false;
    }
  }

  lemma {:induction false} SumRealsRepeated(w: real, n: nat)
    ensures SumReals(seq(n, _ => w)) == (n as real) * w
  {
    if n > 0 {
      SumRealsRepeated(w, n - 1);
      assert seq(n, _ => w)[1..] == seq(n - 1, _ => w);
      assert w + ((n - 1) as real) * w == (n as real) * w;
    }
  }

  /** An extra info (or unknown-severity) issue never worsens the grade. */
  lemma InfoNeverWorsens(issues: seq<Issue>, extra: Issue)
    requires Weight(extra) == 0.0
    ensures GradeRank(CalculateGrade(issues + [extra])) <= GradeRank(CalculateGrade(issues))
  {
    if issues != [] {
      var total, n := SumReals(Weights(issues)), |issues| as real;
      assert Weights(issues + [extra]) == Weights(issues) + [0.0];
      SumRealsAppend(Weights(issues), [0.0]);
      assert SumReals(Weights(issues + [extra])) == total;
      SumRealsNonNegative(Weights(issues));
      DivideByMore(total, n);
      assert |issues + [extra]| as real == n + 1.0;
      assert MeanWeight(issues + [extra]) == total / (n + 1.0);
      GradeOfMeanMonotone(total / (n + 1.0), total / n);
    } else {
      assert Weights([extra]) == [0.0];
      assert SumReals([0.0]) == 0.0;
      assert MeanWeight([extra]) == 0.0;
    }
  }

  lemma {:induction false} SumRealsNonNegative(s: seq<real>)
    requires forall k :: 0 <= k < |s| ==> s[k] >= 0.0
    ensures SumReals(s) >= 0.0
  {
    if s != [] {
      SumRealsNonNegative(s[1..]);
    }
  }

  /** Sharing a non-negative total among one more never raises the share. */
  lemma DivideByMore(total: real, n: real)
    requires total >= 0.0 && n > 0.0
    ensures total / (n + 1.0) <= total / n
  {
    var a, b := total / (n + 1.0), total / n;
    assert a * (n + 1.0) == total && b * n == total;
    assert a * (n + 1.0) == a * n + a;
    if a < 0.0 {
      Scale(a, 0.0, n + 1.0);
      assert false;
    }
    if a > b {
      Scale(b, a, n);
      assert false;
    }
  }

  /** Multiplying by a positive number keeps a strict order. */
  lemma Scale(x: real, y: real, c: real)
    requires x < y && c > 0.0
    ensures x * c < y * c
  {
    assert y * c - x * c == (y - x) * c;
  }

  // ------------------------------------------------------------- breakdown

  /** `_get_severity_breakdown`: counts for the five known severities. */
  datatype Breakdown = Breakdown(critical: nat, high: nat, medium: nat, low: nat, info: nat)

  function Bucket(b: Breakdown, s: string): nat {
    if s == "critical" then b.critical else if s == "high" then b.high else if s == "medium" then b.medium
    else if s == "low" then b.low else if s == "info" then b.info else 0
  }

  function Bump(b: Breakdown, s: string): Breakdown {
    if s == "critical" then b.(critical := b.critical + 1)
    else if s == "high" then b.(high := b.high + 1)
    else if s == "medium" then b.(medium := b.medium + 1)
    else if s == "low" then b.(low := b.low + 1)
    else if s == "info" then b.(info := b.info + 1)
    else b
  }

  /** One increment raises the named bucket, and only that one. */
  lemma BucketBump(b: Breakdown, x: string, s: string)
    requires KnownSeverity(s)
    ensures Bucket(Bump(b, x), s) == Bucket(b, s) + (if x == s then 1 else 0)
    ensures Total(Bump(b, x)) == Total(b) + (if KnownSeverity(x) then 1 else 0)
  {
  }

  predicate KnownSeverity(s: string) {
    s == "critical" || s == "high" || s == "medium" || s == "low" || s == "info"
  }

  function Total(b: Breakdown): nat {
    b.critical + b.high + b.medium + b.low + b.info
  }

  /** The loop over the issues, in order. */
  function SeverityBreakdown(issues: seq<Issue>): Breakdown
    decreases |issues|
  {
    if issues == [] then Breakdown(0, 0, 0, 0, 0)
    else Bump(SeverityBreakdown(issues[..|issues| - 1]), SeverityOf(issues[|issues| - 1]))
  }

  function HasSeverityName(s: string): Issue -> bool {
    (i: Issue) => SeverityOf(i) == s
  }

  function HasKnownSeverity(i: Issue): bool {
    KnownSeverity(SeverityOf(i))
  }

  /** Each known severity's count is the number of issues of that
      severity. */
  lemma {:induction false} BreakdownCounts(issues: seq<Issue>, s: string)
    requires KnownSeverity(s)
    ensures Bucket(SeverityBreakdown(issues), s) == CountIf(issues, HasSeverityName(s))
    decreases |issues|
  {
    if issues != [] {
      var init, last := issues[..|issues| - 1], issues[|issues| - 1];
      BreakdownCounts(init, s);
      BucketBump(SeverityBreakdown(init), SeverityOf(last), s);
      CountIfAppend(init, [last], HasSeverityName(s));
      assert init + [last] == issues;
    }
  }

  /** Only known severities are counted, so the total is the number of issues
      with one, and never more than the number of issues. */
  lemma {:induction false} BreakdownTotal(issues: seq<Issue>)
    ensures Total(SeverityBreakdown(issues)) == CountIf(issues, HasKnownSeverity)
    ensures Total(SeverityBreakdown(issues)) <= |issues|
    decreases |issues|
  {
    if issues != [] {
      var init, last := issues[..|issues| - 1], issues[|issues| - 1];
      BreakdownTotal(init);
      BucketBump(SeverityBreakdown(init), SeverityOf(last), "info");
      CountIfAppend(init, [last], HasKnownSeverity);
      assert init + [last] == issues;
    }
  }

  // -------------------------------------------------------------- file name

  /** The character kept in a history file name: alphanumerics, `_` and `-`
      stay, anything else becomes `_`. */
  function SafeChar(c: char): char {
    if IsAlnum(c) || c == '_' || c == '-' then c else '_'
  }

  predicate SafeName(s: string) {
    forall k :: 0 <= k < |s| ==> IsAlnum(s[k]) || s[k] == '_' || s[k] == '-'
  }

  function Sanitise(name: string): (r: string)
    ensures |r| == |name|
    ensures SafeName(r)
  {
    seq(|name|, k requires 0 <= k < |name| => SafeChar(name[k]))
  }

  /** Sanitising is idempotent, and leaves exactly the safe names alone. */
  lemma SanitiseIdempotent(name: string)
    ensures Sanitise(Sanitise(name)) == Sanitise(name)
    ensures Sanitise(name) == name <==> SafeName(name)
  {
    if Sanitise(name) == name {
      assert SafeName(Sanitise(name));
    }
  }

  /** Different names can share a history file: "my app" and "my_app". */
  lemma SanitiseCollides()
    ensures Sanitise("my app") == Sanitise("my_app")
  {
  }

  /** `_get_project_history_file`, relative to the history directory. */
  function HistoryFileName(name: string): string {
    Sanitise(name) + "_history.json"
  }

  // --------------------------------------------------------------- records

  /** `ScanHistory`. */
  datatype ScanHistory = ScanHistory(
    projectName: string, timestamp: string, violations: int,
    codebaseEmissions: real, scanningEmissions: real, issues: seq<Issue>, grade: string)

  /** The dictionary `to_dict` writes and `from_dict` reads: every key may be
      missing from a file written by hand. */
  datatype StoredScan = StoredScan(
    projectName: Option<string>, timestamp: Option<string>, violations: Option<int>,
    codebaseEmissions: Option<real>, scanningEmissions: Option<real>, grade: Option<string>,
    issueCount: Option<int>, issues: Option<seq<Issue>>, breakdown: Option<Breakdown>)

  function ToDict(h: ScanHistory): (d: StoredScan)
    ensures d.issueCount == Some(|h.issues|)
    ensures d.breakdown == Some(SeverityBreakdown(h.issues))
  {
    StoredScan(Some(h.projectName), Some(h.timestamp), Some(h.violations), Some(h.codebaseEmissions),
      Some(h.scanningEmissions), Some(h.grade), Some(|h.issues|), Some(h.issues), Some(SeverityBreakdown(h.issues)))
  }

  /** `from_dict`: a missing key takes its default; the derived keys are not
      read back. */
  function FromDict(d: StoredScan): ScanHistory {
    ScanHistory(Or(d.projectName, "unknown"), Or(d.timestamp, ""), Or(d.violations, 0),
      Or(d.codebaseEmissions, 0.0), Or(d.scanningEmissions, 0.0), Or(d.issues, []), Or(d.grade, "N/A"))
  }

  /** Writing a record and reading it back gives the record. */
  lemma StoreRoundTrip(h: ScanHistory)
    ensures FromDict(ToDict(h)) == h
  {
  }

  /** What `add_scan` is given from the scanner; any key may be missing. */
  datatype ScanResults = ScanResults(issues: Option<seq<Issue>>, codebaseEmissions: Option<real>, scanningEmissions: Option<real>)

  /** The record `add_scan` builds. */
  function NewRecord(projectName: string, results: ScanResults, now: string): (h: ScanHistory)
    ensures h.violations == |h.issues| && h.grade == CalculateGrade(h.issues)
    ensures h.issues == Or(results.issues, []) && h.projectName == projectName && h.timestamp == now
  {
    var issues := Or(results.issues, []);
    ScanHistory(projectName, now, |issues|, Or(results.codebaseEmissions, 0.0), Or(results.scanningEmissions, 0.0),
      issues, CalculateGrade(issues))
  }

  /** `add_scan`: the stored scans, each read and written again, followed by
      the new record. An unreadable file starts a new list. */
  function AddScan(stored: Option<seq<StoredScan>>, projectName: string, results: ScanResults, now: string): (r: (seq<StoredScan>, ScanHistory))
    ensures var prior := Or(stored, []);
      && |r.0| == |prior| + 1
      && r.0[|prior|] == ToDict(r.1)
      && (forall k :: 0 <= k < |prior| ==> r.0[k] == ToDict(FromDict(prior[k])))
  {
    var prior := Or(stored, []);
    var h := NewRecord(projectName, results, now);
    (seq(|prior|, k requires 0 <= k < |prior| => ToDict(FromDict(prior[k]))) + [ToDict(h)], h)
  }

  /** Entries that `add_scan` itself wrote are kept unchanged by later
      scans. */
  lemma AddScanKeepsHistory(history: seq<ScanHistory>, projectName: string, results: ScanResults, now: string)
    ensures var stored := seq(|history|, k requires 0 <= k < |history| => ToDict(history[k]));
      AddScan(Some(stored), projectName, results, now).0[..|history|] == stored
  {
    var stored := seq(|history|, k requires 0 <= k < |history| => ToDict(history[k]));
    forall k | 0 <= k < |history| ensures FromDict(stored[k]) == history[k] {
      StoreRoundTrip(history[k]);
    }
  }

  /** `get_project_history` without the day filter: the stored scans read
      back and sorted by timestamp. */
  function GetProjectHistory(stored: Option<seq<StoredScan>>): (r: seq<ScanHistory>)
    ensures |r| == |Or(stored, [])|
  {
    var prior := Or(stored, []);
    Sorting.SortBy(seq(|prior|, k requires 0 <= k < |prior| => FromDict(prior[k])), ByTimestamp())
  }

  function ByTimestamp(): (ScanHistory, ScanHistory) -> bool {
    (a: ScanHistory, b: ScanHistory) => Sorting.StrLe(a.timestamp, b.timestamp)
  }

  /** The history is every stored scan once, in timestamp order, scans with
      equal timestamps in stored order. */
  lemma ProjectHistorySorted(stored: seq<StoredScan>, e: ScanHistory)
    ensures var read := seq(|stored|, k requires 0 <= k < |stored| => FromDict(stored[k]));
      && multiset(GetProjectHistory(Some(stored))) == multiset(read)
      && Sorting.SortedBy(GetProjectHistory(Some(stored)), ByTimestamp())
      && Sorting.Ties(GetProjectHistory(Some(stored)), e, ByTimestamp()) == Sorting.Ties(read, e, ByTimestamp())
  {
    var read := seq(|stored|, k requires 0 <= k < |stored| => FromDict(stored[k]));
    Sorting.StrLePreorder();
    Sorting.ByKeyPreorder((h: ScanHistory) => h.timestamp, Sorting.StrLe);
    assert ByTimestamp() == (a: ScanHistory, b: ScanHistory) => Sorting.StrLe(a.timestamp, b.timestamp);
    assert Sorting.TotalPreorder(ByTimestamp());
    Sorting.SortBySorted(read, ByTimestamp());
    Sorting.SortByStable(read, e, ByTimestamp());
  }

  // ----------------------------------------------------------------- trend

  datatype Direction = Improving | Worsening | Stable

  datatype Trend =
    | InsufficientData(available: nat)
    | Trending(direction: Direction, first: int, latest: int, delta: int, changePct: real,
               emissionsDelta: real, emissionsChangePct: real, firstGrade: string, latestGrade: string,
               improvementRate: real, analysed: nat)

  /** `get_trending_data` over the scans of the period, oldest first. */
  function TrendOf(scans: seq<ScanHistory>): (r: Trend)
    ensures r.InsufficientData? <==> |scans| < 2
    ensures r.InsufficientData? ==> r.available == |scans|
    ensures r.Trending? ==>
      && r.delta == scans[|scans| - 1].violations - scans[0].violations
      && (r.direction == Improving <==> scans[|scans| - 1].violations < scans[0].violations)
      && (r.direction == Worsening <==> scans[|scans| - 1].violations > scans[0].violations)
      && (r.direction == Stable <==> scans[|scans| - 1].violations == scans[0].violations)
      && (scans[0].violations <= 0 ==> r.changePct == 0.0)
      && r.analysed == |scans| && r.improvementRate >= 0.0
  {
    if |scans| < 2 then InsufficientData(|scans|)
    else
      var first, last := scans[0], scans[|scans| - 1];
      var delta := last.violations - first.violations;
      var pct := if first.violations > 0 then (delta as real) / (first.violations as real) * 100.0 else 0.0;
      var eDelta := last.codebaseEmissions - first.codebaseEmissions;
      var ePct := if first.codebaseEmissions > 0.0 then eDelta / first.codebaseEmissions * 100.0 else 0.0;
      var dir := if delta < 0 then Improving else if delta > 0 then Worsening else Stable;
      var absDelta := if delta < 0 then -delta else delta;
      Trending(dir, first.violations, last.violations, delta, pct, eDelta, ePct, first.grade, last.grade,
        (absDelta as real) / (|scans| as real), |scans|)
  }

  /** Read backwards, an improving history is a worsening one. */
  lemma TrendReversed(scans: seq<ScanHistory>, back: seq<ScanHistory>)
    requires |scans| >= 2 && |back| == |scans|
    requires back[0] == scans[|scans| - 1] && back[|back| - 1] == scans[0]
    ensures TrendOf(scans).direction == Improving <==> TrendOf(back).direction == Worsening
    ensures TrendOf(scans).direction == Stable <==> TrendOf(back).direction == Stable
    ensures TrendOf(back).delta == -TrendOf(scans).delta
  {
  }

  // ------------------------------------------------------------ comparison

  /** The `(file, line, id)` triple an issue is compared by. */
  datatype Key = Key(file: Option<string>, line: Option<int>, id: Option<string>)

  function KeyOf(i: Issue): Key {
    Key(i.file, i.line, i.id)
  }

  function Keys(issues: seq<Issue>): set<Key> {
    set i | i in issues :: KeyOf(i)
  }

  /** Python's `scans[i]`: a negative index counts from the end. */
  function PyIndex(n: nat, i: int): (r: Option<nat>)
    ensures r.Some? ==> r.value < n
    ensures r.Some? <==> -(n as int) <= i < n
    ensures r.Some? && i < 0 ==> r.value == n + i
    ensures r.Some? && i >= 0 ==> r.value == i
  {
    if 0 <= i < n then Some(i) else if -(n as int) <= i < 0 then Some(n + i) else None
  }

  /** Python orders two tuples by their first differing field; `None`
      against a value there raises `TypeError`. */
  predicate Unorderable(a: Key, b: Key) {
    if a.file != b.file then a.file.None? || b.file.None?
    else if a.line != b.line then a.line.None? || b.line.None?
    else a.id != b.id && (a.id.None? || b.id.None?)
  }

  /** `sorted` can order every pair of the keys. */
  predicate Sortable(ks: set<Key>) {
    forall a, b :: a in ks && b in ks ==> !Unorderable(a, b)
  }

  datatype Comparison =
    | TooFewScans
    | InvalidIndices
    | Unsortable
    | Compared(first: ScanHistory, second: ScanHistory, newKeys: set<Key>, fixedKeys: set<Key>,
               netChange: int, improvement: bool)

  /** `compare_scans` over the project's history; `Unsortable` stands for
      the `TypeError` of sorting keys that cannot be ordered. */
  function CompareScans(scans: seq<ScanHistory>, i1: int, i2: int): (r: Comparison)
    ensures r.TooFewScans? <==> |scans| < 2
    ensures r.InvalidIndices? <==> |scans| >= 2 && (PyIndex(|scans|, i1).None? || PyIndex(|scans|, i2).None?)
    ensures r.Unsortable? <==>
      (&& |scans| >= 2 && PyIndex(|scans|, i1).Some? && PyIndex(|scans|, i2).Some?
       && var k1, k2 := Keys(scans[PyIndex(|scans|, i1).value].issues), Keys(scans[PyIndex(|scans|, i2).value].issues);
          !Sortable(k2 - k1) || !Sortable(k1 - k2))
    ensures r.Compared? ==> Sortable(r.newKeys) && Sortable(r.fixedKeys)
    ensures r.Compared? ==>
      && r.first == scans[PyIndex(|scans|, i1).value] && r.second == scans[PyIndex(|scans|, i2).value]
      && (forall k :: k in r.newKeys <==> k in Keys(r.second.issues) && k !in Keys(r.first.issues))
      && (forall k :: k in r.fixedKeys <==> k in Keys(r.first.issues) && k !in Keys(r.second.issues))
      && r.netChange == r.second.violations - r.first.violations
      && (r.improvement <==> |r.fixedKeys| > |r.newKeys|)
  {
    if |scans| < 2 then TooFewScans
    else
      var a, b := PyIndex(|scans|, i1), PyIndex(|scans|, i2);
      if a.None? || b.None? then InvalidIndices
      else
        var s1, s2 := scans[a.value], scans[b.value];
        var k1, k2 := Keys(s1.issues), Keys(s2.issues);
        var added, fixed := k2 - k1, k1 - k2;
        if !Sortable(added) || !Sortable(fixed) then Unsortable
        else Compared(s1, s2, added, fixed, s2.violations - s1.violations, |fixed| > |added|)
  }

  /** A scan compared with itself shows no change. */
  lemma CompareSelf(scans: seq<ScanHistory>, i: int)
    requires |scans| >= 2 && -(|scans| as int) <= i < |scans|
    ensures var r := CompareScans(scans, i, i);
      r.Compared? && r.newKeys == {} && r.fixedKeys == {} && r.netChange == 0 && !r.improvement
  {
  }

  /** Swapping the two scans swaps new and fixed and negates the net
      change. */
  lemma CompareSwap(scans: seq<ScanHistory>, i1: int, i2: int)
    requires CompareScans(scans, i1, i2).Compared?
    ensures var r, s := CompareScans(scans, i1, i2), CompareScans(scans, i2, i1);
      s.Compared? && s.newKeys == r.fixedKeys && s.fixedKeys == r.newKeys && s.netChange == -r.netChange
  {
  }

  /** The second scan's keys are the new ones plus the ones both scans
      share. */
  lemma CompareSplitsKeys(scans: seq<ScanHistory>, i1: int, i2: int)
    requires CompareScans(scans, i1, i2).Compared?
    ensures var r := CompareScans(scans, i1, i2);
      && Keys(r.second.issues) == r.newKeys + (Keys(r.first.issues) * Keys(r.second.issues))
      && r.newKeys !! Keys(r.first.issues)
  {
  }

  /** Two new keys that agree on the file while one has no line make the
      comparison fail, as `sorted` does on `('a.py', None, 'x')` and
      `('a.py', 3, 'y')`. */
  lemma MixedKeysUnsortable(scans: seq<ScanHistory>, i1: int, i2: int, a: Key, b: Key)
    requires |scans| >= 2 && PyIndex(|scans|, i1).Some? && PyIndex(|scans|, i2).Some?
    requires var k1, k2 := Keys(scans[PyIndex(|scans|, i1).value].issues), Keys(scans[PyIndex(|scans|, i2).value].issues);
      a in k2 - k1 && b in k2 - k1
    requires a.file == b.file && a.line.None? && b.line.Some?
    ensures CompareScans(scans, i1, i2).Unsortable?
  {
    assert Unorderable(a, b);
  }
}

=== FILE: issues.dfy ===
/** The issue record the scanner produces and the reports, charts and
    history read. In the source an issue is a dictionary and every reader
    supplies its own default for a missing key (`issue.get('severity',
    'low')`, `issue.get('file', 'unknown')`, ...), so each field is optional
    here and each reader states its default. */
module Issues {
  import opened Common

  datatype Issue = Issue(
    id: Option<string>,
    issueType: Option<string>,         // 'type': 'green_violation', 'error', ...
    severity: Option<string>,
    message: Option<string>,
    file: Option<string>,
    line: Option<int>,
    remediation: Option<string>,
    effort: Option<string>,
    tags: Option<seq<string>>,
    carbonImpact: Option<real>,
    energyFactor: Option<real>,
    name: Option<string>,
    emissions: Option<real>)           // 'codebase_emissions', set by the scan

  /** `d.get(key, default)` for an optional field. */
  function Or<T>(v: Option<T>, default: T): T {
    if v.Some? then v.value else default
  }

  /** An issue of kind `error` with the fields the scanner's error records
      carry. */
  function ErrorIssue(id: string, severity: string, message: string, file: string, remediation: string, tags: seq<string>): (r: Issue)
    ensures r.issueType == Some("error") && r.id == Some(id) && r.line == Some(0)
  {
    Issue(Some(id), Some("error"), Some(severity), Some(message), Some(file), Some(0), Some(remediation),
      Some("Low"), Some(tags), None, None, None, None)
  }
}

=== FILE: jsdetector.dfy ===
/** `JavaScriptViolationDetector.detect_all`: the twelve line checks of a
    JavaScript file, one after the other. A pattern made only of literal
    alternatives is written as "one of the literals occurs in the line"
    (`Regex.SearchLitIsContains` relates the two); the others are written
    with the regular expressions of `Regex`. */
module JsDetector {
  import opened Common
  import opened Regex
  import opened Findings
  import opened LineScan
  import opened JsLines
  import opened JsScopes

  // ---------------------------------------------------------------------
  // Deprecated and blocking browser APIs

  /** `from\s+['"]moment['"]|require\(['"]moment['"]\)` */
  function MomentImport(): Re {
    Alt(Seq([Lit("from"), Plus(S()), Quote(), Lit("moment"), Quote()]),
        Seq([Lit("require("), Quote(), Lit("moment"), Quote(), Lit(")")]))
  }

  predicate IsMomentLine(line: string) { Search(MomentImport(), line) }

  /** `_detect_deprecated_apis` on one line: `eval(`, `document.write` and a
      Moment.js import, each reported when present, in that order. */
  function DeprecatedChecks(num: nat, line: string): seq<Finding> {
    When(Contains(line, "eval("), Finding(EvalUsage, num, Critical, EvalJs, ""))
    + When(Contains(line, "document.write"), Finding(DocumentWrite, num, Critical, DocumentWriteJs, ""))
    + When(IsMomentLine(line), Finding(MomentjsDeprecated, num, Major, MomentJs, ""))
  }

  /** `window\.(alert|prompt|confirm)` */
  predicate IsDialogLine(line: string) {
    Contains(line, "window.alert") || Contains(line, "window.prompt") || Contains(line, "window.confirm")
  }

  /** `_detect_inefficient_browser_apis` on one line. */
  function BrowserChecks(num: nat, line: string): seq<Finding> {
    When(Contains(line, "setInterval"), Finding(SetIntervalAnimation, num, Major, SetIntervalJs, ""))
    + When(IsDialogLine(line), Finding(AlertUsage, num, Minor, DialogJs, ""))
  }

  /** Each of the three deprecated APIs is reported on a line exactly when
      the line uses it, with its own rule and severity. */
  lemma DeprecatedReported(num: nat, line: string, f: Finding)
    ensures f in DeprecatedChecks(num, line) <==>
      || (Contains(line, "eval(") && f == Finding(EvalUsage, num, Critical, EvalJs, ""))
      || (Contains(line, "document.write") && f == Finding(DocumentWrite, num, Critical, DocumentWriteJs, ""))
      || (IsMomentLine(line) && f == Finding(MomentjsDeprecated, num, Major, MomentJs, ""))
  {
  }

  lemma BrowserReported(num: nat, line: string, f: Finding)
    ensures f in BrowserChecks(num, line) <==>
      || (Contains(line, "setInterval") && f == Finding(SetIntervalAnimation, num, Major, SetIntervalJs, ""))
      || (IsDialogLine(line) && f == Finding(AlertUsage, num, Minor, DialogJs, ""))
  {
  }

  // ---------------------------------------------------------------------
  // Single-pattern checks

  /** `while\s*\(\s*true\s*\)` matched ignoring case. */
  function InfiniteWhile(): Re {
    Seq([LitNoCase("while"), Star(S()), Lit("("), Star(S()), LitNoCase("true"), Star(S()), Lit(")")])
  }

  predicate IsInfiniteLine(line: string) { Search(InfiniteWhile(), line) }

  function InfiniteFinding(num: nat): Finding {
    Finding(NoInfiniteLoops, num, Critical, InfiniteWhileJs, "")
  }

  /** `for\s*\(\s*(let|var)\s+\w+\s*=` */
  function CStyleFor(): Re {
    Seq([Lit("for"), Star(S()), Lit("("), Star(S()), Alt(Lit("let"), Lit("var")), Plus(S()), Plus(W()), Star(S()), Lit("=")])
  }

  predicate IsCStyleLine(line: string) { Search(CStyleFor(), line) }

  function CStyleFinding(num: nat): Finding {
    Finding(InefficientLoop, num, Major, CStyleForJs, "")
  }

  /** `readFileSync|XMLHttpRequest` */
  predicate IsSyncIoLine(line: string) {
    Contains(line, "readFileSync") || Contains(line, "XMLHttpRequest")
  }

  function SyncIoFinding(num: nat): Finding {
    Finding(SynchronousIo, num, Major, SyncIoJs, "")
  }

  /** `console\.(log|debug)` */
  predicate IsLoggingLine(line: string) {
    Contains(line, "console.log") || Contains(line, "console.debug")
  }

  function LoggingFinding(num: nat): Finding {
    Finding(ExcessiveConsoleLogging, num, Minor, ConsoleLogJs, "")
  }

  /** `document\.(querySelector|getElementById)` */
  predicate IsDomQueryLine(line: string) {
    Contains(line, "document.querySelector") || Contains(line, "document.getElementById")
  }

  function DomQueryFinding(num: nat): Finding {
    Finding(UnnecessaryDomManipulation, num, Major, DomQueryJs, "")
  }

  // ---------------------------------------------------------------------
  // Magic numbers: `[^a-zA-Z0-9_]\s([0-9]{3,})\s[^a-zA-Z0-9_]`

  /** The end of the digits of a match starting at index `i`, if one does.
      The digits are a maximal run: `[0-9]{3,}` is followed by `\s`, so
      giving back a digit never helps. */
  function MagicAt(line: string, i: nat): Option<nat> {
    if i + 2 > |line| || IsWordChar(line[i]) || !IsSpace(line[i + 1]) then None
    else
      var e := RunFrom(line, i + 2, IsDigit);
      if e - (i + 2) >= 3 && e + 1 < |line| && IsSpace(line[e]) && !IsWordChar(line[e + 1]) then Some(e) else None
  }

  /** `re.search`: the leftmost start, from index `i` on, of a match. */
  function FirstMagic(line: string, i: nat): (r: Option<nat>)
    ensures r.Some? ==> i <= r.value && MagicAt(line, r.value).Some?
    ensures forall j :: i <= j && (r.None? || j < r.value) ==> MagicAt(line, j).None?
    decreases |line| + 1 - i
  {
    if i > |line| then None
    else if MagicAt(line, i).Some? then Some(i)
    else FirstMagic(line, i + 1)
  }

  /** `int(match.group(1))` */
  function MagicValue(line: string, i: nat): nat
    requires MagicAt(line, i).Some?
  {
    var e := MagicAt(line, i).value;
    RunFromSpec(line, i + 2, IsDigit);
    DigitsValue(line[i + 2..e])
  }

  /** The allowed round numbers. */
  const AllowedNumbers: seq<nat> := [1000, 1024, 3600]

  function MagicFinding(num: nat, value: nat): Finding {
    Finding(MagicNumbers, num, Minor, MagicNumberJs, NatToString(value))
  }

  /** `_detect_magic_numbers` on one line: only the first match counts. */
  function MagicCheck(num: nat, line: string): seq<Finding> {
    match FirstMagic(line, 0)
    case Some(i) => When(MagicValue(line, i) !in AllowedNumbers, MagicFinding(num, MagicValue(line, i)))
    case None => []
  }

  /** A line is reported exactly when its leftmost match holds a number
      other than the allowed ones; the message carries that number, which
      reads back from its decimal text. */
  lemma MagicReported(num: nat, line: string, f: Finding)
    ensures f in MagicCheck(num, line) <==>
      exists i: nat :: MagicAt(line, i).Some? && (forall j: nat :: j < i ==> MagicAt(line, j).None?)
        && MagicValue(line, i) !in AllowedNumbers && f == MagicFinding(num, MagicValue(line, i))
    ensures f in MagicCheck(num, line) ==> DigitsValue(f.arg) !in AllowedNumbers
  {
    var r := FirstMagic(line, 0);
    if r.Some? {
      NatToStringRoundTrip(MagicValue(line, r.value));
      forall i: nat | MagicAt(line, i).Some? && (forall j: nat :: j < i ==> MagicAt(line, j).None?)
        ensures i == r.value
      {
        if i != r.value {
          assert false;
        }
      }
    }
  }

  /** A match is the pattern's shape: a non-word character, a space, at
      least three digits, a space and a non-word character. */
  lemma MagicShape(line: string, i: nat)
    requires MagicAt(line, i).Some?
    ensures var e := MagicAt(line, i).value;
      && i + 5 <= e + 1 < |line| && !IsWordChar(line[i]) && IsSpace(line[i + 1])
      && (forall k :: i + 2 <= k < e ==> IsDigit(line[k]))
      && IsSpace(line[e]) && !IsWordChar(line[e + 1])
  {
    RunFromSpec(line, i + 2, IsDigit);
  }

  // ---------------------------------------------------------------------
  // String concatenation in a loop

  /** `\b(for|while)\b` */
  function LoopKeyword(): Re { Seq([WordBoundary, Alt(Lit("for"), Lit("while")), WordBoundary]) }

  /** `^\s*}` */
  function CloseBrace(): Re { LeadingThen(Space, '}') }

  predicate IsLoopKeywordLine(line: string) { Search(LoopKeyword(), line) }
  predicate IsCloseLine(line: string) { Search(CloseBrace(), line) }

  function JsConcatFinding(num: nat): Finding {
    Finding(StringConcatenation, num, Major, ConcatJs, "")
  }

  /** `_detect_string_concatenation`: a `for` or `while` word raises the
      in-loop flag, a line starting with `}` lowers it, and a `+=` of a
      string literal is reported while it is up. */
  function JsConcatFindings(lines: seq<string>): seq<Finding> {
    LatchFindings(lines, 1, false, IsLoopKeywordLine, IsCloseLine, IsConcatLine, JsConcatFinding)
  }

  /** A line is reported exactly when it appends a string literal and some
      line up to it has the word `for` or `while` with no closing line
      (other than another loop line) after it. */
  lemma JsConcatReported(lines: seq<string>, f: Finding)
    ensures f in JsConcatFindings(lines) <==>
      exists k :: 0 <= k < |lines| && IsConcatLine(lines[k]) && f == JsConcatFinding(k + 1)
        && UpAfter(lines, k, false, IsLoopKeywordLine, IsCloseLine)
  {
    LatchFindingsUpAfter(lines, false, IsLoopKeywordLine, IsCloseLine, IsConcatLine, JsConcatFinding, f);
  }

  /** `^\s*}` matches exactly the lines whose first character other than
      white space is `}`. */
  lemma CloseLine(line: string)
    ensures IsCloseLine(line) <==> exists n :: 0 <= n < |line| && line[n] == '}' && forall k :: 0 <= k < n ==> IsSpace(line[k])
  {
    LeadingThenFound(Space, '}', line);
  }

  // ---------------------------------------------------------------------
  // The detector: the twelve `_detect_*` methods on the whole text

  function DetectDeprecated(content: string): seq<Finding> { EachLine(Lines(content), 1, DeprecatedChecks) }
  function DetectBrowserApis(content: string): seq<Finding> { EachLine(Lines(content), 1, BrowserChecks) }
  function DetectNestedLoops(content: string): seq<Finding> { NestedFindings(Lines(content)) }
  function DetectDomInLoop(content: string): seq<Finding> { DomFindings(Lines(content)) }
  function DetectInfiniteLoops(content: string): seq<Finding> { EachMatch(Lines(content), 1, IsInfiniteLine, InfiniteFinding) }
  function DetectCStyleLoops(content: string): seq<Finding> { EachMatch(Lines(content), 1, IsCStyleLine, CStyleFinding) }
  function DetectSyncIo(content: string): seq<Finding> { EachMatch(Lines(content), 1, IsSyncIoLine, SyncIoFinding) }
  function DetectLogging(content: string): seq<Finding> { EachMatch(Lines(content), 1, IsLoggingLine, LoggingFinding) }
  function DetectMagicNumbers(content: string): seq<Finding> { EachLine(Lines(content), 1, MagicCheck) }
  function DetectConcat(content: string): seq<Finding> { JsConcatFindings(Lines(content)) }
  function DetectDomQueries(content: string): seq<Finding> { EachMatch(Lines(content), 1, IsDomQueryLine, DomQueryFinding) }

  /** The number of checks. */
  const Checks: nat := 12

  /** The check `detect_all` runs in place `i`. */
  function Check(i: nat): string -> seq<Finding> {
    if i == 0 then UnusedFindings
    else if i == 1 then DetectDeprecated
    else if i == 2 then DetectBrowserApis
    else if i == 3 then DetectNestedLoops
    else if i == 4 then DetectDomInLoop
    else if i == 5 then DetectInfiniteLoops
    else if i == 6 then DetectCStyleLoops
    else if i == 7 then DetectSyncIo
    else if i == 8 then DetectLogging
    else if i == 9 then DetectMagicNumbers
    else if i == 10 then DetectConcat
    else DetectDomQueries
  }

  function Detect(i: nat, content: string): seq<Finding> { Check(i)(content) }

  /** `detect_all`: the findings of the twelve checks, check after check.
      Only the JavaScript rules are ever reported. */
  function JsDetectAll(content: string): (r: seq<Finding>)
    ensures forall f :: f in r ==> f.rule in JsRules
  {
    RunAllRules(content, Checks);
    RunAll(Detect, Checks, content)
  }

  /** The rules of the JavaScript checks. */
  const JsRules: set<RuleId> := {
    UnusedVariables, EvalUsage, DocumentWrite, MomentjsDeprecated, SetIntervalAnimation, AlertUsage,
    NoN2Algorithms, UnnecessaryDomManipulation, NoInfiniteLoops, InefficientLoop, SynchronousIo,
    ExcessiveConsoleLogging, MagicNumbers, StringConcatenation}

  lemma RunAllRules(content: string, n: nat)
    requires n <= Checks
    ensures forall f :: f in RunAll(Detect, n, content) ==> f.rule in JsRules
  {
    forall f | f in RunAll(Detect, n, content)
      ensures f.rule in JsRules
    {
      FindingRule(content, n, f);
    }
  }

  lemma FindingRule(content: string, n: nat, f: Finding)
    requires n <= Checks && f in RunAll(Detect, n, content)
    ensures f.rule in JsRules
  {
    var i := RunAllOnly(Detect, n, content, f);
    PartRule(content, i, f);
    PartRulesInJs(i, f.rule);
  }

  lemma PartRulesInJs(i: nat, id: RuleId)
    requires id in PartRules(i)
    ensures id in JsRules
  {
  }

  /** The rules each of the twelve checks reports. */
  function PartRules(i: nat): set<RuleId> {
    if i == 0 then {UnusedVariables}
    else if i == 1 then {EvalUsage, DocumentWrite, MomentjsDeprecated}
    else if i == 2 then {SetIntervalAnimation, AlertUsage}
    else if i == 3 then {NoN2Algorithms}
    else if i == 4 then {UnnecessaryDomManipulation}
    else if i == 5 then {NoInfiniteLoops}
    else if i == 6 then {InefficientLoop}
    else if i == 7 then {SynchronousIo}
    else if i == 8 then {ExcessiveConsoleLogging}
    else if i == 9 then {MagicNumbers}
    else if i == 10 then {StringConcatenation}
    else {UnnecessaryDomManipulation}
  }

  lemma UnusedRules()
    ensures OnlyRules(UnusedFindings, {UnusedVariables})
  {
    forall content, f | f in UnusedFindings(content)
      ensures f.rule in {UnusedVariables}
    {
      var k, i := UnusedLinesOnly(Words(content), Lines(content), 1, DeclAt, f);
    }
  }

  lemma DeprecatedRules()
    ensures OnlyRules(DetectDeprecated, {EvalUsage, DocumentWrite, MomentjsDeprecated})
  {
    forall content, f | f in DetectDeprecated(content)
      ensures f.rule in {EvalUsage, DocumentWrite, MomentjsDeprecated}
    {
      var lines := Lines(content);
      var k := EachLineOnly(lines, 1, DeprecatedChecks, f);
      DeprecatedReported(1 + k, lines[k], f);
    }
  }

  lemma BrowserRules()
    ensures OnlyRules(DetectBrowserApis, {SetIntervalAnimation, AlertUsage})
  {
    forall content, f | f in DetectBrowserApis(content)
      ensures f.rule in {SetIntervalAnimation, AlertUsage}
    {
      var lines := Lines(content);
      var k := EachLineOnly(lines, 1, BrowserChecks, f);
      BrowserReported(1 + k, lines[k], f);
    }
  }

  lemma NestedRules()
    ensures OnlyRules(DetectNestedLoops, {NoN2Algorithms})
  {
    forall content, f | f in DetectNestedLoops(content)
      ensures f.rule in {NoN2Algorithms}
    {
      var k := NestedOnly(Lines(content), f);
    }
  }

  lemma DomInLoopRules()
    ensures OnlyRules(DetectDomInLoop, {UnnecessaryDomManipulation})
  {
    forall content, f | f in DetectDomInLoop(content)
      ensures f.rule in {UnnecessaryDomManipulation}
    {
      var k := DomOnly(Lines(content), f);
    }
  }

  lemma InfiniteRules()
    ensures OnlyRules(DetectInfiniteLoops, {NoInfiniteLoops})
  {
    forall content, f | f in DetectInfiniteLoops(content)
      ensures f.rule in {NoInfiniteLoops}
    {
      var k := EachMatchOnly(Lines(content), 1, IsInfiniteLine, InfiniteFinding, f);
    }
  }

  lemma CStyleRules()
    ensures OnlyRules(DetectCStyleLoops, {InefficientLoop})
  {
    forall content, f | f in DetectCStyleLoops(content)
      ensures f.rule in {InefficientLoop}
    {
      var k := EachMatchOnly(Lines(content), 1, IsCStyleLine, CStyleFinding, f);
    }
  }

  lemma SyncIoRules()
    ensures OnlyRules(DetectSyncIo, {SynchronousIo})
  {
    forall content, f | f in DetectSyncIo(content)
      ensures f.rule in {SynchronousIo}
    {
      var k := EachMatchOnly(Lines(content), 1, IsSyncIoLine, SyncIoFinding, f);
    }
  }

  lemma LoggingRules()
    ensures OnlyRules(DetectLogging, {ExcessiveConsoleLogging})
  {
    forall content, f | f in DetectLogging(content)
      ensures f.rule in {ExcessiveConsoleLogging}
    {
      var k := EachMatchOnly(Lines(content), 1, IsLoggingLine, LoggingFinding, f);
    }
  }

  lemma MagicRules()
    ensures OnlyRules(DetectMagicNumbers, {MagicNumbers})
  {
    forall content, f | f in DetectMagicNumbers(content)
      ensures f.rule in {MagicNumbers}
    {
      var k := EachLineOnly(Lines(content), 1, MagicCheck, f);
    }
  }

  lemma ConcatJsRules()
    ensures OnlyRules(DetectConcat, {StringConcatenation})
  {
    forall content, f | f in DetectConcat(content)
      ensures f.rule in {StringConcatenation}
    {
      var k := LatchFindingsFrom(Lines(content), 1, false, IsLoopKeywordLine, IsCloseLine, IsConcatLine, JsConcatFinding, f);
    }
  }

  lemma DomQueryRules()
    ensures OnlyRules(DetectDomQueries, {UnnecessaryDomManipulation})
  {
    forall content, f | f in DetectDomQueries(content)
      ensures f.rule in {UnnecessaryDomManipulation}
    {
      var k := EachMatchOnly(Lines(content), 1, IsDomQueryLine, DomQueryFinding, f);
    }
  }

  /** Each check reports only its own rules. */
  lemma CheckRules(i: nat)
    requires i < Checks
    ensures OnlyRules(Check(i), PartRules(i))
  {
    if i == 0 {
      UnusedRules();
    } else if i == 1 {
      DeprecatedRules();
    } else if i == 2 {
      BrowserRules();
    } else if i == 3 {
      NestedRules();
    } else if i == 4 {
      DomInLoopRules();
    } else if i == 5 {
      InfiniteRules();
    } else if i == 6 {
      CStyleRules();
    } else if i == 7 {
      SyncIoRules();
    } else if i == 8 {
      LoggingRules();
    } else if i == 9 {
      MagicRules();
    } else if i == 10 {
      ConcatJsRules();
    } else {
      DomQueryRules();
    }
  }

  /** Every finding of check `i` carries one of that check's rules. */
  lemma PartRule(content: string, i: nat, f: Finding)
    requires i < Checks && f in Detect(i, content)
    ensures f.rule in PartRules(i)
  {
    CheckRules(i);
  }

  // The places of the single-pattern checks in the table.

  lemma CheckAt5() ensures Check(5) == DetectInfiniteLoops {}
  lemma CheckAt6() ensures Check(6) == DetectCStyleLoops {}
  lemma CheckAt7() ensures Check(7) == DetectSyncIo {}
  lemma CheckAt8() ensures Check(8) == DetectLogging {}

  /** Every finding of the detector comes from one of the checks and
      carries one of its rules; every finding of every check is kept. */
  lemma JsDetectAllOrigin(content: string, f: Finding) returns (i: nat)
    requires f in JsDetectAll(content)
    ensures i < Checks && f in Detect(i, content) && f.rule in PartRules(i)
  {
    i := RunAllOnly(Detect, Checks, content, f);
    PartRule(content, i, f);
  }

  lemma JsDetectAllKeeps(content: string, i: nat, f: Finding)
    requires i < Checks && f in Detect(i, content)
    ensures f in JsDetectAll(content)
  {
    RunAllHas(Detect, Checks, content, i, f);
  }

  /** A rule that only check `j` reports is counted in the detector's
      findings as often as in that check's. */
  lemma CountOnePart(content: string, j: nat, id: RuleId)
    requires j < Checks && forall i :: 0 <= i < Checks && i != j ==> id !in PartRules(i)
    ensures CountId(JsDetectAll(content), id) == CountId(Detect(j, content), id)
  {
    forall i: nat, f: Finding | i < Checks && i != j && f in Detect(i, content)
      ensures f.rule != id
    {
      PartRule(content, i, f);
    }
    RunAllCount(Detect, Checks, content, j, id);
  }

  /** The single-pattern checks report once per matching line, and no other
      check shares their rules: the detector's count of each of those rules
      is the number of lines that match. */
  lemma InfiniteCount(content: string)
    ensures CountId(JsDetectAll(content), NoInfiniteLoops) == CountIf(Lines(content), IsInfiniteLine)
  {
    CountOnePart(content, 5, NoInfiniteLoops);
    CheckAt5();
    InfinitePartCount(content);
  }

  lemma InfinitePartCount(content: string)
    ensures CountId(DetectInfiniteLoops(content), NoInfiniteLoops) == CountIf(Lines(content), IsInfiniteLine)
  {
    EachMatchCount(Lines(content), 1, IsInfiniteLine, InfiniteFinding, NoInfiniteLoops);
  }

  lemma CStyleCount(content: string)
    ensures CountId(JsDetectAll(content), InefficientLoop) == CountIf(Lines(content), IsCStyleLine)
  {
    CountOnePart(content, 6, InefficientLoop);
    CheckAt6();
    CStylePartCount(content);
  }

  lemma CStylePartCount(content: string)
    ensures CountId(DetectCStyleLoops(content), InefficientLoop) == CountIf(Lines(content), IsCStyleLine)
  {
    EachMatchCount(Lines(content), 1, IsCStyleLine, CStyleFinding, InefficientLoop);
  }

  lemma SyncIoCount(content: string)
    ensures CountId(JsDetectAll(content), SynchronousIo) == CountIf(Lines(content), IsSyncIoLine)
  {
    CountOnePart(content, 7, SynchronousIo);
    CheckAt7();
    SyncIoPartCount(content);
  }

  lemma SyncIoPartCount(content: string)
    ensures CountId(DetectSyncIo(content), SynchronousIo) == CountIf(Lines(content), IsSyncIoLine)
  {
    EachMatchCount(Lines(content), 1, IsSyncIoLine, SyncIoFinding, SynchronousIo);
  }

  lemma LoggingCount(content: string)
    ensures CountId(JsDetectAll(content), ExcessiveConsoleLogging) == CountIf(Lines(content), IsLoggingLine)
  {
    CountOnePart(content, 8, ExcessiveConsoleLogging);
    CheckAt8();
    LoggingPartCount(content);
  }

  lemma LoggingPartCount(content: string)
    ensures CountId(DetectLogging(content), ExcessiveConsoleLogging) == CountIf(Lines(content), IsLoggingLine)
  {
    EachMatchCount(Lines(content), 1, IsLoggingLine, LoggingFinding, ExcessiveConsoleLogging);
  }
}

=== FILE: jslines.dfy ===
/** `JavaScriptViolationDetector`: line patterns over the text of a
    JavaScript file. Two of its checks follow the braces of the file with a
    stack of open scopes; one counts words over the whole text. */
module JsLines {
  import opened Common
  import opened Regex
  import opened Findings
  import opened LineScan

  // ---------------------------------------------------------------------
  // Runs of characters

  /** Length of the longest prefix of `s` whose characters all satisfy `p`. */
  function Run(s: string, p: char -> bool): (n: nat)
    ensures n <= |s|
  {
    if s == [] || !p(s[0]) then 0 else 1 + Run(s[1..], p)
  }

  /** The run is a prefix of characters satisfying `p`, stopped by one that
      does not or by the end. */
  lemma {:induction false} RunSpec(s: string, p: char -> bool)
    ensures forall k :: 0 <= k < Run(s, p) ==> p(s[k])
    ensures Run(s, p) < |s| ==> !p(s[Run(s, p)])
  {
    if s != [] && p(s[0]) {
      RunSpec(s[1..], p);
      assert forall k :: 1 <= k < Run(s, p) ==> s[k] == s[1..][k - 1];
    }
  }

  /** A run is fixed by where it stops. */
  lemma {:induction false} RunIs(s: string, p: char -> bool, n: nat)
    requires n <= |s|
    requires forall k :: 0 <= k < n ==> p(s[k])
    requires n < |s| ==> !p(s[n])
    ensures Run(s, p) == n
  {
    if n > 0 {
      assert p(s[0]);
      assert forall k :: 0 <= k < n - 1 ==> s[1..][k] == s[k + 1];
      RunIs(s[1..], p, n - 1);
    }
  }

  // ---------------------------------------------------------------------
  // Unused declarations

  /** `re.findall(r'\b\w+\b', content)`: the maximal runs of word characters,
      in order. */
  function Words(s: string): (ws: seq<string>)
    ensures forall w :: w in ws ==> w != [] && forall k :: 0 <= k < |w| ==> IsWordChar(w[k])
    decreases |s|
  {
    if s == [] then []
    else if !IsWordChar(s[0]) then Words(s[1..])
    else
      var n := Run(s, IsWordChar);
      RunSpec(s, IsWordChar);
      [s[..n]] + Words(s[n..])
  }

  /** The declaration keywords, in the order the alternation tries them. */
  const Keywords: seq<string> := ["let", "const", "var"]

  /** `kw` occurs in `s` at index `j`. */
  predicate HasAt(s: string, j: nat, kw: string) {
    j + |kw| <= |s| && s[j..j + |kw|] == kw
  }

  /** Length of the declaration keyword at index `j` of `s`, 0 if none. */
  function KeywordAt(s: string, j: nat): nat {
    if HasAt(s, j, "let") then 3 else if HasAt(s, j, "const") then 5 else if HasAt(s, j, "var") then 3 else 0
  }

  /** The end of the run of characters satisfying `p` that starts at index
      `j` of `s`. */
  function RunFrom(s: string, j: nat, p: char -> bool): (e: nat)
    requires j <= |s|
    ensures j <= e <= |s|
    decreases |s| - j
  {
    if j < |s| && p(s[j]) then RunFrom(s, j + 1, p) else j
  }

  lemma {:induction false} RunFromSpec(s: string, j: nat, p: char -> bool)
    requires j <= |s|
    ensures forall k :: j <= k < RunFrom(s, j, p) ==> p(s[k])
    ensures RunFrom(s, j, p) < |s| ==> !p(s[RunFrom(s, j, p)])
    decreases |s| - j
  {
    if j < |s| && p(s[j]) {
      RunFromSpec(s, j + 1, p);
    }
  }

  /** A run is fixed by where it stops. */
  lemma {:induction false} RunFromIs(s: string, j: nat, p: char -> bool, e: nat)
    requires j <= e <= |s|
    requires forall k :: j <= k < e ==> p(s[k])
    requires e < |s| ==> !p(s[e])
    ensures RunFrom(s, j, p) == e
    decreases e - j
  {
    if j < e {
      RunFromIs(s, j + 1, p, e);
    }
  }

  predicate AllSpaces(s: string) {
    forall k :: 0 <= k < |s| ==> IsSpace(s[k])
  }

  predicate AllWordChars(s: string) {
    forall k :: 0 <= k < |s| ==> IsWordChar(s[k])
  }

  /** The name declared by a match of `(let|const|var)\s+(\w+)\s*=` that
      starts at index `i` of the line, if one does. The keyword is followed
      by spaces, so the name is the whole run of word characters after them;
      and a name is followed only by spaces and `=`, so no match starts inside
      another and `re.finditer` finds a match at every such index. */
  function DeclAt(line: string, i: nat): Option<string> {
    var kw := KeywordAt(line, i);
    if kw == 0 then None else DeclAfterKeyword(line, i + kw)
  }

  /** `\s+(\w+)\s*=` from index `a`. */
  function DeclAfterKeyword(line: string, a: nat): Option<string> {
    if a > |line| then None
    else
      var b := RunFrom(line, a, IsSpace);
      if b == a then None else DeclName(line, b)
  }

  /** `(\w+)\s*=` from index `b`. */
  function DeclName(line: string, b: nat): Option<string>
    requires b <= |line|
  {
    var c := RunFrom(line, b, IsWordChar);
    if c == b || !EqFrom(line, c) then None else Some(line[b..c])
  }

  /** `\s*=` from index `c`. */
  predicate EqFrom(line: string, c: nat)
    requires c <= |line|
  {
    var d := RunFrom(line, c, IsSpace);
    d < |line| && line[d] == '='
  }

  /** Where `s` holds at index `j` a run `u` of characters satisfying `p`
      and then a character that does not, the run ends after `u`. */
  lemma RunFromOver(s: string, j: nat, p: char -> bool, u: string, v: string)
    requires HasAt(s, j, u + v) && v != [] && !p(v[0])
    requires forall k :: 0 <= k < |u| ==> p(u[k])
    ensures RunFrom(s, j, p) == j + |u| && HasAt(s, j + |u|, v)
  {
    assert forall k :: 0 <= k < |u| + |v| ==> s[j + k] == (u + v)[k];
    assert s[j + |u|] == v[0];
    RunFromIs(s, j, p, j + |u|);
    assert s[j + |u|..j + |u| + |v|] == v;
  }

  lemma KeywordFound(s: string, j: nat, kw: string, v: string)
    requires kw in Keywords && HasAt(s, j, kw + v)
    ensures KeywordAt(s, j) == |kw| && HasAt(s, j + |kw|, v)
  {
    assert forall k :: 0 <= k < |kw| + |v| ==> s[j + k] == (kw + v)[k];
    assert s[j..j + |kw|] == (kw + v)[..|kw|];
    assert s[j + |kw|..j + |kw| + |v|] == v;
    assert s[j] == kw[0];
  }

  lemma EqFound(line: string, c: nat, sp2: string)
    requires AllSpaces(sp2) && HasAt(line, c, sp2 + "=")
    ensures EqFrom(line, c)
  {
    RunFromOver(line, c, IsSpace, sp2, "=");
    assert line[c + |sp2|] == line[c + |sp2|..c + |sp2| + 1][0];
  }

  lemma DeclNameFound(line: string, b: nat, name: string, sp2: string)
    requires name != [] && AllWordChars(name) && AllSpaces(sp2) && HasAt(line, b, name + (sp2 + "="))
    ensures DeclName(line, b) == Some(name)
  {
    assert (sp2 + "=")[0] == if sp2 == [] then '=' else sp2[0];
    RunFromOver(line, b, IsWordChar, name, sp2 + "=");
    EqFound(line, b + |name|, sp2);
    assert line[b..b + |name|] == (name + (sp2 + "="))[..|name|];
  }

  lemma DeclAfterKeywordFound(line: string, a: nat, sp: string, name: string, sp2: string)
    requires sp != [] && AllSpaces(sp) && name != [] && AllWordChars(name) && AllSpaces(sp2)
    requires HasAt(line, a, sp + (name + (sp2 + "=")))
    ensures DeclAfterKeyword(line, a) == Some(name)
  {
    RunFromOver(line, a, IsSpace, sp, name + (sp2 + "="));
    DeclNameFound(line, a + |sp|, name, sp2);
  }

  /** Every declaration the pattern describes is found: a keyword, spaces, a
      name, optional spaces and `=`. */
  lemma DeclAtComplete(line: string, i: nat, kw: string, sp: string, name: string, sp2: string)
    requires kw in Keywords
    requires sp != [] && AllSpaces(sp) && name != [] && AllWordChars(name) && AllSpaces(sp2)
    requires HasAt(line, i, kw + (sp + (name + (sp2 + "="))))
    ensures DeclAt(line, i) == Some(name)
  {
    KeywordFound(line, i, kw, sp + (name + (sp2 + "=")));
    DeclAfterKeywordFound(line, i + |kw|, sp, name, sp2);
  }

  /** A declared name is a non-empty run of word characters. */
  lemma DeclAtName(line: string, i: nat)
    requires DeclAt(line, i).Some?
    ensures DeclAt(line, i).value != [] && AllWordChars(DeclAt(line, i).value)
  {
    var a := i + KeywordAt(line, i);
    var b := RunFrom(line, a, IsSpace);
    RunFromSpec(line, b, IsWordChar);
  }

  function UnusedFinding(line: nat, name: string): Finding {
    Finding(UnusedVariables, line, Minor, UnusedDeclJs, name)
  }

  /** The findings for the declarations `decl` finds in a line from index `i`
      on, left to right: the names longer than one character that occur
      once among the words of the whole text. */
  function UnusedFrom(words: seq<string>, num: nat, line: string, i: nat, decl: (string, nat) -> Option<string>): seq<Finding>
    requires i <= |line|
    decreases |line| - i
  {
    var here := match decl(line, i)
      case Some(name) => if |name| > 1 && Occurrences(words, name) == 1 then [UnusedFinding(num, name)] else []
      case None => [];
    if i == |line| then here else here + UnusedFrom(words, num, line, i + 1, decl)
  }

  /** A declaration of `name` starts at index `i` of the line and is
      reported. */
  ghost predicate UnusedDeclAt(words: seq<string>, line: string, i: int, name: string, decl: (string, nat) -> Option<string>) {
    0 <= i <= |line| && decl(line, i) == Some(name) && |name| > 1 && Occurrences(words, name) == 1
  }

  lemma {:induction false} UnusedFromOnly(words: seq<string>, num: nat, line: string, i: nat,
                                          decl: (string, nat) -> Option<string>, f: Finding) returns (j: nat)
    requires i <= |line| && f in UnusedFrom(words, num, line, i, decl)
    ensures i <= j && UnusedDeclAt(words, line, j, f.arg, decl) && f == UnusedFinding(num, f.arg)
    decreases |line| - i
  {
    var here := match decl(line, i)
      case Some(name) => if |name| > 1 && Occurrences(words, name) == 1 then [UnusedFinding(num, name)] else []
      case None => [];
    if f in here {
      j := i;
    } else {
      assert i < |line| && UnusedFrom(words, num, line, i, decl) == here + UnusedFrom(words, num, line, i + 1, decl);
      j := UnusedFromOnly(words, num, line, i + 1, decl, f);
    }
  }

  lemma {:induction false} UnusedFromHas(words: seq<string>, num: nat, line: string, i: nat, j: nat, name: string,
                                         decl: (string, nat) -> Option<string>)
    requires i <= j && UnusedDeclAt(words, line, j, name, decl)
    ensures UnusedFinding(num, name) in UnusedFrom(words, num, line, i, decl)
    decreases j - i
  {
    if i < j {
      UnusedFromHas(words, num, line, i + 1, j, name, decl);
    }
  }

  /** The unused declarations of the lines, the first numbered `num`. */
  function UnusedLines(words: seq<string>, lines: seq<string>, num: nat, decl: (string, nat) -> Option<string>): seq<Finding> {
    if lines == [] then [] else UnusedFrom(words, num, lines[0], 0, decl) + UnusedLines(words, lines[1..], num + 1, decl)
  }

  /** `_detect_unused_variables`: the words of the whole text are counted,
      then the declarations are reported line by line. */
  function UnusedFindings(content: string): seq<Finding> {
    UnusedLines(Words(content), Lines(content), 1, DeclAt)
  }

  lemma {:induction false} UnusedLinesOnly(words: seq<string>, lines: seq<string>, num: nat,
                                           decl: (string, nat) -> Option<string>, f: Finding) returns (k: nat, i: nat)
    requires f in UnusedLines(words, lines, num, decl)
    ensures k < |lines| && UnusedDeclAt(words, lines[k], i, f.arg, decl) && f == UnusedFinding(num + k, f.arg)
  {
    var rest := UnusedLines(words, lines[1..], num + 1, decl);
    if f in rest {
      var j;
      j, i := UnusedLinesOnly(words, lines[1..], num + 1, decl, f);
      k := j + 1;
      assert lines[1..][j] == lines[k];
    } else {
      k := 0;
      i := UnusedFromOnly(words, num, lines[0], 0, decl, f);
    }
  }

  lemma {:induction false} UnusedLinesHas(words: seq<string>, lines: seq<string>, num: nat, k: nat, i: nat, name: string,
                                          decl: (string, nat) -> Option<string>)
    requires k < |lines| && UnusedDeclAt(words, lines[k], i, name, decl)
    ensures UnusedFinding(num + k, name) in UnusedLines(words, lines, num, decl)
  {
    if k == 0 {
      UnusedFromHas(words, num, lines[0], 0, i, name, decl);
    } else {
      assert lines[1..][k - 1] == lines[k];
      UnusedLinesHas(words, lines[1..], num + 1, k - 1, i, name, decl);
      assert num + 1 + (k - 1) == num + k;
    }
  }

  lemma UnusedLinesMember(words: seq<string>, lines: seq<string>, decl: (string, nat) -> Option<string>, f: Finding)
    ensures f in UnusedLines(words, lines, 1, decl) <==>
      exists k, i :: 0 <= k < |lines| && UnusedDeclAt(words, lines[k], i, f.arg, decl) && f == UnusedFinding(k + 1, f.arg)
  {
    if f in UnusedLines(words, lines, 1, decl) {
      var k, i := UnusedLinesOnly(words, lines, 1, decl, f);
      assert 0 <= k < |lines| && UnusedDeclAt(words, lines[k], i, f.arg, decl) && f == UnusedFinding(k + 1, f.arg);
    }
    if exists k, i :: 0 <= k < |lines| && UnusedDeclAt(words, lines[k], i, f.arg, decl) && f == UnusedFinding(k + 1, f.arg) {
      var k, i :| 0 <= k < |lines| && UnusedDeclAt(words, lines[k], i, f.arg, decl) && f == UnusedFinding(k + 1, f.arg);
      UnusedLinesHas(words, lines, 1, k, i, f.arg, decl);
    }
  }

  lemma UnusedScanReported(content: string, f: Finding)
    ensures f in UnusedLines(Words(content), Lines(content), 1, DeclAt) <==>
      exists k, i :: 0 <= k < |Lines(content)| && UnusedDeclAt(Words(content), Lines(content)[k], i, f.arg, DeclAt)
        && f == UnusedFinding(k + 1, f.arg)
  {
    UnusedLinesMember(Words(content), Lines(content), DeclAt, f);
  }

  /** A declaration is reported exactly when its name is longer than one
      character and occurs once among all the words of the text. */
  lemma UnusedReported(content: string, f: Finding)
    ensures f in UnusedFindings(content) <==>
      exists k, i :: 0 <= k < |Lines(content)| && UnusedDeclAt(Words(content), Lines(content)[k], i, f.arg, DeclAt)
        && f == UnusedFinding(k + 1, f.arg)
  {
    UnusedScanReported(content, f);
  }
}

=== FILE: jsscopes.dfy ===
/** The two JavaScript checks that follow the braces of the file: a stack of
    open scopes, each marked as opened on a loop line or not. A line's `{`s
    are pushed first, the check runs, then its `}`s pop what they can. */
module JsScopes {
  import opened Common
  import opened Regex
  import opened Findings
  import opened LineScan

  /** `\b(for|while|forEach|map)\b` */
  function LoopWord(): Re {
    Seq([WordBoundary, AnyOf([Lit("for"), Lit("while"), Lit("forEach"), Lit("map")]), WordBoundary])
  }

  predicate IsLoopLine(line: string) { Search(LoopWord(), line) }

  // ---------------------------------------------------------------------
  // The scope stack; `true` marks a scope opened on a loop line.

  /** `open` scopes of one kind pushed on the stack. */
  function Push(scopes: seq<bool>, open: nat, loop: bool): (r: seq<bool>)
    ensures |r| == |scopes| + open && scopes <= r
    ensures forall k :: |scopes| <= k < |r| ==> r[k] == loop
  {
    scopes + seq(open, _ => loop)
  }

  /** `n` pops, each skipped once the stack is empty. */
  function PopN(scopes: seq<bool>, n: nat): (r: seq<bool>)
    ensures |r| == if n <= |scopes| then |scopes| - n else 0
    ensures r <= scopes
  {
    if n == 0 || scopes == [] then scopes else PopN(scopes[..|scopes| - 1], n - 1)
  }

  /** The `{`s of a line pushed, loop scopes on a loop line and plain blocks
      elsewhere. */
  function Pushed(scopes: seq<bool>, line: string): seq<bool> {
    Push(scopes, Occurrences(line, '{'), IsLoopLine(line))
  }

  /** The stack after a line: its `{`s pushed, then its `}`s popped. */
  function ScopeStep(scopes: seq<bool>, line: string): (r: seq<bool>)
    ensures |r| == if Occurrences(line, '}') <= |scopes| + Occurrences(line, '{')
                   then |scopes| + Occurrences(line, '{') - Occurrences(line, '}') else 0
    ensures r <= Pushed(scopes, line)
  {
    PopN(Pushed(scopes, line), Occurrences(line, '}'))
  }

  /** The stack before the line at 0-based index `k`. */
  function ScopesBefore(lines: seq<string>, k: nat): seq<bool>
    requires k <= |lines|
  {
    StateBefore(lines, [], ScopeStep, k)
  }

  /** `sum(1 for s in scopes if s[0] == 'loop')` */
  function LoopCount(scopes: seq<bool>): nat { Occurrences(scopes, true) }

  /** Pushing adds the pushed loop scopes to the count. */
  lemma LoopCountPush(scopes: seq<bool>, open: nat, loop: bool)
    ensures LoopCount(Push(scopes, open, loop)) == LoopCount(scopes) + (if loop then open else 0)
  {
    OccurrencesAppend(scopes, seq(open, _ => loop), true);
    LoopCountRepeat(open, loop);
  }

  lemma {:induction false} LoopCountRepeat(n: nat, loop: bool)
    ensures LoopCount(seq(n, _ => loop)) == if loop then n else 0
  {
    if n > 0 {
      assert seq(n, _ => loop) == seq(n - 1, _ => loop) + [loop];
      OccurrencesAppend(seq(n - 1, _ => loop), [loop], true);
      LoopCountRepeat(n - 1, loop);
    }
  }

  /** A loop scope on the stack was pushed by an earlier loop line with a
      `{` on it. */
  lemma {:induction false} LoopScopeFromLoopLine(lines: seq<string>, k: nat)
    requires k <= |lines| && true in ScopesBefore(lines, k)
    ensures exists j :: 0 <= j < k && IsLoopLine(lines[j]) && '{' in lines[j]
  {
    if k == 0 {
      assert false;
    } else {
      var prev := ScopesBefore(lines, k - 1);
      var line := lines[k - 1];
      var r := ScopeStep(prev, line);
      assert r == ScopesBefore(lines, k);
      var i :| 0 <= i < |r| && r[i];
      var pushed := Pushed(prev, line);
      assert pushed[i] == r[i];
      if i < |prev| {
        assert prev[i];
        LoopScopeFromLoopLine(lines, k - 1);
      } else {
        assert IsLoopLine(line) && Occurrences(line, '{') > 0;
        CountCharPositive(line, '{');
      }
    }
  }

  lemma {:induction false} CountCharPositive(s: string, c: char)
    requires Occurrences(s, c) > 0
    ensures c in s
  {
    if s[0] != c {
      CountCharPositive(s[1..], c);
    }
  }

  // ---------------------------------------------------------------------
  // Nested loops

  /** The nesting finding at line `num` with `depth` loop scopes open;
      three or more is critical. */
  function NestedFinding(num: nat, depth: nat): Finding {
    Finding(NoN2Algorithms, num, if depth >= 3 then Critical else Major, NestedLoopJs, NatToString(depth))
  }

  /** `_detect_nested_loops` on one line with the stack before it: a loop
      line pushes its `{`s as loop scopes and is reported when two or more
      loop scopes are then open. */
  function NestedCheck(num: nat, line: string, scopes: seq<bool>): seq<Finding> {
    if IsLoopLine(line) then
      var depth := LoopCount(Pushed(scopes, line));
      When(depth >= 2, NestedFinding(num, depth))
    else []
  }

  function NestedFindings(lines: seq<string>): seq<Finding> {
    ScanFindings(lines, 1, [], ScopeStep, NestedCheck)
  }

  /** The loop scopes open on the line at index `k` once its own `{`s are
      pushed. */
  function DepthAt(lines: seq<string>, k: nat): nat
    requires k < |lines|
  {
    LoopCount(Pushed(ScopesBefore(lines, k), lines[k]))
  }

  /** A loop line is reported exactly when, with its own `{`s pushed, at
      least two loop scopes are open; the finding carries that depth. */
  lemma NestedReported(lines: seq<string>, f: Finding)
    ensures f in NestedFindings(lines) <==>
      exists k :: 0 <= k < |lines| && IsLoopLine(lines[k]) && DepthAt(lines, k) >= 2 && f == NestedFinding(k + 1, DepthAt(lines, k))
  {
    if f in NestedFindings(lines) {
      var k := NestedOnly(lines, f);
    }
    if exists k :: 0 <= k < |lines| && IsLoopLine(lines[k]) && DepthAt(lines, k) >= 2 && f == NestedFinding(k + 1, DepthAt(lines, k)) {
      var k :| 0 <= k < |lines| && IsLoopLine(lines[k]) && DepthAt(lines, k) >= 2 && f == NestedFinding(k + 1, DepthAt(lines, k));
      NestedHas(lines, k);
    }
  }

  lemma NestedOnly(lines: seq<string>, f: Finding) returns (k: nat)
    requires f in NestedFindings(lines)
    ensures k < |lines| && IsLoopLine(lines[k]) && DepthAt(lines, k) >= 2 && f == NestedFinding(k + 1, DepthAt(lines, k))
  {
    k := ScanOnly(lines, 1, [], ScopeStep, NestedCheck, f);
    NestedLineOnly(lines, k, f);
  }

  lemma NestedLineOnly(lines: seq<string>, k: nat, f: Finding)
    requires k < |lines| && f in NestedCheck(1 + k, lines[k], StateBefore(lines, [], ScopeStep, k))
    ensures IsLoopLine(lines[k]) && DepthAt(lines, k) >= 2 && f == NestedFinding(k + 1, DepthAt(lines, k))
  {
  }

  lemma NestedHas(lines: seq<string>, k: nat)
    requires k < |lines| && IsLoopLine(lines[k]) && DepthAt(lines, k) >= 2
    ensures NestedFinding(k + 1, DepthAt(lines, k)) in NestedFindings(lines)
  {
    var f := NestedFinding(k + 1, DepthAt(lines, k));
    assert NestedCheck(1 + k, lines[k], ScopesBefore(lines, k)) == [f];
    ScanHas(lines, 1, [], ScopeStep, NestedCheck, k, f);
  }

  /** A loop line with two `{`s is reported whatever came before it, since
      it opens two loop scopes itself. */
  lemma NestedOnOneLine(lines: seq<string>, k: nat)
    requires k < |lines| && IsLoopLine(lines[k]) && Occurrences(lines[k], '{') >= 2
    ensures DepthAt(lines, k) >= 2
    ensures NestedFinding(k + 1, DepthAt(lines, k)) in NestedFindings(lines)
  {
    var scopes := ScopesBefore(lines, k);
    LoopCountPush(scopes, Occurrences(lines[k], '{'), true);
    NestedHas(lines, k);
  }

  /** The depth is written into the message in decimal and reads back as
      the depth; three or more open loops make the finding critical. */
  lemma NestedFindingText(num: nat, depth: nat)
    ensures DigitsValue(NestedFinding(num, depth).arg) == depth
    ensures NestedFinding(num, depth).severity == Critical <==> depth >= 3
  {
    NatToStringRoundTrip(depth);
  }

  // ---------------------------------------------------------------------
  // DOM manipulation inside a loop

  const DomMethods: seq<string> := ["appendChild", "innerHTML", "textContent", "setAttribute", "classList.add", "document.write"]

  /** The first of `names` that occurs in `line`, as the loop with `break`
      finds it. */
  function FirstContained(line: string, names: seq<string>): (r: Option<string>)
    ensures r.Some? ==> r.value in names && Contains(line, r.value)
    ensures r.None? <==> forall k :: 0 <= k < |names| ==> !Contains(line, names[k])
  {
    if names == [] then None
    else if Contains(line, names[0]) then Some(names[0])
    else
      var r := FirstContained(line, names[1..]);
      assert forall k :: 1 <= k < |names| ==> names[k] == names[1..][k - 1];
      r
  }

  /** The name found is the first one that occurs: none before it does. */
  lemma {:induction false} FirstContainedIsFirst(line: string, names: seq<string>, i: nat)
    requires i < |names| && FirstContained(line, names) == Some(names[i]) && names[i] !in names[..i]
    ensures forall k :: 0 <= k < i ==> !Contains(line, names[k])
  {
    if i > 0 {
      assert names[0] in names[..i];
      assert names[1..][i - 1] == names[i];
      assert names[1..][..i - 1] == names[1..i];
      assert forall x :: x in names[1..i] ==> x in names[..i];
      FirstContainedIsFirst(line, names[1..], i - 1);
      assert forall k :: 1 <= k < i ==> names[k] == names[1..][k - 1];
    }
  }

  function DomFinding(num: nat, name: string): Finding {
    Finding(UnnecessaryDomManipulation, num, Critical, DomInLoopJs, name)
  }

  /** `_detect_dom_manipulation_in_loop` on one line with the stack before
      it: once the line's `{`s are pushed, if any loop scope is open, the
      first DOM method the line mentions is reported. */
  function DomCheck(num: nat, line: string, scopes: seq<bool>): seq<Finding> {
    if true in Pushed(scopes, line) then
      match FirstContained(line, DomMethods)
      case Some(name) => [DomFinding(num, name)]
      case None => []
    else []
  }

  function DomFindings(lines: seq<string>): seq<Finding> {
    ScanFindings(lines, 1, [], ScopeStep, DomCheck)
  }

  /** A loop scope is open on the line at index `k` once its own `{`s are
      pushed, and the line mentions a DOM method. */
  predicate DomAt(lines: seq<string>, k: nat)
    requires k < |lines|
  {
    true in Pushed(ScopesBefore(lines, k), lines[k]) && FirstContained(lines[k], DomMethods).Some?
  }

  /** A line is reported exactly when a loop scope is open on it and it
      mentions a DOM method; the finding names the first one it mentions. */
  lemma DomReported(lines: seq<string>, f: Finding)
    ensures f in DomFindings(lines) <==>
      exists k :: 0 <= k < |lines| && DomAt(lines, k) && f == DomFinding(k + 1, FirstContained(lines[k], DomMethods).value)
  {
    if f in DomFindings(lines) {
      var k := DomOnly(lines, f);
    }
    if exists k :: 0 <= k < |lines| && DomAt(lines, k) && f == DomFinding(k + 1, FirstContained(lines[k], DomMethods).value) {
      var k :| 0 <= k < |lines| && DomAt(lines, k) && f == DomFinding(k + 1, FirstContained(lines[k], DomMethods).value);
      DomHas(lines, k);
    }
  }

  lemma DomLineOnly(lines: seq<string>, k: nat, f: Finding)
    requires k < |lines| && f in DomCheck(1 + k, lines[k], StateBefore(lines, [], ScopeStep, k))
    ensures DomAt(lines, k) && f == DomFinding(k + 1, FirstContained(lines[k], DomMethods).value)
  {
  }

  lemma DomOnly(lines: seq<string>, f: Finding) returns (k: nat)
    requires f in DomFindings(lines)
    ensures k < |lines| && DomAt(lines, k) && f == DomFinding(k + 1, FirstContained(lines[k], DomMethods).value)
  {
    k := ScanOnly(lines, 1, [], ScopeStep, DomCheck, f);
    DomLineOnly(lines, k, f);
  }

  lemma DomHas(lines: seq<string>, k: nat)
    requires k < |lines| && DomAt(lines, k)
    ensures DomFinding(k + 1, FirstContained(lines[k], DomMethods).value) in DomFindings(lines)
  {
    var f := DomFinding(k + 1, FirstContained(lines[k], DomMethods).value);
    assert DomCheck(1 + k, lines[k], ScopesBefore(lines, k)) == [f];
    ScanHas(lines, 1, [], ScopeStep, DomCheck, k, f);
  }

  /** A DOM finding needs a loop line with a `{` at or before the reported
      line. */
  lemma DomNeedsLoop(lines: seq<string>, f: Finding)
    requires f in DomFindings(lines)
    ensures exists j :: 0 <= j < f.line && j < |lines| && IsLoopLine(lines[j]) && '{' in lines[j]
  {
    var k := DomOnly(lines, f);
    var scopes := ScopesBefore(lines, k);
    var pushed := Pushed(scopes, lines[k]);
    var i :| 0 <= i < |pushed| && pushed[i];
    if i < |scopes| {
      assert scopes[i];
      LoopScopeFromLoopLine(lines, k);
    } else {
      CountCharPositive(lines[k], '{');
    }
  }
}

=== FILE: linescan.dfy ===
/** What the line-based detectors share: the text cut into lines, a check
    run on every numbered line, and the one-flag state machines ("in a loop
    since the last opening line") that follow the lines in order. */
module LineScan {
  import opened Common
  import opened Regex
  import opened Findings

  /** `content.split('\n')`. */
  function Lines(content: string): (r: seq<string>)
    ensures |r| == Occurrences(content, '\n') + 1
    ensures forall k :: 0 <= k < |r| ==> '\n' !in r[k]
  {
    Split(content, '\n')
  }

  /** `for line_num, line in enumerate(lines, 1): check(line_num, line)`,
      starting from the line numbered `first`. */
  function EachLine(lines: seq<string>, first: nat, check: (nat, string) -> seq<Finding>): seq<Finding>
  {
    if lines == [] then [] else check(first, lines[0]) + EachLine(lines[1..], first + 1, check)
  }

  /** A finding comes from the check of one of the lines, and every finding
      of every line's check is kept. */
  lemma EachLineMember(lines: seq<string>, first: nat, check: (nat, string) -> seq<Finding>, f: Finding)
    ensures f in EachLine(lines, first, check) <==> exists k :: 0 <= k < |lines| && f in check(first + k, lines[k])
  {
    if f in EachLine(lines, first, check) {
      var k := EachLineOnly(lines, first, check, f);
    }
    if exists k :: 0 <= k < |lines| && f in check(first + k, lines[k]) {
      var k :| 0 <= k < |lines| && f in check(first + k, lines[k]);
      EachLineHas(lines, first, check, k, f);
    }
  }

  lemma {:induction false} EachLineOnly(lines: seq<string>, first: nat, check: (nat, string) -> seq<Finding>, f: Finding)
    returns (k: nat)
    requires f in EachLine(lines, first, check)
    ensures k < |lines| && f in check(first + k, lines[k])
  {
    var rest := EachLine(lines[1..], first + 1, check);
    assert EachLine(lines, first, check) == check(first, lines[0]) + rest;
    if f in rest {
      var j := EachLineOnly(lines[1..], first + 1, check, f);
      k := j + 1;
      assert lines[1..][j] == lines[k];
    } else {
      k := 0;
    }
  }

  lemma {:induction false} EachLineHas(lines: seq<string>, first: nat, check: (nat, string) -> seq<Finding>, k: nat, f: Finding)
    requires k < |lines| && f in check(first + k, lines[k])
    ensures f in EachLine(lines, first, check)
  {
    var rest := EachLine(lines[1..], first + 1, check);
    assert EachLine(lines, first, check) == check(first, lines[0]) + rest;
    if k > 0 {
      assert lines[1..][k - 1] == lines[k];
      assert f in check((first + 1) + (k - 1), lines[1..][k - 1]);
      EachLineHas(lines[1..], first + 1, check, k - 1, f);
    }
  }

  /** The checks of the lines follow each other: the findings of line
      `first + k` come after those of all earlier lines. */
  lemma {:induction false} EachLineAppend(a: seq<string>, b: seq<string>, first: nat, check: (nat, string) -> seq<Finding>)
    ensures EachLine(a + b, first, check) == EachLine(a, first, check) + EachLine(b, first + |a|, check)
  {
    if a == [] {
      assert a + b == b;
    } else {
      assert (a + b)[0] == a[0] && (a + b)[1..] == a[1..] + b;
      EachLineAppend(a[1..], b, first + 1, check);
    }
  }

  /** A check with one pattern: every line, from the one numbered `first`,
      that satisfies `p` is reported once through `mk`. */
  function EachMatch(lines: seq<string>, first: nat, p: string -> bool, mk: nat -> Finding): seq<Finding>
  {
    if lines == [] then [] else When(p(lines[0]), mk(first)) + EachMatch(lines[1..], first + 1, p, mk)
  }

  /** One finding per matching line, so as many findings as matching lines;
      a rule all of whose findings `mk` tags with `id` is counted that often. */
  lemma {:induction false} EachMatchCount(lines: seq<string>, first: nat, p: string -> bool, mk: nat -> Finding, id: RuleId)
    requires forall n :: mk(n).rule == id
    ensures |EachMatch(lines, first, p, mk)| == CountId(EachMatch(lines, first, p, mk), id) == CountIf(lines, p)
  {
    if lines != [] {
      EachMatchCount(lines[1..], first + 1, p, mk, id);
      assert lines == [lines[0]] + lines[1..];
      CountIfAppend([lines[0]], lines[1..], p);
      CountIdAppend(When(p(lines[0]), mk(first)), EachMatch(lines[1..], first + 1, p, mk), id);
    }
  }

  lemma {:induction false} EachMatchOnly(lines: seq<string>, first: nat, p: string -> bool, mk: nat -> Finding, f: Finding)
    returns (k: nat)
    requires f in EachMatch(lines, first, p, mk)
    ensures k < |lines| && p(lines[k]) && f == mk(first + k)
  {
    var rest := EachMatch(lines[1..], first + 1, p, mk);
    if f in rest {
      var j := EachMatchOnly(lines[1..], first + 1, p, mk, f);
      k := j + 1;
      assert lines[1..][j] == lines[k];
    } else {
      k := 0;
    }
  }

  lemma {:induction false} EachMatchHas(lines: seq<string>, first: nat, p: string -> bool, mk: nat -> Finding, k: nat)
    requires k < |lines| && p(lines[k])
    ensures mk(first + k) in EachMatch(lines, first, p, mk)
  {
    if k > 0 {
      assert lines[1..][k - 1] == lines[k];
      EachMatchHas(lines[1..], first + 1, p, mk, k - 1);
      assert (first + 1) + (k - 1) == first + k;
    }
  }

  /** A line is reported exactly when it matches. */
  lemma EachMatchMember(lines: seq<string>, first: nat, p: string -> bool, mk: nat -> Finding, f: Finding)
    ensures f in EachMatch(lines, first, p, mk) <==> exists k :: 0 <= k < |lines| && p(lines[k]) && f == mk(first + k)
  {
    if f in EachMatch(lines, first, p, mk) {
      var k := EachMatchOnly(lines, first, p, mk, f);
    }
    if exists k :: 0 <= k < |lines| && p(lines[k]) && f == mk(first + k) {
      var k :| 0 <= k < |lines| && p(lines[k]) && f == mk(first + k);
      EachMatchHas(lines, first, p, mk, k);
    }
  }

  /** Each line from the 0-based index `i` on, tested together with the
      line after it; a pair that passes reports the second line's 1-based
      number through `mk`. */
  function EachPair(lines: seq<string>, i: nat, test: (string, string) -> bool, mk: nat -> Finding): seq<Finding>
    decreases |lines| - i
  {
    if i + 1 >= |lines| then []
    else (if test(lines[i], lines[i + 1]) then [mk(i + 2)] else []) + EachPair(lines, i + 1, test, mk)
  }

  /** Line `k` (0-based) and the line before it pass `test`. */
  ghost predicate PairAt(lines: seq<string>, k: int, test: (string, string) -> bool) {
    0 < k < |lines| && test(lines[k - 1], lines[k])
  }

  /** A pair is reported exactly when it passes the test. */
  lemma EachPairMember(lines: seq<string>, i: nat, test: (string, string) -> bool, mk: nat -> Finding, f: Finding)
    ensures f in EachPair(lines, i, test, mk) <==>
      exists k :: i < k && PairAt(lines, k, test) && f == mk(k + 1)
  {
    if f in EachPair(lines, i, test, mk) {
      var k := EachPairOnly(lines, i, test, mk, f);
    }
    if exists k :: i < k && PairAt(lines, k, test) && f == mk(k + 1) {
      var k :| i < k && PairAt(lines, k, test) && f == mk(k + 1);
      EachPairHas(lines, i, test, mk, k);
    }
  }

  lemma {:induction false} EachPairOnly(lines: seq<string>, i: nat, test: (string, string) -> bool, mk: nat -> Finding, f: Finding)
    returns (k: nat)
    requires f in EachPair(lines, i, test, mk)
    ensures i < k && PairAt(lines, k, test) && f == mk(k + 1)
    decreases |lines| - i
  {
    if f in EachPair(lines, i + 1, test, mk) {
      k := EachPairOnly(lines, i + 1, test, mk, f);
    } else {
      k := i + 1;
    }
  }

  lemma {:induction false} EachPairHas(lines: seq<string>, i: nat, test: (string, string) -> bool, mk: nat -> Finding, k: nat)
    requires i < k && PairAt(lines, k, test)
    ensures mk(k + 1) in EachPair(lines, i, test, mk)
    decreases |lines| - i
  {
    if k > i + 1 {
      EachPairHas(lines, i + 1, test, mk, k);
    }
  }

  // ---------------------------------------------------------------------
  // Scans that carry a state from line to line

  /** Each line checked against the state the lines before it left, the
      state moving on by `step` after every line. */
  function ScanFindings<S>(lines: seq<string>, num: nat, st: S, step: (S, string) -> S,
                           check: (nat, string, S) -> seq<Finding>): seq<Finding>
  {
    if lines == [] then []
    else check(num, lines[0], st) + ScanFindings(lines[1..], num + 1, step(st, lines[0]), step, check)
  }

  /** The state before the line at 0-based index `k`. */
  function StateBefore<S>(lines: seq<string>, st: S, step: (S, string) -> S, k: nat): S
    requires k <= |lines|
  {
    if k == 0 then st else step(StateBefore(lines, st, step, k - 1), lines[k - 1])
  }

  lemma {:induction false} StateBeforeShift<S>(lines: seq<string>, st: S, step: (S, string) -> S, k: nat)
    requires 0 < |lines| && k < |lines|
    ensures StateBefore(lines, st, step, k + 1) == StateBefore(lines[1..], step(st, lines[0]), step, k)
  {
    if k > 0 {
      StateBeforeShift(lines, st, step, k - 1);
      assert lines[1..][k - 1] == lines[k];
    }
  }

  /** A finding of a scan is one of the check of some line against the state
      before that line, and every such finding is kept. */
  lemma ScanMember<S>(lines: seq<string>, num: nat, st: S, step: (S, string) -> S,
                      check: (nat, string, S) -> seq<Finding>, f: Finding)
    ensures f in ScanFindings(lines, num, st, step, check) <==>
      exists k :: 0 <= k < |lines| && f in check(num + k, lines[k], StateBefore(lines, st, step, k))
  {
    if f in ScanFindings(lines, num, st, step, check) {
      var k := ScanOnly(lines, num, st, step, check, f);
    }
    if exists k :: 0 <= k < |lines| && f in check(num + k, lines[k], StateBefore(lines, st, step, k)) {
      var k :| 0 <= k < |lines| && f in check(num + k, lines[k], StateBefore(lines, st, step, k));
      ScanHas(lines, num, st, step, check, k, f);
    }
  }

  lemma {:induction false} ScanOnly<S>(lines: seq<string>, num: nat, st: S, step: (S, string) -> S,
                                      check: (nat, string, S) -> seq<Finding>, f: Finding) returns (k: nat)
    requires f in ScanFindings(lines, num, st, step, check)
    ensures k < |lines| && f in check(num + k, lines[k], StateBefore(lines, st, step, k))
  {
    var next := step(st, lines[0]);
    var rest := ScanFindings(lines[1..], num + 1, next, step, check);
    assert ScanFindings(lines, num, st, step, check) == check(num, lines[0], st) + rest;
    if f in rest {
      var j := ScanOnly(lines[1..], num + 1, next, step, check, f);
      StateBeforeShift(lines, st, step, j);
      k := j + 1;
      assert lines[1..][j] == lines[k];
    } else {
      k := 0;
    }
  }

  lemma {:induction false} ScanHas<S>(lines: seq<string>, num: nat, st: S, step: (S, string) -> S,
                                     check: (nat, string, S) -> seq<Finding>, k: nat, f: Finding)
    requires k < |lines| && f in check(num + k, lines[k], StateBefore(lines, st, step, k))
    ensures f in ScanFindings(lines, num, st, step, check)
  {
    var next := step(st, lines[0]);
    var rest := ScanFindings(lines[1..], num + 1, next, step, check);
    assert ScanFindings(lines, num, st, step, check) == check(num, lines[0], st) + rest;
    if k > 0 {
      StateBeforeShift(lines, st, step, k - 1);
      assert lines[1..][k - 1] == lines[k];
      assert f in check((num + 1) + (k - 1), lines[1..][k - 1], StateBefore(lines[1..], next, step, k - 1));
      ScanHas(lines[1..], num + 1, next, step, check, k - 1, f);
    }
  }

  // ---------------------------------------------------------------------
  // One-flag state machines

  /** `\+=\s*["\']`, the string concatenation both language detectors look
      for inside loops. */
  function ConcatAssign(): Re { Seq([Lit("+="), Star(S()), Quote()]) }

  predicate IsConcatLine(line: string) { Search(ConcatAssign(), line) }

  /** One step of a flag that a line matching `raise` raises and, failing that,
      a line matching `lower` lowers. */
  function LatchStep(line: string, on: bool, raise: string -> bool, lower: string -> bool): bool {
    if raise(line) then true else if lower(line) then false else on
  }

  /** The flag after each line, from the initial value `on`. */
  function Latch(lines: seq<string>, on: bool, raise: string -> bool, lower: string -> bool): (r: seq<bool>)
    ensures |r| == |lines|
  {
    if lines == [] then []
    else
      var next := LatchStep(lines[0], on, raise, lower);
      [next] + Latch(lines[1..], next, raise, lower)
  }

  /** No line of `lines[a..j+1]` lowers the flag without raising it. */
  ghost predicate Holds(lines: seq<string>, a: int, j: int, raise: string -> bool, lower: string -> bool)
    requires j < |lines|
  {
    forall m :: 0 <= a <= m <= j ==> raise(lines[m]) || !lower(lines[m])
  }

  /** Reference reading of the flag: after line `j` it is up iff some line
      up to `j` raised it and no later line up to `j` lowered it, or it was
      up from the start and no line up to `j` lowered it. */
  ghost predicate UpAfter(lines: seq<string>, j: int, on: bool, raise: string -> bool, lower: string -> bool)
    requires 0 <= j < |lines|
  {
    || (exists i :: 0 <= i <= j && raise(lines[i]) && Holds(lines, i + 1, j, raise, lower))
    || (on && Holds(lines, 0, j, raise, lower))
  }

  lemma {:induction false} LatchIsUpAfter(lines: seq<string>, on: bool, raise: string -> bool, lower: string -> bool, j: nat)
    requires j < |lines|
    ensures Latch(lines, on, raise, lower)[j] <==> UpAfter(lines, j, on, raise, lower)
    decreases j
  {
    var r := Latch(lines, on, raise, lower);
    var next := LatchStep(lines[0], on, raise, lower);
    if j == 0 {
      if raise(lines[0]) {
        assert Holds(lines, 1, 0, raise, lower);
      }
      if r[0] && !raise(lines[0]) {
        assert on && Holds(lines, 0, 0, raise, lower);
      }
    } else {
      var tail := lines[1..];
      assert r[j] == Latch(tail, next, raise, lower)[j - 1];
      LatchIsUpAfter(tail, next, raise, lower, j - 1);
      UpAfterShift(lines, j, on, raise, lower);
    }
  }

  /** The reference reading of the whole text, shifted by its first line. */
  lemma {:induction false} UpAfterShift(lines: seq<string>, j: nat, on: bool, raise: string -> bool, lower: string -> bool)
    requires 0 < j < |lines|
    ensures UpAfter(lines, j, on, raise, lower)
      <==> UpAfter(lines[1..], j - 1, LatchStep(lines[0], on, raise, lower), raise, lower)
  {
    var tail := lines[1..];
    var next := LatchStep(lines[0], on, raise, lower);
    if UpAfter(lines, j, on, raise, lower) {
      if exists i :: 0 <= i <= j && raise(lines[i]) && Holds(lines, i + 1, j, raise, lower) {
        var i :| 0 <= i <= j && raise(lines[i]) && Holds(lines, i + 1, j, raise, lower);
        if i == 0 {
          assert next && Holds(tail, 0, j - 1, raise, lower);
        } else {
          assert raise(tail[i - 1]) && Holds(tail, i, j - 1, raise, lower);
        }
      } else {
        assert next && Holds(tail, 0, j - 1, raise, lower);
      }
    }
    if UpAfter(tail, j - 1, next, raise, lower) {
      if exists i :: 0 <= i <= j - 1 && raise(tail[i]) && Holds(tail, i + 1, j - 1, raise, lower) {
        var i :| 0 <= i <= j - 1 && raise(tail[i]) && Holds(tail, i + 1, j - 1, raise, lower);
        assert raise(lines[i + 1]) && Holds(lines, i + 2, j, raise, lower);
      } else if raise(lines[0]) {
        assert Holds(lines, 1, j, raise, lower);
      } else {
        assert on && Holds(lines, 0, j, raise, lower);
      }
    }
  }

  /** The lines, from the one numbered `num`, that match `hit` while the
      flag is up (after the line's own step), reported through `mk`. */
  function LatchFindings(lines: seq<string>, num: nat, on: bool, raise: string -> bool, lower: string -> bool,
                         hit: string -> bool, mk: nat -> Finding): seq<Finding>
  {
    if lines == [] then []
    else
      var next := LatchStep(lines[0], on, raise, lower);
      (if next && hit(lines[0]) then [mk(num)] else []) + LatchFindings(lines[1..], num + 1, next, raise, lower, hit, mk)
  }

  /** Every finding is the report of a line that matches `hit` with the flag up. */
  lemma {:induction false} LatchFindingsFrom(lines: seq<string>, num: nat, on: bool, raise: string -> bool,
                                             lower: string -> bool, hit: string -> bool, mk: nat -> Finding, f: Finding)
    returns (k: nat)
    requires f in LatchFindings(lines, num, on, raise, lower, hit, mk)
    ensures k < |lines| && Latch(lines, on, raise, lower)[k] && hit(lines[k]) && f == mk(num + k)
  {
    var next := LatchStep(lines[0], on, raise, lower);
    var flags := Latch(lines, on, raise, lower);
    var tail := lines[1..];
    var tf := Latch(tail, next, raise, lower);
    assert flags == [next] + tf;
    var rest := LatchFindings(tail, num + 1, next, raise, lower, hit, mk);
    if f in rest {
      var j := LatchFindingsFrom(tail, num + 1, next, raise, lower, hit, mk, f);
      k := j + 1;
      assert flags[k] == tf[j] && lines[k] == tail[j];
    } else {
      k := 0;
    }
  }

  /** Every line that matches `hit` with the flag up is reported. */
  lemma {:induction false} LatchFindingsHas(lines: seq<string>, num: nat, on: bool, raise: string -> bool,
                                            lower: string -> bool, hit: string -> bool, mk: nat -> Finding, k: nat)
    requires k < |lines| && Latch(lines, on, raise, lower)[k] && hit(lines[k])
    ensures mk(num + k) in LatchFindings(lines, num, on, raise, lower, hit, mk)
  {
    var next := LatchStep(lines[0], on, raise, lower);
    var tail := lines[1..];
    var tf := Latch(tail, next, raise, lower);
    assert Latch(lines, on, raise, lower) == [next] + tf;
    if k > 0 {
      LatchFindingsHas(tail, num + 1, next, raise, lower, hit, mk, k - 1);
      assert num + 1 + (k - 1) == num + k;
    }
  }

  /** A line is reported exactly when it matches `hit` and the flag is up
      after it. */
  lemma LatchFindingsMember(lines: seq<string>, num: nat, on: bool, raise: string -> bool,
                            lower: string -> bool, hit: string -> bool, mk: nat -> Finding, f: Finding)
    ensures f in LatchFindings(lines, num, on, raise, lower, hit, mk) <==>
      exists k :: 0 <= k < |lines| && Latch(lines, on, raise, lower)[k] && hit(lines[k]) && f == mk(num + k)
  {
    if f in LatchFindings(lines, num, on, raise, lower, hit, mk) {
      var k := LatchFindingsFrom(lines, num, on, raise, lower, hit, mk, f);
    }
    if exists k :: 0 <= k < |lines| && Latch(lines, on, raise, lower)[k] && hit(lines[k]) && f == mk(num + k) {
      var k :| 0 <= k < |lines| && Latch(lines, on, raise, lower)[k] && hit(lines[k]) && f == mk(num + k);
      LatchFindingsHas(lines, num, on, raise, lower, hit, mk, k);
    }
  }

  /** The same against the reference reading of the flag. */
  lemma LatchFindingsUpAfter(lines: seq<string>, on: bool, raise: string -> bool, lower: string -> bool,
                             hit: string -> bool, mk: nat -> Finding, f: Finding)
    ensures f in LatchFindings(lines, 1, on, raise, lower, hit, mk) <==>
      exists k :: 0 <= k < |lines| && hit(lines[k]) && f == mk(k + 1) && UpAfter(lines, k, on, raise, lower)
  {
    LatchFindingsMember(lines, 1, on, raise, lower, hit, mk, f);
    forall k | 0 <= k < |lines|
      ensures Latch(lines, on, raise, lower)[k] <==> UpAfter(lines, k, on, raise, lower)
    {
      LatchIsUpAfter(lines, on, raise, lower, k);
    }
  }
}

=== FILE: metrics.dfy ===
/** The average-grade helpers of the dashboard: letter grades become points
    (A 5 down to F 1), the points are averaged, and the mean is mapped back
    to the nearest letter, a tie going to the better one. */
module GradeMetrics {
  import opened Common
  import Domain

  function GradeValue(g: string): (r: Option<int>)
    ensures r.Some? ==> 1 <= r.value <= 5
  {
    if g == "A" then Some(5) else if g == "B" then Some(4) else if g == "C" then Some(3)
    else if g == "D" then Some(2) else if g == "F" then Some(1) else None
  }

  /** `[grade_values.get(g, 0) for g in grades if g in grade_values]`. */
  function Points(grades: seq<string>): (r: seq<int>)
    ensures |r| == CountIf(grades, Recognised)
    ensures forall k :: 0 <= k < |r| ==> 1 <= r[k] <= 5
  {
    if grades == [] then []
    else
      var v := GradeValue(grades[0]);
      (if v.Some? then [v.value] else []) + Points(grades[1..])
  }

  function Recognised(g: string): bool {
    GradeValue(g).Some?
  }

  function Mean(points: seq<int>): real
    requires points != []
  {
    (SumInts(points) as real) / (|points| as real)
  }

  /** `calculate_average_grade`: N/A when no letter is recognised (an empty
      list included); otherwise the letter whose value is nearest the mean of
      the points, ties going up. */
  function AverageGrade(grades: seq<string>): (r: string)
    ensures r == "N/A" <==> CountIf(grades, Recognised) == 0
    ensures r != "N/A" ==> Points(grades) != [] && GradeValue(r).Some? && Nearest(r, Mean(Points(grades)))
  {
    if grades == [] then "N/A" else LetterOf(Points(grades))
  }

  /** `v` is the grade nearest `avg`: within half a point below, or less than
      half a point above; A and F take everything beyond. */
  predicate Nearest(r: string, avg: real)
    requires GradeValue(r).Some?
  {
    var v := GradeValue(r).value as real;
    && (r == "F" || v - 0.5 <= avg)
    && (r == "A" || avg < v + 0.5)
  }

  /** The tail of `calculate_average_grade`, once the points are known. */
  function LetterOf(points: seq<int>): (r: string)
    ensures r == "N/A" <==> points == []
    ensures r != "N/A" ==> GradeValue(r).Some? && Nearest(r, Mean(points))
  {
    if points == [] then "N/A"
    else
      var avg := Mean(points);
      if avg >= 4.5 then "A"
      else if avg >= 3.5 then "B"
      else if avg >= 2.5 then "C"
      else if avg >= 1.5 then "D"
      else "F"
  }

  /** Unrecognised letters play no part. */
  lemma AverageIgnoresUnknown(grades: seq<string>)
    ensures AverageGrade(grades) == AverageGrade(Filter(grades, Recognised))
  {
    PointsFilter(grades);
  }

  lemma {:induction false} PointsFilter(grades: seq<string>)
    ensures Points(Filter(grades, Recognised)) == Points(grades)
  {
    if grades != [] {
      PointsFilter(grades[1..]);
      var rest := Filter(grades[1..], Recognised);
      if Recognised(grades[0]) {
        assert Filter(grades, Recognised) == [grades[0]] + rest;
        assert ([grades[0]] + rest)[1..] == rest;
      }
    }
  }

  /** A list of one letter repeated averages to that letter. */
  lemma RepeatedGrade(g: string, n: nat)
    requires GradeValue(g).Some? && n > 0
    ensures AverageGrade(seq(n, _ => g)) == g
  {
    var v := GradeValue(g).value;
    var grades := seq(n, _ => g);
    PointsRepeated(g, n);
    SumIntsRepeated(v, n);
    MeanRepeated(v, n);
    assert Mean(Points(grades)) == v as real;
  }

  lemma MeanRepeated(v: int, n: nat)
    requires n > 0
    ensures ((n * v) as real) / (n as real) == v as real
  {
    assert (n * v) as real == (n as real) * (v as real);
  }

  lemma {:induction false} PointsRepeated(g: string, n: nat)
    requires GradeValue(g).Some?
    ensures Points(seq(n, _ => g)) == seq(n, _ => GradeValue(g).value)
  {
    if n > 0 {
      PointsRepeated(g, n - 1);
      assert seq(n, _ => g)[1..] == seq(n - 1, _ => g);
      assert seq(n, _ => GradeValue(g).value) == [GradeValue(g).value] + seq(n - 1, _ => GradeValue(g).value);
    }
  }

  lemma {:induction false} SumIntsRepeated(v: int, n: nat)
    ensures SumInts(seq(n, _ => v)) == n * v
  {
    if n > 0 {
      SumIntsRepeated(v, n - 1);
      assert seq(n, _ => v)[1..] == seq(n - 1, _ => v);
    }
  }

  /** `calculate_projects_grade`: N/A for no projects, otherwise the average
      of the projects' grades, which are always recognised. */
  function ProjectsGrade(projects: seq<Domain.Project>): (r: string)
    ensures r == "N/A" <==> projects == []
    ensures projects != [] ==> r == AverageGrade(ProjectGrades(projects))
    ensures projects != [] ==>
      && |Points(ProjectGrades(projects))| == |projects|
      && GradeValue(r).Some? && Nearest(r, Mean(Points(ProjectGrades(projects))))
  {
    if projects == [] then "N/A"
    else
      var grades := ProjectGrades(projects);
      AllRecognised(grades);
      AverageGrade(grades)
  }

  /** `[p.get_grade() for p in projects]`. */
  function ProjectGrades(projects: seq<Domain.Project>): (gs: seq<string>)
    ensures |gs| == |projects|
    ensures forall k :: 0 <= k < |gs| ==> gs[k] == Domain.GetGrade(projects[k])
  {
    seq(|projects|, k requires 0 <= k < |projects| => Domain.GetGrade(projects[k]))
  }

  /** Projects that all share one grade average to that grade. */
  lemma ProjectsSameGrade(projects: seq<Domain.Project>, g: string)
    requires projects != [] && forall p :: p in projects ==> Domain.GetGrade(p) == g
    ensures ProjectsGrade(projects) == g
  {
    var grades := ProjectGrades(projects);
    assert grades == seq(|projects|, _ => g);
    assert GradeValue(g).Some? by { assert Domain.GetGrade(projects[0]) == g; }
    RepeatedGrade(g, |projects|);
  }

  lemma {:induction false} AllRecognised(grades: seq<string>)
    requires forall k :: 0 <= k < |grades| ==> grades[k] in {"A", "B", "C", "D", "F"}
    ensures CountIf(grades, Recognised) == |grades|
  {
    if grades != [] {
      AllRecognised(grades[1..]);
    }
  }
}

=== FILE: projects.dfy ===
/** `ProjectManager` without its JSON file: the registry is the dictionary
    of projects keyed by id, kept as the list of its values in insertion
    order (the order Python iterates a dict in). The id of a new project,
    which Python draws from `uuid4`, and the clock reading are parameters. */
module Projects {
  import opened Common
  import opened Domain
  import Sorting
  import GradeMetrics

  type Registry = seq<Project>

  /** No two entries share an id: the dictionary's keys. */
  predicate Valid(reg: Registry) {
    forall i, j :: 0 <= i < j < |reg| ==> reg[i].id != reg[j].id
  }

  datatype ProjectError = AlreadyExists(name: string) | NotFound(key: string) | SystemProject(name: string)

  /** `self.projects[p.id] = p`: replaces the entry with that id where it
      stands, or appends a new one. */
  function Put(reg: Registry, p: Project): (r: Registry)
    ensures (forall q :: q in reg ==> q.id != p.id) ==> r == reg + [p]
  {
    if reg == [] then [p]
    else if reg[0].id == p.id then [p] + reg[1..]
    else [reg[0]] + Put(reg[1..], p)
  }

  /** An id already present is replaced where it stands. */
  lemma {:induction false} PutReplaces(reg: Registry, p: Project, k: nat)
    requires k < |reg| && reg[k].id == p.id && Valid(reg)
    ensures Put(reg, p) == reg[k := p]
  {
    if k > 0 {
      PutReplaces(reg[1..], p, k - 1);
      assert reg[k := p] == [reg[0]] + reg[1..][k - 1 := p];
    }
  }

  /** Either way the ids stay distinct. */
  lemma PutValid(reg: Registry, p: Project)
    requires Valid(reg)
    ensures Valid(Put(reg, p))
  {
    if k :| 0 <= k < |reg| && reg[k].id == p.id {
      PutReplaces(reg, p, k);
    } else {
      assert forall q :: q in reg ==> q.id != p.id;
    }
  }

  function HasName(reg: Registry, name: string): bool {
    exists q :: q in reg && q.name == name
  }

  /** `add_project`: refuses a name already in use; an empty or missing
      branch becomes `main`. */
  function AddProject(reg: Registry, id: string, name: string, repoUrl: string, branch: Option<string>,
                      language: Option<string>, isSystem: bool): (r: Result<(Registry, Project), ProjectError>)
    ensures r.Err? <==> HasName(reg, name)
    ensures r.Err? ==> r.error == AlreadyExists(name)
    ensures r.Ok? ==> var (after, p) := r.value;
      && p.id == id && p.name == name && p.repoUrl == repoUrl && p.isSystem == isSystem && p.language == language
      && p.branch == (if branch.Some? && branch.value != "" then branch.value else "main")
      && p.scanCount == 0 && p.latestViolations == 0
      && after == Put(reg, p)
  {
    if HasName(reg, name) then Err(AlreadyExists(name))
    else
      var p := NewProject(id, name, repoUrl, if branch.Some? && branch.value != "" then branch.value else "main", language, isSystem);
      Ok((Put(reg, p), p))
  }

  /** A fresh id adds exactly one entry, at the end. */
  lemma AddProjectFresh(reg: Registry, id: string, name: string, repoUrl: string, branch: Option<string>,
                        language: Option<string>, isSystem: bool)
    requires Valid(reg) && forall q :: q in reg ==> q.id != id
    requires !HasName(reg, name)
    ensures var r := AddProject(reg, id, name, repoUrl, branch, language, isSystem);
      r.Ok? && r.value.0 == reg + [r.value.1] && Valid(r.value.0)
  {
  }

  const DefaultName := "Green-AI Agent"
  const DefaultUrl := "https://github.com/Green-AI-Agent/green-ai.git"

  /** `ensure_default_project`: the project found under the default name; in
      an empty registry, a new system project of that name on `main`;
      otherwise no project and no change. */
  function EnsureDefaultProject(reg: Registry, id: string): (r: (Registry, Option<Project>))
    ensures r.1.Some? ==> r.1.value in r.0 && (r.1.value.name == DefaultName || r.1.value.id == DefaultName)
    ensures reg != [] ==> r.0 == reg
    ensures r.1.None? <==> reg != [] && forall q :: q in reg ==> q.id != DefaultName && q.name != DefaultName
    ensures reg == [] ==>
      && r.1.Some? && r.0 == [r.1.value] && r.1.value.isSystem && r.1.value.id == id
      && r.1.value.name == DefaultName && r.1.value.repoUrl == DefaultUrl && r.1.value.branch == "main"
      && r.1.value.language == Some("python")
  {
    var found := GetProject(reg, DefaultName);
    if found.Some? then (reg, found)
    else if reg == [] then
      var added := AddProject(reg, id, DefaultName, DefaultUrl, Some("main"), Some("python"), true);
      (added.value.0, Some(added.value.1))
    else (reg, None)
  }

  /** Ensuring the default twice changes nothing the second time. */
  lemma EnsureDefaultIdempotent(reg: Registry, id: string, id2: string)
    ensures var (after, p) := EnsureDefaultProject(reg, id);
      EnsureDefaultProject(after, id2) == (after, p)
  {
  }

  /** The first project named `name`, in registry order. */
  function FindByName(reg: Registry, name: string): (r: Option<Project>)
    ensures r.Some? ==> r.value in reg && r.value.name == name
    ensures r.None? <==> !HasName(reg, name)
  {
    if reg == [] then None
    else if reg[0].name == name then Some(reg[0])
    else
      var rest := FindByName(reg[1..], name);
      assert forall q :: q in reg <==> q == reg[0] || q in reg[1..];
      rest
  }

  function FindById(reg: Registry, id: string): (r: Option<Project>)
    ensures r.Some? ==> r.value in reg && r.value.id == id
    ensures r.None? <==> forall q :: q in reg ==> q.id != id
  {
    if reg == [] then None
    else if reg[0].id == id then Some(reg[0])
    else
      var rest := FindById(reg[1..], id);
      assert forall q :: q in reg <==> q == reg[0] || q in reg[1..];
      rest
  }

  /** `get_project`: by id first, then by name. */
  function GetProject(reg: Registry, key: string): (r: Option<Project>)
    ensures r.Some? ==> r.value in reg && (r.value.id == key || r.value.name == key)
    ensures r.None? <==> forall q :: q in reg ==> q.id != key && q.name != key
    ensures (exists q :: q in reg && q.id == key) ==> r.Some? && r.value.id == key
  {
    var byId := FindById(reg, key);
    if byId.Some? then byId else FindByName(reg, key)
  }

  /** `del self.projects[id]`. */
  function Delete(reg: Registry, id: string): (r: Registry)
    ensures forall q :: q in r <==> q in reg && q.id != id
    ensures Valid(reg) ==> Valid(r)
    ensures |r| <= |reg|
  {
    if reg == [] then []
    else
      var rest := Delete(reg[1..], id);
      assert forall q :: q in reg <==> q == reg[0] || q in reg[1..];
      if reg[0].id == id then rest
      else
        assert Valid(reg) ==> forall q :: q in rest ==> q.id != reg[0].id;
        [reg[0]] + rest
  }

  lemma {:induction false} DeleteOne(reg: Registry, id: string)
    requires Valid(reg) && exists q :: q in reg && q.id == id
    ensures |Delete(reg, id)| == |reg| - 1
  {
    if reg != [] && reg[0].id != id {
      assert forall q :: q in reg <==> q == reg[0] || q in reg[1..];
      DeleteOne(reg[1..], id);
    } else if reg != [] {
      DeleteNone(reg[1..], id);
    }
  }

  lemma {:induction false} DeleteNone(reg: Registry, id: string)
    requires forall q :: q in reg ==> q.id != id
    ensures Delete(reg, id) == reg
  {
    if reg != [] {
      DeleteNone(reg[1..], id);
    }
  }

  /** `remove_project`: not found, a system project, or the registry without
      exactly that entry. */
  function RemoveProject(reg: Registry, key: string): (r: Result<Registry, ProjectError>)
    ensures r.Err? <==> GetProject(reg, key).None? || GetProject(reg, key).value.isSystem
    ensures GetProject(reg, key).None? ==> r == Err(NotFound(key))
    ensures r.Ok? ==> forall q :: q in r.value <==> q in reg && q.id != GetProject(reg, key).value.id
  {
    var p := GetProject(reg, key);
    if p.None? then Err(NotFound(key))
    else if p.value.isSystem then Err(SystemProject(p.value.name))
    else Ok(Delete(reg, p.value.id))
  }

  /** A removal takes away exactly one entry. */
  lemma RemoveProjectOne(reg: Registry, key: string)
    requires Valid(reg)
    ensures RemoveProject(reg, key).Ok? ==> |RemoveProject(reg, key).value| == |reg| - 1 && Valid(RemoveProject(reg, key).value)
  {
    var p := GetProject(reg, key);
    if p.Some? && !p.value.isSystem {
      DeleteOne(reg, p.value.id);
    }
  }

  // --------------------------------------------------------------- listing

  datatype SortField = ByName | ByViolations | ByLastScan | ByEmissions | ByGrade

  function ParseSortField(s: string): Option<SortField> {
    if s == "name" then Some(ByName)
    else if s == "violations" then Some(ByViolations)
    else if s == "last_scan" then Some(ByLastScan)
    else if s == "emissions" then Some(ByEmissions)
    else if s == "grade" then Some(ByGrade)
    else None
  }

  /** The order `sort(key=...)` uses for a field: "a may come before b". */
  function Before(f: SortField): (Project, Project) -> bool {
    match f
    case ByName => (a: Project, b: Project) => Sorting.StrLe(Lower(a.name), Lower(b.name))
    case ByViolations => (a: Project, b: Project) => a.latestViolations <= b.latestViolations
    case ByLastScan => (a: Project, b: Project) => Sorting.StrLe(LastScanKey(a), LastScanKey(b))
    case ByEmissions => (a: Project, b: Project) => a.totalEmissions <= b.totalEmissions
    case ByGrade => (a: Project, b: Project) => Sorting.StrLe(GetGrade(a), GetGrade(b))
  }

  function LastScanKey(p: Project): string {
    if p.lastScan.Some? then p.lastScan.value else ""
  }

  lemma BeforePreorder(f: SortField)
    ensures Sorting.TotalPreorder(Before(f))
  {
    Sorting.StrLePreorder();
    match f
    case ByName => Sorting.ByKeyPreorder((p: Project) => Lower(p.name), Sorting.StrLe);
    case ByViolations =>
    case ByLastScan => Sorting.ByKeyPreorder(LastScanKey, Sorting.StrLe);
    case ByEmissions =>
    case ByGrade => Sorting.ByKeyPreorder(GetGrade, Sorting.StrLe);
  }

  /** `list_projects`: a stable sort by the named field; an unknown field
      leaves insertion order. */
  function ListProjects(reg: Registry, sortBy: string): (r: seq<Project>)
    ensures multiset(r) == multiset(reg)
    ensures ParseSortField(sortBy).None? ==> r == reg
  {
    var f := ParseSortField(sortBy);
    if f.Some? then Sorting.SortBy(reg, Before(f.value)) else reg
  }

  /** The listing is ordered by the field, and projects the field ranks
      equal keep their registry order. */
  lemma ListProjectsSorted(reg: Registry, f: SortField, sortBy: string, e: Project)
    requires ParseSortField(sortBy) == Some(f)
    ensures Sorting.SortedBy(ListProjects(reg, sortBy), Before(f))
    ensures Sorting.Ties(ListProjects(reg, sortBy), e, Before(f)) == Sorting.Ties(reg, e, Before(f))
  {
    BeforePreorder(f);
    Sorting.SortBySorted(reg, Before(f));
    Sorting.SortByStable(reg, e, Before(f));
  }

  // --------------------------------------------------------------- updates

  /** `update_project_scan`: the project found by id or name gets the scan
      results in place. */
  function UpdateProjectScan(reg: Registry, key: string, input: ScanInput, emissions: real, now: string): (r: Result<Registry, ProjectError>)
    ensures r.Err? <==> GetProject(reg, key).None?
    ensures r.Err? ==> r.error == NotFound(key)
    ensures r.Ok? ==> r.value == Put(reg, UpdateScanResults(GetProject(reg, key).value, input, emissions, now))
  {
    var p := GetProject(reg, key);
    if p.None? then Err(NotFound(key))
    else Ok(Put(reg, UpdateScanResults(p.value, input, emissions, now)))
  }

  // --------------------------------------------------------------- summary

  datatype Summary = Summary(
    totalProjects: nat, totalViolations: int, totalScans: int, totalEmissions: real,
    averageViolations: real, averageEmissions: real, averageGrade: string)

  function ViolationCounts(reg: Registry): seq<int> {
    seq(|reg|, k requires 0 <= k < |reg| => reg[k].latestViolations)
  }

  function ScanCounts(reg: Registry): seq<int> {
    seq(|reg|, k requires 0 <= k < |reg| => reg[k].scanCount)
  }

  function Emissions(reg: Registry): seq<real> {
    seq(|reg|, k requires 0 <= k < |reg| => reg[k].totalEmissions)
  }

  function GradePoints(reg: Registry): (r: seq<int>)
    ensures |r| == |reg| && forall k :: 0 <= k < |r| ==> 1 <= r[k] <= 5
  {
    seq(|reg|, k requires 0 <= k < |reg| => GradeMetrics.GradeValue(GetGrade(reg[k])).value)
  }

  /** `grade_map.get(round(avg), 'C')`. */
  function GradeForValue(v: int): string {
    if v == 5 then "A" else if v == 4 then "B" else if v == 3 then "C" else if v == 2 then "D" else if v == 1 then "F" else "C"
  }

  /** `get_summary_metrics`: zeros and N/A for an empty registry; otherwise
      sums and means over the projects, and the grade of the mean grade
      value rounded half to even. */
  function GetSummaryMetrics(reg: Registry): (r: Summary)
    ensures reg == [] ==> r == Summary(0, 0, 0, 0.0, 0.0, 0.0, "N/A")
    ensures reg != [] ==>
      && r.totalProjects == |reg| && r.totalViolations == SumInts(ViolationCounts(reg))
      && r.totalScans == SumInts(ScanCounts(reg)) && r.totalEmissions == SumReals(Emissions(reg))
    ensures reg != [] ==>
      && r.averageViolations == (r.totalViolations as real) / (|reg| as real)
      && r.averageEmissions == r.totalEmissions / (|reg| as real)
    ensures reg != [] ==> GradeMetrics.GradeValue(r.averageGrade).Some?
  {
    if reg == [] then Summary(0, 0, 0, 0.0, 0.0, 0.0, "N/A")
    else
      var n := |reg| as real;
      var violations := SumInts(ViolationCounts(reg));
      var emissions := SumReals(Emissions(reg));
      var points := GradePoints(reg);
      var avg := (SumInts(points) as real) / n;
      Summary(|reg|, violations, SumInts(ScanCounts(reg)), emissions, violations as real / n, emissions / n,
              GradeForValue(RoundHalfEven(avg)))
  }

  /** The summary's grade is the one whose value is nearest the mean grade
      value, a tie going to the even value. */
  lemma SummaryGradeNearest(reg: Registry)
    requires reg != []
    ensures var avg := (SumInts(GradePoints(reg)) as real) / (|reg| as real);
      var v := GradeMetrics.GradeValue(GetSummaryMetrics(reg).averageGrade).value;
      && (v as real) - 0.5 <= avg <= (v as real) + 0.5
      && ((avg == (v as real) - 0.5 || avg == (v as real) + 0.5) ==> v % 2 == 0)
  {
    var points := GradePoints(reg);
    SumIntsBounds(points);
    var avg := (SumInts(points) as real) / (|reg| as real);
    MeanBounds(SumInts(points), |reg|);
    var n := RoundHalfEven(avg);
    assert 1 <= n <= 5;
  }

  lemma {:induction false} SumIntsBounds(s: seq<int>)
    requires forall k :: 0 <= k < |s| ==> 1 <= s[k] <= 5
    ensures |s| <= SumInts(s) <= 5 * |s|
  {
    if s != [] {
      SumIntsBounds(s[1..]);
    }
  }

  lemma MeanBounds(sum: int, n: nat)
    requires n > 0 && n <= sum <= 5 * n
    ensures 1.0 <= (sum as real) / (n as real) <= 5.0
  {
    var total, count := sum as real, n as real;
    var mean := total / count;
    assert mean * count == total;
    if mean < 1.0 {
      ScaleBelow(mean, 1.0, count);
      assert false;
    }
    if mean > 5.0 {
      ScaleBelow(5.0, mean, count);
      assert false;
    }
  }

  /** Multiplying by a positive number keeps a strict order. */
  lemma ScaleBelow(x: real, y: real, c: real)
    requires x < y && c > 0.0
    ensures x * c < y * c
  {
    assert y * c - x * c == (y - x) * c;
  }

  /** The summary rounds half to even, while `calculate_projects_grade`
      rounds a tie up: one project graded A and one graded B average to B
      here and to A there. */
  lemma SummaryAndProjectsGradeDiffer(a: Project, b: Project)
    requires a.latestViolations == 0 && b.latestViolations == 1
    ensures GetSummaryMetrics([a, b]).averageGrade == "B"
    ensures GradeMetrics.ProjectsGrade([a, b]) == "A"
  {
    assert GradePoints([a, b]) == [5, 4];
    assert SumInts([5, 4]) == 9;
    var grades := seq(2, k requires 0 <= k < 2 => GetGrade([a, b][k]));
    assert grades == ["A", "B"];
    assert GradeMetrics.Points(["A", "B"]) == [5, 4];
  }
}

=== FILE: pyast.dfy ===
/** The fragment of Python's `ast` that the detector and the complexity
    analyser look at. Each node keeps its children in the order of the node's
    `_fields`, which is the order `ast.NodeVisitor.generic_visit` and
    `ast.iter_child_nodes` follow. Node kinds no visitor treats specially are
    `Other`, which keeps only its children; operator and context nodes, which
    have no children and never match a check, are not represented. */
module PyAst {
  import opened Common

  datatype ConstVal =
    | IntC(i: int)
    | FloatC(x: real, text: string)   // value and its `repr`
    | BoolC(b: bool)
    | StrC(s: string)
    | NoneC
    | OtherC                          // bytes, complex, Ellipsis

  datatype CmpOp = In | NotIn | OtherCmp
  datatype BinOperator = Add | OtherBinOp

  /** One `name as asname` of an import statement. */
  datatype Alias = Alias(name: string, asname: Option<string>)

  datatype Node =
    | Module(body: seq<Node>)
    | FunctionDef(line: nat, name: string, isAsync: bool, args: seq<Node>, body: seq<Node>, decorators: seq<Node>)
    | ClassDef(line: nat, name: string, bases: seq<Node>, body: seq<Node>, decorators: seq<Node>)
    | For(line: nat, target: Node, iter: Node, body: seq<Node>, orelse: seq<Node>)
    | While(line: nat, test: Node, body: seq<Node>, orelse: seq<Node>)
    | If(line: nat, test: Node, body: seq<Node>, orelse: seq<Node>)
    | Try(line: nat, body: seq<Node>, handlers: seq<Node>, orelse: seq<Node>, finalbody: seq<Node>)
    | ExceptHandler(line: nat, typ: seq<Node>, body: seq<Node>)
    | With(line: nat, items: seq<Node>, body: seq<Node>)
    | Assign(line: nat, targets: seq<Node>, value: Node)
    | Import(line: nat, names: seq<Alias>)      // `import` and `from ... import`
    | Global(line: nat, idents: seq<string>)
    | Call(line: nat, func: Node, args: seq<Node>, keywords: seq<Node>)
    | Compare(line: nat, left: Node, ops: seq<CmpOp>, comparators: seq<Node>)
    | Constant(line: nat, cval: ConstVal)
    | Name(line: nat, id: string, isLoad: bool)
    | Attribute(line: nat, value: Node, attr: string)
    | BinOp(line: nat, left: Node, op: BinOperator, right: Node)
    | Other(children: seq<Node>)

  /** `ast.iter_child_nodes`. */
  function Children(n: Node): seq<Node>
  {
    match n
    case Module(body) => body
    case FunctionDef(_, _, _, args, body, decorators) => args + body + decorators
    case ClassDef(_, _, bases, body, decorators) => bases + body + decorators
    case For(_, target, iter, body, orelse) => [target, iter] + body + orelse
    case While(_, test, body, orelse) => [test] + body + orelse
    case If(_, test, body, orelse) => [test] + body + orelse
    case Try(_, body, handlers, orelse, finalbody) => body + handlers + orelse + finalbody
    case ExceptHandler(_, typ, body) => typ + body
    case With(_, items, body) => items + body
    case Assign(_, targets, value) => targets + [value]
    case Import(_, _) => []
    case Global(_, _) => []
    case Call(_, func, args, keywords) => [func] + args + keywords
    case Compare(_, left, _, comparators) => [left] + comparators
    case Constant(_, _) => []
    case Name(_, _, _) => []
    case Attribute(_, value, _) => [value]
    case BinOp(_, left, _, right) => [left, right]
    case Other(children) => children
  }

  /** Number of nodes of a tree. */
  function Size(n: Node): nat
    decreases n
  {
    1 + match n
      case Module(body) => SizeAll(body)
      case FunctionDef(_, _, _, args, body, decorators) => SizeAll(args) + SizeAll(body) + SizeAll(decorators)
      case ClassDef(_, _, bases, body, decorators) => SizeAll(bases) + SizeAll(body) + SizeAll(decorators)
      case For(_, target, iter, body, orelse) => Size(target) + Size(iter) + SizeAll(body) + SizeAll(orelse)
      case While(_, test, body, orelse) => Size(test) + SizeAll(body) + SizeAll(orelse)
      case If(_, test, body, orelse) => Size(test) + SizeAll(body) + SizeAll(orelse)
      case Try(_, body, handlers, orelse, finalbody) =>
        SizeAll(body) + SizeAll(handlers) + SizeAll(orelse) + SizeAll(finalbody)
      case ExceptHandler(_, typ, body) => SizeAll(typ) + SizeAll(body)
      case With(_, items, body) => SizeAll(items) + SizeAll(body)
      case Assign(_, targets, value) => SizeAll(targets) + Size(value)
      case Import(_, _) => 0
      case Global(_, _) => 0
      case Call(_, func, args, keywords) => Size(func) + SizeAll(args) + SizeAll(keywords)
      case Compare(_, left, _, comparators) => Size(left) + SizeAll(comparators)
      case Constant(_, _) => 0
      case Name(_, _, _) => 0
      case Attribute(_, value, _) => Size(value)
      case BinOp(_, left, _, right) => Size(left) + Size(right)
      case Other(children) => SizeAll(children)
  }

  function SizeAll(ns: seq<Node>): nat
    decreases ns
  {
    if ns == [] then 0 else Size(ns[0]) + SizeAll(ns[1..])
  }

  /** Dropping the first node of a list makes it smaller. */
  lemma SizeAllTail(ns: seq<Node>)
    requires ns != []
    ensures SizeAll(ns[1..]) < SizeAll(ns)
  {
    assert Size(ns[0]) >= 1;
  }

  lemma {:induction false} SizeAllAppend(a: seq<Node>, b: seq<Node>)
    ensures SizeAll(a + b) == SizeAll(a) + SizeAll(b)
  {
    if a == [] {
      assert a + b == b;
    } else {
      assert (a + b)[0] == a[0] && (a + b)[1..] == a[1..] + b;
      SizeAllAppend(a[1..], b);
    }
  }

  lemma SizeAllSingle(n: Node)
    ensures SizeAll([n]) == Size(n)
  {
    assert [n][1..] == [];
  }

  /** A node is one bigger than all its children together. */
  lemma SizeChildren(n: Node)
    ensures SizeAll(Children(n)) == Size(n) - 1
  {
    if n.FunctionDef? || n.ClassDef? || n.For? || n.While? || n.If? || n.Try? || n.ExceptHandler? || n.With? {
      SizeChildrenStatement(n);
    } else {
      SizeChildrenExpression(n);
    }
  }

  lemma SizeChildrenStatement(n: Node)
    requires n.FunctionDef? || n.ClassDef? || n.For? || n.While? || n.If? || n.Try? || n.ExceptHandler? || n.With?
    ensures SizeAll(Children(n)) == Size(n) - 1
  {
    match n
    case FunctionDef(_, _, _, args, body, decorators) =>
      SizeAllAppend(args, body);
      SizeAllAppend(args + body, decorators);
    case ClassDef(_, _, bases, body, decorators) =>
      SizeAllAppend(bases, body);
      SizeAllAppend(bases + body, decorators);
    case For(_, target, iter, body, orelse) =>
      SizeAllSingle(target);
      SizeAllSingle(iter);
      SizeAllAppend([target], [iter]);
      assert [target, iter] == [target] + [iter];
      SizeAllAppend([target, iter], body);
      SizeAllAppend([target, iter] + body, orelse);
    case While(_, test, body, orelse) =>
      SizeAllSingle(test);
      SizeAllAppend([test], body);
      SizeAllAppend([test] + body, orelse);
    case If(_, test, body, orelse) =>
      SizeAllSingle(test);
      SizeAllAppend([test], body);
      SizeAllAppend([test] + body, orelse);
    case Try(_, body, handlers, orelse, finalbody) =>
      SizeAllAppend(body, handlers);
      SizeAllAppend(body + handlers, orelse);
      SizeAllAppend(body + handlers + orelse, finalbody);
    case ExceptHandler(_, typ, body) =>
      SizeAllAppend(typ, body);
    case With(_, items, body) =>
      SizeAllAppend(items, body);
  }

  lemma SizeChildrenExpression(n: Node)
    requires !(n.FunctionDef? || n.ClassDef? || n.For? || n.While? || n.If? || n.Try? || n.ExceptHandler? || n.With?)
    ensures SizeAll(Children(n)) == Size(n) - 1
  {
    if n.Assign? || n.Call? || n.Compare? || n.Attribute? || n.BinOp? {
      SizeChildrenCompound(n);
    } else if n.Other? {
      assert Children(n) == n.children;
    }
  }

  lemma SizeChildrenCompound(n: Node)
    requires n.Assign? || n.Call? || n.Compare? || n.Attribute? || n.BinOp?
    ensures SizeAll(Children(n)) == Size(n) - 1
  {
    if n.Assign? {
      var value := n.value;
      assert Children(n) == n.targets + [value];
      SizeAllSingle(value);
      SizeAllAppend(n.targets, [value]);
    } else if n.Call? {
      var func := n.func;
      assert Children(n) == [func] + n.args + n.keywords;
      SizeAllSingle(func);
      SizeAllAppend([func], n.args);
      SizeAllAppend([func] + n.args, n.keywords);
    } else if n.Compare? {
      var left := n.left;
      assert Children(n) == [left] + n.comparators;
      SizeAllSingle(left);
      SizeAllAppend([left], n.comparators);
    } else if n.Attribute? {
      assert Children(n) == [n.value];
      SizeAllSingle(n.value);
    } else {
      var left, right := n.left, n.right;
      assert Children(n) == [left] + [right];
      SizeAllSingle(left);
      SizeAllSingle(right);
      SizeAllAppend([left], [right]);
    }
  }


  /** `ast.walk`: breadth first, from a queue of pending nodes. */
  function WalkQueue(queue: seq<Node>): seq<Node>
    decreases SizeAll(queue)
  {
    if queue == [] then []
    else
      var n := queue[0];
      SizeChildren(n);
      SizeAllAppend(queue[1..], Children(n));
      [n] + WalkQueue(queue[1..] + Children(n))
  }

  /** `list(ast.walk(n))`: the node itself first, then its descendants level
      by level. */
  function Walk(n: Node): seq<Node>
  {
    WalkQueue([n])
  }

  /** Depth-first preorder listing of a tree, a reference order for `Walk`. */
  function Pre(n: Node): (r: seq<Node>)
    decreases Size(n), 0
  {
    SizeChildren(n);
    [n] + PreAll(Children(n))
  }

  function PreAll(ns: seq<Node>): seq<Node>
    decreases SizeAll(ns), 1
  {
    if ns == [] then [] else Pre(ns[0]) + PreAll(ns[1..])
  }

  lemma {:induction false} PreAllAppend(a: seq<Node>, b: seq<Node>)
    ensures PreAll(a + b) == PreAll(a) + PreAll(b)
  {
    if a == [] {
      assert a + b == b;
    } else {
      assert (a + b)[0] == a[0] && (a + b)[1..] == a[1..] + b;
      PreAllAppend(a[1..], b);
    }
  }

  lemma {:induction false} WalkQueueIsPreorderPermutation(queue: seq<Node>)
    ensures multiset(WalkQueue(queue)) == multiset(PreAll(queue))
    decreases SizeAll(queue)
  {
    if queue != [] {
      var n := queue[0];
      SizeChildren(n);
      SizeAllAppend(queue[1..], Children(n));
      WalkQueueIsPreorderPermutation(queue[1..] + Children(n));
      PreAllAppend(queue[1..], Children(n));
    }
  }

  /** `ast.walk` visits exactly the nodes of the preorder listing, each as
      often: only the order differs. */
  lemma WalkIsPreorderPermutation(n: Node)
    ensures multiset(Walk(n)) == multiset(Pre(n))
  {
    WalkQueueIsPreorderPermutation([n]);
    assert [n][1..] == [];
    assert PreAll([n]) == Pre(n) + PreAll([]);
  }

  /** Counting over `ast.walk` equals counting over the preorder listing. */
  lemma WalkCount(n: Node, p: Node -> bool)
    ensures CountIf(Walk(n), p) == CountIf(Pre(n), p)
  {
    WalkIsPreorderPermutation(n);
    CountIfMultiset(Walk(n), Pre(n), p);
  }

  lemma WalkMembers(n: Node, c: Node)
    ensures c in Walk(n) <==> c in Pre(n)
  {
    WalkIsPreorderPermutation(n);
    assert c in Walk(n) <==> c in multiset(Walk(n));
    assert c in Pre(n) <==> c in multiset(Pre(n));
  }
}

=== FILE: pydetector.dfy ===
/** The AST detector for Python (`PythonViolationDetector` in
    src/core/detectors.py): one pass of an `ast.NodeVisitor` that threads a
    nesting-depth counter, an in-loop flag, the findings so far, an ordered
    map of assigned names, the set of used names and an ordered map of import
    bindings; then two passes over the maps for unused names. */
module PyDetector {
  import opened Common
  import opened PyAst
  import opened Findings

  // ---------------------------------------------------------------------
  // Ordered maps (Python dicts keep first-insertion order)

  type Bindings = seq<(string, nat)>

  predicate DistinctKeys(m: Bindings) {
    forall i, j :: 0 <= i < j < |m| ==> m[i].0 != m[j].0
  }

  function Lookup(m: Bindings, k: string): Option<nat>
  {
    if m == [] then None else if m[0].0 == k then Some(m[0].1) else Lookup(m[1..], k)
  }

  /** `m[k] = v`: an existing key keeps its position, a new one goes last. */
  function Bind(m: Bindings, k: string, v: nat): (r: Bindings)
    ensures Lookup(r, k) == Some(v)
    ensures forall k' :: k' != k ==> Lookup(r, k') == Lookup(m, k')
    ensures |r| == if Lookup(m, k).Some? then |m| else |m| + 1
    ensures DistinctKeys(m) ==> DistinctKeys(r)
    ensures forall i :: 0 <= i < |r| ==> r[i].0 == k || r[i] in m
  {
    if m == [] then [(k, v)]
    else if m[0].0 == k then [(k, v)] + m[1..]
    else
      var rest := Bind(m[1..], k, v);
      assert forall i :: 0 <= i < |rest| ==> rest[i].0 == k || rest[i] in m;
      [m[0]] + rest
  }

  lemma {:induction false} LookupMember(m: Bindings, k: string)
    ensures Lookup(m, k).Some? <==> exists i :: 0 <= i < |m| && m[i].0 == k
    ensures Lookup(m, k).Some? ==> exists i :: 0 <= i < |m| && m[i] == (k, Lookup(m, k).value)
  {
    if m != [] {
      LookupMember(m[1..], k);
      if Lookup(m[1..], k).Some? && m[0].0 != k {
        var i :| 0 <= i < |m[1..]| && m[1..][i] == (k, Lookup(m, k).value);
        assert m[i + 1] == (k, Lookup(m, k).value);
      }
      if m[0].0 != k && exists i :: 0 <= i < |m| && m[i].0 == k {
        var i :| 0 <= i < |m| && m[i].0 == k;
        assert m[1..][i - 1].0 == k;
      }
    }
  }

  // ---------------------------------------------------------------------
  // Visitor state

  datatype State = State(
    depth: int,
    inLoop: bool,
    findings: seq<Finding>,
    assignments: Bindings,
    used: set<string>,
    imports: Bindings)

  function Initial(): State {
    State(0, false, [], [], {}, [])
  }

  const IoNames: seq<string> := ["open", "read", "write", "requests", "urlopen"]
  const RedundantNames: seq<string> := ["len", "range", "re.compile", "datetime.now", "time.time"]
  const BlockingNames: seq<string> := ["requests.get", "urlopen", "time.sleep"]
  const ExemptNumbers: seq<int> := [1000, 1024, 60, 3600]


  // ---------------------------------------------------------------------
  // The records, one constructor per rule (the message texts are the
  // source's f-strings)

  function NestedForFinding(line: nat, d: int): Finding {
    Finding(NoN2Algorithms, line, if d >= 3 then Critical else Major, NestedFor, IntToString(d))
  }

  function RangeLenFinding(line: nat): Finding { Finding(InefficientLoop, line, Major, RangeLen, "") }

  function IoInLoopFinding(line: nat, name: string): Finding { Finding(IoInLoop, line, Critical, IoCallInLoop, name) }

  function RedundantFinding(line: nat, name: string): Finding {
    Finding(UnnecessaryComputation, line, Critical, RedundantCallInLoop, name)
  }

  function LookupInLoopFinding(line: nat, name: string): Finding {
    Finding(InefficientLookup, line, Medium, MembershipInLoop, name)
  }

  function InfiniteLoopFinding(line: nat): Finding { Finding(NoInfiniteLoops, line, Critical, InfiniteWhile, "") }

  function NestedWhileFinding(line: nat, d: int): Finding {
    Finding(ExcessiveNestingDepth, line, Critical, NestedWhile, IntToString(d))
  }

  function ComplexityFinding(line: nat, cc: nat): Finding {
    Finding(HighCyclomaticComplexity, line, Medium, ComplexFunction, NatToString(cc))
  }

  function RecursionFinding(line: nat, name: string): Finding { Finding(DeepRecursion, line, Major, RecursiveFunction, name) }

  function BlockingFinding(line: nat, name: string): Finding { Finding(BlockingIo, line, High, BlockingCall, name) }

  function CleanupFinding(line: nat): Finding { Finding(ProperResourceCleanup, line, High, OpenWithoutWith, "") }

  function PrintFinding(line: nat): Finding { Finding(ExcessiveLogging, line, Minor, PrintCall, "") }

  function LoggingFinding(line: nat, attr: string): Finding { Finding(ExcessiveLogging, line, Minor, LoggingCall, attr) }

  function DeepcopyFinding(line: nat): Finding { Finding(HeavyObjectCopy, line, Major, DeepcopyCall, "") }

  function SpawnFinding(line: nat): Finding { Finding(ProcessSpawning, line, Critical, ProcessSpawnCall, "") }

  function ReadlinesFinding(line: nat): Finding { Finding(InefficientFileRead, line, Major, ReadlinesCall, "") }

  function IterrowsFinding(line: nat): Finding { Finding(PandasIterrows, line, Major, IterrowsCall, "") }

  function GlobalFinding(line: nat): Finding { Finding(GlobalVariableMutation, line, Minor, GlobalStatement, "") }

  function TryFinding(line: nat): Finding { Finding(ExceptionsInLoop, line, Major, TryInLoop, "") }

  function MagicFindingOf(line: nat, text: string): Finding { Finding(MagicNumbers, line, Minor, MagicConstant, text) }

  function UnusedVariableFinding(line: nat, name: string): Finding { Finding(UnusedVariables, line, Medium, UnusedName, name) }

  function UnusedImportFinding(line: nat, name: string): Finding { Finding(UnusedImports, line, Low, UnusedImportName, name) }

  // ---------------------------------------------------------------------
  // Loop checks over `ast.walk(loop)`

  predicate IsIoCall(c: Node) {
    c.Call? && c.func.Name? && c.func.id in IoNames
  }

  function IoFinding(c: Node): (r: seq<Finding>)
    ensures |r| == if IsIoCall(c) then 1 else 0
    ensures forall f :: f in r ==> f.rule == IoInLoop && c.Call? && f.line == c.line
  {
    if IsIoCall(c) then [IoInLoopFinding(c.line, c.func.id)] else []
  }

  /** `_check_io_in_loop`: one finding per I/O call by bare name anywhere in
      the loop, header included. */
  function LoopIo(n: Node): (r: seq<Finding>)
    ensures forall f :: f in r ==> f.rule == IoInLoop
    ensures |r| == CountIf(Pre(n), IsIoCall)
  {
    FlatMapCount(Walk(n), IoFinding, IsIoCall);
    WalkCount(n, IsIoCall);
    FlatMapForall(Walk(n), IoFinding, (f: Finding) => f.rule == IoInLoop);
    FlatMap(Walk(n), IoFinding)
  }

  /** The callee as `_check_unnecessary_computation` spells it: a bare name,
      or `a.b` for an attribute of a bare name. */
  function DottedCallee(c: Node): Option<string>
    requires c.Call?
  {
    if c.func.Name? then Some(c.func.id)
    else if c.func.Attribute? && c.func.value.Name? then Some(c.func.value.id + "." + c.func.attr)
    else None
  }

  predicate IsRedundantCall(c: Node) {
    c.Call? && DottedCallee(c).Some? && DottedCallee(c).value in RedundantNames
  }

  function ComputationFinding(c: Node): (r: seq<Finding>)
    ensures |r| == if IsRedundantCall(c) then 1 else 0
    ensures forall f :: f in r ==> f.rule == UnnecessaryComputation
  {
    if IsRedundantCall(c) then [RedundantFinding(c.line, DottedCallee(c).value)] else []
  }

  /** `_check_unnecessary_computation`: one finding per call of `len`,
      `range`, `re.compile`, `datetime.now` or `time.time` in the loop. */
  function LoopComputation(n: Node): (r: seq<Finding>)
    ensures forall f :: f in r ==> f.rule == UnnecessaryComputation
    ensures |r| == CountIf(Pre(n), IsRedundantCall)
  {
    FlatMapCount(Walk(n), ComputationFinding, IsRedundantCall);
    WalkCount(n, IsRedundantCall);
    FlatMapForall(Walk(n), ComputationFinding, (f: Finding) => f.rule == UnnecessaryComputation);
    FlatMap(Walk(n), ComputationFinding)
  }

  predicate HasNameMembershipTest(c: Node) {
    c.Compare? && c.comparators != [] && c.comparators[0].Name? && (In in c.ops || NotIn in c.ops)
  }

  /** One finding per `in` / `not in` operator of a comparison whose first
      comparator is a bare name, whatever that name is bound to. */
  function LookupFinding(c: Node): (r: seq<Finding>)
    ensures forall f :: f in r ==> f.rule == InefficientLookup
    ensures r != [] <==> HasNameMembershipTest(c)
  {
    if c.Compare? && c.comparators != [] && c.comparators[0].Name? then
      LookupOps(c.line, c.comparators[0].id, c.ops)
    else []
  }

  function LookupOps(line: nat, name: string, ops: seq<CmpOp>): (r: seq<Finding>)
    ensures |r| == Occurrences(ops, In) + Occurrences(ops, NotIn)
    ensures forall f :: f in r ==> f == LookupInLoopFinding(line, name)
  {
    if ops == [] then []
    else When(ops[0] == In || ops[0] == NotIn, LookupInLoopFinding(line, name)) + LookupOps(line, name, ops[1..])
  }

  /** `_check_inefficient_lookups`: reports whenever the loop holds a
      membership test against a bare name. */
  function LoopLookups(n: Node): (r: seq<Finding>)
    ensures forall f :: f in r ==> f.rule == InefficientLookup
    ensures r != [] <==> exists c :: c in Pre(n) && HasNameMembershipTest(c)
  {
    FlatMapForall(Walk(n), LookupFinding, (f: Finding) => f.rule == InefficientLookup);
    LookupsFound(n);
    FlatMap(Walk(n), LookupFinding)
  }

  lemma LookupsFound(n: Node)
    ensures FlatMap(Walk(n), LookupFinding) != [] <==> exists c :: c in Pre(n) && HasNameMembershipTest(c)
  {
    var r := FlatMap(Walk(n), LookupFinding);
    if r != [] {
      FlatMapMember(Walk(n), LookupFinding, r[0]);
      var c :| c in Walk(n) && r[0] in LookupFinding(c);
      WalkMembers(n, c);
    }
    if exists c :: c in Pre(n) && HasNameMembershipTest(c) {
      var c :| c in Pre(n) && HasNameMembershipTest(c);
      WalkMembers(n, c);
      FlatMapMember(Walk(n), LookupFinding, LookupFinding(c)[0]);
    }
  }

  predicate IsRangeOfLen(iter: Node) {
    && iter.Call? && iter.func.Name? && iter.func.id == "range"
    && |iter.args| == 1 && iter.args[0].Call?
    && iter.args[0].func.Name? && iter.args[0].func.id == "len"
  }

  /** What `visit_For` appends before visiting its children, at depth `d`
      (the counter already raised). */
  function ForFindings(n: Node, d: int): seq<Finding>
    requires n.For?
  {
    When(d >= 2, NestedForFinding(n.line, d)) + When(IsRangeOfLen(n.iter), RangeLenFinding(n.line))
      + LoopLookups(n) + LoopWalkFindings(n)
  }

  /** The checks `for` and `while` share: I/O and redundant calls. */
  function LoopWalkFindings(n: Node): seq<Finding> {
    LoopIo(n) + LoopComputation(n)
  }

  lemma {:induction false} LoopWalkCount(n: Node, id: RuleId)
    ensures CountId(LoopWalkFindings(n), id)
      == (if id == IoInLoop then CountIf(Pre(n), IsIoCall) else 0)
       + (if id == UnnecessaryComputation then CountIf(Pre(n), IsRedundantCall) else 0)
  {
    AllSameId(LoopIo(n), IoInLoop);
    AllSameId(LoopComputation(n), UnnecessaryComputation);
    CountIdAppend(LoopIo(n), LoopComputation(n), id);
  }

  /** The count of any one rule among a `for` loop's own findings: its
      header checks, its membership tests and the checks shared with
      `while`. */
  lemma {:induction false} ForRuleCount(n: Node, d: int, id: RuleId)
    requires n.For?
    ensures CountId(ForFindings(n, d), id)
      == (if d >= 2 && id == NoN2Algorithms then 1 else 0)
       + (if IsRangeOfLen(n.iter) && id == InefficientLoop then 1 else 0)
       + (if id == InefficientLookup then |LoopLookups(n)| else 0)
       + CountId(LoopWalkFindings(n), id)
  {
    var header := When(d >= 2, NestedForFinding(n.line, d)) + When(IsRangeOfLen(n.iter), RangeLenFinding(n.line));
    CountWhen2(d >= 2, NestedForFinding(n.line, d), IsRangeOfLen(n.iter), RangeLenFinding(n.line), id);
    AllSameId(LoopLookups(n), InefficientLookup);
    CountIdAppend(header, LoopLookups(n), id);
    CountIdAppend(header + LoopLookups(n), LoopWalkFindings(n), id);
  }

  /** A `for` at depth 2 or more is reported, first and once, as nested:
      critical from depth 3, major at depth 2. */
  lemma {:induction false} ForNestingReported(n: Node, d: int)
    requires n.For?
    ensures d >= 2 ==> ForFindings(n, d)[0] == NestedForFinding(n.line, d)
    ensures NestedForFinding(n.line, d).severity == (if d >= 3 then Critical else Major)
    ensures CountId(ForFindings(n, d), NoN2Algorithms) == if d >= 2 then 1 else 0
  {
    ForRuleCount(n, d, NoN2Algorithms);
    LoopWalkCount(n, NoN2Algorithms);
  }

  /** Each loop check reports once per matching node of the loop's subtree,
      nested loops included, and a `range(len(x))` header is reported once. */
  lemma {:induction false} ForFindingsCounts(n: Node, d: int)
    requires n.For?
    ensures CountId(ForFindings(n, d), IoInLoop) == CountIf(Pre(n), IsIoCall)
    ensures CountId(ForFindings(n, d), UnnecessaryComputation) == CountIf(Pre(n), IsRedundantCall)
    ensures CountId(ForFindings(n, d), InefficientLoop) == if IsRangeOfLen(n.iter) then 1 else 0
  {
    ForRuleCount(n, d, IoInLoop);
    ForRuleCount(n, d, UnnecessaryComputation);
    ForRuleCount(n, d, InefficientLoop);
    LoopWalkCount(n, IoInLoop);
    LoopWalkCount(n, UnnecessaryComputation);
    LoopWalkCount(n, InefficientLoop);
  }

  /** A membership test against a bare name anywhere in the loop is
      reported, whatever the name is bound to. */
  lemma {:induction false} ForLookupReported(n: Node, d: int)
    requires n.For?
    ensures CountId(ForFindings(n, d), InefficientLookup) > 0 <==> exists c :: c in Pre(n) && HasNameMembershipTest(c)
  {
    ForRuleCount(n, d, InefficientLookup);
    LoopWalkCount(n, InefficientLookup);
  }

  predicate IsInfiniteTest(test: Node) {
    (test.Constant? && test.cval == BoolC(true)) || (test.Name? && test.id == "True")
  }

  /** What `visit_While` appends before visiting its children, at depth `d`
      (the counter already raised). There is no membership-test check for
      `while`. */
  function WhileFindings(n: Node, d: int): seq<Finding>
    requires n.While?
  {
    When(IsInfiniteTest(n.test), InfiniteLoopFinding(n.line)) + When(d >= 3, NestedWhileFinding(n.line, d))
      + LoopWalkFindings(n)
  }

  /** The count of any one rule among a `while` loop's own findings. */
  lemma {:induction false} WhileRuleCount(n: Node, d: int, id: RuleId)
    requires n.While?
    ensures CountId(WhileFindings(n, d), id)
      == (if IsInfiniteTest(n.test) && id == NoInfiniteLoops then 1 else 0)
       + (if d >= 3 && id == ExcessiveNestingDepth then 1 else 0)
       + CountId(LoopWalkFindings(n), id)
  {
    var header := When(IsInfiniteTest(n.test), InfiniteLoopFinding(n.line)) + When(d >= 3, NestedWhileFinding(n.line, d));
    CountWhen2(IsInfiniteTest(n.test), InfiniteLoopFinding(n.line), d >= 3, NestedWhileFinding(n.line, d), id);
    CountIdAppend(header, LoopWalkFindings(n), id);
  }

  /** A `while` with a constant-true test is reported exactly once, first,
      and one at depth 3 or more is reported as excessive nesting. */
  lemma {:induction false} WhileFindingsCounts(n: Node, d: int)
    requires n.While?
    ensures IsInfiniteTest(n.test) ==> WhileFindings(n, d)[0] == InfiniteLoopFinding(n.line)
    ensures CountId(WhileFindings(n, d), NoInfiniteLoops) == if IsInfiniteTest(n.test) then 1 else 0
    ensures CountId(WhileFindings(n, d), ExcessiveNestingDepth) == if d >= 3 then 1 else 0
  {
    WhileRuleCount(n, d, NoInfiniteLoops);
    WhileRuleCount(n, d, ExcessiveNestingDepth);
    LoopWalkCount(n, NoInfiniteLoops);
    LoopWalkCount(n, ExcessiveNestingDepth);
  }

  /** A `while` reports I/O and redundant calls as a `for` does, but has no
      membership-test check. */
  lemma {:induction false} WhileWalkCounts(n: Node, d: int)
    requires n.While?
    ensures CountId(WhileFindings(n, d), IoInLoop) == CountIf(Pre(n), IsIoCall)
    ensures CountId(WhileFindings(n, d), UnnecessaryComputation) == CountIf(Pre(n), IsRedundantCall)
    ensures CountId(WhileFindings(n, d), InefficientLookup) == 0
  {
    WhileRuleCount(n, d, IoInLoop);
    WhileRuleCount(n, d, UnnecessaryComputation);
    WhileRuleCount(n, d, InefficientLookup);
    LoopWalkCount(n, IoInLoop);
    LoopWalkCount(n, UnnecessaryComputation);
    LoopWalkCount(n, InefficientLookup);
  }

  // ---------------------------------------------------------------------
  // Per-function checks

  predicate IsBranchNode(c: Node) {
    c.If? || c.For? || c.While? || c.ExceptHandler? || c.With?
  }

  /** `_calculate_cyclomatic_complexity`: 1 plus the branch nodes met by
      `ast.walk`, the function node included. */
  function CyclomaticComplexity(n: Node): (cc: nat)
    ensures cc == 1 + CountIf(Pre(n), IsBranchNode)
  {
    WalkCount(n, IsBranchNode);
    1 + CountIf(Walk(n), IsBranchNode)
  }

  predicate IsCallTo(c: Node, name: string) {
    c.Call? && c.func.Name? && c.func.id == name
  }

  /** `_is_recursive`: some call met by `ast.walk` has the function's own
      name as a bare-name callee. */
  predicate IsRecursive(n: Node)
    requires n.FunctionDef?
  {
    exists c :: c in Walk(n) && IsCallTo(c, n.name)
  }

  lemma IsRecursiveMeansSelfCall(n: Node)
    requires n.FunctionDef?
    ensures IsRecursive(n) <==> exists c :: c in Pre(n) && IsCallTo(c, n.name)
  {
    if IsRecursive(n) {
      var c :| c in Walk(n) && IsCallTo(c, n.name);
      WalkMembers(n, c);
    }
    if exists c :: c in Pre(n) && IsCallTo(c, n.name) {
      var c :| c in Pre(n) && IsCallTo(c, n.name);
      WalkMembers(n, c);
    }
  }

  /** What `visit_FunctionDef` appends before visiting its body. */
  function FunctionFindings(n: Node): seq<Finding>
    requires n.FunctionDef?
  {
    When(CyclomaticComplexity(n) > 10, ComplexityFinding(n.line, CyclomaticComplexity(n)))
    + When(IsRecursive(n), RecursionFinding(n.line, n.name))
  }

  lemma {:induction false} FunctionRuleCount(n: Node, id: RuleId)
    requires n.FunctionDef?
    ensures CountId(FunctionFindings(n), id)
      == (if 1 + CountIf(Pre(n), IsBranchNode) > 10 && id == HighCyclomaticComplexity then 1 else 0)
       + (if (exists c :: c in Pre(n) && IsCallTo(c, n.name)) && id == DeepRecursion then 1 else 0)
  {
    IsRecursiveMeansSelfCall(n);
    CountWhen2(CyclomaticComplexity(n) > 10, ComplexityFinding(n.line, CyclomaticComplexity(n)),
      IsRecursive(n), RecursionFinding(n.line, n.name), id);
  }

  /** High complexity is reported iff 1 plus the branch nodes of the
      function's subtree exceeds 10, and recursion iff the function calls its
      own name somewhere inside; each at most once. */
  lemma {:induction false} FunctionFindingsCounts(n: Node)
    requires n.FunctionDef?
    ensures CountId(FunctionFindings(n), HighCyclomaticComplexity) == if 1 + CountIf(Pre(n), IsBranchNode) > 10 then 1 else 0
    ensures CountId(FunctionFindings(n), DeepRecursion) == if exists c :: c in Pre(n) && IsCallTo(c, n.name) then 1 else 0
  {
    FunctionRuleCount(n, HighCyclomaticComplexity);
    FunctionRuleCount(n, DeepRecursion);
  }

  // ---------------------------------------------------------------------
  // Node-local checks: they depend only on the node itself

  /** `ast.dump(func)` mentions `subprocess` or `os.system`, or `popen` in
      any case. The dump spells out identifiers, attribute names and string
      constants; none of its structural words can produce these. */
  predicate DumpMentionsProcess(func: Node) {
    exists c, t :: c in Pre(func) && t in NodeTexts(c) &&
      (Contains(t, "subprocess") || Contains(t, "os.system") || Contains(Lower(t), "popen"))
  }

  function NodeTexts(c: Node): seq<string> {
    match c
    case Name(_, id, _) => [id]
    case Attribute(_, _, attr) => [attr]
    case Constant(_, StrC(s)) => [s]
    case FunctionDef(_, name, _, _, _, _) => [name]
    case Global(_, idents) => idents
    case Import(_, names) => AliasTexts(names)
    case _ => []
  }

  function AliasTexts(names: seq<Alias>): seq<string> {
    if names == [] then []
    else [names[0].name] + (if names[0].asname.Some? then [names[0].asname.value] else []) + AliasTexts(names[1..])
  }

  /** `_is_in_context_manager` never looks at the parents of a call. */
  predicate InContextManager(c: Node) {
    false
  }

  /** The callee is one of the blocking names, or ends in `.` followed by
      one of them. */
  predicate IsBlockingName(id: string) {
    BlockingAmong(id, BlockingNames)
  }

  predicate BlockingAmong(id: string, names: seq<string>) {
    names != [] && (id == names[0] || EndsWith(id, "." + names[0]) || BlockingAmong(id, names[1..]))
  }

  predicate IsProcessSpawn(c: Node)
    requires c.Call?
  {
    && DumpMentionsProcess(c.func)
    && (if c.func.Attribute? then c.func.attr in ["run", "Popen", "system", "spawn"]
        else c.func.Name? && c.func.id in ["system", "popen", "spawn"])
  }

  predicate IsOpenCall(c: Node) {
    c.Call? && c.func.Name? && c.func.id == "open"
  }

  predicate IsDeepcopyCall(c: Node) {
    c.Call? && ((c.func.Attribute? && c.func.attr == "deepcopy") || (c.func.Name? && c.func.id == "deepcopy"))
  }

  predicate IsLoggerCall(func: Node) {
    func.Attribute? && func.attr in ["debug", "info", "log"] && func.value.Name? && func.value.id in ["logger", "logging"]
  }

  predicate IsBlockingCall(c: Node) { c.Call? && c.func.Name? && IsBlockingName(c.func.id) }
  predicate IsPrintCall(c: Node) { c.Call? && c.func.Name? && c.func.id == "print" }
  predicate IsSpawnCall(c: Node) { c.Call? && IsProcessSpawn(c) }
  predicate IsAttributeCall(c: Node, attr: string) { c.Call? && c.func.Attribute? && c.func.attr == attr }

  /** The name a finding about a call's callee quotes. */
  function CalleeName(c: Node): string {
    if c.Call? && c.func.Name? then c.func.id else if c.Call? && c.func.Attribute? then c.func.attr else ""
  }

  /** What `visit_Call` appends before visiting its children: the rules in
      the order it tries them, each at most once. */
  function CallFindings(c: Node): seq<Finding>
    requires c.Call?
  {
    IoCallFindings(c) + LogCallFindings(c) + CopyCallFindings(c) + ReadCallFindings(c)
  }

  /** Blocking calls and `open` outside a `with`. */
  function IoCallFindings(c: Node): seq<Finding>
    requires c.Call?
  {
    When(IsBlockingCall(c), BlockingFinding(c.line, CalleeName(c)))
    + When(IsOpenCall(c) && !InContextManager(c), CleanupFinding(c.line))
  }

  /** `print` and logger calls. */
  function LogCallFindings(c: Node): seq<Finding>
    requires c.Call?
  {
    When(IsPrintCall(c), PrintFinding(c.line)) + When(IsLoggerCall(c.func), LoggingFinding(c.line, CalleeName(c)))
  }

  /** `deepcopy` and process spawning. */
  function CopyCallFindings(c: Node): seq<Finding>
    requires c.Call?
  {
    When(IsDeepcopyCall(c), DeepcopyFinding(c.line)) + When(IsSpawnCall(c), SpawnFinding(c.line))
  }

  /** `readlines` and `iterrows`. */
  function ReadCallFindings(c: Node): seq<Finding>
    requires c.Call?
  {
    When(IsAttributeCall(c, "readlines"), ReadlinesFinding(c.line))
    + When(IsAttributeCall(c, "iterrows"), IterrowsFinding(c.line))
  }

  /** Which rules one call triggers, each at most once: a bare-name callee
      among the blocking names, a bare-name `open` always (no `with` is ever
      recognised), `print` and logger calls, a `deepcopy` by name or
      attribute, a process spawn, and `readlines` / `iterrows` attributes. */
  lemma {:induction false} CallRuleCount(c: Node, id: RuleId)
    requires c.Call?
    ensures CountId(CallFindings(c), id)
      == (if IsBlockingCall(c) && id == BlockingIo then 1 else 0)
       + (if IsOpenCall(c) && id == ProperResourceCleanup then 1 else 0)
       + (if IsPrintCall(c) && id == ExcessiveLogging then 1 else 0)
       + (if IsLoggerCall(c.func) && id == ExcessiveLogging then 1 else 0)
       + (if IsDeepcopyCall(c) && id == HeavyObjectCopy then 1 else 0)
       + (if IsSpawnCall(c) && id == ProcessSpawning then 1 else 0)
       + (if IsAttributeCall(c, "readlines") && id == InefficientFileRead then 1 else 0)
       + (if IsAttributeCall(c, "iterrows") && id == PandasIterrows then 1 else 0)
  {
    IoCallCount(c, id);
    LogCallCount(c, id);
    CopyCallCount(c, id);
    ReadCallCount(c, id);
    CountId4(IoCallFindings(c), LogCallFindings(c), CopyCallFindings(c), ReadCallFindings(c), id);
  }

  lemma {:induction false} IoCallCount(c: Node, id: RuleId)
    requires c.Call?
    ensures CountId(IoCallFindings(c), id)
      == (if IsBlockingCall(c) && id == BlockingIo then 1 else 0)
       + (if IsOpenCall(c) && id == ProperResourceCleanup then 1 else 0)
  {
    CountWhen2(IsBlockingCall(c), BlockingFinding(c.line, CalleeName(c)),
      IsOpenCall(c) && !InContextManager(c), CleanupFinding(c.line), id);
  }

  lemma {:induction false} LogCallCount(c: Node, id: RuleId)
    requires c.Call?
    ensures CountId(LogCallFindings(c), id)
      == (if IsPrintCall(c) && id == ExcessiveLogging then 1 else 0)
       + (if IsLoggerCall(c.func) && id == ExcessiveLogging then 1 else 0)
  {
    CountWhen2(IsPrintCall(c), PrintFinding(c.line), IsLoggerCall(c.func), LoggingFinding(c.line, CalleeName(c)), id);
  }

  lemma {:induction false} CopyCallCount(c: Node, id: RuleId)
    requires c.Call?
    ensures CountId(CopyCallFindings(c), id)
      == (if IsDeepcopyCall(c) && id == HeavyObjectCopy then 1 else 0)
       + (if IsSpawnCall(c) && id == ProcessSpawning then 1 else 0)
  {
    CountWhen2(IsDeepcopyCall(c), DeepcopyFinding(c.line), IsSpawnCall(c), SpawnFinding(c.line), id);
  }

  lemma {:induction false} ReadCallCount(c: Node, id: RuleId)
    requires c.Call?
    ensures CountId(ReadCallFindings(c), id)
      == (if IsAttributeCall(c, "readlines") && id == InefficientFileRead then 1 else 0)
       + (if IsAttributeCall(c, "iterrows") && id == PandasIterrows then 1 else 0)
  {
    CountWhen2(IsAttributeCall(c, "readlines"), ReadlinesFinding(c.line),
      IsAttributeCall(c, "iterrows"), IterrowsFinding(c.line), id);
  }

  /** A non-boolean int or float above 100 that is not one of the exempt
      values 1000, 1024, 60 and 3600. */
  predicate IsMagicNumber(v: ConstVal) {
    || (v.IntC? && v.i > 100 && v.i !in ExemptNumbers)
    || (v.FloatC? && v.x > 100.0 && v.x != 1000.0 && v.x != 1024.0 && v.x != 60.0 && v.x != 3600.0)
  }

  /** `visit_Constant`. */
  function MagicFinding(line: nat, v: ConstVal): (r: seq<Finding>)
    ensures |r| <= 1
    ensures r != [] <==> IsMagicNumber(v)
    ensures forall f :: f in r ==> f.rule == MagicNumbers && f.line == line
  {
    match v
    case IntC(i) => When(i > 100 && i !in ExemptNumbers, MagicFindingOf(line, IntToString(i)))
    case FloatC(x, text) =>
      When(x > 100.0 && x != 1000.0 && x != 1024.0 && x != 60.0 && x != 3600.0, MagicFindingOf(line, text))
    case _ => []
  }

  // ---------------------------------------------------------------------
  // The visitor

  function ImportName(a: Alias): string {
    if a.asname.Some? && a.asname.value != "" then a.asname.value else a.name
  }

  function BindImports(m: Bindings, names: seq<Alias>, line: nat): (r: Bindings)
    ensures DistinctKeys(m) ==> DistinctKeys(r)
    decreases names
  {
    if names == [] then m else BindImports(Bind(m, ImportName(names[0]), line), names[1..], line)
  }

  function BindTargets(m: Bindings, targets: seq<Node>, line: nat): (r: Bindings)
    ensures DistinctKeys(m) ==> DistinctKeys(r)
    decreases targets
  {
    if targets == [] then m
    else if targets[0].Name? then BindTargets(Bind(m, targets[0].id, line), targets[1..], line)
    else BindTargets(m, targets[1..], line)
  }

  /** The assignment map after `visit_Assign` (other nodes leave it). */
  function Assigned(n: Node, m: Bindings): (r: Bindings)
    ensures DistinctKeys(m) ==> DistinctKeys(r)
  {
    if n.Assign? then BindTargets(m, n.targets, n.line) else m
  }

  /** The import map after `visit_Import`/`visit_ImportFrom`. */
  function Imported(n: Node, m: Bindings): (r: Bindings)
    ensures DistinctKeys(m) ==> DistinctKeys(r)
  {
    if n.Import? then BindImports(m, n.names, n.line) else m
  }

  /** The findings a node reports whatever the visitor's state: the call
      checks, `global` statements and magic numbers. */
  function LocalFindings(c: Node): seq<Finding> {
    match c
    case Call(_, _, _, _) => CallFindings(c)
    case Global(line, _) => [GlobalFinding(line)]
    case Constant(line, v) => MagicFinding(line, v)
    case _ => []
  }

  /** The findings a node appends that depend on where it sits: loop
      checks at the raised depth, `try` inside a loop, and the per-function
      checks. */
  function ContextFindings(n: Node, st: State): seq<Finding> {
    match n
    case For(_, _, _, _, _) => ForFindings(n, st.depth + 1)
    case While(_, _, _, _) => WhileFindings(n, st.depth + 1)
    case Try(line, _, _, _, _) => When(st.inLoop, TryFinding(line))
    case FunctionDef(_, _, isAsync, _, _, _) =>
      // An `async def` has no visitor of its own and is only walked into.
      if isAsync then [] else FunctionFindings(n)
    case _ => []
  }

  /** The findings a node appends itself, given the state it is met in; a
      node kind has either context findings or local ones. */
  function OwnFindings(n: Node, st: State): seq<Finding> {
    ContextFindings(n, st) + LocalFindings(n)
  }

  /** Everything a `visit_*` method does before `generic_visit`. */
  function Enter(n: Node, st: State): (r: State)
    ensures r.findings == st.findings + OwnFindings(n, st)
    ensures r.depth == if n.For? || n.While? || n.If? then st.depth + 1 else st.depth
    ensures r.inLoop == (n.For? || n.While? || st.inLoop)
    ensures r.used == st.used + OwnUsed(n)
    ensures r.assignments == Assigned(n, st.assignments) && r.imports == Imported(n, st.imports)
    ensures DistinctKeys(st.assignments) ==> DistinctKeys(r.assignments)
    ensures DistinctKeys(st.imports) ==> DistinctKeys(r.imports)
  {
    Track(n, st.(findings := st.findings + OwnFindings(n, st)))
  }

  /** The bookkeeping part of `Enter`: depth, loop flag, bindings and used
      names. */
  function Track(n: Node, st: State): (r: State)
    ensures r.findings == st.findings
    ensures r.depth == if n.For? || n.While? || n.If? then st.depth + 1 else st.depth
    ensures r.inLoop == (n.For? || n.While? || st.inLoop)
    ensures r.used == st.used + OwnUsed(n)
    ensures r.assignments == Assigned(n, st.assignments) && r.imports == Imported(n, st.imports)
    ensures DistinctKeys(st.assignments) ==> DistinctKeys(r.assignments)
    ensures DistinctKeys(st.imports) ==> DistinctKeys(r.imports)
  {
    match n
    case For(_, _, _, _, _) => st.(depth := st.depth + 1, inLoop := true)
    case While(_, _, _, _) => st.(depth := st.depth + 1, inLoop := true)
    case If(_, _, _, _) => st.(depth := st.depth + 1)
    case Call(_, func, _, _) => st.(used := st.used + (if func.Name? then {func.id} else {}))
    case Import(_, _) => st.(imports := Imported(n, st.imports))
    case Assign(_, _, _) => st.(assignments := Assigned(n, st.assignments))
    case Name(_, id, isLoad) => if isLoad then st.(used := st.used + {id}) else st
    case _ => st
  }

  /** Everything a `visit_*` method does after `generic_visit`: loops put
      back the in-loop flag, and loops and `if` lower the depth again. */
  function Leave(n: Node, before: State, after: State): (r: State)
    ensures r.findings == after.findings && r.used == after.used
    ensures r.assignments == after.assignments && r.imports == after.imports
    ensures r.depth == if n.For? || n.While? || n.If? then after.depth - 1 else after.depth
    ensures r.inLoop == if n.For? || n.While? then before.inLoop else after.inLoop
  {
    match n
    case For(_, _, _, _, _) => after.(inLoop := before.inLoop, depth := after.depth - 1)
    case While(_, _, _, _) => after.(inLoop := before.inLoop, depth := after.depth - 1)
    case If(_, _, _, _) => after.(depth := after.depth - 1)
    case _ => after
  }

  /** `visitor.visit(n)`: the depth counter and the in-loop flag come back
      as they were, and findings and used names only grow. */
  function Visit(n: Node, st: State): (r: State)
    ensures r.depth == st.depth && r.inLoop == st.inLoop
    ensures st.findings <= r.findings
    ensures st.used <= r.used
    ensures DistinctKeys(st.assignments) ==> DistinctKeys(r.assignments)
    ensures DistinctKeys(st.imports) ==> DistinctKeys(r.imports)
    decreases Size(n), 0
  {
    SizeChildren(n);
    Leave(n, st, VisitAll(Children(n), Enter(n, st)))
  }

  /** `generic_visit`: the children, in field order. */
  function VisitAll(ns: seq<Node>, st: State): (r: State)
    ensures r.depth == st.depth && r.inLoop == st.inLoop
    ensures st.findings <= r.findings
    ensures st.used <= r.used
    ensures DistinctKeys(st.assignments) ==> DistinctKeys(r.assignments)
    ensures DistinctKeys(st.imports) ==> DistinctKeys(r.imports)
    decreases SizeAll(ns), 1
  {
    if ns == [] then st else VisitAll(ns[1..], Visit(ns[0], st))
  }

  /** A visit's findings are those its children's visits leave. */
  lemma VisitFindings(n: Node, st: State)
    ensures Visit(n, st).findings == VisitAll(Children(n), Enter(n, st)).findings
  {
  }

  /** A `for` met at depth `d` ≥ 1 leaves a nesting finding for depth
      `d + 1` among the findings of its visit. */
  lemma {:induction false} ForVisitReported(loop: Node, s: State)
    requires loop.For? && s.depth >= 1
    ensures NestedForFinding(loop.line, s.depth + 1) in Visit(loop, s).findings
  {
    var e := Enter(loop, s);
    ForOwnReported(loop, s);
    VisitFindings(loop, s);
    PrefixMember(e.findings, VisitAll(Children(loop), e).findings, NestedForFinding(loop.line, s.depth + 1));
  }

  lemma {:induction false} ForOwnReported(loop: Node, s: State)
    requires loop.For? && s.depth >= 1
    ensures NestedForFinding(loop.line, s.depth + 1) in s.findings + OwnFindings(loop, s)
  {
    var f := NestedForFinding(loop.line, s.depth + 1);
    var cf := ContextFindings(loop, s);
    assert cf == ForFindings(loop, s.depth + 1);
    ForNestingReported(loop, s.depth + 1);
    assert cf[0] == f;
    FirstMember(s.findings, cf, LocalFindings(loop), f);
  }

  /** `if` raises the same counter as the loops, so the first statement of
      an `if` body that is a `for` is reported as nested one level deeper
      than the `if` itself: a lone `for` under a top-level `if` is reported
      at depth 2, as major. */
  lemma {:induction false} ForInsideIfReported(n: Node, st: State)
    requires n.If? && n.body != [] && n.body[0].For? && st.depth >= 0
    ensures NestedForFinding(n.body[0].line, st.depth + 2) in Visit(n, st).findings
    ensures st.depth == 0 ==> NestedForFinding(n.body[0].line, st.depth + 2).severity == Major
  {
    var e := Enter(n, st);
    var s1 := Visit(n.test, e);
    assert s1.depth == st.depth + 1;
    var f := NestedForFinding(n.body[0].line, s1.depth + 1);
    ForVisitReported(n.body[0], s1);
    assert f in Visit(n.body[0], s1).findings;
    IfFirstStatement(n, e);
    VisitFindings(n, st);
    PrefixMember(Visit(n.body[0], s1).findings, VisitAll(Children(n), e).findings, f);
    assert f == NestedForFinding(n.body[0].line, st.depth + 2);
  }

  /** The children of an `if` are visited test first, then the first
      statement of the body. */
  lemma IfFirstStatement(n: Node, e: State)
    requires n.If? && n.body != []
    ensures Visit(n.body[0], Visit(n.test, e)).findings <= VisitAll(Children(n), e).findings
  {
    var kids := Children(n);
    assert kids[1] == n.body[0] && kids[1..][1..] == kids[2..];
    assert VisitAll(kids, e) == VisitAll(kids[2..], Visit(n.body[0], Visit(n.test, e)));
  }

  // ---------------------------------------------------------------------
  // Unused names and the whole detector

  predicate ReportableVariable(b: (string, nat), used: set<string>) {
    b.0 !in used && !StartsWith(b.0, "_")
  }

  predicate ReportableImport(b: (string, nat), used: set<string>) {
    b.0 !in used
  }

  /** `_detect_unused_variables`: one finding, at the recorded line, per
      assigned name that is never read and does not start with `_`. */
  function UnusedVariableFindings(assignments: Bindings, used: set<string>): (r: seq<Finding>)
    ensures |r| == CountIf(assignments, b => ReportableVariable(b, used))
    ensures forall i :: 0 <= i < |assignments| && ReportableVariable(assignments[i], used) ==>
      UnusedVariableFinding(assignments[i].1, assignments[i].0) in r
    ensures forall f :: f in r ==>
      exists i :: 0 <= i < |assignments| && ReportableVariable(assignments[i], used)
        && f == UnusedVariableFinding(assignments[i].1, assignments[i].0)
  {
    if assignments == [] then []
    else
      var rest := UnusedVariableFindings(assignments[1..], used);
      assert forall i :: 1 <= i < |assignments| ==> assignments[i] == assignments[1..][i - 1];
      When(ReportableVariable(assignments[0], used), UnusedVariableFinding(assignments[0].1, assignments[0].0)) + rest
  }

  /** `_detect_unused_imports`: one finding per import binding never read. */
  function UnusedImportFindings(imports: Bindings, used: set<string>): (r: seq<Finding>)
    ensures |r| == CountIf(imports, b => ReportableImport(b, used))
    ensures forall i :: 0 <= i < |imports| && ReportableImport(imports[i], used) ==>
      UnusedImportFinding(imports[i].1, imports[i].0) in r
    ensures forall f :: f in r ==>
      exists i :: 0 <= i < |imports| && ReportableImport(imports[i], used)
        && f == UnusedImportFinding(imports[i].1, imports[i].0)
  {
    if imports == [] then []
    else
      var rest := UnusedImportFindings(imports[1..], used);
      assert forall i :: 1 <= i < |imports| ==> imports[i] == imports[1..][i - 1];
      When(ReportableImport(imports[0], used), UnusedImportFinding(imports[0].1, imports[0].0)) + rest
  }

  /** `detect_all`: `None` stands for source that `ast.parse` rejects, which
      yields no findings at all. */
  function DetectAll(tree: Option<Node>): (r: seq<Finding>)
    ensures tree.None? ==> r == []
    ensures tree.Some? ==> Visit(tree.value, Initial()).findings <= r
  {
    match tree
    case None => []
    case Some(t) =>
      var st := Visit(t, Initial());
      st.findings + UnusedVariableFindings(st.assignments, st.used) + UnusedImportFindings(st.imports, st.used)
  }

  // ---------------------------------------------------------------------
  // What the whole pass reports, against reference definitions over the
  // preorder listing of the tree

  /** The names a node marks as used: a loaded bare name, and the bare-name
      callee of a call. */
  function OwnUsed(c: Node): set<string> {
    (if c.Name? && c.isLoad then {c.id} else {}) + (if c.Call? && c.func.Name? then {c.func.id} else {})
  }

  function UsedIn(ns: seq<Node>): set<string> {
    if ns == [] then {} else OwnUsed(ns[0]) + UsedIn(ns[1..])
  }

  lemma {:induction false} UsedInAppend(a: seq<Node>, b: seq<Node>)
    ensures UsedIn(a + b) == UsedIn(a) + UsedIn(b)
  {
    if a == [] {
      assert a + b == b;
    } else {
      assert (a + b)[0] == a[0] && (a + b)[1..] == a[1..] + b;
      UsedInAppend(a[1..], b);
    }
  }

  lemma {:induction false} UsedInMember(ns: seq<Node>, x: string)
    ensures x in UsedIn(ns) <==> exists c :: c in ns && x in OwnUsed(c)
  {
    if ns != [] {
      UsedInMember(ns[1..], x);
      if x in UsedIn(ns[1..]) {
        var c :| c in ns[1..] && x in OwnUsed(c);
        assert c in ns;
      }
      if exists c :: c in ns && x in OwnUsed(c) {
        var c :| c in ns && x in OwnUsed(c);
        if c != ns[0] {
          var i :| 0 <= i < |ns| && ns[i] == c;
          assert ns[1..][i - 1] == c;
        }
      }
    }
  }

  /** The used-name set after the pass: exactly the names loaded or called
      by bare name anywhere in the tree, whatever scope they are in. */
  lemma {:induction false} VisitUsed(n: Node, st: State)
    ensures Visit(n, st).used == st.used + UsedIn(Pre(n))
    decreases Size(n), 0
  {
    SizeChildren(n);
    VisitAllUsed(Children(n), Enter(n, st));
    UsedInAppend([n], PreAll(Children(n)));
    assert [n][1..] == [];
  }

  lemma {:induction false} VisitAllUsed(ns: seq<Node>, st: State)
    ensures VisitAll(ns, st).used == st.used + UsedIn(PreAll(ns))
    decreases SizeAll(ns), 1
  {
    if ns != [] {
      VisitUsed(ns[0], st);
      VisitAllUsed(ns[1..], Visit(ns[0], st));
      UsedInAppend(Pre(ns[0]), PreAll(ns[1..]));
    }
  }

  /** The bindings a node makes by itself, in order: each bare-name target
      of an assignment, and each alias of an import under `asname or name`,
      all at the statement's line. */
  function OwnAssigned(c: Node): Bindings {
    if c.Assign? then TargetBindings(c.targets, c.line) else []
  }

  function OwnImported(c: Node): Bindings {
    if c.Import? then AliasBindings(c.names, c.line) else []
  }

  function TargetBindings(targets: seq<Node>, line: nat): Bindings {
    if targets == [] then []
    else (if targets[0].Name? then [(targets[0].id, line)] else []) + TargetBindings(targets[1..], line)
  }

  function AliasBindings(names: seq<Alias>, line: nat): Bindings {
    if names == [] then [] else [(ImportName(names[0]), line)] + AliasBindings(names[1..], line)
  }

  /** Every binding made by the nodes of a listing, in listing order. */
  function AssignedIn(ns: seq<Node>): Bindings {
    if ns == [] then [] else OwnAssigned(ns[0]) + AssignedIn(ns[1..])
  }

  function ImportedIn(ns: seq<Node>): Bindings {
    if ns == [] then [] else OwnImported(ns[0]) + ImportedIn(ns[1..])
  }

  /** The line of the last binding of `x` in a sequence of bindings. */
  function LastLine(bs: Bindings, x: string): Option<nat> {
    if bs == [] then None
    else if bs[|bs| - 1].0 == x then Some(bs[|bs| - 1].1)
    else LastLine(bs[..|bs| - 1], x)
  }

  /** `LastLine` is none iff nothing binds `x`, and otherwise the line of a
      binding of `x` with none after it. */
  lemma {:induction false} LastLineIsLast(bs: Bindings, x: string)
    ensures LastLine(bs, x).None? <==> forall i :: 0 <= i < |bs| ==> bs[i].0 != x
    ensures LastLine(bs, x).Some? ==>
      exists i :: 0 <= i < |bs| && bs[i] == (x, LastLine(bs, x).value) && (forall j :: i < j < |bs| ==> bs[j].0 != x)
    decreases |bs|
  {
    if bs != [] && bs[|bs| - 1].0 != x {
      var front := bs[..|bs| - 1];
      LastLineIsLast(front, x);
      assert forall i :: 0 <= i < |front| ==> front[i] == bs[i];
    }
  }

  /** A later binding overrides an earlier one. */
  function Latest(earlier: Option<nat>, later: Option<nat>): Option<nat> {
    if later.Some? then later else earlier
  }

  lemma {:induction false} LastLineAppend(a: Bindings, b: Bindings, x: string)
    ensures LastLine(a + b, x) == Latest(LastLine(a, x), LastLine(b, x))
    decreases |b|
  {
    if b == [] {
      assert a + b == a;
    } else {
      assert (a + b)[..|a + b| - 1] == a + b[..|b| - 1];
      LastLineAppend(a, b[..|b| - 1], x);
    }
  }

  lemma {:induction false} BindLookup(m: Bindings, k: string, v: nat, x: string)
    ensures Lookup(Bind(m, k, v), x) == Latest(Lookup(m, x), LastLine([(k, v)], x))
  {
  }

  lemma {:induction false} BindTargetsLookup(m: Bindings, targets: seq<Node>, line: nat, x: string)
    ensures Lookup(BindTargets(m, targets, line), x) == Latest(Lookup(m, x), LastLine(TargetBindings(targets, line), x))
    decreases targets
  {
    if targets != [] {
      var head := if targets[0].Name? then [(targets[0].id, line)] else [];
      var m' := if targets[0].Name? then Bind(m, targets[0].id, line) else m;
      BindTargetsLookup(m', targets[1..], line, x);
      LastLineAppend(head, TargetBindings(targets[1..], line), x);
      if targets[0].Name? {
        BindLookup(m, targets[0].id, line, x);
      }
    }
  }

  lemma {:induction false} BindImportsLookup(m: Bindings, names: seq<Alias>, line: nat, x: string)
    ensures Lookup(BindImports(m, names, line), x) == Latest(Lookup(m, x), LastLine(AliasBindings(names, line), x))
    decreases names
  {
    if names != [] {
      var k := ImportName(names[0]);
      BindImportsLookup(Bind(m, k, line), names[1..], line, x);
      LastLineAppend([(k, line)], AliasBindings(names[1..], line), x);
      BindLookup(m, k, line, x);
    }
  }

  lemma ConcatAssoc(a: Bindings, b: Bindings, c: Bindings)
    ensures a + (b + c) == (a + b) + c
  {
  }

  lemma {:induction false} AssignedInAppend(a: seq<Node>, b: seq<Node>)
    ensures AssignedIn(a + b) == AssignedIn(a) + AssignedIn(b)
  {
    if a == [] {
      assert a + b == b;
    } else {
      assert (a + b)[0] == a[0] && (a + b)[1..] == a[1..] + b;
      AssignedInAppend(a[1..], b);
      var h, ta, tb := OwnAssigned(a[0]), AssignedIn(a[1..]), AssignedIn(b);
      assert AssignedIn(a + b) == h + (ta + tb);
      assert AssignedIn(a) == h + ta;
      ConcatAssoc(h, ta, tb);
    }
  }

  lemma {:induction false} ImportedInAppend(a: seq<Node>, b: seq<Node>)
    ensures ImportedIn(a + b) == ImportedIn(a) + ImportedIn(b)
  {
    if a == [] {
      assert a + b == b;
    } else {
      assert (a + b)[0] == a[0] && (a + b)[1..] == a[1..] + b;
      ImportedInAppend(a[1..], b);
      var h, ta, tb := OwnImported(a[0]), ImportedIn(a[1..]), ImportedIn(b);
      assert ImportedIn(a + b) == h + (ta + tb);
      assert ImportedIn(a) == h + ta;
      ConcatAssoc(h, ta, tb);
    }
  }

  /** The assignment map after visiting a subtree: each name maps to the
      line of its last assignment in preorder, or keeps its old line when
      the subtree does not assign it. */
  lemma {:induction false} VisitAssignments(n: Node, st: State, x: string)
    ensures Lookup(Visit(n, st).assignments, x) == Latest(Lookup(st.assignments, x), LastLine(AssignedIn(Pre(n)), x))
    decreases Size(n), 0
  {
    SizeChildren(n);
    var e := Enter(n, st);
    VisitAllAssignments(Children(n), e, x);
    if n.Assign? {
      BindTargetsLookup(st.assignments, n.targets, n.line, x);
    }
    AssignedInAppend([n], PreAll(Children(n)));
    assert [n][1..] == [];
    assert AssignedIn([n]) == OwnAssigned(n) + [];
    LastLineAppend(OwnAssigned(n), AssignedIn(PreAll(Children(n))), x);
  }

  lemma {:induction false} VisitAllAssignments(ns: seq<Node>, st: State, x: string)
    ensures Lookup(VisitAll(ns, st).assignments, x) == Latest(Lookup(st.assignments, x), LastLine(AssignedIn(PreAll(ns)), x))
    decreases SizeAll(ns), 1
  {
    if ns != [] {
      var mid := Visit(ns[0], st);
      SizeAllTail(ns);
      VisitAllAssignments(ns[1..], mid, x);
      VisitAssignments(ns[0], st, x);
      var a, b := AssignedIn(Pre(ns[0])), AssignedIn(PreAll(ns[1..]));
      assert VisitAll(ns, st) == VisitAll(ns[1..], mid);
      assert PreAll(ns) == Pre(ns[0]) + PreAll(ns[1..]);
      AssignedInAppend(Pre(ns[0]), PreAll(ns[1..]));
      LastLineAppend(a, b, x);
    }
  }

  /** The import map after visiting a subtree, likewise: the line of the
      last import binding of the name in preorder. */
  lemma {:induction false} VisitImports(n: Node, st: State, x: string)
    ensures Lookup(Visit(n, st).imports, x) == Latest(Lookup(st.imports, x), LastLine(ImportedIn(Pre(n)), x))
    decreases Size(n), 0
  {
    SizeChildren(n);
    var e := Enter(n, st);
    VisitAllImports(Children(n), e, x);
    if n.Import? {
      BindImportsLookup(st.imports, n.names, n.line, x);
    }
    ImportedInAppend([n], PreAll(Children(n)));
    assert [n][1..] == [];
    assert ImportedIn([n]) == OwnImported(n) + [];
    LastLineAppend(OwnImported(n), ImportedIn(PreAll(Children(n))), x);
  }

  lemma {:induction false} VisitAllImports(ns: seq<Node>, st: State, x: string)
    ensures Lookup(VisitAll(ns, st).imports, x) == Latest(Lookup(st.imports, x), LastLine(ImportedIn(PreAll(ns)), x))
    decreases SizeAll(ns), 1
  {
    if ns != [] {
      var mid := Visit(ns[0], st);
      SizeAllTail(ns);
      VisitAllImports(ns[1..], mid, x);
      VisitImports(ns[0], st, x);
      var a, b := ImportedIn(Pre(ns[0])), ImportedIn(PreAll(ns[1..]));
      assert VisitAll(ns, st) == VisitAll(ns[1..], mid);
      assert PreAll(ns) == Pre(ns[0]) + PreAll(ns[1..]);
      ImportedInAppend(Pre(ns[0]), PreAll(ns[1..]));
      LastLineAppend(a, b, x);
    }
  }

  /** The rules whose findings depend on where a node sits: loop, function
      and `try` checks. */
  predicate IsContextRule(id: RuleId) {
    || id == NoN2Algorithms || id == InefficientLoop || id == InefficientLookup || id == IoInLoop
    || id == UnnecessaryComputation || id == NoInfiniteLoops || id == ExcessiveNestingDepth
    || id == HighCyclomaticComplexity || id == DeepRecursion || id == ExceptionsInLoop
  }

  /** Findings of `id` that the nodes of `ns` report by themselves. */
  function LocalCount(ns: seq<Node>, id: RuleId): nat {
    if ns == [] then 0 else CountId(LocalFindings(ns[0]), id) + LocalCount(ns[1..], id)
  }

  lemma {:induction false} LocalCountAppend(a: seq<Node>, b: seq<Node>, id: RuleId)
    ensures LocalCount(a + b, id) == LocalCount(a, id) + LocalCount(b, id)
  {
    if a == [] {
      assert a + b == b;
    } else {
      assert (a + b)[0] == a[0] && (a + b)[1..] == a[1..] + b;
      LocalCountAppend(a[1..], b, id);
    }
  }

  /** When each node reports `id` by itself exactly when it satisfies `p`,
      the local count is the number of nodes satisfying `p`. */
  lemma {:induction false} LocalCountIs(ns: seq<Node>, id: RuleId, p: Node -> bool)
    requires forall c :: CountId(LocalFindings(c), id) == if p(c) then 1 else 0
    ensures LocalCount(ns, id) == CountIf(ns, p)
  {
    if ns != [] {
      LocalCountIs(ns[1..], id, p);
    }
  }

  /** Outside the context rules a node's findings are its local ones. */
  lemma {:induction false} OwnLocalCount(n: Node, st: State, id: RuleId)
    requires !IsContextRule(id)
    ensures CountId(OwnFindings(n, st), id) == CountId(LocalFindings(n), id)
  {
    ContextNone(n, st, id);
    CountIdAppend(ContextFindings(n, st), LocalFindings(n), id);
  }

  lemma {:induction false} ContextNone(n: Node, st: State, id: RuleId)
    requires !IsContextRule(id)
    ensures CountId(ContextFindings(n, st), id) == 0
  {
    if n.For? {
      ForNoLocal(n, st.depth + 1, id);
    } else if n.While? {
      WhileNoLocal(n, st.depth + 1, id);
    } else if n.Try? {
      WhenCountId(st.inLoop, TryFinding(n.line), id);
    } else if n.FunctionDef? {
      if !n.isAsync {
        FunctionNoLocal(n, id);
      }
    } else {
      assert ContextFindings(n, st) == [];
    }
  }

  lemma {:induction false} ForNoLocal(n: Node, d: int, id: RuleId)
    requires !IsContextRule(id) && n.For?
    ensures CountId(ForFindings(n, d), id) == 0
  {
    ForRuleCount(n, d, id);
    LoopWalkCount(n, id);
  }

  lemma {:induction false} WhileNoLocal(n: Node, d: int, id: RuleId)
    requires !IsContextRule(id) && n.While?
    ensures CountId(WhileFindings(n, d), id) == 0
  {
    WhileRuleCount(n, d, id);
    LoopWalkCount(n, id);
  }

  lemma {:induction false} FunctionNoLocal(n: Node, id: RuleId)
    requires !IsContextRule(id) && n.FunctionDef?
    ensures CountId(FunctionFindings(n), id) == 0
  {
    FunctionRuleCount(n, id);
  }

  lemma {:induction false} VisitLocalCount(n: Node, st: State, id: RuleId)
    requires !IsContextRule(id)
    ensures CountId(Visit(n, st).findings, id) == CountId(st.findings, id) + LocalCount(Pre(n), id)
    decreases Size(n), 0
  {
    SizeChildren(n);
    OwnLocalCount(n, st, id);
    CountIdAppend(st.findings, OwnFindings(n, st), id);
    VisitAllLocalCount(Children(n), Enter(n, st), id);
    LocalCountAppend([n], PreAll(Children(n)), id);
    assert [n][1..] == [];
  }

  lemma {:induction false} VisitAllLocalCount(ns: seq<Node>, st: State, id: RuleId)
    requires !IsContextRule(id)
    ensures CountId(VisitAll(ns, st).findings, id) == CountId(st.findings, id) + LocalCount(PreAll(ns), id)
    decreases SizeAll(ns), 1
  {
    if ns != [] {
      var s1 := Visit(ns[0], st);
      SizeAllTail(ns);
      VisitLocalCount(ns[0], st, id);
      VisitAllLocalCount(ns[1..], s1, id);
      LocalCountAppend(Pre(ns[0]), PreAll(ns[1..]), id);
    }
  }

  lemma {:induction false} UnusedFindingsRules(assignments: Bindings, imports: Bindings, used: set<string>, id: RuleId)
    requires id != UnusedVariables && id != UnusedImports
    ensures CountId(UnusedVariableFindings(assignments, used), id) == 0
    ensures CountId(UnusedImportFindings(imports, used), id) == 0
  {
    CountIdZero(UnusedVariableFindings(assignments, used), id);
    CountIdZero(UnusedImportFindings(imports, used), id);
  }

  /** Over a whole module, a rule no context check reports is reported as
      often as the nodes of the tree report it by themselves. */
  lemma {:induction false} DetectLocalRules(t: Node, id: RuleId)
    requires !IsContextRule(id) && id != UnusedVariables && id != UnusedImports
    ensures CountId(DetectAll(Some(t)), id) == LocalCount(Pre(t), id)
  {
    var st := Visit(t, Initial());
    VisitLocalCount(t, Initial(), id);
    UnusedFindingsRules(st.assignments, st.imports, st.used, id);
    CountIdAppend(st.findings, UnusedVariableFindings(st.assignments, st.used), id);
    CountIdAppend(st.findings + UnusedVariableFindings(st.assignments, st.used),
      UnusedImportFindings(st.imports, st.used), id);
  }

  predicate IsMagicConstant(c: Node) { c.Constant? && IsMagicNumber(c.cval) }

  /** Every bare-name `open(...)` call of the module is reported once, since
      no enclosing `with` is ever recognised. */
  lemma DetectOpenCalls(t: Node)
    ensures CountId(DetectAll(Some(t)), ProperResourceCleanup) == CountIf(Pre(t), IsOpenCall)
  {
    forall c: Node
      ensures CountId(LocalFindings(c), ProperResourceCleanup) == if IsOpenCall(c) then 1 else 0
    {
      if c.Call? {
        CallRuleCount(c, ProperResourceCleanup);
      } else if c.Constant? {
        AllSameId(MagicFinding(c.line, c.cval), MagicNumbers);
      }
    }
    DetectLocalRules(t, ProperResourceCleanup);
    LocalCountIs(Pre(t), ProperResourceCleanup, IsOpenCall);
  }

  /** Every magic number of the module is reported once, wherever it is. */
  lemma DetectMagicNumbers(t: Node)
    ensures CountId(DetectAll(Some(t)), MagicNumbers) == CountIf(Pre(t), IsMagicConstant)
  {
    forall c: Node
      ensures CountId(LocalFindings(c), MagicNumbers) == if IsMagicConstant(c) then 1 else 0
    {
      if c.Call? {
        CallRuleCount(c, MagicNumbers);
      } else if c.Constant? {
        AllSameId(MagicFinding(c.line, c.cval), MagicNumbers);
      }
    }
    DetectLocalRules(t, MagicNumbers);
    LocalCountIs(Pre(t), MagicNumbers, IsMagicConstant);
  }

  /** Every `global` statement of the module is reported once. */
  lemma DetectGlobals(t: Node)
    ensures CountId(DetectAll(Some(t)), GlobalVariableMutation) == CountIf(Pre(t), (c: Node) => c.Global?)
  {
    forall c: Node
      ensures CountId(LocalFindings(c), GlobalVariableMutation) == if c.Global? then 1 else 0
    {
      if c.Call? {
        CallRuleCount(c, GlobalVariableMutation);
      } else if c.Constant? {
        AllSameId(MagicFinding(c.line, c.cval), MagicNumbers);
      }
    }
    DetectLocalRules(t, GlobalVariableMutation);
    LocalCountIs(Pre(t), GlobalVariableMutation, (c: Node) => c.Global?);
  }

  /** No node reports an unused name by itself. */
  lemma LocalNeverUnused(c: Node, id: RuleId)
    requires id == UnusedVariables || id == UnusedImports
    ensures CountId(LocalFindings(c), id) == 0
  {
    if c.Call? {
      CallRuleCount(c, id);
    } else if c.Constant? {
      AllSameId(MagicFinding(c.line, c.cval), MagicNumbers);
    }
  }

  /** The pass itself never reports an unused name. */
  lemma VisitNoUnused(t: Node, id: RuleId)
    requires id == UnusedVariables || id == UnusedImports
    ensures CountId(Visit(t, Initial()).findings, id) == 0
  {
    forall c: Node
      ensures CountId(LocalFindings(c), id) == 0
    {
      LocalNeverUnused(c, id);
    }
    VisitLocalCount(t, Initial(), id);
    LocalCountIs(Pre(t), id, (c: Node) => false);
  }

  lemma UnusedVariableMember(assignments: Bindings, used: set<string>, b: (string, nat))
    requires b in assignments
    ensures UnusedVariableFinding(b.1, b.0) in UnusedVariableFindings(assignments, used) <==> ReportableVariable(b, used)
  {
    var i :| 0 <= i < |assignments| && assignments[i] == b;
  }

  lemma UnusedImportMember(imports: Bindings, used: set<string>, b: (string, nat))
    requires b in imports
    ensures UnusedImportFinding(b.1, b.0) in UnusedImportFindings(imports, used) <==> ReportableImport(b, used)
  {
    var i :| 0 <= i < |imports| && imports[i] == b;
  }

  /** After the pass, a name is in the used set iff some node of the tree
      loads it or calls it by bare name, in whatever scope. */
  lemma UsedAfterPass(t: Node, x: string)
    ensures x in Visit(t, Initial()).used <==> exists c :: c in Pre(t) && x in OwnUsed(c)
  {
    VisitUsed(t, Initial());
    UsedInMember(Pre(t), x);
  }

  /** In a map with distinct keys, an entry is present iff looking its key
      up gives its value. */
  lemma LookupDistinct(m: Bindings, k: string, v: nat)
    requires DistinctKeys(m)
    ensures (k, v) in m <==> Lookup(m, k) == Some(v)
  {
    LookupMember(m, k);
    if (k, v) in m {
      var i :| 0 <= i < |m| && m[i] == (k, v);
      var j :| 0 <= j < |m| && m[j] == (k, Lookup(m, k).value);
      assert i == j;
    }
  }

  lemma UnusedVariableIff(assignments: Bindings, used: set<string>, x: string, line: nat)
    requires DistinctKeys(assignments)
    ensures UnusedVariableFinding(line, x) in UnusedVariableFindings(assignments, used)
      <==> Lookup(assignments, x) == Some(line) && ReportableVariable((x, line), used)
  {
    LookupDistinct(assignments, x, line);
    if UnusedVariableFinding(line, x) in UnusedVariableFindings(assignments, used) {
      var i :| 0 <= i < |assignments| && ReportableVariable(assignments[i], used)
        && UnusedVariableFinding(line, x) == UnusedVariableFinding(assignments[i].1, assignments[i].0);
      assert assignments[i] == (x, line);
    }
    if Lookup(assignments, x) == Some(line) && ReportableVariable((x, line), used) {
      UnusedVariableMember(assignments, used, (x, line));
    }
  }

  lemma UnusedImportIff(imports: Bindings, used: set<string>, x: string, line: nat)
    requires DistinctKeys(imports)
    ensures UnusedImportFinding(line, x) in UnusedImportFindings(imports, used)
      <==> Lookup(imports, x) == Some(line) && ReportableImport((x, line), used)
  {
    LookupDistinct(imports, x, line);
    if UnusedImportFinding(line, x) in UnusedImportFindings(imports, used) {
      var i :| 0 <= i < |imports| && ReportableImport(imports[i], used)
        && UnusedImportFinding(line, x) == UnusedImportFinding(imports[i].1, imports[i].0);
      assert imports[i] == (x, line);
    }
    if Lookup(imports, x) == Some(line) && ReportableImport((x, line), used) {
      UnusedImportMember(imports, used, (x, line));
    }
  }

  /** A name is reported as an unused variable at a line iff its last
      assignment to a bare name in preorder is at that line, it does not
      start with `_`, and no node of the tree loads it or calls it by bare
      name, in whatever scope. */
  lemma {:induction false} DetectUnusedVariable(t: Node, x: string, line: nat)
    ensures UnusedVariableFinding(line, x) in DetectAll(Some(t))
      <==> && LastLine(AssignedIn(Pre(t)), x) == Some(line) && !StartsWith(x, "_")
           && !exists c :: c in Pre(t) && x in OwnUsed(c)
  {
    var st := Visit(t, Initial());
    var f := UnusedVariableFinding(line, x);
    var vars := UnusedVariableFindings(st.assignments, st.used);
    var imps := UnusedImportFindings(st.imports, st.used);
    assert DetectAll(Some(t)) == st.findings + vars + imps;
    VisitNoUnused(t, UnusedVariables);
    CountIdZero(st.findings, UnusedVariables);
    assert f !in st.findings;
    assert f !in imps;
    UnusedVariableIff(st.assignments, st.used, x, line);
    VisitAssignments(t, Initial(), x);
    UsedAfterPass(t, x);
  }

  /** A name is reported as an unused import at a line iff its last import
      binding (`asname or name`) in preorder is at that line and no node of
      the tree loads it or calls it by bare name. */
  lemma {:induction false} DetectUnusedImport(t: Node, x: string, line: nat)
    ensures UnusedImportFinding(line, x) in DetectAll(Some(t))
      <==> LastLine(ImportedIn(Pre(t)), x) == Some(line) && !exists c :: c in Pre(t) && x in OwnUsed(c)
  {
    var st := Visit(t, Initial());
    var f := UnusedImportFinding(line, x);
    var vars := UnusedVariableFindings(st.assignments, st.used);
    var imps := UnusedImportFindings(st.imports, st.used);
    assert DetectAll(Some(t)) == st.findings + vars + imps;
    VisitNoUnused(t, UnusedImports);
    CountIdZero(st.findings, UnusedImports);
    assert f !in st.findings;
    assert f !in vars;
    UnusedImportIff(st.imports, st.used, x, line);
    VisitImports(t, Initial(), x);
    UsedAfterPass(t, x);
  }
}

=== FILE: pylines.dfy ===
/** `PatternBasedDetector`: the regular-expression checks run over the lines
    of a Python file, next to the AST pass. */
module PyLines {
  import opened Common
  import opened Regex
  import opened Findings
  import opened LineScan

  // ---------------------------------------------------------------------
  // The patterns

  /** The loop header followed by a call of `call`. */
  function LoopCall(call: string): Re { Cat(LoopHeader(), Lit(call)) }

  /** `for\s+\w+\s+in\s+.*:\s*[^\n]*`, the loop header the redundant
      computation patterns start with. */
  function LoopHeader(): Re {
    Seq([Lit("for"), Plus(S()), Plus(W()), Plus(S()), Lit("in"), Plus(S()), AnyChars(), Lit(":"),
         Star(S()), Star(Class(Not(Ch('\n'))))])
  }

  /** `\bfor\b` */
  function ForWord(): Re { Seq([WordBoundary, Lit("for"), WordBoundary]) }

  /** `^(?!\s)`: the text does not start with white space. */
  function NoIndent(): Re { Cat(Begin, NotFollowedBy(Space)) }

  /** `\.index\([^)]*\)\s*[!=]=` */
  function IndexCompare(): Re {
    Seq([Lit(".index("), Star(Class(Not(Ch(')')))), Lit(")"), Star(S()), Class(Union(Ch('!'), Ch('='))), Lit("=")])
  }

  /** `\.count\([^)]*\)` */
  function CountCall(): Re { CallPattern(".count(") }

  predicate IsForLine(line: string) { Search(ForWord(), line) }
  predicate IsDedentLine(line: string) { Search(NoIndent(), line) }

  /** `^(?!\s)` finds a match exactly when the line is empty or starts with
      something other than white space; so a blank line also counts as a
      dedent. */
  lemma DedentLine(line: string)
    ensures IsDedentLine(line) <==> line == [] || !IsSpace(line[0])
  {
    var r := NoIndent();
    if line == [] || !IsSpace(line[0]) {
      assert 0 in Ends(Begin, line, 0);
      assert 0 in Ends(NotFollowedBy(Space), line, 0);
      assert 0 in Ends(r, line, 0);
    }
    if IsDedentLine(line) {
      var i: nat :| i <= |line| && Ends(r, line, i) != {};
      var k :| k in Ends(r, line, i);
      var j: nat :| j in Ends(Begin, line, i) && j <= |line| && k in Ends(NotFollowedBy(Space), line, j);
      assert j == 0;
    }
  }

  // ---------------------------------------------------------------------
  // The four checks

  function RedundantFinding(line: nat, desc: string): Finding {
    Finding(UnnecessaryComputation, line, Critical, RedundantLine, desc)
  }

  /** One redundant-computation pattern: the loop header, then `call`,
      described as `call` closed and "in loop". */
  function RedundantCheck(num: nat, line: string, call: string): seq<Finding> {
    When(Search(LoopCall(call), line), RedundantFinding(num, call + ") in loop"))
  }

  /** `_detect_redundant_computation` on one line: each of the three
      patterns that matches is reported, in order. */
  function RedundantChecks(num: nat, line: string): seq<Finding> {
    RedundantCheck(num, line, "len(") + RedundantCheck(num, line, ".count(") + RedundantCheck(num, line, "re.compile(")
  }

  function ConcatFinding(line: nat): Finding {
    Finding(StringConcatenationInLoop, line, Medium, ConcatLine, "")
  }

  /** `_detect_string_concatenation`: a `for` word raises the in-loop flag,
      an unindented or blank line lowers it, and a `+=` of a string literal
      is reported while it is up. */
  function ConcatFindings(lines: seq<string>): seq<Finding>
  {
    LatchFindings(lines, 1, false, IsForLine, IsDedentLine, IsConcatLine, ConcatFinding)
  }

  /** A line is reported for string concatenation iff it holds `+=` before a
      quote and some line up to it has the word `for` with no unindented or
      blank line (other than another `for` line) after it. */
  lemma ConcatReported(lines: seq<string>, f: Finding)
    ensures f in ConcatFindings(lines) <==>
      exists k :: 0 <= k < |lines| && IsConcatLine(lines[k]) && f == ConcatFinding(k + 1)
        && UpAfter(lines, k, false, IsForLine, IsDedentLine)
  {
    LatchFindingsUpAfter(lines, false, IsForLine, IsDedentLine, IsConcatLine, ConcatFinding, f);
  }

  /** `current.startswith('return') or current.startswith('raise')` */
  predicate EndsFlow(current: string) {
    StartsWith(current, "return") || StartsWith(current, "raise")
  }

  /** The stripped next line may follow a `return`: it is empty or opens
      another clause or definition. */
  predicate MayFollow(next: string) {
    || next == []
    || StartsWith(next, "except") || StartsWith(next, "finally") || StartsWith(next, "elif")
    || StartsWith(next, "else") || StartsWith(next, "@") || StartsWith(next, "def") || StartsWith(next, "class")
  }

  predicate IsDeadAfter(line: string, next: string) {
    EndsFlow(Strip(line)) && !MayFollow(Strip(next))
  }

  function DeadFinding(line: nat): Finding {
    Finding(DeadCodeBlock, line, Medium, DeadLine, "")
  }

  /** `_detect_dead_code`: the line after a `return` or `raise` is
      reported with its own 1-based number. */
  function DeadFindings(lines: seq<string>): seq<Finding> {
    EachPair(lines, 0, IsDeadAfter, DeadFinding)
  }

  /** A dead-code finding names line `k + 1` (1-based) exactly when line `k`
      starts with `return` or `raise` (after stripping) and line `k + 1` is
      neither blank nor the start of another clause or definition. */
  lemma DeadCodeReported(lines: seq<string>, f: Finding)
    ensures f in DeadFindings(lines) <==>
      exists k :: PairAt(lines, k, IsDeadAfter) && f == DeadFinding(k + 1)
  {
    EachPairMember(lines, 0, IsDeadAfter, DeadFinding, f);
  }

  function DataStructFinding(line: nat, message: string): Finding {
    Finding(InefficientDataStructure, line, High, DataStructLine, message)
  }

  /** `_detect_inefficient_data_structures` on one line. */
  function DataStructChecks(num: nat, line: string): seq<Finding> {
    When(Search(IndexCompare(), line), DataStructFinding(num, ".index() for lookup (O(n)), use set"))
    + When(Search(CountCall(), line), DataStructFinding(num, ".count() for membership test (O(n)), use set"))
  }

  /** A finding of one redundant-computation pattern names its own line,
      and the line holds the word `for` and the call. */
  lemma RedundantCheckNeedsLoop(num: nat, line: string, call: string, f: Finding)
    requires f in RedundantCheck(num, line, call)
    ensures f == RedundantFinding(num, call + ") in loop")
    ensures Contains(line, "for") && Contains(line, call)
  {
    var header := LoopHeader();
    assert header == Cat(Lit("for"), header.b);
    SearchLits("for", header.b, call, line);
  }

  /** The data-structure findings of a line: the `.index()` comparison and
      the `.count()` call, each once, the latter exactly when a `.count(` is
      closed later on the line. */
  lemma DataStructReported(num: nat, line: string, f: Finding)
    ensures f in DataStructChecks(num, line) <==>
      || (Search(IndexCompare(), line) && f == DataStructFinding(num, ".index() for lookup (O(n)), use set"))
      || (ClosedCall(line, ".count(") && f == DataStructFinding(num, ".count() for membership test (O(n)), use set"))
  {
    CallPatternFound(".count(", line);
  }

  /** Which check a finding of the redundant-computation pass came from. */
  lemma RedundantRule(num: nat, line: string, f: Finding)
    requires f in RedundantChecks(num, line)
    ensures f.rule == UnnecessaryComputation
  {
    var a := RedundantCheck(num, line, "len(");
    var b := RedundantCheck(num, line, ".count(");
    var c := RedundantCheck(num, line, "re.compile(");
    assert f in a || f in b || f in c;
  }

  // ---------------------------------------------------------------------
  // The detector

  /** `PatternBasedDetector(content).detect_all()`: the four checks, each
      over all lines, one after the other. */
  function DetectAll(content: string): (r: seq<Finding>)
    ensures forall f :: f in r ==>
      f.rule in {UnnecessaryComputation, StringConcatenationInLoop, DeadCodeBlock, InefficientDataStructure}
  {
    var lines := Lines(content);
    var a, b := EachLine(lines, 1, RedundantChecks), ConcatFindings(lines);
    var c, d := DeadFindings(lines), EachLine(lines, 1, DataStructChecks);
    forall f | f in a + b + c + d
      ensures f.rule in {UnnecessaryComputation, StringConcatenationInLoop, DeadCodeBlock, InefficientDataStructure}
    {
      if f in a {
        RedundantPartRule(lines, f);
      } else if f in b {
        ConcatPartRule(lines, f);
      } else if f in c {
        DeadPartRule(lines, f);
      } else {
        DataStructPartRule(lines, f);
      }
    }
    a + b + c + d
  }

  /** The rule each of the four checks reports. */
  lemma RedundantPartRule(lines: seq<string>, f: Finding)
    requires f in EachLine(lines, 1, RedundantChecks)
    ensures f.rule == UnnecessaryComputation
  {
    EachLineMember(lines, 1, RedundantChecks, f);
    var k :| 0 <= k < |lines| && f in RedundantChecks(1 + k, lines[k]);
    RedundantRule(1 + k, lines[k], f);
  }

  lemma ConcatPartRule(lines: seq<string>, f: Finding)
    requires f in ConcatFindings(lines)
    ensures f.rule == StringConcatenationInLoop
  {
    LatchFindingsMember(lines, 1, false, IsForLine, IsDedentLine, IsConcatLine, ConcatFinding, f);
  }

  lemma DeadPartRule(lines: seq<string>, f: Finding)
    requires f in DeadFindings(lines)
    ensures f.rule == DeadCodeBlock
  {
    EachPairMember(lines, 0, IsDeadAfter, DeadFinding, f);
  }

  lemma DataStructPartRule(lines: seq<string>, f: Finding)
    requires f in EachLine(lines, 1, DataStructChecks)
    ensures f.rule == InefficientDataStructure
  {
    EachLineMember(lines, 1, DataStructChecks, f);
    var k :| 0 <= k < |lines| && f in DataStructChecks(1 + k, lines[k]);
    DataStructReported(1 + k, lines[k], f);
  }

  /** The four checks report four different rules, so the rule of a finding
      tells which check reported it. */
  lemma DetectAllByRule(content: string, f: Finding)
    requires f in DetectAll(content)
    ensures f.rule == UnnecessaryComputation <==> f in EachLine(Lines(content), 1, RedundantChecks)
    ensures f.rule == StringConcatenationInLoop <==> f in ConcatFindings(Lines(content))
    ensures f.rule == DeadCodeBlock <==> f in DeadFindings(Lines(content))
    ensures f.rule == InefficientDataStructure <==> f in EachLine(Lines(content), 1, DataStructChecks)
  {
    var lines := Lines(content);
    var a := EachLine(lines, 1, RedundantChecks);
    var b := ConcatFindings(lines);
    var c := DeadFindings(lines);
    var d := EachLine(lines, 1, DataStructChecks);
    assert DetectAll(content) == a + b + c + d;
    assert f in a || f in b || f in c || f in d;
    if f in a { RedundantPartRule(lines, f); }
    if f in b { ConcatPartRule(lines, f); }
    if f in c { DeadPartRule(lines, f); }
    if f in d { DataStructPartRule(lines, f); }
  }
}

=== FILE: regex.dfy ===
/** A small backtracking reading of the regular expressions the detectors and
    the memory estimate search for. `Ends(r, s, i)` is the set of positions
    where a match of `r` that starts at `i` can end; `Search` is Python's
    `re.search(...) is not None`. Only existence of a match is modelled, so
    greedy and lazy repetition coincide. */
module Regex {
  import opened Common

  datatype CharClass =
    | Ch(c: char)
    | Space                       // \s
    | Word                        // \w
    | Digit                       // [0-9]
    | Dot                         // .  (anything but a newline)
    | Union(a: CharClass, b: CharClass)
    | Not(a: CharClass)           // [^...]

  datatype Re =
    | Empty
    | Class(cls: CharClass)
    | Cat(a: Re, b: Re)
    | Alt(a: Re, b: Re)
    | Star(r: Re)
    | WordBoundary                // \b
    | Begin                       // ^ without MULTILINE: the start of the text
    | NotFollowedBy(cls: CharClass) // (?!c) for one character class c

  predicate InClass(cls: CharClass, c: char) {
    match cls
    case Ch(d) => c == d
    case Space => IsSpace(c)
    case Word => IsWordChar(c)
    case Digit => IsDigit(c)
    case Dot => c != '\n'
    case Union(a, b) => InClass(a, c) || InClass(b, c)
    case Not(a) => !InClass(a, c)
  }

  predicate AtWordBoundary(s: string, i: nat)
    requires i <= |s|
  {
    (i > 0 && IsWordChar(s[i - 1])) != (i < |s| && IsWordChar(s[i]))
  }

  /** End positions of the matches of `r` that start at `i`. */
  function Ends(r: Re, s: string, i: nat): set<nat>
    requires i <= |s|
    decreases r, 0, 0
  {
    match r
    case Empty => {i}
    case Class(cls) => if i < |s| && InClass(cls, s[i]) then {i + 1} else {}
    case Cat(a, b) =>
      set j: nat, k: nat | j in Ends(a, s, i) && j <= |s| && k in Ends(b, s, j) :: k
    case Alt(a, b) => Ends(a, s, i) + Ends(b, s, i)
    case Star(body) => StarEnds(body, s, i)
    case WordBoundary => if AtWordBoundary(s, i) then {i} else {}
    case Begin => if i == 0 then {i} else {}
    case NotFollowedBy(cls) => if i < |s| && InClass(cls, s[i]) then {} else {i}
  }

  /** End positions of zero or more repetitions of `body` from `i`. An empty
      repetition adds no new end, so only progressing ones are followed. */
  function StarEnds(body: Re, s: string, i: nat): set<nat>
    requires i <= |s|
    decreases body, 1, |s| - i
  {
    {i} + set j: nat, k: nat | j in Ends(body, s, i) && i < j <= |s| && k in StarEnds(body, s, j) :: k
  }

  /** `re.search(r, s) is not None`. */
  predicate Search(r: Re, s: string) {
    exists i: nat :: i <= |s| && Ends(r, s, i) != {}
  }

  // Builders for the notation of the source patterns.

  function Lit(t: string): Re {
    if t == [] then Empty else Cat(Class(Ch(t[0])), Lit(t[1..]))
  }

  /** A literal matched case-insensitively (ASCII letters only). */
  function LitNoCase(t: string): Re {
    if t == [] then Empty
    else
      var c := t[0];
      var cls := if 'a' <= c <= 'z' then Union(Ch(c), Ch((c as int - 32) as char)) else Ch(c);
      Cat(Class(cls), LitNoCase(t[1..]))
  }

  function Seq(rs: seq<Re>): Re {
    if rs == [] then Empty else Cat(rs[0], Seq(rs[1..]))
  }

  function AnyOf(rs: seq<Re>): Re
    requires rs != []
  {
    if |rs| == 1 then rs[0] else Alt(rs[0], AnyOf(rs[1..]))
  }

  function Plus(r: Re): Re { Cat(r, Star(r)) }

  /** `x{n,}` */
  function AtLeast(r: Re, n: nat): Re {
    if n == 0 then Star(r) else Cat(r, AtLeast(r, n - 1))
  }

  function S(): Re { Class(Space) }
  function W(): Re { Class(Word) }
  function AnyChars(): Re { Star(Class(Dot)) }
  function Quote(): Re { Class(Union(Ch('"'), Ch('\''))) }

  // Facts about the matcher used by the detectors' proofs.

  lemma LitMatchesPrefix(t: string, s: string, i: nat)
    requires i + |t| <= |s| && s[i..i + |t|] == t
    ensures i + |t| in Ends(Lit(t), s, i)
    decreases |t|
  {
    if t != [] {
      assert s[i] == t[0];
      assert i + 1 in Ends(Class(Ch(t[0])), s, i);
      assert s[i + 1..i + |t|] == t[1..];
      LitMatchesPrefix(t[1..], s, i + 1);
    }
  }

  lemma {:induction false} LitOnlyMatchesPrefix(t: string, s: string, i: nat, k: nat)
    requires i <= |s|
    requires k in Ends(Lit(t), s, i)
    ensures k == i + |t| && k <= |s| && s[i..k] == t
    decreases |t|
  {
    if t != [] {
      var j: nat :| j in Ends(Class(Ch(t[0])), s, i) && j <= |s| && k in Ends(Lit(t[1..]), s, j);
      LitOnlyMatchesPrefix(t[1..], s, j, k);
      assert s[i..k] == [s[i]] + s[j..k];
    }
  }

  /** A pattern that is a literal is found exactly where the text contains it. */
  lemma {:induction false} SearchLitIsContains(t: string, s: string)
    ensures Search(Lit(t), s) <==> Contains(s, t)
  {
    if Search(Lit(t), s) {
      var i: nat :| i <= |s| && Ends(Lit(t), s, i) != {};
      var k :| k in Ends(Lit(t), s, i);
      LitOnlyMatchesPrefix(t, s, i, k);
      assert StartsWith(s[i..], t);
    }
    if Contains(s, t) {
      var i :| 0 <= i <= |s| - |t| && StartsWith(s[i..], t);
      assert s[i..i + |t|] == s[i..][..|t|];
      LitMatchesPrefix(t, s, i);
    }
  }

  /** A match of `a` followed by `b` holds a match of each. */
  lemma SearchCat(a: Re, b: Re, s: string)
    requires Search(Cat(a, b), s)
    ensures Search(a, s) && Search(b, s)
  {
    var i: nat :| i <= |s| && Ends(Cat(a, b), s, i) != {};
    var k :| k in Ends(Cat(a, b), s, i);
    var j: nat :| j in Ends(a, s, i) && j <= |s| && k in Ends(b, s, j);
  }

  /** `[c]*` runs over any stretch of characters of the class `c`. */
  lemma {:induction false} StarClassSpan(cls: CharClass, s: string, a: nat, b: nat)
    requires a <= b <= |s|
    requires forall m :: a <= m < b ==> InClass(cls, s[m])
    ensures b in StarEnds(Class(cls), s, a)
    decreases b - a
  {
    if a < b {
      StarClassSpan(cls, s, a + 1, b);
      assert a + 1 in Ends(Class(cls), s, a);
    }
  }

  /** `[c]*` stops before the first character outside the class `c`. */
  lemma {:induction false} StarClassOnly(cls: CharClass, s: string, a: nat, b: nat)
    requires a <= |s|
    requires b in StarEnds(Class(cls), s, a)
    ensures a <= b <= |s| && forall m :: a <= m < b ==> InClass(cls, s[m])
    decreases |s| - a
  {
    if b != a {
      var j: nat, k: nat :| j in Ends(Class(cls), s, a) && a < j <= |s| && k in StarEnds(Class(cls), s, j) && k == b;
      assert j == a + 1;
      StarClassOnly(cls, s, j, b);
    }
  }

  /** `[c]{n,}` matches exactly the stretches of at least `n` characters of
      the class `c`. */
  lemma {:induction false} AtLeastEnds(cls: CharClass, n: nat, s: string, a: nat, b: nat)
    requires a <= |s|
    ensures b in Ends(AtLeast(Class(cls), n), s, a) <==>
      a + n <= b <= |s| && forall m :: a <= m < b ==> InClass(cls, s[m])
    decreases n
  {
    if n == 0 {
      if b in StarEnds(Class(cls), s, a) {
        StarClassOnly(cls, s, a, b);
      }
      if a <= b <= |s| && forall m :: a <= m < b ==> InClass(cls, s[m]) {
        StarClassSpan(cls, s, a, b);
      }
    } else {
      var r := AtLeast(Class(cls), n - 1);
      if b in Ends(AtLeast(Class(cls), n), s, a) {
        var j: nat :| j in Ends(Class(cls), s, a) && j <= |s| && b in Ends(r, s, j);
        AtLeastEnds(cls, n - 1, s, j, b);
      }
      if a + n <= b <= |s| && forall m :: a <= m < b ==> InClass(cls, s[m]) {
        assert a + 1 in Ends(Class(cls), s, a);
        AtLeastEnds(cls, n - 1, s, a + 1, b);
        CatEndsJoin(Class(cls), r, s, a, a + 1, b);
      }
    }
  }

  // Patterns that are a sequence of simple parts: one character of a class,
  // a run of them (`[c]*`), or a run of at least `n` of them (`[c]{n,}`).

  datatype Part = One(cls: CharClass) | Run(cls: CharClass) | Runs(cls: CharClass, n: nat)

  function PartRe(p: Part): Re {
    match p
    case One(cls) => Class(cls)
    case Run(cls) => Star(Class(cls))
    case Runs(cls, n) => AtLeast(Class(cls), n)
  }

  function PartRes(parts: seq<Part>): (rs: seq<Re>)
    ensures |rs| == |parts| && forall t :: 0 <= t < |parts| ==> rs[t] == PartRe(parts[t])
  {
    seq(|parts|, t requires 0 <= t < |parts| => PartRe(parts[t]))
  }

  function Parts(parts: seq<Part>): Re {
    Seq(PartRes(parts))
  }

  /** The part `p` spans the text from `a` to `b`, in plain terms. */
  ghost predicate PartAt(p: Part, s: string, a: nat, b: nat) {
    && a <= b <= |s|
    && (forall m :: a <= m < b ==> InClass(p.cls, s[m]))
    && match p
       case One(_) => b == a + 1
       case Run(_) => true
       case Runs(_, n) => a + n <= b
  }

  /** Part `t` spans the text from `ps[t]` to `ps[t + 1]`. */
  ghost predicate PartsAt(parts: seq<Part>, s: string, ps: seq<nat>) {
    && |ps| == |parts| + 1
    && ps[0] <= |s|
    && forall t :: 0 <= t < |parts| ==> PartAt(parts[t], s, ps[t], ps[t + 1])
  }

  lemma PartEnds(p: Part, s: string, a: nat, b: nat)
    requires a <= |s|
    ensures b in Ends(PartRe(p), s, a) <==> PartAt(p, s, a, b)
  {
    match p
    case One(cls) =>
    case Run(cls) =>
      if b in Ends(PartRe(p), s, a) {
        StarClassOnly(cls, s, a, b);
      }
      if PartAt(p, s, a, b) {
        StarClassSpan(cls, s, a, b);
      }
    case Runs(cls, n) =>
      AtLeastEnds(cls, n, s, a, b);
  }

  /** A match of a pattern of parts is a run of the parts one after the
      other, and conversely. */
  lemma PartsEnds(parts: seq<Part>, s: string, i: nat, k: nat)
    requires i <= |s|
    ensures k in Ends(Parts(parts), s, i) <==>
      exists ps: seq<nat> :: PartsAt(parts, s, ps) && ps[0] == i && ps[|parts|] == k
  {
    var rs := PartRes(parts);
    if k in Ends(Seq(rs), s, i) {
      var ps := SeqOnly(rs, s, i, k);
      forall t | 0 <= t < |parts|
        ensures PartAt(parts[t], s, ps[t], ps[t + 1])
      {
        PartEnds(parts[t], s, ps[t], ps[t + 1]);
      }
      assert PartsAt(parts, s, ps);
    }
    if exists ps: seq<nat> :: PartsAt(parts, s, ps) && ps[0] == i && ps[|parts|] == k {
      var ps: seq<nat> :| PartsAt(parts, s, ps) && ps[0] == i && ps[|parts|] == k;
      forall t | 0 <= t < |ps|
        ensures ps[t] <= |s|
      {
        if t > 0 {
          assert PartAt(parts[t - 1], s, ps[t - 1], ps[t]);
        }
      }
      forall t | 0 <= t < |rs|
        ensures ps[t + 1] in Ends(rs[t], s, ps[t])
      {
        PartEnds(parts[t], s, ps[t], ps[t + 1]);
      }
      SeqJoin(rs, s, ps);
    }
  }

  /** A pattern of parts is found exactly where the parts run one after the
      other somewhere in the text. */
  lemma SearchParts(parts: seq<Part>, s: string)
    ensures Search(Parts(parts), s) <==> exists ps: seq<nat> :: PartsAt(parts, s, ps)
  {
    if Search(Parts(parts), s) {
      var i: nat :| i <= |s| && Ends(Parts(parts), s, i) != {};
      var k :| k in Ends(Parts(parts), s, i);
      PartsEnds(parts, s, i, k);
    }
    if exists ps: seq<nat> :: PartsAt(parts, s, ps) {
      var ps: seq<nat> :| PartsAt(parts, s, ps);
      PartsEnds(parts, s, ps[0], ps[|parts|]);
    }
  }

  /** `^[c]*d`: the text starts with characters of the class `c` and then
      the character `d`. */
  function LeadingThen(cls: CharClass, d: char): Re {
    Cat(Begin, Cat(Star(Class(cls)), Class(Ch(d))))
  }

  /** `^[c]*d` matches exactly when the first character outside the class
      `c` is `d`, or, put another way, some `d` has only class characters
      before it. */
  lemma LeadingThenFound(cls: CharClass, d: char, s: string)
    ensures Search(LeadingThen(cls, d), s) <==>
      exists n :: 0 <= n < |s| && s[n] == d && forall m :: 0 <= m < n ==> InClass(cls, s[m])
  {
    var r := LeadingThen(cls, d);
    var tail := Cat(Star(Class(cls)), Class(Ch(d)));
    if exists n :: 0 <= n < |s| && s[n] == d && forall m :: 0 <= m < n ==> InClass(cls, s[m]) {
      var n :| 0 <= n < |s| && s[n] == d && forall m :: 0 <= m < n ==> InClass(cls, s[m]);
      StarClassSpan(cls, s, 0, n);
      assert n + 1 in Ends(Class(Ch(d)), s, n);
      assert n + 1 in Ends(tail, s, 0);
      assert 0 in Ends(Begin, s, 0);
      assert n + 1 in Ends(r, s, 0);
    }
    if Search(r, s) {
      var i: nat :| i <= |s| && Ends(r, s, i) != {};
      var k :| k in Ends(r, s, i);
      CatEndsSplit(Begin, tail, s, i, k);
      var j: nat :| j in Ends(Begin, s, i) && j <= |s| && k in Ends(tail, s, j);
      assert i == 0 && j == 0;
      CatEndsSplit(Star(Class(cls)), Class(Ch(d)), s, 0, k);
      var n: nat :| n in Ends(Star(Class(cls)), s, 0) && n <= |s| && k in Ends(Class(Ch(d)), s, n);
      StarClassOnly(cls, s, 0, n);
      assert n < |s| && s[n] == d;
    }
  }

  /** The text holds `name` and, somewhere after it, a closing parenthesis. */
  ghost predicate ClosedCall(s: string, name: string) {
    exists i, j :: 0 <= i <= j < |s| && StartsWith(s[i..j], name) && s[j] == ')'
  }

  /** `name[^)]*\)` for a literal `name`. */
  function CallPattern(name: string): Re {
    Cat(Lit(name), Cat(Star(Class(Not(Ch(')')))), Class(Ch(')'))))
  }

  /** A match of `a` followed by `b` splits where the match of `a` ends. */
  lemma CatEndsSplit(a: Re, b: Re, s: string, i: nat, k: nat)
    requires i <= |s| && k in Ends(Cat(a, b), s, i)
    ensures exists j: nat :: j in Ends(a, s, i) && j <= |s| && k in Ends(b, s, j)
  {
  }

  /** A match of `Seq(rs)` passes through one position per part: part `t`
      matches from `ps[t]` to `ps[t + 1]`. */
  lemma {:induction false} SeqOnly(rs: seq<Re>, s: string, i: nat, k: nat) returns (ps: seq<nat>)
    requires i <= |s| && k in Ends(Seq(rs), s, i)
    ensures |ps| == |rs| + 1 && ps[0] == i && ps[|rs|] == k
    ensures forall t :: 0 <= t < |ps| ==> ps[t] <= |s|
    ensures forall t :: 0 <= t < |rs| ==> ps[t + 1] in Ends(rs[t], s, ps[t])
  {
    if rs == [] {
      ps := [i];
    } else {
      var j: nat :| j in Ends(rs[0], s, i) && j <= |s| && k in Ends(Seq(rs[1..]), s, j);
      var rest := SeqOnly(rs[1..], s, j, k);
      ps := [i] + rest;
      assert forall t :: 1 <= t < |rs| ==> rs[t] == rs[1..][t - 1] && ps[t] == rest[t - 1] && ps[t + 1] == rest[t];
    }
  }

  /** Conversely, parts matching one after the other make a match of the
      sequence. */
  lemma {:induction false} SeqJoin(rs: seq<Re>, s: string, ps: seq<nat>)
    requires |ps| == |rs| + 1 && forall t :: 0 <= t < |ps| ==> ps[t] <= |s|
    requires forall t :: 0 <= t < |rs| ==> ps[t + 1] in Ends(rs[t], s, ps[t])
    ensures ps[|rs|] in Ends(Seq(rs), s, ps[0])
  {
    if rs != [] {
      var rest := ps[1..];
      assert forall u :: 0 <= u < |rs| - 1 ==> rs[1..][u] == rs[u + 1];
      assert forall u :: 0 <= u < |rest| ==> rest[u] == ps[u + 1];
      SeqJoin(rs[1..], s, rest);
      CatEndsJoin(rs[0], Seq(rs[1..]), s, ps[0], ps[1], ps[|rs|]);
    }
  }

  lemma CatEndsJoin(a: Re, b: Re, s: string, i: nat, j: nat, k: nat)
    requires i <= |s| && j <= |s| && j in Ends(a, s, i) && k in Ends(b, s, j)
    ensures k in Ends(Cat(a, b), s, i)
  {
  }

  /** Where a match of `name[^)]*\)` starts, `name` is closed later on. */
  lemma CallPatternOnlyClosed(name: string, s: string, i: nat, k: nat)
    requires i <= |s| && k in Ends(CallPattern(name), s, i)
    ensures ClosedCall(s, name)
  {
    var open := Lit(name);
    var args := Star(Class(Not(Ch(')'))));
    var close := Class(Ch(')'));
    CatEndsSplit(open, Cat(args, close), s, i, k);
    var j1: nat :| j1 in Ends(open, s, i) && j1 <= |s| && k in Ends(Cat(args, close), s, j1);
    LitOnlyMatchesPrefix(name, s, i, j1);
    CatEndsSplit(args, close, s, j1, k);
    var j2: nat :| j2 in Ends(args, s, j1) && j2 <= |s| && k in Ends(close, s, j2);
    StarClassOnly(Not(Ch(')')), s, j1, j2);
    ClosedAt(s, name, i, j1, j2);
  }

  lemma ClosedAt(s: string, name: string, i: nat, j1: nat, j2: nat)
    requires j1 == i + |name| <= j2 < |s| && s[i..j1] == name && s[j2] == ')'
    ensures ClosedCall(s, name)
  {
    assert s[i..j2][..|name|] == s[i..j1];
  }

  /** Where `name` starts and is closed later on, `name[^)]*\)` matches. */
  lemma CallPatternMatchesClosed(name: string, s: string, i: nat, j: nat)
    requires 0 <= i <= j < |s| && StartsWith(s[i..j], name) && s[j] == ')'
    ensures Search(CallPattern(name), s)
  {
    var open := Lit(name);
    var args := Star(Class(Not(Ch(')'))));
    var close := Class(Ch(')'));
    var a := i + |name|;
    var rest := s[a..];
    assert rest[j - a] == ')';
    var d := FirstIndexOf(rest, ')');
    var c := a + d;
    assert forall m :: a <= m < c ==> s[m] == rest[..d][m - a];
    StarClassSpan(Not(Ch(')')), s, a, c);
    assert s[i..a] == s[i..j][..|name|];
    LitMatchesPrefix(name, s, i);
    CatEndsJoin(args, close, s, a, c, c + 1);
    CatEndsJoin(open, Cat(args, close), s, i, a, c + 1);
  }

  /** `name[^)]*\)` is found exactly where a `name` is closed later on. */
  lemma CallPatternFound(name: string, s: string)
    ensures Search(CallPattern(name), s) <==> ClosedCall(s, name)
  {
    if Search(CallPattern(name), s) {
      var i: nat :| i <= |s| && Ends(CallPattern(name), s, i) != {};
      var k :| k in Ends(CallPattern(name), s, i);
      CallPatternOnlyClosed(name, s, i, k);
    }
    if ClosedCall(s, name) {
      var i, j :| 0 <= i <= j < |s| && StartsWith(s[i..j], name) && s[j] == ')';
      CallPatternMatchesClosed(name, s, i, j);
    }
  }

  /** A match of `t`, then anything, then `u` holds both literals. */
  lemma SearchLits(t: string, r: Re, u: string, s: string)
    requires Search(Cat(Cat(Lit(t), r), Lit(u)), s)
    ensures Contains(s, t) && Contains(s, u)
  {
    SearchCat(Cat(Lit(t), r), Lit(u), s);
    SearchCat(Lit(t), r, s);
    SearchLitIsContains(t, s);
    SearchLitIsContains(u, s);
  }
}

=== FILE: rules.dfy ===
/** `RuleRepository`: the rule catalogue, a map from language to the list of
    rule records read from `rules/<language>.yaml`. Reading the YAML is not
    modelled; the catalogue is a value. A rule record is a YAML mapping, so
    every field may be missing; `rule['id']` and `r['severity']` raise
    `KeyError` on a missing field, `r.get('tags', [])` does not. */
module Rules {
  import opened Common

  datatype Rule = Rule(
    id: Option<string>,
    name: Option<string>,
    severity: Option<string>,
    tags: Option<seq<string>>,
    remediation: Option<string>,
    effort: Option<string>,
    carbonImpact: Option<real>,
    energyFactor: Option<real>)

  type Catalogue = map<string, seq<Rule>>

  /** A missing key in a rule record, reported as Python's `KeyError`. */
  datatype KeyError = KeyError(key: string)

  /** `get_rules`: an unknown language has no rules. */
  function GetRules(c: Catalogue, language: string): (r: seq<Rule>)
    ensures language !in c ==> r == []
    ensures language in c ==> r == c[language]
  {
    if language in c then c[language] else []
  }

  /** The loop of `get_rule`: the first rule whose id equals `id`; a rule
      without an id met before that raises `KeyError('id')`. */
  function FindRule(rules: seq<Rule>, id: string): (r: Result<Option<Rule>, KeyError>)
    ensures r.Ok? && r.value.Some? ==> r.value.value in rules && r.value.value.id == Some(id)
    ensures r.Err? ==> r.error == KeyError("id")
  {
    if rules == [] then Ok(None)
    else if rules[0].id.None? then Err(KeyError("id"))
    else if rules[0].id == Some(id) then Ok(Some(rules[0]))
    else FindRule(rules[1..], id)
  }

  /** Rules before index `i` all carry an id other than `id`. */
  predicate PassedBy(rules: seq<Rule>, id: string, i: nat)
    requires i <= |rules|
  {
    forall j :: 0 <= j < i ==> rules[j].id.Some? && rules[j].id != Some(id)
  }

  /** The first rule with the id is the one found. */
  lemma {:induction false} FindRuleFirst(rules: seq<Rule>, id: string, i: nat)
    requires i < |rules| && rules[i].id == Some(id) && PassedBy(rules, id, i)
    ensures FindRule(rules, id) == Ok(Some(rules[i]))
  {
    if i > 0 {
      assert rules[0].id.Some? && rules[0].id != Some(id);
      FindRuleFirst(rules[1..], id, i - 1);
    }
  }

  /** A list whose rules all carry other ids finds nothing. */
  lemma {:induction false} FindRuleAbsent(rules: seq<Rule>, id: string)
    requires PassedBy(rules, id, |rules|)
    ensures FindRule(rules, id) == Ok(None)
  {
    if rules != [] {
      assert rules[0].id.Some? && rules[0].id != Some(id);
      FindRuleAbsent(rules[1..], id);
    }
  }

  /** A rule without an id met before any match raises. */
  lemma {:induction false} FindRuleMissingId(rules: seq<Rule>, id: string, i: nat)
    requires i < |rules| && rules[i].id.None? && PassedBy(rules, id, i)
    ensures FindRule(rules, id) == Err(KeyError("id"))
  {
    if i > 0 {
      assert rules[0].id.Some? && rules[0].id != Some(id);
      FindRuleMissingId(rules[1..], id, i - 1);
    }
  }

  /** `get_rule(language, rule_id)`. */
  function GetRule(c: Catalogue, language: string, id: string): (r: Result<Option<Rule>, KeyError>)
    ensures r.Ok? && r.value.Some? ==> r.value.value in GetRules(c, language) && r.value.value.id == Some(id)
    ensures language !in c ==> r == Ok(None)
  {
    FindRule(GetRules(c, language), id)
  }

  function HasSeverity(severity: string): Rule -> bool {
    (r: Rule) => r.severity == Some(severity)
  }

  function HasTag(tag: string): Rule -> bool {
    (r: Rule) => tag in (if r.tags.Some? then r.tags.value else [])
  }

  /** `get_rules_by_severity`: the comprehension reads `r['severity']` of
      every rule, so one rule without a severity makes the call raise. */
  function GetRulesBySeverity(c: Catalogue, language: string, severity: string): (r: Result<seq<Rule>, KeyError>)
    ensures r.Err? <==> exists x :: x in GetRules(c, language) && x.severity.None?
    ensures r.Ok? ==> forall x :: x in r.value <==> x in GetRules(c, language) && x.severity == Some(severity)
    ensures r.Ok? ==> |r.value| == CountIf(GetRules(c, language), HasSeverity(severity))
  {
    var rules := GetRules(c, language);
    if exists x :: x in rules && x.severity.None? then Err(KeyError("severity"))
    else Ok(Filter(rules, HasSeverity(severity)))
  }

  /** `get_rules_by_tag`: a rule without tags has none. */
  function GetRulesByTag(c: Catalogue, language: string, tag: string): (r: seq<Rule>)
    ensures forall x :: x in r <==> x in GetRules(c, language) && x.tags.Some? && tag in x.tags.value
    ensures |r| == CountIf(GetRules(c, language), HasTag(tag))
  {
    Filter(GetRules(c, language), HasTag(tag))
  }

  /** Selecting by tag keeps catalogue order: selecting from a catalogue list
      extended by one rule extends the selection by that rule or by nothing. */
  lemma TagSelectionKeepsOrder(rules: seq<Rule>, x: Rule, tag: string)
    ensures Filter(rules + [x], HasTag(tag)) == Filter(rules, HasTag(tag)) + (if HasTag(tag)(x) then [x] else [])
  {
    FilterAppend(rules, [x], HasTag(tag));
    assert [x][1..] == [];
  }

  /** Selecting by severity keeps catalogue order in the same way. */
  lemma SeveritySelectionKeepsOrder(rules: seq<Rule>, x: Rule, severity: string)
    ensures Filter(rules + [x], HasSeverity(severity)) ==
      Filter(rules, HasSeverity(severity)) + (if HasSeverity(severity)(x) then [x] else [])
  {
    FilterAppend(rules, [x], HasSeverity(severity));
    assert [x][1..] == [];
  }

  /** `add_rule`: append to the language's list, creating it if absent. */
  function AddRule(c: Catalogue, language: string, rule: Rule): (r: Catalogue)
    ensures GetRules(r, language) == GetRules(c, language) + [rule]
    ensures forall l :: l != language ==> GetRules(r, l) == GetRules(c, l)
    ensures r.Keys == c.Keys + {language}
  {
    c[language := GetRules(c, language) + [rule]]
  }

  /** Searching a list extended at the end: earlier outcomes stand, and a
      search that found nothing now examines the new rule. */
  lemma {:induction false} FindRuleAppend(rules: seq<Rule>, x: Rule, id: string)
    ensures FindRule(rules, id).Ok? && FindRule(rules, id).value.None? ==> FindRule(rules + [x], id) == FindRule([x], id)
    ensures FindRule(rules, id).Err? || FindRule(rules, id).value.Some? ==> FindRule(rules + [x], id) == FindRule(rules, id)
  {
    if rules == [] {
      assert rules + [x] == [x];
    } else {
      assert (rules + [x])[0] == rules[0] && (rules + [x])[1..] == rules[1..] + [x];
      FindRuleAppend(rules[1..], x, id);
    }
  }

  /** A custom rule becomes visible to `get_rule` unless an earlier rule
      already answers for its id. */
  lemma AddRuleFound(c: Catalogue, language: string, rule: Rule, id: string)
    requires rule.id == Some(id)
    requires GetRule(c, language, id) == Ok(None)
    ensures GetRule(AddRule(c, language, rule), language, id) == Ok(Some(rule))
  {
    FindRuleAppend(GetRules(c, language), rule, id);
  }
}

=== FILE: runtime.dfy ===
/** The rule-based end of the runtime monitor: reports of measured CPU,
    memory and emissions are turned into wasteful-pattern records by fixed
    thresholds, and the patterns into a list of remediation hints. The
    measuring itself (CodeCarbon, Scaphandre, running the snippet) is not
    part of this model; the reports are its input. */
module Runtime {
  import opened Common

  /** One runtime report. A metric absent from the report is `None`. */
  datatype Report = Report(cpuPercent: Option<real>, memoryPercent: Option<real>, emissionsKg: Option<real>)

  datatype Pattern = Pattern(kind: string, severity: string, description: string)

  const HighCpu: real := 80.0
  const HighMemory: real := 90.0
  const HighEmissions: real := 0.1

  const CpuPattern := Pattern("high_cpu_usage", "high",
    "High CPU usage detected, potential inefficient loops or computations.")
  const MemoryPattern := Pattern("high_memory_usage", "medium",
    "High memory usage, consider optimizing data structures.")
  const EmissionsPattern := Pattern("high_emissions", "high",
    "High carbon emissions, review energy-intensive operations.")

  /** `report.get(key, 0)`. */
  function Metric(v: Option<real>): real {
    if v.Some? then v.value else 0.0
  }

  predicate CpuHigh(r: Report) { Metric(r.cpuPercent) > HighCpu }
  predicate MemoryHigh(r: Report) { Metric(r.memoryPercent) > HighMemory }
  predicate EmissionsHigh(r: Report) { Metric(r.emissionsKg) > HighEmissions }

  /** Position of a pattern in the order the analyser checks them. */
  function Rank(p: Pattern): nat {
    if p == CpuPattern then 0 else if p == MemoryPattern then 1 else 2
  }

  /** The patterns of one report: each threshold is crossed strictly, and
      the patterns come in CPU, memory, emissions order. */
  function ReportPatterns(r: Report): (ps: seq<Pattern>)
    ensures |ps| <= 3
    ensures CpuPattern in ps <==> CpuHigh(r)
    ensures MemoryPattern in ps <==> MemoryHigh(r)
    ensures EmissionsPattern in ps <==> EmissionsHigh(r)
    ensures forall p :: p in ps ==> p == CpuPattern || p == MemoryPattern || p == EmissionsPattern
    ensures forall i, j :: 0 <= i < j < |ps| ==> Rank(ps[i]) < Rank(ps[j])
  {
    (if CpuHigh(r) then [CpuPattern] else [])
    + (if MemoryHigh(r) then [MemoryPattern] else [])
    + (if EmissionsHigh(r) then [EmissionsPattern] else [])
  }

  /** `PatternAnalyzer.analyze`: the patterns of every report, report after
      report. */
  function Analyze(reports: seq<Report>): (ps: seq<Pattern>)
    ensures |ps| <= 3 * |reports|
    ensures reports == [] ==> ps == []
    ensures forall p :: p in ps <==> exists r :: r in reports && p in ReportPatterns(r)
  {
    FlatMapMember(reports, ReportPatterns, CpuPattern);
    forall p ensures p in FlatMap(reports, ReportPatterns) <==> exists r :: r in reports && p in ReportPatterns(r) {
      FlatMapMember(reports, ReportPatterns, p);
    }
    AnalyzeLength(reports);
    FlatMap(reports, ReportPatterns)
  }

  lemma {:induction false} AnalyzeLength(reports: seq<Report>)
    ensures |FlatMap(reports, ReportPatterns)| <= 3 * |reports|
  {
    if reports != [] {
      AnalyzeLength(reports[1..]);
    }
  }

  /** The patterns of a joined report list are those of the first list
      followed by those of the second: report order is kept. */
  lemma AnalyzeAppend(a: seq<Report>, b: seq<Report>)
    ensures Analyze(a + b) == Analyze(a) + Analyze(b)
  {
    FlatMapAppend(a, b, ReportPatterns);
  }

  function KindIs(kind: string): Pattern -> bool {
    (p: Pattern) => p.kind == kind
  }

  /** The reports that give a pattern of the given kind. */
  function Triggers(kind: string): Report -> bool {
    (r: Report) => (kind == CpuPattern.kind && CpuHigh(r))
      || (kind == MemoryPattern.kind && MemoryHigh(r))
      || (kind == EmissionsPattern.kind && EmissionsHigh(r))
  }

  /** Each kind of pattern appears once per report that crosses its
      threshold. */
  lemma AnalyzeCount(reports: seq<Report>, kind: string)
    ensures CountIf(Analyze(reports), KindIs(kind)) == CountIf(reports, Triggers(kind))
  {
    PatternsCount(reports, kind);
  }

  lemma {:induction false} PatternsCount(reports: seq<Report>, kind: string)
    ensures CountIf(FlatMap(reports, ReportPatterns), KindIs(kind)) == CountIf(reports, Triggers(kind))
  {
    if reports != [] {
      PatternsCount(reports[1..], kind);
      var head, tail := ReportPatterns(reports[0]), FlatMap(reports[1..], ReportPatterns);
      assert FlatMap(reports, ReportPatterns) == head + tail;
      CountIfAppend(head, tail, KindIs(kind));
      ReportCount(reports[0], kind);
    }
  }

  lemma ReportCount(r: Report, kind: string)
    ensures CountIf(ReportPatterns(r), KindIs(kind)) == if Triggers(kind)(r) then 1 else 0
  {
    var c := if CpuHigh(r) then [CpuPattern] else [];
    var m := if MemoryHigh(r) then [MemoryPattern] else [];
    var e := if EmissionsHigh(r) then [EmissionsPattern] else [];
    CountIfAppend(c + m, e, KindIs(kind));
    CountIfAppend(c, m, KindIs(kind));
  }

  /** A report without metrics gives nothing, and the thresholds themselves
      are not crossed. */
  lemma QuietReports()
    ensures ReportPatterns(Report(None, None, None)) == []
    ensures ReportPatterns(Report(Some(80.0), Some(90.0), Some(0.1))) == []
  {
  }

  // ---------------------------------------------------------------------
  // Remediation

  /** The hints listed for a pattern type; `None` for a type with none. */
  function Hints(kind: string): (r: Option<seq<string>>)
    ensures r.Some? ==> |r.value| == 3
  {
    if kind == CpuPattern.kind then Some(CpuHints)
    else if kind == MemoryPattern.kind then Some(MemoryHints)
    else if kind == EmissionsPattern.kind then Some(EmissionsHints)
    else None
  }

  const CpuHints := [
    "Optimize loops: Use vectorization or parallel processing.",
    "Reduce computational complexity: Cache results or use more efficient algorithms.",
    "Profile code: Use tools like cProfile to identify bottlenecks."]
  const MemoryHints := [
    "Use generators instead of lists for large data.",
    "Optimize data structures: Switch to more memory-efficient types.",
    "Implement garbage collection hints."]
  const EmissionsHints := [
    "Schedule computations during off-peak hours.",
    "Use energy-efficient hardware or cloud instances.",
    "Optimize code to reduce execution time."]

  function HintsOf(p: Pattern): seq<string> {
    var h := Hints(p.kind);
    if h.Some? then h.value else []
  }

  predicate NoDuplicates<T(==)>(s: seq<T>) {
    forall i, j :: 0 <= i < j < |s| ==> s[i] != s[j]
  }

  /** `list(set(s))`, keeping each value's first occurrence. */
  function Dedupe<T(==,!new)>(s: seq<T>): (r: seq<T>)
    ensures NoDuplicates(r)
    ensures forall x :: x in r <==> x in s
    ensures |r| <= |s|
  {
    if s == [] then []
    else
      var r := Dedupe(s[..|s| - 1]);
      var x := s[|s| - 1];
      assert s == s[..|s| - 1] + [x];
      if x in r then r else r + [x]
  }

  /** `RemediationSuggester.suggest`: each hint of each known pattern type,
      once. */
  function Suggest(patterns: seq<Pattern>): (r: seq<string>)
    ensures NoDuplicates(r)
    ensures forall x :: x in r <==>
      exists p :: p in patterns && Hints(p.kind).Some? && x in Hints(p.kind).value
  {
    forall x ensures x in FlatMap(patterns, HintsOf) <==> exists p :: p in patterns && x in HintsOf(p) {
      FlatMapMember(patterns, HintsOf, x);
    }
    Dedupe(FlatMap(patterns, HintsOf))
  }

  /** A pattern of a type without hints changes nothing, wherever it is. */
  lemma SuggestIgnoresUnknown(a: seq<Pattern>, p: Pattern, b: seq<Pattern>)
    requires Hints(p.kind).None?
    ensures Suggest(a + [p] + b) == Suggest(a + b)
  {
    FlatMapAppend(a + [p], b, HintsOf);
    FlatMapAppend(a, [p], HintsOf);
    FlatMapAppend(a, b, HintsOf);
    assert FlatMap([p], HintsOf) == [];
    assert FlatMap(a, HintsOf) + [] == FlatMap(a, HintsOf);
  }

  predicate KnownPattern(p: Pattern) {
    p == CpuPattern || p == MemoryPattern || p == EmissionsPattern
  }

  /** Among the analyser's own patterns, a pattern's hints are all offered
      exactly when the pattern is present. */
  lemma HintsOfPresent(ps: seq<Pattern>, q: Pattern)
    requires KnownPattern(q) && forall p :: p in ps ==> KnownPattern(p)
    ensures (forall x :: x in HintsOf(q) ==> x in Suggest(ps)) <==> q in ps
  {
    var x := HintsOf(q)[0];
    if x in Suggest(ps) {
      var p :| p in ps && Hints(p.kind).Some? && x in Hints(p.kind).value;
      HintsDisjoint(p, q, x);
    }
  }

  /** No hint is listed under two pattern types. */
  lemma HintsDisjoint(p: Pattern, q: Pattern, x: string)
    requires KnownPattern(p) && KnownPattern(q)
    requires x == HintsOf(q)[0] && x in HintsOf(p)
    ensures p == q
  {
    assert |CpuHints[0]| == 57 && |CpuHints[1]| == 80 && |CpuHints[2]| == 62;
    assert |MemoryHints[0]| == 47 && |MemoryHints[1]| == 64 && |MemoryHints[2]| == 35;
    assert |EmissionsHints[0]| == 44 && |EmissionsHints[1]| == 49 && |EmissionsHints[2]| == 39;
  }

  /** From reports to hints: the CPU hints are offered exactly when some
      report has CPU use above the threshold, and likewise for memory and
      emissions. */
  lemma PipelineHints(reports: seq<Report>)
    ensures (forall x :: x in CpuHints ==> x in Suggest(Analyze(reports))) <==> exists r :: r in reports && CpuHigh(r)
    ensures (forall x :: x in MemoryHints ==> x in Suggest(Analyze(reports))) <==> exists r :: r in reports && MemoryHigh(r)
    ensures (forall x :: x in EmissionsHints ==> x in Suggest(Analyze(reports))) <==> exists r :: r in reports && EmissionsHigh(r)
  {
    var ps := Analyze(reports);
    assert forall p :: p in ps ==> KnownPattern(p);
    HintsOfPresent(ps, CpuPattern);
    HintsOfPresent(ps, MemoryPattern);
    HintsOfPresent(ps, EmissionsPattern);
  }
}

=== FILE: scanner.dfy ===
/** `Scanner`: finds the files of a target, turns each file's detector
    findings into issues through the rule catalogue, drops the issues of
    disabled rules, estimates each file's emissions and spreads the total
    over the issues by severity. The thread pool of the source runs the files
    concurrently; the model folds over them in list order, which gives the
    same totals and, for the issues, one of the orders the pool can produce. */
module Scanner {
  import opened Common
  import opened Issues
  import opened Findings
  import opened PyAst
  import Rules
  import Config
  import Detect
  import Analyzer

  /** `_is_supported_file`: a language scans only its own extension. */
  predicate IsSupportedFile(language: string, path: string) {
    (language == "python" && EndsWith(path, ".py")) || (language == "javascript" && EndsWith(path, ".js"))
  }

  /** `_get_run_command`, with the interpreter's path as a parameter. */
  function RunCommand(language: string, executable: string, path: string): (r: Option<seq<string>>)
    ensures r.Some? <==> language == "python" || language == "javascript"
    ensures r.Some? ==> |r.value| == 2 && r.value[1] == path
  {
    if language == "python" then Some([executable, path])
    else if language == "javascript" then Some(["node", path])
    else None
  }

  /** Every file the scanner accepts has a command that runs it. */
  lemma SupportedRunnable(language: string, executable: string, path: string)
    ensures IsSupportedFile(language, path) ==> RunCommand(language, executable, path).Some?
    ensures !(language == "python" || language == "javascript") ==> !IsSupportedFile(language, path)
  {
  }

  // ---------------------------------------------------------------- files

  /** A file as the scanner meets it: its path, the text a read returns
      (`None` when reading raises), and the Python parse of that text. */
  datatype DiskFile = DiskFile(path: string, content: Option<string>, tree: Option<Node>)

  /** A directory entry: the file, its path relative to the scanned root and
      the components of that relative path. */
  datatype Entry = Entry(file: DiskFile, relative: string, parts: seq<string>)

  /** What `scan` is given: one file, or the files found below a directory. */
  datatype Target = SingleFile(file: DiskFile) | Directory(entries: seq<Entry>)

  /** Some component of the path matches the pattern. */
  predicate AnyPart(parts: seq<string>, pattern: string, matches: (string, string) -> bool) {
    exists q :: q in parts && matches(q, pattern)
  }

  /** The ignore test of `_get_files`, pattern by pattern; `fnmatch` is the
      parameter `matches`. */
  function Ignored(relative: string, parts: seq<string>, patterns: seq<string>, matches: (string, string) -> bool): (r: bool)
    decreases |patterns|
  {
    if patterns == [] then false
    else if matches(relative, patterns[0]) || AnyPart(parts, patterns[0], matches) then true
    else Ignored(relative, parts, patterns[1..], matches)
  }

  /** A path is ignored exactly when some pattern matches the whole relative
      path or one of its components. */
  lemma {:induction false} IgnoredIff(relative: string, parts: seq<string>, patterns: seq<string>, matches: (string, string) -> bool)
    ensures Ignored(relative, parts, patterns, matches) <==>
      exists p :: p in patterns && (matches(relative, p) || AnyPart(parts, p, matches))
  {
    if patterns != [] {
      IgnoredIff(relative, parts, patterns[1..], matches);
      assert forall p :: p in patterns <==> p == patterns[0] || p in patterns[1..];
    }
  }

  /** `_get_files` on a directory: the entries no pattern ignores, in order. */
  function GetFiles(entries: seq<Entry>, patterns: seq<string>, matches: (string, string) -> bool): (r: seq<DiskFile>)
    ensures |r| <= |entries|
    decreases |entries|
  {
    if entries == [] then []
    else
      var e := entries[0];
      (if Ignored(e.relative, e.parts, patterns, matches) then [] else [e.file])
        + GetFiles(entries[1..], patterns, matches)
  }

  /** The kept files are exactly the files of the entries not ignored. */
  lemma {:induction false} GetFilesMembers(entries: seq<Entry>, patterns: seq<string>, matches: (string, string) -> bool)
    ensures forall f :: f in GetFiles(entries, patterns, matches) <==>
      exists e :: e in entries && e.file == f && !Ignored(e.relative, e.parts, patterns, matches)
  {
    if entries != [] {
      GetFilesMembers(entries[1..], patterns, matches);
      assert forall e :: e in entries <==> e == entries[0] || e in entries[1..];
    }
  }

  /** Listing keeps the directory's order: it distributes over concatenation. */
  lemma {:induction false} GetFilesAppend(a: seq<Entry>, b: seq<Entry>, patterns: seq<string>, matches: (string, string) -> bool)
    ensures GetFiles(a + b, patterns, matches) == GetFiles(a, patterns, matches) + GetFiles(b, patterns, matches)
  {
    if a == [] {
      assert a + b == b;
    } else {
      assert (a + b)[0] == a[0] && (a + b)[1..] == a[1..] + b;
      GetFilesAppend(a[1..], b, patterns, matches);
    }
  }

  /** The files `scan` works on: a single file is scanned without the ignore
      test. */
  function Discover(target: Target, patterns: seq<string>, matches: (string, string) -> bool): (r: seq<DiskFile>)
    ensures target.SingleFile? ==> r == [target.file]
  {
    match target
    case SingleFile(f) => [f]
    case Directory(entries) => GetFiles(entries, patterns, matches)
  }

  // -------------------------------------------------------- rule matching

  /** The issue `_scan_python` builds from a violation and its rule; every
      missing rule field takes the source's default. */
  function ToIssue(v: Finding, rule: Rules.Rule, path: string): Issue {
    var id := Or(rule.id, IdText(v.rule));
    Issue(Some(id), Some("green_violation"), Some(Or(rule.severity, "medium")), Some(Message(v.kind, v.arg)),
      Some(path), Some(v.line as int), Some(Or(rule.remediation, "N/A")), Some(Or(rule.effort, "Medium")),
      Some(Or(rule.tags, [])), Some(Or(rule.carbonImpact, 0.000000001)), Some(Or(rule.energyFactor, 1.0)),
      Some(Or(rule.name, id)), None)
  }

  /** What `get_rule` makes of one violation: the issue, no issue when the
      id has no rule in the language's catalogue, or the `KeyError` the
      lookup raises. */
  type Lookup = Finding -> Result<Option<Issue>, Rules.KeyError>

  function CatalogueLookup(c: Rules.Catalogue, language: string, path: string): Lookup {
    (v: Finding) =>
      var rule := Rules.GetRule(c, language, IdText(v.rule));
      if rule.Err? then Err(rule.error)
      else if rule.value.Some? then Ok(Some(ToIssue(v, rule.value.value, path)))
      else Ok(None)
  }

  /** An issue is made exactly for a violation whose id has a rule, and it
      carries that id, the type `green_violation`, the scanned path, the
      violation's line and the rule's severity, `medium` when the rule has
      none. */
  lemma LookupIssue(c: Rules.Catalogue, language: string, path: string, v: Finding)
    ensures CatalogueLookup(c, language, path)(v).Err? <==> Rules.GetRule(c, language, IdText(v.rule)).Err?
    ensures CatalogueLookup(c, language, path)(v).Ok? && CatalogueLookup(c, language, path)(v).value.Some? <==>
      Rules.GetRule(c, language, IdText(v.rule)).Ok? && Rules.GetRule(c, language, IdText(v.rule)).value.Some?
    ensures CatalogueLookup(c, language, path)(v).Ok? && CatalogueLookup(c, language, path)(v).value.Some? ==>
      var x := CatalogueLookup(c, language, path)(v).value.value;
      x.id == Some(IdText(v.rule)) && x.issueType == Some("green_violation") && x.file == Some(path) &&
      x.line == Some(v.line as int) &&
      x.severity == Some(Or(Rules.GetRule(c, language, IdText(v.rule)).value.value.severity, "medium"))
  {
  }

  /** The lookup of `v` raises. */
  predicate Raises(lookup: Lookup, v: Finding) {
    lookup(v).Err?
  }

  /** The lookup of `v` gives the issue `x`. */
  predicate Gives(lookup: Lookup, v: Finding, x: Issue) {
    lookup(v) == Ok(Some(x))
  }

  /** The loop of `_scan_python`: the issues of the violations whose id has a
      rule, in order; a `KeyError` ends the loop, keeping the issues built
      before it, and is returned beside them. */
  function Resolve(vs: seq<Finding>, lookup: Lookup): (r: (seq<Issue>, Option<Rules.KeyError>))
    ensures |r.0| <= |vs|
    decreases |vs|
  {
    if vs == [] then ([], None)
    else
      var head := lookup(vs[0]);
      if head.Err? then ([], Some(head.error))
      else
        var rest := Resolve(vs[1..], lookup);
        ((if head.value.Some? then [head.value.value] else []) + rest.0, rest.1)
  }

  /** The loop raises exactly when some lookup raises; every issue comes from
      a violation; and when nothing raises, every violation with a rule
      gives its issue. */
  lemma {:induction false} ResolveMembers(vs: seq<Finding>, lookup: Lookup)
    ensures Resolve(vs, lookup).1.None? <==> forall k :: 0 <= k < |vs| ==> !Raises(lookup, vs[k])
    ensures forall x :: x in Resolve(vs, lookup).0 ==> exists v :: v in vs && Gives(lookup, v, x)
    ensures Resolve(vs, lookup).1.None? ==> forall v, x :: v in vs && Gives(lookup, v, x) ==> x in Resolve(vs, lookup).0
    decreases |vs|
  {
    if vs != [] && !Raises(lookup, vs[0]) {
      ResolveMembers(vs[1..], lookup);
      assert forall k :: 1 <= k < |vs| ==> vs[k] == vs[1..][k - 1];
      assert forall w :: w in vs <==> w == vs[0] || w in vs[1..];
      var rest := Resolve(vs[1..], lookup);
      var head := if lookup(vs[0]).value.Some? then [lookup(vs[0]).value.value] else [];
      assert Resolve(vs, lookup) == (head + rest.0, rest.1);
      forall x | x in Resolve(vs, lookup).0 ensures exists v :: v in vs && Gives(lookup, v, x) {
        if x in head {
          assert Gives(lookup, vs[0], x);
        } else {
          assert x in rest.0;
        }
      }
      if rest.1.None? {
        forall v, x | v in vs && Gives(lookup, v, x) ensures x in Resolve(vs, lookup).0 {
          if v == vs[0] {
            assert x in head;
          } else {
            assert v in vs[1..];
          }
        }
      }
    }
  }

  /** Resolution keeps the violations' order: when the first part raises
      nothing, the issues of the whole are those of the parts, in order. */
  lemma {:induction false} ResolveAppend(a: seq<Finding>, b: seq<Finding>, lookup: Lookup)
    requires Resolve(a, lookup).1.None?
    ensures Resolve(a + b, lookup) == (Resolve(a, lookup).0 + Resolve(b, lookup).0, Resolve(b, lookup).1)
  {
    var rb := Resolve(b, lookup);
    if a == [] {
      assert a + b == b;
      assert [] + rb.0 == rb.0 && rb == (rb.0, rb.1);
    } else {
      assert (a + b)[0] == a[0] && (a + b)[1..] == a[1..] + b;
      ResolveAppend(a[1..], b, lookup);
      var ra1 := Resolve(a[1..], lookup);
      var head := if lookup(a[0]).value.Some? then [lookup(a[0]).value.value] else [];
      assert head + (ra1.0 + rb.0) == (head + ra1.0) + rb.0;
    }
  }

  /** A `KeyError` in the first part ends the loop there: what follows is
      never looked at. */
  lemma {:induction false} ResolveStops(a: seq<Finding>, b: seq<Finding>, lookup: Lookup)
    requires Resolve(a, lookup).1.Some?
    ensures Resolve(a + b, lookup) == Resolve(a, lookup)
  {
    assert (a + b)[0] == a[0] && (a + b)[1..] == a[1..] + b;
    if !Raises(lookup, a[0]) {
      ResolveStops(a[1..], b, lookup);
    }
  }

  /** Python's message for a `KeyError`: the key between quotes. */
  function KeyErrorText(e: Rules.KeyError): string {
    "'" + e.key + "'"
  }

  /** The language's name in the scanner's error messages. */
  function LanguageName(language: string): string {
    if language == "python" then "Python" else "JavaScript"
  }

  /** The `parse_error` record the language scanners append when their loop
      raises. */
  function ParseError(language: string, e: Rules.KeyError, path: string): (r: Issue)
    ensures r.issueType == Some("error") && r.id == Some("parse_error") && r.file == Some(path)
  {
    ErrorIssue("parse_error", "medium", "Failed to parse " + LanguageName(language) + " file: " + KeyErrorText(e), path,
      "Check file content and format.", ["error"])
  }

  /** `_scan_python`, and `_scan_javascript` as it was evidently meant, on
      the violations `detect_violations` returned: the resolved issues, then
      a `parse_error` record if the loop raised. */
  function ScanLanguage(vs: seq<Finding>, c: Rules.Catalogue, language: string, path: string): (r: seq<Issue>)
  {
    var res := Resolve(vs, CatalogueLookup(c, language, path));
    if res.1.Some? then res.0 + [ParseError(language, res.1.value, path)] else res.0
  }

  /** When no rule lookup raises, a file's issues are the issues of its
      violations that have a rule, and nothing else. */
  lemma ScanLanguageIssues(vs: seq<Finding>, c: Rules.Catalogue, language: string, path: string)
    requires forall k :: 0 <= k < |vs| ==> !Raises(CatalogueLookup(c, language, path), vs[k])
    ensures forall x :: x in ScanLanguage(vs, c, language, path) <==>
      exists v :: v in vs && Gives(CatalogueLookup(c, language, path), v, x)
  {
    ResolveMembers(vs, CatalogueLookup(c, language, path));
  }

  /** A `KeyError` leaves the issues found before it and adds one
      `parse_error` record at the end. */
  lemma ScanLanguageRaises(vs: seq<Finding>, c: Rules.Catalogue, language: string, path: string, k: nat)
    requires k < |vs| && Raises(CatalogueLookup(c, language, path), vs[k])
    ensures |ScanLanguage(vs, c, language, path)| > 0
    ensures ScanLanguage(vs, c, language, path)[|ScanLanguage(vs, c, language, path)| - 1].id == Some("parse_error")
  {
    ResolveMembers(vs, CatalogueLookup(c, language, path));
  }

  /** Every issue of a scanned file names that file. */
  lemma ScanLanguagePath(vs: seq<Finding>, c: Rules.Catalogue, language: string, path: string)
    ensures forall x :: x in ScanLanguage(vs, c, language, path) ==> x.file == Some(path)
  {
    var lookup := CatalogueLookup(c, language, path);
    ResolveMembers(vs, lookup);
    forall x | x in Resolve(vs, lookup).0 ensures x.file == Some(path) {
      var v :| v in vs && Gives(lookup, v, x);
      LookupIssue(c, language, path, v);
    }
  }

  // -------------------------------------------------------- config filter

  /** An issue survives `_filter_issues_by_config`: issues that are not
      green violations always do, green violations when their rule is
      enabled. An issue without an id asks `is_rule_enabled(None)`, which is
      false only when `rules.disabled` holds a null. */
  predicate Kept(cfg: seq<Config.Entry>, i: Issue)
    requires Config.RulesLists(cfg)
  {
    i.issueType != Some("green_violation") ||
    (if i.id.None? then Config.VNone !in Config.Disabled(cfg) else Config.IsRuleEnabled(cfg, i.id.value))
  }

  /** `_filter_issues_by_config`. */
  function FilterByConfig(cfg: seq<Config.Entry>, issues: seq<Issue>): (r: seq<Issue>)
    requires Config.RulesLists(cfg)
    ensures |r| <= |issues|
    ensures forall x :: x in r <==> x in issues && Kept(cfg, x)
    decreases |issues|
  {
    if issues == [] then []
    else
      assert forall x :: x in issues <==> x == issues[0] || x in issues[1..];
      (if Kept(cfg, issues[0]) then [issues[0]] else []) + FilterByConfig(cfg, issues[1..])
  }

  /** The filter keeps the issues' order: it distributes over concatenation. */
  lemma {:induction false} FilterByConfigAppend(cfg: seq<Config.Entry>, a: seq<Issue>, b: seq<Issue>)
    requires Config.RulesLists(cfg)
    ensures FilterByConfig(cfg, a + b) == FilterByConfig(cfg, a) + FilterByConfig(cfg, b)
  {
    if a == [] {
      assert a + b == b;
    } else {
      assert (a + b)[0] == a[0] && (a + b)[1..] == a[1..] + b;
      FilterByConfigAppend(cfg, a[1..], b);
    }
  }

  /** Error records are never filtered, and a violation of a disabled rule
      always is. */
  lemma FilterByConfigKinds(cfg: seq<Config.Entry>, issues: seq<Issue>, x: Issue)
    requires Config.RulesLists(cfg) && x in issues
    ensures x.issueType == Some("error") ==> x in FilterByConfig(cfg, issues)
    ensures x.issueType == Some("green_violation") && x.id.Some? && Config.VStr(x.id.value) in Config.Disabled(cfg) ==>
      x !in FilterByConfig(cfg, issues)
  {
  }

  // ----------------------------------------------------------- _scan_file

  /** The `scan_error` record `_scan_file` appends when scanning raises. */
  function ScanError(message: string, path: string): (r: Issue)
    ensures r.issueType == Some("error") && r.id == Some("scan_error") && r.severity == Some("low")
  {
    ErrorIssue("scan_error", "low", "Failed to scan file: " + message, path, "Check file format and encoding.", ["error"])
  }

  /** The `TypeError` `issues.extend(None)` raises. */
  const NoneNotIterable: string := "'NoneType' object is not iterable"

  /** `_scan_file` as written, on the violations `detect_violations`
      returned for the file: `_scan_javascript` ends without a `return`, so
      extending the list with its result raises and a JavaScript file yields
      a `scan_error` record instead of its issues. */
  function ScanFileAsWritten(language: string, c: Rules.Catalogue, cfg: seq<Config.Entry>, path: string, vs: seq<Finding>): (r: seq<Issue>)
    requires Config.RulesLists(cfg)
    ensures forall x :: x in r ==> Kept(cfg, x) && x.file == Some(path)
    ensures language != "python" && language != "javascript" ==> r == []
  {
    ScanLanguagePath(vs, c, language, path);
    var raw :=
      if language == "python" then ScanLanguage(vs, c, language, path)
      else if language == "javascript" then [ScanError(NoneNotIterable, path)]
      else [];
    FilterByConfig(cfg, raw)
  }

  /** Whatever the JavaScript file holds and whatever the catalogue says, the
      written scanner reports one `scan_error` for it and nothing else. */
  lemma JavaScriptScanAlwaysFails(c: Rules.Catalogue, cfg: seq<Config.Entry>, path: string, vs: seq<Finding>)
    requires Config.RulesLists(cfg)
    ensures ScanFileAsWritten("javascript", c, cfg, path, vs) == [ScanError(NoneNotIterable, path)]
  {
    var e := ScanError(NoneNotIterable, path);
    assert Kept(cfg, e);
    assert FilterByConfig(cfg, [e]) == [e] + FilterByConfig(cfg, []);
  }

  /** `_scan_file` with `_scan_javascript` returning its issues, as it was
      evidently meant to. */
  function ScanIntended(language: string, c: Rules.Catalogue, cfg: seq<Config.Entry>, path: string, vs: seq<Finding>): (r: seq<Issue>)
    requires Config.RulesLists(cfg)
    ensures forall x :: x in r ==> Kept(cfg, x) && x.file == Some(path)
    ensures language != "python" && language != "javascript" ==> r == []
  {
    ScanLanguagePath(vs, c, language, path);
    var raw :=
      if language == "python" || language == "javascript" then ScanLanguage(vs, c, language, path)
      else [];
    FilterByConfig(cfg, raw)
  }

  /** The corrected scanner reports a JavaScript file's enabled violations:
      each violation whose rule exists and is enabled gives its issue. */
  lemma ScanFileJavaScript(c: Rules.Catalogue, cfg: seq<Config.Entry>, path: string, vs: seq<Finding>, v: Finding, x: Issue)
    requires Config.RulesLists(cfg)
    requires forall k :: 0 <= k < |vs| ==> !Raises(CatalogueLookup(c, "javascript", path), vs[k])
    requires v in vs && Gives(CatalogueLookup(c, "javascript", path), v, x) && Config.IsRuleEnabled(cfg, IdText(v.rule))
    ensures x in ScanIntended("javascript", c, cfg, path, vs)
  {
    ScanLanguageIssues(vs, c, "javascript", path);
    LookupIssue(c, "javascript", path, v);
  }

  // ------------------------------------------------------------- per file

  /** Why a file drops out of the scan: reading it raised, or its analysis
      did. */
  datatype FileFailure = Unreadable | AnalysisFailed(error: Analyzer.AnalysisError)

  datatype FileResult = FileResult(issues: seq<Issue>, emissions: real)

  /** Which `_scan_javascript` runs: the repository's, which returns
      nothing, or the one returning its issues. */
  datatype Build = AsWritten | Intended

  /** `_scan_file` in the chosen build. */
  function ScanFile(build: Build, language: string, c: Rules.Catalogue, cfg: seq<Config.Entry>, path: string, vs: seq<Finding>): (r: seq<Issue>)
    requires Config.RulesLists(cfg)
    ensures forall x :: x in r ==> Kept(cfg, x) && x.file == Some(path)
  {
    if build.AsWritten? then ScanFileAsWritten(language, c, cfg, path, vs) else ScanIntended(language, c, cfg, path, vs)
  }

  /** The violation finder `_scan_file` runs on a file's parse, text and
      language; the scanner's is `Detect.DetectViolations`. */
  type Detector = (Option<Node>, string, string) -> seq<Finding>

  /** `_scan_and_analyze_file`: read, scan, then analyse with a fresh
      analyzer, whose coefficient is 1.0. */
  function ScanAndAnalyze(build: Build, language: string, c: Rules.Catalogue, cfg: seq<Config.Entry>, detect: Detector, f: DiskFile): (r: Result<FileResult, FileFailure>)
    requires Config.RulesLists(cfg)
    ensures r.Err? <==> f.content.None? || Analyzer.AnalyzeFile(f.content.value, f.tree).Err?
    ensures r.Ok? ==> r.value.emissions >= Analyzer.EmissionFloor
    ensures r.Ok? ==> forall x :: x in r.value.issues ==> x.file == Some(f.path)
  {
    if f.content.None? then Err(Unreadable)
    else
      var vs := detect(f.tree, f.content.value, language);
      var issues := ScanFile(build, language, c, cfg, f.path, vs);
      var m := Analyzer.AnalyzeFile(f.content.value, f.tree);
      if m.Err? then Err(AnalysisFailed(m.error))
      else Ok(FileResult(issues, Analyzer.Emissions(m.value, 1.0)))
  }

  // ----------------------------------------------------------------- scan

  /** What the scan has gathered so far. */
  datatype Gathered = Gathered(issues: seq<Issue>, total: real, perFile: map<string, real>)

  const Nothing := Gathered([], 0.0, map[])

  /** The outcome of one file is counted only when the file is supported and
      the outcome is a success. */
  predicate Completes(f: DiskFile, supported: DiskFile -> bool, outcome: DiskFile -> Result<FileResult, FileFailure>) {
    supported(f) && outcome(f).Ok?
  }

  /** Adding one finished future's result. */
  function Step(g: Gathered, f: DiskFile, supported: DiskFile -> bool, outcome: DiskFile -> Result<FileResult, FileFailure>): Gathered {
    if Completes(f, supported, outcome) then
      var o := outcome(f).value;
      Gathered(g.issues + o.issues, g.total + o.emissions, g.perFile[f.path := o.emissions])
    else g
  }

  /** The collection loop of `scan`, file by file. */
  function GatherFrom(g: Gathered, files: seq<DiskFile>, supported: DiskFile -> bool, outcome: DiskFile -> Result<FileResult, FileFailure>): Gathered
    decreases |files|
  {
    if files == [] then g else GatherFrom(Step(g, files[0], supported, outcome), files[1..], supported, outcome)
  }

  /** The emissions of the completing files, in order. */
  function CompletedEmissions(files: seq<DiskFile>, supported: DiskFile -> bool, outcome: DiskFile -> Result<FileResult, FileFailure>): (r: seq<real>)
    ensures |r| <= |files|
    ensures |r| == CountIf(files, f => Completes(f, supported, outcome))
  {
    if files == [] then []
    else
      (if Completes(files[0], supported, outcome) then [outcome(files[0]).value.emissions] else [])
        + CompletedEmissions(files[1..], supported, outcome)
  }

  /** Gathering distributes over concatenation of the file list. */
  lemma {:induction false} GatherAppend(g: Gathered, a: seq<DiskFile>, b: seq<DiskFile>, supported: DiskFile -> bool, outcome: DiskFile -> Result<FileResult, FileFailure>)
    ensures GatherFrom(g, a + b, supported, outcome) == GatherFrom(GatherFrom(g, a, supported, outcome), b, supported, outcome)
    decreases |a|
  {
    if a == [] {
      assert a + b == b;
    } else {
      assert (a + b)[0] == a[0] && (a + b)[1..] == a[1..] + b;
      GatherAppend(Step(g, a[0], supported, outcome), a[1..], b, supported, outcome);
    }
  }

  /** A file that is unsupported or fails leaves the scan as if it were not
      there: its exception is swallowed and the other files go on. */
  lemma DroppedFile(g: Gathered, a: seq<DiskFile>, f: DiskFile, b: seq<DiskFile>, supported: DiskFile -> bool, outcome: DiskFile -> Result<FileResult, FileFailure>)
    requires !Completes(f, supported, outcome)
    ensures GatherFrom(g, a + [f] + b, supported, outcome) == GatherFrom(g, a + b, supported, outcome)
  {
    GatherAppend(g, a + [f], b, supported, outcome);
    GatherAppend(g, a, [f], supported, outcome);
    GatherAppend(g, a, b, supported, outcome);
    var h := GatherFrom(g, a, supported, outcome);
    assert GatherFrom(h, [f], supported, outcome) == GatherFrom(Step(h, f, supported, outcome), [], supported, outcome);
  }

  /** The codebase total is the sum of the completed files' emissions. */
  lemma {:induction false} GatherTotal(g: Gathered, files: seq<DiskFile>, supported: DiskFile -> bool, outcome: DiskFile -> Result<FileResult, FileFailure>)
    ensures GatherFrom(g, files, supported, outcome).total == g.total + SumReals(CompletedEmissions(files, supported, outcome))
    decreases |files|
  {
    if files != [] {
      var f := files[0];
      var h := Step(g, f, supported, outcome);
      GatherTotal(h, files[1..], supported, outcome);
      assert GatherFrom(g, files, supported, outcome) == GatherFrom(h, files[1..], supported, outcome);
      var rest := CompletedEmissions(files[1..], supported, outcome);
      if Completes(f, supported, outcome) {
        var e := outcome(f).value.emissions;
        SumRealsAppend([e], rest);
        assert CompletedEmissions(files, supported, outcome) == [e] + rest;
        assert SumReals([e]) == e + SumReals([]);
        assert h.total == g.total + e;
      } else {
        assert CompletedEmissions(files, supported, outcome) == rest;
        assert h == g;
      }
    }
  }

  /** The recorded paths are exactly those of the completed files. */
  lemma {:induction false} GatherKeys(g: Gathered, files: seq<DiskFile>, supported: DiskFile -> bool, outcome: DiskFile -> Result<FileResult, FileFailure>)
    ensures forall p :: p in GatherFrom(g, files, supported, outcome).perFile <==>
      p in g.perFile || exists k :: 0 <= k < |files| && Completes(files[k], supported, outcome) && files[k].path == p
    decreases |files|
  {
    if files != [] {
      var f := files[0];
      var h := Step(g, f, supported, outcome);
      GatherKeys(h, files[1..], supported, outcome);
      assert GatherFrom(g, files, supported, outcome) == GatherFrom(h, files[1..], supported, outcome);
      forall p
        ensures p in GatherFrom(g, files, supported, outcome).perFile <==>
          p in g.perFile || exists k :: 0 <= k < |files| && Completes(files[k], supported, outcome) && files[k].path == p
      {
        if exists k :: 0 <= k < |files| && Completes(files[k], supported, outcome) && files[k].path == p {
          var k :| 0 <= k < |files| && Completes(files[k], supported, outcome) && files[k].path == p;
          if k > 0 {
            assert files[1..][k - 1] == files[k];
          }
        }
        if p in h.perFile && p !in g.perFile {
          assert Completes(f, supported, outcome) && f.path == p;
        }
        if exists k :: 0 <= k < |files[1..]| && Completes(files[1..][k], supported, outcome) && files[1..][k].path == p {
          var k :| 0 <= k < |files[1..]| && Completes(files[1..][k], supported, outcome) && files[1..][k].path == p;
          assert files[k + 1] == files[1..][k];
        }
      }
    }
  }

  /** When every completing file contributes exactly one issue satisfying
      `P`, the gathered issues are the earlier ones followed by one such
      issue per completed file. */
  lemma {:induction false} GatherSingles(g: Gathered, files: seq<DiskFile>, supported: DiskFile -> bool,
                                         outcome: DiskFile -> Result<FileResult, FileFailure>, P: Issue -> bool)
    requires forall f :: Completes(f, supported, outcome) ==> |outcome(f).value.issues| == 1 && P(outcome(f).value.issues[0])
    ensures var r := GatherFrom(g, files, supported, outcome).issues;
      && |r| == |g.issues| + |CompletedEmissions(files, supported, outcome)|
      && r[..|g.issues|] == g.issues
      && forall i :: |g.issues| <= i < |r| ==> P(r[i])
    decreases |files|
  {
    if files != [] {
      var f := files[0];
      var h := Step(g, f, supported, outcome);
      GatherSingles(h, files[1..], supported, outcome, P);
      assert GatherFrom(g, files, supported, outcome) == GatherFrom(h, files[1..], supported, outcome);
      var r := GatherFrom(h, files[1..], supported, outcome).issues;
      if Completes(f, supported, outcome) {
        assert h.issues == g.issues + outcome(f).value.issues;
        assert CompletedEmissions(files, supported, outcome) ==
          [outcome(f).value.emissions] + CompletedEmissions(files[1..], supported, outcome);
        assert r[..|h.issues|][..|g.issues|] == r[..|g.issues|];
        assert P(r[|g.issues|]) by {
          assert r[|g.issues|] == r[..|h.issues|][|g.issues|] == h.issues[|g.issues|];
        }
      } else {
        assert CompletedEmissions(files, supported, outcome) == CompletedEmissions(files[1..], supported, outcome);
      }
    }
  }

  /** Paths are pairwise distinct, as in any directory listing. */
  predicate DistinctPaths(files: seq<DiskFile>) {
    forall i, j :: 0 <= i < j < |files| ==> files[i].path != files[j].path
  }

  /** With distinct paths every completed file's entry is its own
      estimate. */
  lemma {:induction false} GatherStored(g: Gathered, files: seq<DiskFile>, supported: DiskFile -> bool, outcome: DiskFile -> Result<FileResult, FileFailure>, k: nat)
    requires DistinctPaths(files) && k < |files| && Completes(files[k], supported, outcome)
    ensures files[k].path in GatherFrom(g, files, supported, outcome).perFile
    ensures GatherFrom(g, files, supported, outcome).perFile[files[k].path] == outcome(files[k]).value.emissions
    decreases |files|
  {
    var h := Step(g, files[0], supported, outcome);
    if k == 0 {
      GatherUntouched(h, files[1..], supported, outcome, files[0].path);
    } else {
      assert files[1..][k - 1] == files[k];
      assert DistinctPaths(files[1..]) by {
        forall i, j | 0 <= i < j < |files[1..]| ensures files[1..][i].path != files[1..][j].path {
          assert files[1..][i] == files[i + 1] && files[1..][j] == files[j + 1];
        }
      }
      GatherStored(h, files[1..], supported, outcome, k - 1);
    }
  }

  /** A path none of the files carries keeps its recorded value. */
  lemma {:induction false} GatherUntouched(g: Gathered, files: seq<DiskFile>, supported: DiskFile -> bool, outcome: DiskFile -> Result<FileResult, FileFailure>, p: string)
    requires p in g.perFile && forall i :: 0 <= i < |files| ==> files[i].path != p
    ensures p in GatherFrom(g, files, supported, outcome).perFile
    ensures GatherFrom(g, files, supported, outcome).perFile[p] == g.perFile[p]
    decreases |files|
  {
    if files != [] {
      assert forall i :: 0 <= i < |files[1..]| ==> files[1..][i] == files[i + 1];
      GatherUntouched(Step(g, files[0], supported, outcome), files[1..], supported, outcome, p);
    }
  }

  /** The progress values `scan` reports: 10 before the files, one value per
      completed file, then 95 and 100. */
  function Progress(total: nat, completed: nat): (r: seq<int>)
    requires 0 < total && completed <= total
  {
    [10] + Ticks(total, 1, completed) + [95, 100]
  }

  /** `10 + int((processed / total) * 80)` for processed = from .. upto. */
  function Ticks(total: nat, from: nat, upto: nat): (r: seq<int>)
    requires 0 < total && upto <= total
    ensures |r| == if from <= upto then upto - from + 1 else 0
    decreases upto + 1 - from
  {
    if upto < from then [] else [10 + (from * 80) / total] + Ticks(total, from + 1, upto)
  }

  lemma DivMonotone(a: nat, b: nat, n: nat)
    requires a <= b && 0 < n
    ensures a / n <= b / n
  {
    var qa, qb := a / n, b / n;
    if qa > qb {
      MulMonotoneNat(n, qb + 1, qa);
      assert false;
    }
  }

  lemma MulMonotoneNat(n: nat, a: nat, b: nat)
    requires a <= b
    ensures n * a <= n * b
  {
  }

  /** One tick's share of the 80 points stays within 0 .. 80. */
  lemma TickBound(k: nat, total: nat)
    requires 0 < total && k <= total
    ensures 0 <= (k * 80) / total <= 80
  {
    DivMonotone(k * 80, total * 80, total);
    DivMultiple(total, 80);
  }

  lemma DivMultiple(n: nat, m: nat)
    requires 0 < n
    ensures (n * m) / n == m
  {
    var q := (n * m) / n;
    assert n * m == n * q + (n * m) % n;
    if q > m {
      MulMonotoneNat(n, m + 1, q);
      assert false;
    }
    if q < m {
      MulMonotoneNat(n, q + 1, m);
      assert false;
    }
  }

  /** Each tick is 10 plus its share of 80, and so lies within 10 .. 90. */
  lemma {:induction false} TicksBounds(total: nat, from: nat, upto: nat)
    requires 0 < total && upto <= total
    ensures forall i :: 0 <= i < |Ticks(total, from, upto)| ==>
      Ticks(total, from, upto)[i] == 10 + ((from + i) * 80) / total
    ensures forall i :: 0 <= i < |Ticks(total, from, upto)| ==> 10 <= Ticks(total, from, upto)[i] <= 90
    decreases upto + 1 - from
  {
    if from <= upto {
      var r := Ticks(total, from, upto);
      var rest := Ticks(total, from + 1, upto);
      TicksBounds(total, from + 1, upto);
      assert r == [10 + (from * 80) / total] + rest;
      forall i | 0 <= i < |r| ensures r[i] == 10 + ((from + i) * 80) / total {
        if i > 0 {
          assert r[i] == rest[i - 1];
        }
      }
      forall i | 0 <= i < |r| ensures 10 <= r[i] <= 90 {
        TickBound(from + i, total);
      }
    }
  }

  /** The reported progress never goes backwards, starts at 10, ends at 100
      and stays within 10 .. 100. */
  lemma ProgressMonotone(total: nat, completed: nat)
    requires 0 < total && completed <= total
    ensures |Progress(total, completed)| == completed + 3
    ensures Progress(total, completed)[0] == 10 && Progress(total, completed)[completed + 2] == 100
    ensures forall i, j :: 0 <= i <= j < |Progress(total, completed)| ==>
      10 <= Progress(total, completed)[i] <= Progress(total, completed)[j] <= 100
  {
    var r := Progress(total, completed);
    var t := Ticks(total, 1, completed);
    TicksBounds(total, 1, completed);
    assert forall i :: 1 <= i <= completed ==> r[i] == t[i - 1];
    forall i, j | 0 <= i <= j < |r| ensures 10 <= r[i] <= r[j] <= 100 {
      if 1 <= i && j <= completed {
        DivMonotone(i * 80, j * 80, total);
      }
    }
  }

  /** What `scan` returns, with the progress values it reported. */
  datatype ScanResult = ScanResult(
    issues: seq<Issue>, codebaseEmissions: real, perFile: map<string, real>, totalFiles: nat, progress: seq<int>)

  /** The files the pool is given: those `_is_supported_file` accepts. */
  function Supported(language: string): DiskFile -> bool {
    (f: DiskFile) => IsSupportedFile(language, f.path)
  }

  /** The future of one file. */
  function Outcome(build: Build, language: string, c: Rules.Catalogue, cfg: seq<Config.Entry>, detect: Detector): DiskFile -> Result<FileResult, FileFailure>
    requires Config.RulesLists(cfg)
  {
    (f: DiskFile) => ScanAndAnalyze(build, language, c, cfg, detect, f)
  }

  /** The body of `scan` once the files are known: gather the supported
      ones that complete, then spread the total over the issues. An empty
      file list returns at once with nothing reported. */
  function Assemble(files: seq<DiskFile>, supported: DiskFile -> bool, outcome: DiskFile -> Result<FileResult, FileFailure>): (r: ScanResult)
    ensures r.totalFiles == |files|
    ensures files == [] ==> r == ScanResult([], 0.0, map[], 0, [])
  {
    if files == [] then ScanResult([], 0.0, map[], 0, [])
    else
      var g := GatherFrom(Nothing, files, supported, outcome);
      var done := CompletedEmissions(files, supported, outcome);
      ScanResult(Analyzer.PerLineEmissions(g.issues, g.total), g.total, g.perFile, |files|, Progress(|files|, |done|))
  }

  /** The codebase total is the sum of the emissions of the supported files
      that completed; `per_file` holds exactly their paths; the issues carry
      shares of the total that add up to it; and the progress values, one per
      completed file between 10 and 95, 100, never go backwards. */
  lemma AssembleTotals(files: seq<DiskFile>, supported: DiskFile -> bool, outcome: DiskFile -> Result<FileResult, FileFailure>)
    ensures var r := Assemble(files, supported, outcome);
      var done := CompletedEmissions(files, supported, outcome);
      && r.codebaseEmissions == SumReals(done)
      && (forall p :: p in r.perFile <==>
            exists k :: 0 <= k < |files| && Completes(files[k], supported, outcome) && files[k].path == p)
      && (r.issues != [] ==> SumReals(Analyzer.EmissionsOf(r.issues)) == r.codebaseEmissions)
      && (files != [] ==> |r.progress| == |done| + 3 && r.progress[0] == 10 && r.progress[|done| + 2] == 100)
      && (forall i, j :: 0 <= i <= j < |r.progress| ==> 10 <= r.progress[i] <= r.progress[j] <= 100)
  {
    if files != [] {
      GatherTotal(Nothing, files, supported, outcome);
      GatherKeys(Nothing, files, supported, outcome);
      var g := GatherFrom(Nothing, files, supported, outcome);
      if g.issues != [] {
        Analyzer.PerLineEmissionsSum(g.issues, g.total);
      }
      ProgressMonotone(|files|, |CompletedEmissions(files, supported, outcome)|);
    }
  }

  /** `scan`: discover the files and assemble the result. */
  function Scan(build: Build, language: string, c: Rules.Catalogue, cfg: seq<Config.Entry>, detect: Detector, target: Target,
                patterns: seq<string>, matches: (string, string) -> bool): (r: ScanResult)
    requires Config.RulesLists(cfg)
    ensures r.totalFiles == |Discover(target, patterns, matches)|
    ensures r.totalFiles == 0 ==> r == ScanResult([], 0.0, map[], 0, [])
  {
    Assemble(Discover(target, patterns, matches), Supported(language), Outcome(build, language, c, cfg, detect))
  }

  /** The scan with the repository's detectors. */
  function ScanWithDetectors(build: Build, language: string, c: Rules.Catalogue, cfg: seq<Config.Entry>, target: Target,
                             patterns: seq<string>, matches: (string, string) -> bool): ScanResult
    requires Config.RulesLists(cfg)
  {
    Scan(build, language, c, cfg, Detect.DetectViolations, target, patterns, matches)
  }

  /** With distinct paths, each completed file's `per_file` entry is its own
      estimate, at least the analyzer's floor. */
  lemma ScanPerFile(build: Build, language: string, c: Rules.Catalogue, cfg: seq<Config.Entry>, detect: Detector, target: Target,
                    patterns: seq<string>, matches: (string, string) -> bool, k: nat)
    requires Config.RulesLists(cfg)
    requires DistinctPaths(Discover(target, patterns, matches)) && k < |Discover(target, patterns, matches)|
    requires Completes(Discover(target, patterns, matches)[k], Supported(language), Outcome(build, language, c, cfg, detect))
    ensures var f := Discover(target, patterns, matches)[k];
      var r := Scan(build, language, c, cfg, detect, target, patterns, matches);
      && f.path in r.perFile
      && r.perFile[f.path] == ScanAndAnalyze(build, language, c, cfg, detect, f).value.emissions
      && r.perFile[f.path] >= Analyzer.EmissionFloor
  {
    var files := Discover(target, patterns, matches);
    GatherStored(Nothing, files, Supported(language), Outcome(build, language, c, cfg, detect), k);
    assert Scan(build, language, c, cfg, detect, target, patterns, matches) ==
      Assemble(files, Supported(language), Outcome(build, language, c, cfg, detect));
  }

  /** The error record every JavaScript file becomes in the written scan. */
  predicate IsScanError(x: Issue) {
    x.id == Some("scan_error") && x.issueType == Some("error")
  }

  /** When every completing file contributes exactly one `scan_error`
      record, the scan reports one such record per completed file and
      nothing else. */
  lemma AssembleScanErrors(files: seq<DiskFile>, supported: DiskFile -> bool,
                           outcome: DiskFile -> Result<FileResult, FileFailure>)
    requires forall f :: Completes(f, supported, outcome) ==>
      |outcome(f).value.issues| == 1 && IsScanError(outcome(f).value.issues[0])
    ensures var r := Assemble(files, supported, outcome);
      && |r.issues| == |CompletedEmissions(files, supported, outcome)|
      && forall x :: x in r.issues ==> IsScanError(x)
  {
    if files != [] {
      GatherSingles(Nothing, files, supported, outcome, IsScanError);
      var g := GatherFrom(Nothing, files, supported, outcome);
      var r := Analyzer.PerLineEmissions(g.issues, g.total);
      assert Assemble(files, supported, outcome).issues == r;
      forall x | x in r ensures IsScanError(x) {
        var k :| 0 <= k < |r| && r[k] == x;
        assert IsScanError(g.issues[k]);
        assert x == g.issues[k].(emissions := x.emissions);
      }
    }
  }

  /** The written scan of a JavaScript project reports no violation at all:
      each supported file that completes contributes exactly one
      `scan_error` record and nothing else. */
  lemma JavaScriptScanOnlyErrors(c: Rules.Catalogue, cfg: seq<Config.Entry>, detect: Detector, target: Target,
                                 patterns: seq<string>, matches: (string, string) -> bool)
    requires Config.RulesLists(cfg)
    ensures var files := Discover(target, patterns, matches);
      var r := Scan(AsWritten, "javascript", c, cfg, detect, target, patterns, matches);
      && |r.issues| == |CompletedEmissions(files, Supported("javascript"), Outcome(AsWritten, "javascript", c, cfg, detect))|
      && forall x :: x in r.issues ==> IsScanError(x)
  {
    var supported, outcome := Supported("javascript"), Outcome(AsWritten, "javascript", c, cfg, detect);
    forall f | Completes(f, supported, outcome)
      ensures |outcome(f).value.issues| == 1 && IsScanError(outcome(f).value.issues[0])
    {
      var vs := detect(f.tree, f.content.value, "javascript");
      JavaScriptScanAlwaysFails(c, cfg, f.path, vs);
      assert outcome(f).value.issues == ScanFileAsWritten("javascript", c, cfg, f.path, vs);
    }
    AssembleScanErrors(Discover(target, patterns, matches), supported, outcome);
  }
}

=== FILE: sorting.dfy ===
/** Python's `sorted` / `list.sort` with a key: a stable sort. The model sorts
    by insertion with an ordering relation `le` ("a may come before b"); a
    descending sort (`reverse=True`) is the same sort with the relation
    flipped, which Python also keeps stable. */
module Sorting {

  ghost predicate TotalPreorder<T(!new)>(le: (T, T) -> bool) {
    && (forall a, b :: le(a, b) || le(b, a))
    && (forall a, b, c :: le(a, b) && le(b, c) ==> le(a, c))
  }

  ghost predicate SortedBy<T>(s: seq<T>, le: (T, T) -> bool) {
    forall i, j :: 0 <= i < j < |s| ==> le(s[i], s[j])
  }

  /** The elements of `s` that `le` ranks equal to `e`, in their order in `s`. */
  function Ties<T>(s: seq<T>, e: T, le: (T, T) -> bool): seq<T>
  {
    if s == [] then []
    else (if le(s[0], e) && le(e, s[0]) then [s[0]] else []) + Ties(s[1..], e, le)
  }

  /** Puts `x` just before the first element it may precede. */
  function Insert<T>(x: T, s: seq<T>, le: (T, T) -> bool): (r: seq<T>)
    ensures multiset(r) == multiset(s) + multiset{x}
    ensures |r| == |s| + 1
  {
    if s == [] || le(x, s[0]) then [x] + s
    else
      assert s == [s[0]] + s[1..];
      [s[0]] + Insert(x, s[1..], le)
  }

  /** `sorted(s, key=...)`: a permutation of `s`. */
  function SortBy<T>(s: seq<T>, le: (T, T) -> bool): (r: seq<T>)
    ensures multiset(r) == multiset(s)
    ensures |r| == |s|
  {
    if s == [] then []
    else
      assert s == [s[0]] + s[1..];
      Insert(s[0], SortBy(s[1..], le), le)
  }

  lemma {:induction false} InsertSorted<T(!new)>(x: T, s: seq<T>, le: (T, T) -> bool)
    requires TotalPreorder(le)
    requires SortedBy(s, le)
    ensures SortedBy(Insert(x, s, le), le)
  {
    if s != [] && !le(x, s[0]) {
      assert le(s[0], x);
      InsertSorted(x, s[1..], le);
      var r := Insert(x, s[1..], le);
      forall k | 0 <= k < |r|
        ensures le(s[0], r[k])
      {
        assert r[k] in multiset(r);
        assert r[k] in multiset(s[1..]) + multiset{x};
        if r[k] != x || r[k] in multiset(s[1..]) {
          if r[k] in multiset(s[1..]) {
            var m :| 0 <= m < |s[1..]| && s[1..][m] == r[k];
            assert le(s[0], s[m + 1]);
          }
        }
      }
    }
  }

  /** The result of `SortBy` is ordered. */
  lemma {:induction false} SortBySorted<T(!new)>(s: seq<T>, le: (T, T) -> bool)
    requires TotalPreorder(le)
    ensures SortedBy(SortBy(s, le), le)
  {
    if s != [] {
      SortBySorted(s[1..], le);
      InsertSorted(s[0], SortBy(s[1..], le), le);
    }
  }

  lemma {:induction false} TiesAppend<T>(a: seq<T>, b: seq<T>, e: T, le: (T, T) -> bool)
    ensures Ties(a + b, e, le) == Ties(a, e, le) + Ties(b, e, le)
  {
    if a == [] {
      assert a + b == b;
    } else {
      assert (a + b)[0] == a[0] && (a + b)[1..] == a[1..] + b;
      TiesAppend(a[1..], b, e, le);
    }
  }

  lemma TiesSingle<T>(y: T, e: T, le: (T, T) -> bool)
    ensures Ties([y], e, le) == if le(y, e) && le(e, y) then [y] else []
  {
    assert [y][1..] == [];
  }

  lemma {:induction false} InsertTies<T(!new)>(x: T, s: seq<T>, e: T, le: (T, T) -> bool)
    requires TotalPreorder(le)
    ensures Ties(Insert(x, s, le), e, le) == Ties([x] + s, e, le)
  {
    if s != [] && !le(x, s[0]) {
      InsertTies(x, s[1..], e, le);
      var tx, t0, rest := Ties([x], e, le), Ties([s[0]], e, le), Ties(s[1..], e, le);
      TiesSingle(x, e, le);
      TiesSingle(s[0], e, le);
      NotBothTied(x, s[0], e, le);
      InsertStepTies(x, s, e, le);
      ConsTies(x, s, e, le);
      SwapEmpty(tx, t0, rest);
    }
  }

  /** One step of `Insert` past the head, seen through `Ties`. */
  lemma InsertStepTies<T>(x: T, s: seq<T>, e: T, le: (T, T) -> bool)
    requires s != [] && !le(x, s[0])
    requires Ties(Insert(x, s[1..], le), e, le) == Ties([x] + s[1..], e, le)
    ensures Ties(Insert(x, s, le), e, le) == Ties([s[0]], e, le) + (Ties([x], e, le) + Ties(s[1..], e, le))
  {
    var i := Insert(x, s[1..], le);
    assert Insert(x, s, le) == [s[0]] + i;
    TiesAppend([s[0]], i, e, le);
    TiesAppend([x], s[1..], e, le);
  }

  lemma ConsTies<T>(x: T, s: seq<T>, e: T, le: (T, T) -> bool)
    requires s != []
    ensures Ties([x] + s, e, le) == Ties([x], e, le) + (Ties([s[0]], e, le) + Ties(s[1..], e, le))
  {
    assert [s[0]] + s[1..] == s;
    TiesAppend([s[0]], s[1..], e, le);
    TiesAppend([x], s, e, le);
  }

  lemma SwapEmpty<T>(a: seq<T>, b: seq<T>, c: seq<T>)
    requires a == [] || b == []
    ensures b + (a + c) == a + (b + c)
  {
    if a == [] {
      assert b + (a + c) == b + c == a + (b + c);
    } else {
      assert b + (a + c) == a + c == a + (b + c);
    }
  }

  /** When `y` ranks strictly below `x`, not both are tied with `e`. */
  lemma NotBothTied<T(!new)>(x: T, y: T, e: T, le: (T, T) -> bool)
    requires TotalPreorder(le) && !le(x, y)
    ensures !(le(x, e) && le(e, y))
  {
  }

  /** Stability: elements ranked equal keep their original relative order. */
  lemma {:induction false} SortByStable<T(!new)>(s: seq<T>, e: T, le: (T, T) -> bool)
    requires TotalPreorder(le)
    ensures Ties(SortBy(s, le), e, le) == Ties(s, e, le)
  {
    if s != [] {
      SortByStable(s[1..], e, le);
      InsertTies(s[0], SortBy(s[1..], le), e, le);
      TiesAppend([s[0]], SortBy(s[1..], le), e, le);
      TiesAppend([s[0]], s[1..], e, le);
      assert [s[0]] + s[1..] == s;
    }
  }

  /** Python's `s[:k]`: the first `k` elements, or, for a negative `k`, all
      but the last `-k`. */
  function Take<T>(s: seq<T>, k: int): (r: seq<T>)
    ensures |r| == if 0 <= k then (if k < |s| then k else |s|) else if -k < |s| then |s| + k else 0
    ensures r == s[..|r|]
  {
    if k >= |s| then s
    else if k >= 0 then s[..k]
    else if |s| + k > 0 then s[..|s| + k]
    else []
  }

  /** Python's `<=` on strings: code point by code point, a proper prefix
      first. */
  predicate StrLe(a: string, b: string) {
    a == [] || (b != [] && (a[0] < b[0] || (a[0] == b[0] && StrLe(a[1..], b[1..]))))
  }

  lemma {:induction false} StrLeTotal(a: string, b: string)
    ensures StrLe(a, b) || StrLe(b, a)
  {
    if a != [] && b != [] && a[0] == b[0] {
      StrLeTotal(a[1..], b[1..]);
    }
  }

  lemma {:induction false} StrLeTransitive(a: string, b: string, c: string)
    requires StrLe(a, b) && StrLe(b, c)
    ensures StrLe(a, c)
  {
    if a != [] && b != [] && c != [] && a[0] == b[0] && b[0] == c[0] {
      StrLeTransitive(a[1..], b[1..], c[1..]);
    }
  }

  lemma {:induction false} StrLeAntisymmetric(a: string, b: string)
    requires StrLe(a, b) && StrLe(b, a)
    ensures a == b
  {
    if a != [] && b != [] {
      StrLeAntisymmetric(a[1..], b[1..]);
      assert a == [a[0]] + a[1..] && b == [b[0]] + b[1..];
    }
  }

  /** Ordering by a key through a total preorder is a total preorder. */
  lemma ByKeyPreorder<T(!new), K(!new)>(key: T -> K, le: (K, K) -> bool)
    requires TotalPreorder(le)
    ensures TotalPreorder((a: T, b: T) => le(key(a), key(b)))
  {
  }

  lemma StrLePreorder()
    ensures TotalPreorder(StrLe)
  {
    forall a, b ensures StrLe(a, b) || StrLe(b, a) {
      StrLeTotal(a, b);
    }
    forall a, b, c | StrLe(a, b) && StrLe(b, c) ensures StrLe(a, c) {
      StrLeTransitive(a, b, c);
    }
  }
}

=== FILE: standards.dfy ===
/** `StandardsRegistry`: the built-in green-coding standards, the set of
    enabled standards and the sets of switched-off and custom rule ids.
    Python iterates `enabled_standards`, a set, in an order of its own: the
    operations that walk it take that order as a listing of the set. The
    YAML file behind `_load_config` and `_save_config` is a parameter: the
    parsed `standards` section. */
module Standards {
  import opened Common

  /** A rule of a standard; its description, pattern and remediation text
      play no part in any decision and are not kept. */
  datatype StandardRule = StandardRule(id: string, name: string, severity: string, languages: seq<string>, source: string)

  datatype Registry = Registry(
    standards: map<string, seq<StandardRule>>,
    enabled: set<string>,
    disabledRules: set<string>,
    customRules: set<string>)

  /** `order` visits every member of `s` once: an iteration over the set. */
  ghost predicate Listing(order: seq<string>, s: set<string>) {
    && (forall n :: n in order <==> n in s)
    && (forall i, j :: 0 <= i < j < |order| ==> order[i] != order[j])
  }

  // ------------------------------------------------------------ defaults

  const AllLanguages: seq<string> := ["python", "javascript", "java", "go", "rust"]

  const Gsf: seq<StandardRule> := [
    StandardRule("no_infinite_loops", "No Infinite Loops", "critical", AllLanguages + ["cpp", "csharp"], "GSF"),
    StandardRule("no_n2_algorithms", "No O(n²) Algorithms", "critical", AllLanguages, "GSF"),
    StandardRule("proper_resource_cleanup", "Proper Resource Cleanup", "major", ["python", "javascript", "java"], "GSF")]

  const EcoCode: seq<StandardRule> := [
    StandardRule("inefficient_loop", "Inefficient Loop Detection", "major", ["python", "javascript", "java"], "ecoCode"),
    StandardRule("unnecessary_computation", "Unnecessary Computation", "major", ["python", "javascript"], "ecoCode")]

  const Suscom: seq<StandardRule> := [
    StandardRule("algorithm_efficiency", "Algorithm Efficiency", "major", AllLanguages, "SUSCOM")]

  const Nvidia: seq<StandardRule> := [
    StandardRule("gpu_utilization", "GPU Utilization Check", "major", ["python", "cuda"], "NVIDIA")]

  const Microsoft: seq<StandardRule> := [
    StandardRule("dotnet_optimization", ".NET Memory Optimization", "major", ["csharp", "vbnet"], "Microsoft")]

  /** `_load_defaults`: five built-in standards, all of them enabled, and no
      rule switched off. */
  function Defaults(): (r: Registry)
    ensures r.standards.Keys == {"gsf", "ecocode", "suscom", "nvidia", "microsoft"}
    ensures Known(r) && r.disabledRules == {} && r.customRules == {}
  {
    var s := map["gsf" := Gsf, "ecocode" := EcoCode, "suscom" := Suscom, "nvidia" := Nvidia, "microsoft" := Microsoft];
    Registry(s, s.Keys, {}, {})
  }

  /** Every enabled standard is a known one. Defaults and the enable and
      disable operations keep this; a configuration file may break it, which
      is why the rule queries skip unknown names. */
  predicate Known(r: Registry) {
    r.enabled <= r.standards.Keys
  }

  // ------------------------------------------------------------- queries

  function RulesOf(reg: Registry, name: string): seq<StandardRule> {
    if name in reg.standards then reg.standards[name] else []
  }

  /** `language.lower() in [l.lower() for l in rule.languages]`. */
  predicate Supports(x: StandardRule, language: string) {
    exists l :: l in x.languages && Lower(l) == Lower(language)
  }

  /** The test `get_enabled_rules` applies to each rule of an enabled standard. */
  function Wanted(reg: Registry, language: string): StandardRule -> bool {
    (x: StandardRule) => Supports(x, language) && x.id !in reg.disabledRules
  }

  /** `get_all_rules`: the rules of the known enabled standards, standard by
      standard in iteration order. */
  function GetAllRules(reg: Registry, order: seq<string>): (r: seq<StandardRule>)
    requires Listing(order, reg.enabled)
    ensures forall x :: x in r <==> exists n :: n in reg.enabled && n in reg.standards && x in reg.standards[n]
  {
    FlatMapMember2(order, (n: string) => RulesOf(reg, n));
    FlatMap(order, (n: string) => RulesOf(reg, n))
  }

  /** `get_enabled_rules`: as `get_all_rules`, keeping the rules that list
      the language, compared case-insensitively, and whose id is not
      switched off. */
  function GetEnabledRules(reg: Registry, order: seq<string>, language: string): (r: seq<StandardRule>)
    requires Listing(order, reg.enabled)
    ensures forall x :: x in r <==>
      && (exists n :: n in reg.enabled && n in reg.standards && x in reg.standards[n])
      && Supports(x, language) && x.id !in reg.disabledRules
  {
    var f := (n: string) => Filter(RulesOf(reg, n), Wanted(reg, language));
    FlatMapMember2(order, f);
    FlatMap(order, f)
  }

  /** Membership in a flattened list, for every element at once. */
  lemma FlatMapMember2<T, U>(s: seq<T>, f: T -> seq<U>)
    ensures forall y :: y in FlatMap(s, f) <==> exists x :: x in s && y in f(x)
  {
    forall y ensures y in FlatMap(s, f) <==> exists x :: x in s && y in f(x) {
      FlatMapMember(s, f, y);
    }
  }

  /** The enabled rules are the rules of `get_all_rules` that pass the test,
      in the same order. */
  lemma {:induction false} EnabledFiltersAll(reg: Registry, order: seq<string>, language: string)
    requires Listing(order, reg.enabled)
    ensures GetEnabledRules(reg, order, language) == Filter(GetAllRules(reg, order), Wanted(reg, language))
  {
    FlatMapFilter(order, (n: string) => RulesOf(reg, n), (n: string) => Filter(RulesOf(reg, n), Wanted(reg, language)),
                  Wanted(reg, language));
  }

  /** Filtering each part, then flattening, is filtering the flattened list. */
  lemma {:induction false} FlatMapFilter<T, U(!new)>(s: seq<T>, f: T -> seq<U>, g: T -> seq<U>, p: U -> bool)
    requires forall x :: g(x) == Filter(f(x), p)
    ensures FlatMap(s, g) == Filter(FlatMap(s, f), p)
  {
    if s != [] {
      FlatMapFilter(s[1..], f, g, p);
      FilterAppend(f(s[0]), FlatMap(s[1..], f), p);
    }
  }

  /** With the defaults, every built-in rule is offered for each language it
      lists. */
  lemma DefaultRulesOffered(order: seq<string>, name: string, x: StandardRule, language: string)
    requires Listing(order, Defaults().enabled)
    requires name in Defaults().standards && x in Defaults().standards[name] && language in x.languages
    ensures x in GetEnabledRules(Defaults(), order, language)
  {
  }

  // ----------------------------------------------------------- switching

  /** `enable_standard`: only a known standard can be enabled. */
  function EnableStandard(reg: Registry, name: string): (r: Registry)
    ensures name in reg.standards ==> name in r.enabled
    ensures name !in reg.standards ==> r == reg
    ensures r.standards == reg.standards && r.disabledRules == reg.disabledRules
    ensures Known(reg) ==> Known(r)
  {
    if name in reg.standards then reg.(enabled := reg.enabled + {name}) else reg
  }

  /** `disable_standard`: `discard`, so an unknown name is no error. */
  function DisableStandard(reg: Registry, name: string): (r: Registry)
    ensures name !in r.enabled
    ensures forall n :: n != name ==> (n in r.enabled <==> n in reg.enabled)
    ensures r.standards == reg.standards && r.disabledRules == reg.disabledRules
    ensures Known(reg) ==> Known(r)
  {
    reg.(enabled := reg.enabled - {name})
  }

  /** `disable_rule`. */
  function DisableRule(reg: Registry, id: string): (r: Registry)
    ensures id in r.disabledRules
    ensures r.standards == reg.standards && r.enabled == reg.enabled
  {
    reg.(disabledRules := reg.disabledRules + {id})
  }

  /** `enable_rule`: `discard`, so an id that was never switched off is no
      error. */
  function EnableRule(reg: Registry, id: string): (r: Registry)
    ensures id !in r.disabledRules
    ensures forall k :: k != id ==> (k in r.disabledRules <==> k in reg.disabledRules)
    ensures r.standards == reg.standards && r.enabled == reg.enabled
  {
    reg.(disabledRules := reg.disabledRules - {id})
  }

  /** After `disable_rule(id)` no enabled rule carries that id, whatever the
      language. */
  lemma DisabledRuleGone(reg: Registry, order: seq<string>, id: string, language: string)
    requires Listing(order, reg.enabled)
    ensures forall x :: x in GetEnabledRules(DisableRule(reg, id), order, language) ==> x.id != id
  {
  }

  /** Switching a rule off and on again restores a registry in which it was
      on. */
  lemma DisableEnableRule(reg: Registry, id: string)
    requires id !in reg.disabledRules
    ensures EnableRule(DisableRule(reg, id), id) == reg
  {
    assert EnableRule(DisableRule(reg, id), id).disabledRules == reg.disabledRules;
  }

  /** Enabling a known standard after disabling it restores the enabled set
      of a registry in which it was enabled. */
  lemma DisableEnableStandard(reg: Registry, name: string)
    requires name in reg.enabled && name in reg.standards
    ensures EnableStandard(DisableStandard(reg, name), name) == reg
  {
    assert EnableStandard(DisableStandard(reg, name), name).enabled == reg.enabled;
  }

  /** Enabling a standard offers its rules for every language they list
      unless switched off. */
  lemma EnabledStandardOffered(reg: Registry, order: seq<string>, name: string, x: StandardRule, language: string)
    requires name in reg.standards && x in reg.standards[name] && language in x.languages && x.id !in reg.disabledRules
    requires Listing(order, EnableStandard(reg, name).enabled)
    ensures x in GetEnabledRules(EnableStandard(reg, name), order, language)
  {
  }

  // -------------------------------------------------------------- listing

  datatype StandardInfo = StandardInfo(enabled: bool, ruleCount: nat, languages: set<string>)

  /** `list_standards`: one entry per known standard; `languages` comes out
      of a set, so only its members are modelled. */
  function ListStandards(reg: Registry): (r: map<string, StandardInfo>)
    ensures r.Keys == reg.standards.Keys
    ensures forall n :: n in r ==> (r[n].enabled <==> n in reg.enabled) && r[n].ruleCount == |reg.standards[n]|
    ensures forall n, l :: n in r ==> (l in r[n].languages <==> exists x :: x in reg.standards[n] && l in x.languages)
  {
    map n | n in reg.standards ::
      StandardInfo(n in reg.enabled, |reg.standards[n]|, set x, l | x in reg.standards[n] && l in x.languages :: l)
  }

  /** Every built-in standard is listed as enabled. */
  lemma DefaultsAllEnabled()
    ensures forall n :: n in ListStandards(Defaults()) ==> ListStandards(Defaults())[n].enabled
    ensures |ListStandards(Defaults()).Keys| == 5
  {
    var keys := ListStandards(Defaults()).Keys;
    assert keys == {"gsf", "ecocode", "suscom", "nvidia", "microsoft"};
  }

  // ------------------------------------------------------- configuration

  /** The `standards` section of `.green-ai.yaml`, as YAML loads it: the
      optional `enabled` and `disabled` lists and the `rules.disable` and
      `rules.enable` lists (absent lists read as empty). */
  datatype Section = Section(enabled: Option<seq<string>>, disabled: Option<seq<string>>, disable: seq<string>, enable: seq<string>)

  /** `_load_config` once the file is read: `enabled` replaces the enabled
      set, `disabled` is taken away from it, and the rule lists replace the
      switched-off and custom sets. */
  function ApplySection(reg: Registry, c: Section): (r: Registry)
    ensures forall n :: n in r.enabled <==>
      (if c.enabled.Some? then n in c.enabled.value else n in reg.enabled) && !(c.disabled.Some? && n in c.disabled.value)
    ensures forall k :: k in r.disabledRules <==> k in c.disable
    ensures forall k :: k in r.customRules <==> k in c.enable
    ensures r.standards == reg.standards
  {
    var base := if c.enabled.Some? then set n | n in c.enabled.value else reg.enabled;
    var enabled := if c.disabled.Some? then base - set n | n in c.disabled.value else base;
    Registry(reg.standards, enabled, set k | k in c.disable, set k | k in c.enable)
  }

  /** `_save_config`: the three sets written out as lists, in their
      iteration orders. */
  function SaveSection(reg: Registry, enabledOrder: seq<string>, disabledOrder: seq<string>, customOrder: seq<string>): (c: Section)
    requires Listing(enabledOrder, reg.enabled) && Listing(disabledOrder, reg.disabledRules) && Listing(customOrder, reg.customRules)
    ensures c.disabled.None?
  {
    Section(Some(enabledOrder), None, disabledOrder, customOrder)
  }

  /** Saving and loading again gives back the same registry state. */
  lemma SaveLoadRoundTrip(reg: Registry, blank: Registry, e: seq<string>, d: seq<string>, u: seq<string>)
    requires Listing(e, reg.enabled) && Listing(d, reg.disabledRules) && Listing(u, reg.customRules)
    requires blank.standards == reg.standards
    ensures ApplySection(blank, SaveSection(reg, e, d, u)) == reg
  {
    var r := ApplySection(blank, SaveSection(reg, e, d, u));
    assert r.enabled == reg.enabled;
    assert r.disabledRules == reg.disabledRules;
    assert r.customRules == reg.customRules;
  }
}

=== FILE: tally.dfy ===
/** Counting by key in a dictionary that starts empty: `counts[k] += 1`
    over a list, the entries kept in first-appearance order as a Python
    dictionary keeps them. */
module Tally {
  import opened Common

  type Counts<K> = seq<(K, nat)>

  predicate Distinct<K(==,!new)>(e: Counts<K>) {
    forall i, j :: 0 <= i < j < |e| ==> e[i].0 != e[j].0
  }

  /** `counts.get(k, 0)`. */
  function CountOf<K(==,!new)>(e: Counts<K>, k: K): nat {
    if e == [] then 0 else (if e[0].0 == k then e[0].1 else 0) + CountOf(e[1..], k)
  }

  /** `sum(counts.values())`. */
  function SumCounts<K>(e: Counts<K>): nat {
    if e == [] then 0 else e[0].1 + SumCounts(e[1..])
  }

  function Keys<K>(e: Counts<K>): set<K> {
    set k | 0 <= k < |e| :: e[k].0
  }

  lemma KeysCons<K>(x: (K, nat), e: Counts<K>)
    ensures Keys([x] + e) == {x.0} + Keys(e)
  {
    var s := [x] + e;
    forall y | y in Keys(s) ensures y in {x.0} + Keys(e) {
      var k :| 0 <= k < |s| && s[k].0 == y;
      if k > 0 {
        assert e[k - 1].0 == y;
      }
    }
    forall y | y in Keys(e) ensures y in Keys(s) {
      var k :| 0 <= k < |e| && e[k].0 == y;
      assert s[k + 1].0 == y;
    }
    assert s[0].0 == x.0;
  }

  /** `counts[k] += 1`: the entry for `k` goes up by one where it stands, or
      is added at the end. */
  function Bump<K(==,!new)>(e: Counts<K>, k: K): (r: Counts<K>)
    ensures SumCounts(r) == SumCounts(e) + 1
    ensures Keys(r) == Keys(e) + {k}
    ensures forall x :: CountOf(r, x) == CountOf(e, x) + (if x == k then 1 else 0)
    ensures Distinct(e) ==> Distinct(r)
  {
    if e == [] then [(k, 1)]
    else if e[0].0 == k then
      KeysCons(e[0], e[1..]);
      KeysCons((k, e[0].1 + 1), e[1..]);
      assert [e[0]] + e[1..] == e;
      [(k, e[0].1 + 1)] + e[1..]
    else
      var rest := Bump(e[1..], k);
      KeysCons(e[0], e[1..]);
      KeysCons(e[0], rest);
      assert [e[0]] + e[1..] == e;
      assert Distinct(e) ==> e[0].0 !in Keys(e[1..]);
      [e[0]] + rest
  }

  /** The loop `for x in items: counts[key(x)] += 1`. */
  function TallyBy<T, K(==,!new)>(items: seq<T>, key: T -> K): Counts<K>
    decreases |items|
  {
    if items == [] then [] else Bump(TallyBy(items[..|items| - 1], key), key(items[|items| - 1]))
  }

  function KeyIs<T, K(==,!new)>(key: T -> K, k: K): T -> bool {
    (x: T) => key(x) == k
  }

  /** Each key appears once with the number of items that have it, and the
      counts add up to the number of items. */
  lemma {:induction false} TallyCounts<T, K(!new)>(items: seq<T>, key: T -> K)
    ensures Distinct(TallyBy(items, key))
    ensures SumCounts(TallyBy(items, key)) == |items|
    ensures forall k :: CountOf(TallyBy(items, key), k) == CountIf(items, KeyIs(key, k))
    decreases |items|
  {
    if items != [] {
      var init, last := items[..|items| - 1], items[|items| - 1];
      TallyCounts(init, key);
      assert init + [last] == items;
      forall k ensures CountOf(TallyBy(items, key), k) == CountIf(items, KeyIs(key, k)) {
        CountIfAppend(init, [last], KeyIs(key, k));
      }
    }
  }

  /** The keys are exactly those of the items. */
  lemma {:induction false} TallyKeys<T, K(!new)>(items: seq<T>, key: T -> K)
    ensures Keys(TallyBy(items, key)) == set x | x in items :: key(x)
    decreases |items|
  {
    if items != [] {
      var init, last := items[..|items| - 1], items[|items| - 1];
      TallyKeys(init, key);
      assert forall x :: x in items <==> x in init || x == last by {
        assert init + [last] == items;
      }
    }
  }

  /** In a list of distinct keys, an entry's count is its key's count. */
  lemma {:induction false} CountOfEntry<K(!new)>(e: Counts<K>, i: nat)
    requires Distinct(e) && i < |e|
    ensures CountOf(e, e[i].0) == e[i].1
  {
    if i == 0 {
      CountOfAbsent(e[1..], e[0].0);
    } else {
      CountOfEntry(e[1..], i - 1);
    }
  }

  lemma {:induction false} CountOfAbsent<K(!new)>(e: Counts<K>, k: K)
    requires forall i :: 0 <= i < |e| ==> e[i].0 != k
    ensures CountOf(e, k) == 0
  {
    if e != [] {
      CountOfAbsent(e[1..], k);
    }
  }
}
